=== FILE: README.md ===
# WebservParser configuration front end, in Dafny

This project models the configuration reader of the webserv project: the
front end that turns an nginx-style configuration file into a tree of
objects, rules and arguments, and the typed directive binders that read
server settings from that tree. Each module follows one part of the C++
code under `config/`:

- `Lexer` (config/lexer.cpp): the single-character pattern table, the
  continuation loop `parseContinuousToken`, and the `_tokenize` state machine.
  The state machine handles words, comments and quoted strings, and rejects
  empty and unmatched quotes. It wraps the file in a synthetic `<sys>`
  open brace and a closing brace.
- `Loader` (config/config.cpp): how a file's lines are laid out in memory
  with their line starts.
- `Parser`, `ParserTables` (config/parser.cpp, config/config.cpp): the
  class `ConfigurationParser` with its arena, its name table and its
  loaded-files table. It covers the recursive-descent parser, `define`,
  `include`, the circular-import guard, `parseFile` and `getResult`.
- `Document` (config/config.hpp, config/arena.hpp): the parse tree as
  nodes in an arena, addressed by allocation index, and the validity
  invariant every parser method keeps.
- `Diagnostics` (config/parserExceptions.cpp): offset to line and column,
  include tracebacks, and the error kinds with the traceback each carries.
- `Scope` (config/rules/objectParser.*): the class `ObjectParser`. It walks
  the chain of enclosing objects under the LOCAL, BOUND and GLOBAL modes,
  expecting one rule or many, and raises missing-rule and duplicate-rule
  errors.
- `RuleParsing` (config/rules/ruleParser.*): the class `RuleParser`, an
  argument cursor with arity checks.
- `Converters`, `CustomTypes`, `Numbers`, `Strings`, `Paths`, `Sizes`,
  `Consts`, `ConfigTypes` (config/types/*, config/consts.hpp,
  config/config.hpp): argument conversions, validated status codes and
  ports, paths, byte sizes, the HTTP method bit-set, and the enums and masks.
- `Binders`, `Collectors`, `CgiExtensions`, `Servers`
  (config/rules/ruleTemplates/*): every directive binder, and the server
  and location binders with their scope policies.

Operations that change state in the source are methods on classes:
`ConfigurationParser`, `Arena`, `ObjectParser`, `RuleParser` and
`PathObject`. Loops stay loops: tokenizing, line assembly, the scope walk,
argument collection, size suffixes and location matching. The lexer,
loader, scope, binder and collector methods are each proved equal to a
function that specifies them, and the lemmas state the promised
properties about those functions. The recursive-descent parser methods
are specified instead by predicates on the node arena that they
establish: `ArgumentsRead` (the arguments a rule gets from its tokens),
`MemberAt` (a rule read at its key token), `MembersRead` and `ObjectRead`
(an object and the rules read into it, in order), `MemberHandled` with
`DefineDone` and `IncludeDone` (what define, include and other rules do
to the enclosing object), and `RootRead` (a file's root object). When
the parser succeeds is stated by `PlainMembersEnd`, which follows a run
of members with known keys other than define and include, each with
words and then `;` or a nested block of the same kind: on such tokens
every parser method succeeds, and `PlainFile` lifts this to a file whose
text lexes to such tokens. File contents are an input: a map from path
to the file's lines.

## Model

| member | source | states |
|---|---|---|
| ConfigTypes.MasksMatchBits | config/config.hpp:97-100 | each mask set holds exactly the kinds whose bit the source's mask has set: all but WEAK_STR; the quote and END; LINE_END and END; the six usable kinds |
| ConfigTypes.TokenBitsDistinct | config/config.hpp:21-47 | every token kind but UNKNOWN_TOKEN is a single bit, and distinct kinds share no bit |
| ConfigTypes.KeywordBitsDistinct | config/config.hpp:49-59 | every keyword but NO_KEYWORD is a single bit, and distinct keywords share no bit |
| ConfigTypes.KeyBitsDistinct | config/config.hpp:61-80 | every key but NO_KEY is a single bit, and distinct keys share no bit |
| ConfigTypes.AllKeysAscending | config/config.hpp:61-80 | the list of keys used for walking an object's rule map is in increasing order of value, the order of `std::map<Key, Rules>` |
| ConfigTypes.AllKeysDistinct | config/config.hpp:61-80 | that list names each key once |
| Consts.MethodBitsDistinct | config/consts.hpp:5-15 | the six methods are distinct single bits, all inside ALL_METHODS |
| Consts.Union | config/types/consts.cpp:7-12 | a method is in `a \| b` exactly when it is in a or in b |
| Consts.StringToMethod | config/types/consts.cpp:14-24 | the result is UNKNOWN_METHOD exactly when the lower-cased word is none of the six names, and otherwise the method of that name |
| Consts.MethodToStr | config/types/consts.cpp:26-39 | the text built by appending "NAME\|" per set bit, dropping the last '\|', is the names of the set bits in table order joined by '\|', or "UNKNOWN" for the empty set |
| Consts.AppendIfSet | config/types/consts.cpp:29-34 | each line of `methodToStr` extends the '\|'-terminated list of names by the method's name exactly when its bit is set |
| Consts.MethodTextSingle | config/types/consts.cpp:26-39 | a single method prints as its upper-case name, with no '\|' |
| Consts.MethodRoundTrip | config/types/consts.cpp:14-39 | a word `stringToMethod` recognises, in any mix of cases, maps to its method and prints back as its upper-case spelling |
| Consts.StatusCodeAsStr | config/types/consts.cpp:46-124 | the reason phrase is "Unknown Status Code" exactly for values that are not enumerated status codes |
| Consts.DefaultBodyForCode | config/consts.hpp:100-176 | an enumerated code gives "Oh good heavens, <Name>!!!" with its enumerator name; any other value the fixed fallback sentence |
| Consts.StatusTablesAgree | config/types/consts.cpp:46-124 | the reason-phrase table and the enumeration cover the same codes |
| Consts.StatusCodesInRange | config/consts.hpp:23-95 | every enumerated status code lies between 100 and 599 |
| Consts.HeaderNamesDistinct | config/types/consts.cpp:131-153 | distinct header keys have distinct canonical field names |
| Consts.HeaderKeyToString | config/types/consts.cpp:131-152 | every header key is spelled as an HTTP field name: non-empty, starting with an upper-case letter, with no ':', space or tab |
| Lexer.PatternTableAgrees | config/lexer.cpp:9-35 | a character matching an entry of the ordered pattern table gets that entry's kind, and every character with a kind matches some entry |
| Lexer.TokenAt | config/lexer.cpp:9-43 | the token read at an offset is one character long, starts at that offset, is never UNKNOWN; a character outside the table is WEAK_STR, or END exactly when the next byte is '\0' |
| Lexer.GetNextToken | config/lexer.cpp:9-43 | the table scan returns the token `TokenAt` describes and advances the cursor by exactly one |
| Lexer.Absorb | config/lexer.cpp:46-54 | the run from an offset stops at the first token whose kind is in the mask; the absorbed text is exactly the file text before it |
| Lexer.AbsorbSkips | config/lexer.cpp:46-54 | every token absorbed before the stopping one has a kind outside the mask |
| Lexer.ParseContinuousToken | config/lexer.cpp:46-54 | the loop appends the absorbed text to the current token, changes nothing else in it, and returns the stopping token unchanged with the cursor just after it |
| Lexer.LexStepOf | config/lexer.cpp:61-96 | one pass of `_tokenize`: it finishes exactly on END, fails only on a quote, otherwise advances the cursor, and pushes only usable kinds |
| Lexer.QuoteStepOf | config/lexer.cpp:78-90 | a quote never finishes the file; on success it pushes exactly one STR token |
| Lexer.QuoteOutcome | config/lexer.cpp:78-90 | the same quote right away raises "Quote without content"; reaching END first raises "Unmatched quote"; otherwise the text between the quotes becomes one STR token and the closing quote is not emitted |
| Lexer.LexQuote | config/lexer.cpp:78-90 | the quote arm computes exactly `QuoteStepOf` |
| Lexer.LexStep | config/lexer.cpp:64-94 | the switch of `_tokenize` computes exactly `LexStepOf` |
| Lexer.LexPlain | config/lexer.cpp:89-94 | a single-character token is pushed exactly when its kind is usable, and the next token is read |
| Lexer.LexRun | config/lexer.cpp:69-76 | a word absorbs further word characters and is pushed; a comment's text is cleared and it runs to LINE_END or END and is not pushed |
| Lexer.Tokenize | config/lexer.cpp:56-97 | the do-while loop returns the tokens `LexFrom` describes or the quote error; a list it returns starts with the synthetic "<sys>" OBJECT_OPEN at offset 0, ends with the synthetic OBJECT_CLOSE then END, and holds only usable tokens, no empty word or string |
| Lexer.ClosedWellLexed | config/lexer.cpp:65-67 | the END step closes a token list begun with the synthetic open brace into a well-formed one |
| Lexer.WordStepOk | config/lexer.cpp:69-71 | a merged word holds only characters the pattern table does not know |
| Lexer.StepOk | config/lexer.cpp:61-96 | every pass pushes only usable, non-empty word and string tokens |
| Lexer.QuoteStepOk | config/lexer.cpp:78-90 | a string token pushed by the quote arm is never empty |
| Lexer.PlainStepOk | config/lexer.cpp:89-94 | a single-character step keeps the current token well-formed and pushes only usable tokens |
| Lexer.AppendEmitted | config/lexer.cpp:93 | pushing well-formed tokens after well-formed tokens keeps the list well-formed and its first token |
| Loader.JoinLines | config/config.cpp:18-23 | a file of at least one line ends with a line break once the lines are joined |
| Loader.LineStartsOf | config/config.cpp:20 | one line start is recorded per line read |
| Loader.JoinStep | config/config.cpp:21-22 | reading one more line appends exactly that line and a '\n' to the content |
| Loader.JoinPrefix | config/config.cpp:18-23 | the content only ever grows as lines are read, strictly with each line |
| Loader.Assemble | config/config.cpp:18-25 | the assembled text keeps the file name and holds one line start per line |
| Loader.AssembleContent | config/config.cpp:18-25 | the reading loop builds exactly `Assemble`: the lines joined with '\n', a final '\0', and each line's start offset |
| Loader.LineInJoin | config/config.cpp:18-23 | in the joined text each line sits, unchanged, right after the lines before it and is followed by '\n' |
| Loader.LineIsStored | config/config.cpp:18-25 | line i is stored verbatim at `lineStarts[i]`, followed by '\n', and the next line starts right after that '\n' |
| Loader.ContextOfLine | config/parserExceptions.cpp:8-21 | an error at column c of line i of a loaded file reports line i + 1, column c, and that line's own text |
| Diagnostics.LineStartsIncrease | config/config.cpp:18-25 | the line starts of an assembled file are strictly increasing and all lie before the final '\0' |
| Diagnostics.LowerBound | config/parserExceptions.cpp:9 | `std::lower_bound`: the index returned splits a sorted sequence into the entries below the value and those not below it |
| Diagnostics.ErrorContextAt | config/parserExceptions.cpp:8-21 | `getErrorContext(pos)`: the 1-based line number k+1 of the last line start not after pos, the 0-based column pos − lineStarts[k], and the text from that line start to the next one or to the end of the content |
| Diagnostics.ContextOnLine | config/parserExceptions.cpp:8-21 | an offset between the start of line k and the start of line k+1 (or the end) is reported on line k+1, at its distance from the start of line k, with that line's text |
| Diagnostics.IncludeContexts | config/parserExceptions.cpp:28-29 | one context per include directive of the lineage, in stored order, each the context of that directive's token |
| Diagnostics.TracebackOf | config/parserExceptions.cpp:23-35 | no rule has an empty traceback; a rule's traceback starts with the contexts of its own include chain, and every entry is the context of some rule's token |
| Diagnostics.EnclosingRule | config/parserExceptions.cpp:31 | the walk's next rule, the parent rule of the rule's object, is a rule created earlier, so the walk ends |
| Diagnostics.TracebackStep | config/parserExceptions.cpp:27-32 | a traceback is the rule's own include contexts followed by the traceback of its enclosing rule |
| Diagnostics.LoadTraceback | config/parserExceptions.cpp:23-35 | the loop up the rule → object → rule chain returns exactly that traceback, innermost level first |
| Diagnostics.PushIncludeContexts | config/parserExceptions.cpp:28-29 | the inner loop appends one context per include directive, in order, after what was there |
| Diagnostics.DirectRuleHasNoTraceback | config/parserExceptions.cpp:23-35 | in a tree where no rule was copied by an include, every traceback is empty |
| Diagnostics.AddTracebackFromRule | config/parserExceptions.cpp:95-99 | a parser exception keeps its entries, then gains the include rule's own context, then that rule's traceback; class, message and hint are unchanged; a `std::exception` passes through untouched |
| Diagnostics.AttachObject | config/parserExceptions.cpp:175-178 | a missing-rule exception records the searched object, keeps its message and hint, and its traceback becomes that of the object's parent rule, `TracebackOf(nodes, parentRule)` |
| Diagnostics.MessageHead | config/parserExceptions.cpp:180-185 | rendering fails exactly for a missing-rule exception with no object attached; otherwise the head is "[<class>]: <message>" |
| Diagnostics.PrintedTraceback | config/parserExceptions.cpp:79-90 | the printed entries are exactly those whose line is not blank, each kept once, in traceback order: entry `k` printed is the entry at the `k`-th rising position of `ShownIndices` |
| Diagnostics.ShownIndices | config/parserExceptions.cpp:79-81 | the positions of the lines that are not blank, strictly rising, covering every such position |
| Diagnostics.ShownFrom | config/parserExceptions.cpp:79-90 | from a position on, the printed entries are the entries at `ShownIndices`, one for one |
| Lexer.HighlightOfToken | config/parserExceptions.cpp:44-48 | for a file the tokenizer reads, every token but the synthetic braces stands in the file text at its position over the caret length: a merged word or string over its whole text; a quote error marks exactly the quote character |
| Lexer.LexedTokensMarkText | config/lexer.cpp:56-97 | from any point of the tokenizing loop, the tokens still to come stand in the file text over their caret length, and a quote error marks its one quote character |
| Diagnostics.HighlightLength | config/parserExceptions.cpp:44-46 | the caret length is 1 under a quote token and the length of the token's text under any other |
| Document.RulesAt | config/config.hpp:125-129 | in a valid arena, every rule an object stores under a key has that key and names the object as its parent |
| Document.ArgumentsOf | config/config.hpp:135-141 | a rule has exactly one argument value per argument it holds |
| Document.NodeOkGrows | config/arena.hpp:21-38 | allocating more nodes never breaks the links of an existing node |
| Document.ValidAppend | config/arena.hpp:21-38 | allocating a node whose own links are in order keeps the whole arena valid |
| Document.ValidReplace | config/parser.cpp:142-160 | updating an object or rule in place, keeping its kind, key, parent and closedness, keeps the arena valid |
| Document.Arena.constructor | config/arena.hpp:16 | a new arena holds no node and no used rule |
| Document.Arena.Alloc | config/arena.hpp:21-38 | a new node goes at the end, and its id is the old node count; every earlier node stays where it was |
| Document.Arena.Store | config/parser.cpp:155 | updating node `id` in place changes that node only |
| Document.Arena.MarkUsed | config/rules/ruleParser.cpp:5-8 | marking a rule used adds exactly that rule to the used set |
| ParserTables.RuleKeyOf | config/parser.cpp:7-31 | a directive name found in the key table yields the key spelled that way; any other word is the "Unknown rule key" token error, and then no key has that spelling |
| ParserTables.KeyNameRoundTrip | config/parser.cpp:8-25 | every key the table spells is found again from its spelling |
| ParserTables.KeywordOf | config/parser.cpp:33-49 | a word in the keyword table yields the keyword it spells; any other word yields the zero keyword, never an error |
| ParserTables.KeywordNameRoundTrip | config/parser.cpp:34-43 | every keyword is found again from its spelling |
| Parser.RegisteredPrefix | config/parser.cpp:72 | objects registered by name stay registered while the arena grows |
| Parser.RegisteredStore | config/parser.cpp:155 | updating an open object in place leaves every registered (closed) object as it was |
| Parser.CopiesOf | config/parser.cpp:79-83 | one copy per included rule |
| Parser.IncludedUnderKept | config/parser.cpp:76-84 | the rules copied under one key stay in place while later keys are copied |
| Parser.IncludeKeyLinks | config/parser.cpp:77-82 | appending the copies to the destination's rules under a key keeps the destination's links valid |
| Parser.KeyCopied | config/parser.cpp:79-83 | after one key's pass, the destination's rules under that key are its own followed by copies of the included rules, in order |
| Parser.IncludeKeyDone | config/parser.cpp:76-84 | the key loop's invariant: keys done so far are included, later keys untouched |
| Parser.EarlierKeysKept | config/parser.cpp:76-84 | the keys already included stay included through a later key's pass |
| Parser.LaterKeysUntouched | config/parser.cpp:76-84 | a key's pass leaves the keys after it untouched |
| Parser.DefineOf | config/parser.cpp:51-73 | a define succeeds exactly when it has two arguments, a string then an object, and the name is neither registered nor the file's own name; it then yields that name and object; a wrong count is reported at the rule |
| Parser.IncludeTargetOf | config/parser.cpp:88-93 | an include succeeds exactly when it has one string argument, and yields its text; a wrong count is reported at the token after the rule |
| Parser.PassedLoadReported | config/parser.cpp:94-100 | a load that passed was not refused: the name was known, or its file exists and had not been started |
| Parser.WordsEnd | config/parser.cpp:115-133 | the first position from the start that is not a STR word, every token before it being one; the END token stops the search |
| Parser.PlainMembersEnd | config/parser.cpp:145-158 | the `}` that closes a run of members whose keys are known and neither define nor include, each followed by words and then `;` or a nested block of the same kind; no such `}` when the run breaks off |
| Parser.PlainArgumentsEnd | config/parser.cpp:115-137 | where the arguments of such a member end: one past the `;`, or one past the `}` of its nested block |
| Parser.AfterWords | config/parser.cpp:116-136 | after the words: a `;` ends the arguments, a `{` opens a nested run of plain members, any other token stops the run |
| Parser.PlainArgumentsAt | config/parser.cpp:115-137 | stepping over one word keeps where the arguments end; at the first non-word, `;` ends them there, `{` ends them after its block, anything else refuses them |
| Parser.PlainMemberStep | config/parser.cpp:145-157 | a member of a plain run has a plain key and arguments that end, and the run goes on from there to the same `}` |
| Parser.ConfigurationParser.constructor | config/config.hpp:178 | a new parser has an empty arena, no named object and no file |
| Parser.ConfigurationParser.GetResult | config/config.cpp:52-57 | the object stored under a path, present exactly when the path is loaded |
| Parser.ConfigurationParser.AppendRule | config/parser.cpp:152-155 | the rule is appended under its key in the open object; every other key and every other node is unchanged |
| Parser.ConfigurationParser.AddArgument | config/parser.cpp:122-131 | a new argument node is allocated at the end and appended to the rule's arguments; nothing else changes |
| Parser.ConfigurationParser.HandleDefineRule | config/parser.cpp:51-73 | on the checks of `DefineOf` passing, exactly that name is registered for that object; otherwise the first failed check is raised and the table is unchanged |
| Parser.ConfigurationParser.CopyRules | config/parser.cpp:79-83 | the copies are allocated in order at the end of the arena, each with the original's key and arguments, owned by the destination |
| Parser.ConfigurationParser.IncludeObjectIntoScope | config/parser.cpp:75-85 | for every key, the destination's rules become its own followed by copies of the included object's rules, in order; no other existing node changes |
| Parser.ConfigurationParser.IncludeKey | config/parser.cpp:76-84 | one pass of the key loop keeps the loop's invariant |
| Parser.ConfigurationParser.HandleIncludeRule | config/parser.cpp:87-106 | a malformed include raises its argument error and allocates nothing; otherwise, for the path it names: a path not loaded and without a file fails with "Failed to open configuration file" and a file already started with "Circulair import detected", each with the include rule added to the traceback; any failure of the load is the loader's error with that traceback entry; a known path, or a new file of plain rules, passes; a successful include names a path now registered, and the destination gained, under every key, copies of that object's rules after its own; only the destination object and new nodes change |
| Parser.ConfigurationParser.IncludeNamed | config/parser.cpp:94-104 | the include once its path is read: the same outcomes of the load as `HandleIncludeRule`, and on success the destination gained the copies under every key |
| Parser.ConfigurationParser.LoadIncludedFile | config/parser.cpp:94-100 | a path already loaded passes and changes nothing; a load failure is rethrown as the loader's error with the include rule added to its traceback, in particular "Failed to open configuration file" for a path without a file and "Circulair import detected" for a file already started; a new file of plain rules passes and is registered as an object |
| Parser.ConfigurationParser.ParseRule | config/parser.cpp:108-140 | a non-STR key token is "Expected a rule key"; an unknown name is the key-table error; a word run that ends in neither `;` nor `{` is "Unexpected token type while parsing rule" at that token; a known key followed by plain arguments is read, ending where `PlainArgumentsEnd` says; a parsed rule is the next node allocated, owned by the parent object, with no include path, the key its token spells and that token, and the arguments `ArgumentsRead` describes |
| Parser.ConfigurationParser.ParseArguments | config/parser.cpp:115-137 | a word run ending in `;` passes; one ending in anything but `;` or `{` is "Unexpected token type while parsing rule" at that token; plain arguments pass and end where `PlainArgumentsEnd` says; on success the rule has one argument per word, in token order, a keyword when the keyword table knows the word and a string otherwise, then the block when a `{` follows; only its argument list and new nodes change |
| Parser.ConfigurationParser.ParseBlockArgument | config/parser.cpp:121-123 | the object read from the `{` becomes the rule's last argument, a new object owned by that rule, after the words already read; a block of plain members is read up to and past its `}` |
| Parser.ConfigurationParser.ParseObject | config/parser.cpp:142-161 | a run of plain members up to a `}` is read without error, ending past that `}`; a parsed object is new and closed, owned by the parent rule, opens at the token read first and closes at the `}` just consumed; its members are the rules read in between, each with the key and arguments read from its tokens, and under every key but define and include it holds exactly those members, in the order written |
| Parser.ConfigurationParser.ParseMember | config/parser.cpp:145-157 | one loop pass: a non-STR key is "Expected a rule key"; a plain member passes and the rest of the run still closes at the same `}`; on success the rule read at the key token is handled by its key, the members read so far gain it, and no closed object changes |
| Parser.ConfigurationParser.HandleMember | config/parser.cpp:147-156 | by the rule's key: a define registers the name for its block and stores nothing in the object; an include copies the named object's rules in after the object's own, under every key; any other rule always passes and is appended under its key; either way the rules written directly in the object gain exactly this one |
| Parser.ConfigurationParser.CloseObject | config/parser.cpp:159-160 | storing the closing token closes the object and changes no other node; the object then reads as the block from its opening to its closing token holding the members read |
| Parser.ConfigurationParser.LoadConfigFile | config/config.cpp:8-31 | a file that cannot be opened is "Failed to open"; a file already started is "Circulair import detected"; a new file whose text lexes to plain members passes; on success the file's root object is stored under its path, closed, with no parent, from the assembled and tokenized text |
| Parser.ConfigurationParser.LoadNewFile | config/config.cpp:13-30 | the file is registered before its text is parsed; a text that lexes to plain members passes; on success its assembled text, tokens and root object are stored |
| Parser.ConfigurationParser.ParseRootObject | config/parser.cpp:163-167 | tokens holding plain members up to the last `}` pass; the root object is the block read from the file's first token: closed, with no parent rule, its members read as `ObjectRead` describes, and stored under the path |
| Parser.ConfigurationParser.ParseFile | config/config.cpp:33-50 | a path already loaded gives false and changes nothing; a new file, not started, whose text lexes to plain members gives true; true means the path's root object is now stored, closed and parentless |
| Scope.Up | config/rules/objectParser.cpp:28 | the level above an object is an object allocated before it, so the walk ends |
| Scope.Walk | config/rules/objectParser.cpp:17-29 | the walk only ever collects rules stored under the key |
| Scope.Levels | config/rules/objectParser.cpp:17-29 | the levels visited start at the object itself; under the local mode it is the only one |
| Scope.LevelsChain | config/rules/objectParser.cpp:22-28 | each level is the object holding the rule that opened the previous one; no level but the last ends the walk, and the last does (the top, or the level opened by the bound key) |
| Scope.FirstFound | config/rules/objectParser.cpp:18-23 | nothing is found exactly when no level has a rule for the key; otherwise the rules of the innermost level that has any |
| Scope.WalkMultiple | config/rules/objectParser.cpp:17-29 | with several rules expected, the walk yields every level's rules, the outermost level first, each level's rules in stored order |
| Scope.WalkMultipleUp | config/rules/objectParser.cpp:20-28 | the step of that proof where the walk goes one level up |
| Scope.WalkOne | config/rules/objectParser.cpp:17-29 | with one rule expected, the walk yields the rules of the innermost level that has any |
| Scope.MissingRule | config/rules/objectParser.cpp:31-33 | the missing-rule error has no object attached yet and no traceback |
| Scope.DuplicatedRule | config/rules/objectParser.cpp:34-36 | the duplicate error names the two rules given |
| Scope.CheckFound | config/rules/objectParser.cpp:31-38 | the rules pass exactly when something was found or the key is optional, and at most one was found when one is expected; no rule is a missing error, two or more a duplicate error naming the first two |
| Scope.DuplicateOnOneLevel | config/rules/objectParser.cpp:23-35 | a duplicate error always names two rules of the same object, since the walk stops at the first level with a match |
| Scope.LocalSeesOwnRules | config/rules/objectParser.cpp:25 | under the local mode only the object's own rules are seen |
| Scope.ObjectParser.constructor | config/rules/objectParser.hpp:20-24 | a new resolver expects one rule, looks locally, has no bound key and requires a match |
| Scope.ObjectParser.Local | config/rules/objectParser.cpp:43-46 | the scope becomes local |
| Scope.ObjectParser.Bound | config/rules/objectParser.cpp:51-55 | the scope becomes bound, at the given key |
| Scope.ObjectParser.Global | config/rules/objectParser.cpp:59-62 | the scope becomes global |
| Scope.ObjectParser.Optional | config/rules/objectParser.cpp:66-69 | a missing key becomes acceptable |
| Scope.ObjectParser.Required | config/rules/objectParser.cpp:73-76 | a missing key becomes an error |
| Scope.ObjectParser.CollectRules | config/rules/objectParser.cpp:14-29 | the loop yields exactly the walk under the current policy |
| Scope.ObjectParser.FetchRules | config/rules/objectParser.cpp:13-39 | the loop and the checks yield exactly `FetchResult` |
| Scope.ObjectParser.ParseFromOne | config/rules/objectParser.hpp:44-60 | sets the count to one and hands on the rule `FromOne` describes |
| Scope.ObjectParser.ParseFromRange | config/rules/objectParser.hpp:66-103 | sets the count to several and hands on the rules `FromRange` describes |
| Scope.Attach | config/rules/objectParser.hpp:51-54 | a missing-rule error learns the searched object, keeps its message and hint, and takes the traceback of the object's parent rule, exactly as `AttachObject`; any other error is unchanged |
| Scope.FromOne | config/rules/objectParser.hpp:44-60 | a rule handed on has the key; handing on nothing happens only for an optional key |
| Scope.FromRange | config/rules/objectParser.hpp:66-103 | the rules handed on have the key and are empty only for an optional key; the only error is a missing rule, with the object attached, and an optional key never fails |
| Scope.FromOneInnermost | config/rules/objectParser.hpp:44-60 | the rule handed on is the only rule of the innermost level that has one, so an inner rule shadows every outer one; nothing is handed on exactly when no level has a rule |
| Scope.FromRangeGathers | config/rules/objectParser.hpp:66-103 | every level's rules are handed on, outermost level first |
| RuleParsing.Place | config/rules/ruleParser.hpp:38 | a converter's value passes through unchanged; its complaint becomes an error at the argument, with the complaint's message and hint |
| RuleParsing.ArgumentIds | config/rules/ruleParser.hpp:38 | the i-th argument id of a rule is an argument node, and it is the i-th argument |
| RuleParsing.Converted | config/rules/ruleParser.hpp:38 | converting argument i succeeds exactly when the converter accepts it, with its value; a failure points at that argument with the converter's message |
| RuleParsing.ConvertRange | config/rules/ruleParser.hpp:57-58 | a converted range has one value per argument, each the converter's value for it; a failure means some argument in the range was refused |
| RuleParsing.ConvertRangeAllOk | config/rules/ruleParser.hpp:57-58 | when every argument in the range converts, so does the range |
| RuleParsing.ConvertRangeSplit | config/rules/ruleParser.hpp:57-58 | converting a range is converting its two halves and concatenating the values |
| RuleParsing.ConvertRangeFails | config/rules/ruleParser.hpp:57-58 | once a range fails, every longer range from the same start fails with the same error: the loop stops at the first refused argument |
| RuleParsing.ConvertRangeStep | config/rules/ruleParser.hpp:57-58 | one more converted argument appends exactly its value |
| RuleParsing.ConvertRangeStops | config/rules/ruleParser.hpp:57-58 | the first argument that fails decides the error of every range reaching past it |
| RuleParsing.ArityError | config/rules/ruleParser.cpp:16-18 | the arity error sits at the rule, reports the count found and what was expected, and hints at the format |
| RuleParsing.ExpectMinNumArguments | config/rules/ruleParser.cpp:14-20 | fails exactly when the rule has fewer than `min` arguments, with "expected at least min" |
| RuleParsing.ExpectArgumentRange | config/rules/ruleParser.cpp:27-33 | passes exactly when the count lies in [min, max]; otherwise "expected between min and max" |
| RuleParsing.ExpectArgumentCount | config/rules/ruleParser.cpp:39-45 | passes exactly when the count is n; otherwise "expected exactly n" |
| RuleParsing.NotEnough | config/rules/ruleParser.hpp:35-36 | reading past the last argument is an error at the rule naming it, hinting at the format |
| RuleParsing.RuleParser.constructor | config/rules/ruleParser.cpp:5-8 | a new binder starts at the first argument of its rule and marks exactly that rule used |
| RuleParsing.RuleParser.ParseArgument | config/rules/ruleParser.hpp:33-40 | at the end of the arguments it fails with "Not enough arguments" and does not move; otherwise it moves one on and yields the converted argument or the converter's error |
| RuleParsing.RuleParser.ParseOptionalArgument | config/rules/ruleParser.hpp:43-48 | at the end it yields nothing and does not move; otherwise it moves one on and yields the converted argument or its error |
| RuleParsing.RuleParser.ParseAllButX | config/rules/ruleParser.hpp:51-60 | with no more than `save` arguments left it fails with "Not enough arguments"; otherwise all but the last `save` are converted in order and appended to the target, stopping at the first error |
| RuleParsing.RuleParser.ParseUpTo | config/rules/ruleParser.hpp:57-58 | the loop appends the converted arguments up to `stop`, in order, or yields the first failure |
| RuleParsing.RuleParser.ParseAll | config/rules/ruleParser.hpp:62-65 | `parseAllButX` saving nothing: fails when no argument is left, otherwise converts the rest in order |
| Converters.ToInt | config/types/argumentConverter.hpp:19-29 | succeeds exactly when the argument is a string that `stoi` reads, giving a 32-bit value; any failure is the "Expected an integer" complaint |
| Converters.ToPortNumber | config/types/argumentConverter.hpp:31-41 | succeeds exactly when the argument is a string whose `stoi` value lies in 0..65535; every failure, a keyword or object argument included, is the "unsigned 16-bit integer" complaint |
| Converters.ToStatusCode | config/types/argumentConverter.hpp:43-56 | "*" gives the wildcard; any other argument reads exactly when it is a string `stoi` accepts whose value is -1 or in 100..599, and the code is then that value; every failure is the "valid error code" complaint |
| Converters.ToText | config/types/argumentConverter.hpp:58-66 | succeeds exactly on a string argument and returns its text; otherwise "Expected a string" |
| Converters.ToTimespanText | config/types/argumentConverter.hpp:122-132 | a string argument gets as far as the time-span reading and keeps its text; other arguments give the "valid time span" complaint |
| Converters.ToObject | config/types/argumentConverter.hpp:68-76 | succeeds exactly on an object argument and returns that object; otherwise "Expected an object" |
| Converters.ToSize | config/types/argumentConverter.hpp:78-88 | succeeds exactly when the argument is a string that the size parser accepts, with that size; otherwise the "valid size" complaint |
| Converters.ToPath | config/types/argumentConverter.hpp:90-98 | succeeds exactly on a string argument, giving a set path with its text; otherwise "Expected a path" |
| Converters.ToBool | config/types/argumentConverter.hpp:100-120 | succeeds exactly on the keywords enable/true/on/disable/false/off, true exactly for the first three; default, auto, strings and objects are the "boolean keyword" complaint |
| Converters.ToDefaultVal | config/types/argumentConverter.hpp:134-148 | succeeds exactly on the `default` keyword, giving `DefaultVal(true)` |
| Converters.ToMethod | config/types/argumentConverter.hpp:150-163 | succeeds exactly on a string naming one of the six methods in any case, giving a single method bit |
| Converters.PortRoundTrip | config/types/argumentConverter.hpp:31-41 | a port in 0..65535 written in decimal, even with trailing non-digit junk, reads back as that port |
| Converters.StatusCodeRoundTrip | config/types/argumentConverter.hpp:43-56 | a status code in 100..599 written in decimal reads back as that code |
| Converters.MinusOneIsWildcard | config/types/customTypes.hpp:13-20 | besides "*", the text "-1" also reads as the wildcard code |
| CustomTypes.MakeStatusCode | config/types/customTypes.hpp:13-16 | a status code is made exactly from 100..599 or -1, and keeps its value |
| CustomTypes.Wildcard | config/types/customTypes.hpp:18-20 | the wildcard is a valid status code below 100 (the value -1) |
| CustomTypes.MakePortNumber | config/types/customTypes.hpp:28-31 | a port is made exactly from 0..65535, and keeps its value |
| Paths.FromString | config/types/path.cpp:8-10 | a path built from text holds exactly that text and is set |
| Paths.LastSlash | config/types/path.cpp:70 | the position found holds a '/' and no '/' follows it; none is found only when the text has no '/' |
| Paths.Append | config/types/path.cpp:33-46 | appending "" changes nothing; an absolute piece, or any piece on an empty path, replaces the text; otherwise the two are joined by exactly one '/'; the set flag is kept |
| Paths.Pop | config/types/path.cpp:67-78 | popping clears a path without '/' and otherwise cuts it at its last '/'; the set flag is kept |
| Paths.ContainsDots | config/types/path.cpp:108 | `find("..")` finds something exactly when two dots stand side by side somewhere in the text |
| Paths.IsValid | config/types/path.cpp:107-109 | a path is valid exactly when it is set and no two dots stand side by side in its text |
| Paths.Filename | config/types/path.cpp:96-104 | the file name never contains a '/' |
| Paths.PopFilenameSplit | config/types/path.cpp:67-104 | a path with a '/' is exactly its popped part, a '/', and its file name; a path without one pops to empty and is its own file name |
| Paths.AppendThenFilename | config/types/path.cpp:33-46 | appending a relative name without '/' and asking for the file name gives that name back |
| Paths.AppendThenPop | config/types/path.cpp:33-78 | appending a relative name and popping it gives back the original path, less one trailing '/' |
| Paths.UpdateFromUrl | config/types/path.cpp:54-63 | mapping a URL onto a root keeps the set flag |
| Paths.UpdateFromUrlUnderRoute | config/types/path.cpp:54-63 | a URL under the route becomes the root, then exactly one '/' (none added when the rest already starts with one), then the rest of the URL, less one trailing '/' |
| Paths.PathObject.FromText | config/types/path.cpp:8-10 | the object built from text holds the set path of that text |
| Paths.PathObject.Unset | config/types/path.cpp:14 | the default object holds the unset, empty dummy path |
| Paths.PathObject.AppendText | config/types/path.cpp:33-46 | the in-place append leaves the object holding `Append` of its old value |
| Paths.PathObject.PopSegment | config/types/path.cpp:67-78 | the in-place pop leaves the object holding `Pop` of its old value |
| Paths.PathObject.MapFromUrl | config/types/path.cpp:54-63 | the in-place replace, insert and trailing-slash drop leave the object holding `UpdateFromUrl` of its old value |
| Servers.BeforeQuery | config/types/path.cpp:88 | the URL cut at its first '?': a prefix of it holding no '?', followed in the URL by '?' when shorter |
| Servers.BeforeQueryOfPage | config/types/path.cpp:88 | a page without '?', with or without a query after it, is cut back to exactly the page |
| Servers.CreateFromUrl | config/types/path.cpp:84-92 | the result is set exactly when the URL is non-empty and the location has a root; otherwise it is the dummy path |
| Servers.CreateFromUrlMapsBelowRoot | config/types/path.cpp:84-92 | a URL `page?query` under the location's path maps to the root, one '/', and the page's rest, with no query and no trailing '/' |
| Servers.CreateFromUrlAsWritten | config/types/path.cpp:84-92 | as written, the result is set exactly when the URL is non-empty and the inverted `isSet` holds, and is the dummy path otherwise; so a location whose root is a valid path always gives the dummy path |
| Servers.CreateFromUrlAsWrittenIgnoresRoot | config/types/path.cpp:85 | as written, a location with a usable root maps every URL to the dummy path, while the corrected check maps it |
| Sizes.Multiplier | config/types/size.cpp:20-27 | the suffix, read as a C string, has a multiplier exactly when it is kb, Kb, mb, Mb, gb or Gb (otherwise "Invalid size multiplier"), and the factor is 1024 for kb/Kb, 1024² for mb/Mb and 1024³ for gb/Gb; a suffix without NUL is compared as it is |
| Sizes.SizeOf | config/types/size.cpp:12-31 | an accepted size starts with digits and is below 2^64; plain digits are that many bytes |
| Sizes.CStringIsText | config/types/size.cpp:20-24 | `strncmp` over the literal and its terminator matches exactly when the text up to its first NUL is the literal |
| Sizes.StoulStart | config/types/size.cpp:13 | any text `stoul` accepts starts with a digit, white space or a sign |
| Sizes.DigitPrefix | config/types/size.cpp:13-19 | the first non-digit ends the digit run; `stoul` reads exactly those digits, and refuses them only beyond 2^64 - 1 |
| Sizes.ParseSize | config/types/size.cpp:12-31 | the constructor's loop computes exactly `SizeOf` |
| Sizes.ApplySuffix | config/types/size.cpp:18-30 | from the first non-digit on, the loop computes exactly `SizeOf` |
| Sizes.SizeOfPlain | config/types/size.cpp:12-31 | a positive number of bytes written in digits is read back as that size |
| Sizes.SizeOfSuffix | config/types/size.cpp:20-25 | a positive count with `kb`/`Kb`, `mb`/`Mb` or `gb`/`Gb` is that count times 1024, 1024² or 1024³, modulo 2^64 |
| Sizes.SizeOfZero | config/types/size.cpp:15-16 | a zero count is refused whatever follows it |
| Sizes.SizeWrapsToZero | config/types/size.cpp:15-21 | the zero check comes before the multiplication, so a multiple of 2^54 kilobytes is accepted as 0 bytes |
| Numbers.SpaceRun | config/types/size.cpp:13 | the leading run of white space `stoul` skips: all white space, and stops at the first other character |
| Numbers.DigitRun | config/types/size.cpp:13 | the leading run of digits: all digits, and stops at the first non-digit |
| Numbers.DigitRunOfDigits | config/types/size.cpp:13 | digits followed by a non-digit are read up to their end |
| Numbers.ParseLeading | config/types/argumentConverter.hpp:23 | a text starting with a digit has no sign |
| Numbers.Stoi | config/types/argumentConverter.hpp:23 | `stoi` accepts exactly a leading number within the range of `int`, and its value lies in that range |
| Numbers.Stoul | config/types/size.cpp:13 | `stoul` accepts exactly a leading number whose magnitude is below 2^64, and its value is below 2^64 |
| Numbers.LeadingDigits | config/types/argumentConverter.hpp:23 | a text starting with digits is read as exactly those digits, whatever follows |
| Numbers.StoiRoundTrip | config/types/argumentConverter.hpp:35 | `stoi` reads back any `int`-sized number printed in decimal, stopping at the first non-digit after it |
| Numbers.StoulRoundTrip | config/types/size.cpp:13 | `stoul` reads back any number below 2^64 printed in decimal |
| Strings.NatToStringRoundTrip | config/rules/ruleParser.cpp:16-17 | the decimal text of a count, as `std::to_string` prints it, reads back as that count |
| Strings.ToLower | config/types/consts.cpp:16 | lower-casing keeps the length and maps each character on its own, only A-Z changing |
| CgiExtensions.FindFrom | config/rules/ruleTemplates/cgiExtensionRule.cpp:31 | `find_first_of(c, from)`: the position found holds `c`, is at or after `from`, and no earlier position from `from` on holds `c`; none found means no position from `from` on holds `c` |
| CgiExtensions.IsCgiAsWrittenNeedsQuery | config/rules/ruleTemplates/cgiExtensionRule.cpp:30-33 | as written, a path whose file name has no '?' is never a CGI script (the dot search starts at npos) |
| CgiExtensions.IsCgiByExtension | config/rules/ruleTemplates/cgiExtensionRule.cpp:26-37 | with the intended extension extraction, `dir/base.ext`, with or without a `?query` tail, is a CGI script exactly when `ext` is listed |
| CgiExtensions.IsCgiAsWrittenMissesPlainScript | config/rules/ruleTemplates/cgiExtensionRule.cpp:26-37 | for a listed extension, the plain script `dir/base.ext` is rejected by `isCGI` as written and accepted by the intended check |
| CgiExtensions.IsCgiAsWritten | config/rules/ruleTemplates/cgiExtensionRule.cpp:26-37 | as written, true exactly when extensions are listed, the file name has a '?', a dot follows the first '?', and the whole text after that dot is listed |
| CgiExtensions.IsCgi | config/rules/ruleTemplates/cgiExtensionRule.cpp:26-37 | with the intended extraction, true exactly when extensions are listed and the text between the last dot before the query (or the end of the name) and that end is listed |
| Binders.OneArgument | config/rules/ruleParser.cpp:39-45 | the `expectArgumentCount(1).parseArgument` chain succeeds exactly when the rule has one argument and it converts; the value is that conversion; a wrong count gives the arity error with "exactly 1", a failed conversion an error located at the argument |
| Binders.ParseOneArgument | config/rules/ruleParser.hpp:23-40 | running the chain through a fresh argument binder gives exactly `OneArgument` and marks the rule, and only it, used |
| Binders.AutoIndexRuleOf | config/rules/ruleTemplates/autoindexRule.cpp:8-18 | no rule: unset and off; a rule: succeeds exactly when its one argument is a boolean keyword, then set and on exactly for enable/true/on; errors are those of the argument chain |
| Binders.ParseAutoIndexRule | config/rules/ruleTemplates/autoindexRule.cpp:8-18 | building through the argument binder yields `AutoIndexRuleOf` and marks only the given rule used |
| Binders.CgiRuleOf | config/rules/ruleTemplates/cgiRule.cpp:10-20 | no rule: unset and disabled; a rule: succeeds exactly when its one argument is a boolean keyword, then set and enabled exactly for enable/true/on |
| Binders.ParseCgiRule | config/rules/ruleTemplates/cgiRule.cpp:10-20 | building through the argument binder yields `CgiRuleOf` and marks only the given rule used |
| Binders.CgiTimeoutRuleOf | config/rules/ruleTemplates/cgiTimeoutRule.cpp:8-18 | no rule: unset with the default; a rule: succeeds exactly when it has one string argument, whose text is kept |
| Binders.ParseCgiTimeoutRule | config/rules/ruleTemplates/cgiTimeoutRule.cpp:8-18 | building through the argument binder yields `CgiTimeoutRuleOf` and marks only the given rule used |
| Binders.RootRuleOf | config/rules/ruleTemplates/rootRule.cpp:7-15 | no rule: the dummy path; a rule: succeeds exactly when it has one string argument, which becomes a set path |
| Binders.ParseRootRule | config/rules/ruleTemplates/rootRule.cpp:7-15 | building through the argument binder yields `RootRuleOf` and marks only the given rule used |
| Binders.RootIsSetAsWritten | config/rules/ruleTemplates/rootRule.cpp:17-20 | as written, `isSet` holds exactly when the root path is unset or holds two adjacent dots: the negation of `Path::isValid` |
| Binders.RootIsSetInverted | config/rules/ruleTemplates/rootRule.cpp:17-20 | as written, the default root counts as set and a given root without ".." counts as unset |
| Binders.RootIsSetCorrected | config/rules/ruleTemplates/rootRule.cpp:17-20 | with the meaning the comment at rootRule.cpp:17 gives ("a non-empty root path"), the default root is unset and a given root is set exactly when its text is not empty |
| Binders.UploadStoreRuleOf | config/rules/ruleTemplates/uploadstoreRule.cpp:11-19 | no rule: the dummy path; a rule: succeeds exactly when it has one string argument, which becomes a set path |
| Binders.ParseUploadStoreRule | config/rules/ruleTemplates/uploadstoreRule.cpp:11-19 | building through the argument binder yields `UploadStoreRuleOf` and marks only the given rule used |
| Binders.UploadStoreSetWhenGiven | config/rules/ruleTemplates/uploadstoreRule.cpp:21-23 | the default upload store is unset; a given one is set exactly when its text is not empty |
| Binders.MaxBodySizeRuleOf | config/rules/ruleTemplates/maxBodySizeRule.cpp:10-20 | no rule: unset with size 0; a rule: succeeds exactly when it has one string argument that is a well-formed size, then set with that size |
| Binders.ParseMaxBodySizeRule | config/rules/ruleTemplates/maxBodySizeRule.cpp:10-20 | building through the argument binder yields `MaxBodySizeRuleOf` and marks only the given rule used |
| Binders.ServerNameRuleOf | config/rules/ruleTemplates/servernameRule.cpp:11-19 | no rule: the empty name; a rule: succeeds exactly when it has one string argument, which becomes the name |
| Binders.ParseServerNameRule | config/rules/ruleTemplates/servernameRule.cpp:11-19 | building through the argument binder yields `ServerNameRuleOf` and marks only the given rule used |
| Binders.ServerNameSetWhenGiven | config/rules/ruleTemplates/servernameRule.cpp:21-24 | without a rule the name is unset; with one it is set exactly when the text given is not empty |
| Binders.IncludeRuleOf | config/rules/ruleTemplates/includeRule.cpp:7-11 | succeeds exactly when the rule has one string argument, whose text is the include path |
| Binders.ParseIncludeRule | config/rules/ruleTemplates/includeRule.cpp:7-11 | building through the argument binder yields `IncludeRuleOf` and marks the include rule used |
| Binders.DefineRuleOf | config/rules/ruleTemplates/defineRule.cpp:5-10 | succeeds exactly when the rule has two arguments, a string then an object, which become the name and the object; any other count is the arity error with "exactly 2" |
| Binders.ParseDefineRule | config/rules/ruleTemplates/defineRule.cpp:5-10 | building through the argument binder yields `DefineRuleOf` and marks the define rule used |
| Binders.ReturnRuleOf | config/rules/ruleTemplates/returnRule.cpp:10-20 | no rule: unset with the wildcard code and empty parameter; a rule: succeeds exactly when it has 1 or 2 arguments, the first a status code and the second, if present, a string; the result is set with those values; other counts give the "between 1 and 2" arity error |
| Binders.ParseReturnRule | config/rules/ruleTemplates/returnRule.cpp:10-20 | building through the argument binder yields `ReturnRuleOf` and marks only the given rule used |
| Binders.IsRedirect | config/rules/ruleTemplates/returnRule.cpp:28-30 | holds exactly when the return rule is set and its code, not the wildcard, lies in 300..399 |
| Binders.RedirectOnlyWhenGiven | config/rules/ruleTemplates/returnRule.cpp:28-30 | a missing return rule is no redirect; a given one is a redirect exactly when its code is not the wildcard and lies in 300..399 |
| Binders.PortRuleOf | config/rules/ruleTemplates/portRule.cpp:10-21 | no rule: unset, port 0, not default; a rule: succeeds exactly when it has 1 or 2 arguments, a valid port then optionally the `default` keyword; set, with that port, and default exactly when the keyword was given |
| Binders.ParsePortRule | config/rules/ruleTemplates/portRule.cpp:10-21 | building through the argument binder yields `PortRuleOf` and marks only the given rule used |
| Binders.ListenBindsPort | config/rules/ruleTemplates/portRule.cpp:10-36 | a `listen` rule whose one argument is a port in 0..65535 written in decimal binds exactly that port, set and not default |
| Collectors.EveryArgument | config/rules/ruleParser.hpp:51-65 | `expectMinNumArguments(1).parseAll` succeeds exactly when the rule has at least one argument and every argument converts; the result has one converted value per argument, in order; no argument gives the "at least 1" arity error |
| Collectors.ParseEveryArgument | config/rules/ruleParser.hpp:51-65 | running the chain on a fresh argument binder appends exactly the converted arguments to the target, reports the chain's error, and marks the rule used |
| Collectors.MapCodes | config/rules/ruleTemplates/errorpageRule.cpp:20-21 | after assigning the path to each code, the keys are the old keys plus the codes, every code maps to the path, and every other entry is unchanged |
| Collectors.AssignCodes | config/rules/ruleTemplates/errorpageRule.cpp:20-21 | the assignment loop yields the map `MapCodes` describes |
| Collectors.PageArguments | config/rules/ruleTemplates/errorpageRule.cpp:11-18 | reading an error_page rule needs at least two arguments (else the "at least 2" arity error); the codes are all arguments but the last, converted in order, and the page is the last |
| Collectors.PageArgumentsOk | config/rules/ruleTemplates/errorpageRule.cpp:15-18 | a rule reads exactly when it has two or more arguments, the last a string and all others valid status codes |
| Collectors.SingleRulePages | config/rules/ruleTemplates/errorpageRule.cpp:11-22 | one rule succeeds exactly when its arguments read; then every code it lists maps to its page, every other entry is kept, and no other key appears |
| Collectors.AddSingleRule | config/rules/ruleTemplates/errorpageRule.cpp:11-22 | reading through a fresh argument binder and assigning the codes yields `SingleRulePages` and marks the rule used |
| Collectors.ParseErrorPageRule | config/rules/ruleTemplates/errorpageRule.cpp:24-27 | the constructor's loop yields the map built from all rules in order; on success every rule is marked used |
| Collectors.ErrorPageRuleOf | config/rules/ruleTemplates/errorpageRule.cpp:11-27 | the rule reads exactly when every error_page rule reads; then a code is in the map exactly when some rule lists it, and it maps to the page of the last rule listing it |
| Collectors.LastLister | config/rules/ruleTemplates/errorpageRule.cpp:24-27 | the position found is the last rule that lists the code; none found means no rule lists it |
| Collectors.PagesLastWins | config/rules/ruleTemplates/errorpageRule.cpp:20-27 | a later rule overwrites an earlier one: a code maps to the page of the last rule listing it, and a code no rule lists keeps its entry |
| Collectors.PagesOfLastListers | config/rules/ruleTemplates/errorpageRule.cpp:20-27 | reading all rules from the empty map gives each code listed by some rule the page of the last rule listing it, and no other code |
| Collectors.ErrorPageForCode | config/rules/ruleTemplates/errorpageRule.cpp:43-53 | `getErrorPage(c)` is the page of the last rule listing c, else that of the last rule listing the wildcard, else "" |
| Collectors.GetErrorPage | config/rules/ruleTemplates/errorpageRule.cpp:43-53 | a code in the map gives its page; otherwise the wildcard's page when there is one; otherwise ""; a non-empty result is always the page of the code or of the wildcard |
| Collectors.PagesFromOk | config/rules/ruleTemplates/errorpageRule.cpp:24-27 | reading the rules succeeds exactly when every rule's arguments read |
| Collectors.ErrorPagesSetIffRules | config/rules/ruleTemplates/errorpageRule.cpp:30-32 | reading succeeds exactly when every rule reads, and then `isSet` holds exactly when some rule was given |
| Collectors.AddMethodsBit | config/rules/ruleTemplates/methodsRule.cpp:21-24 | after OR-ing in the methods read, method k is in the set exactly when it was before or was read |
| Collectors.AddEach | config/rules/ruleTemplates/methodsRule.cpp:21-24 | the inner loop ORs every method read into the set and sets the flag exactly when one was read |
| Collectors.ParseMethodsStep | config/rules/ruleTemplates/methodsRule.cpp:14-25 | one pass of the outer loop yields the specified step and marks the rule used |
| Collectors.MethodsRuleOf | config/rules/ruleTemplates/methodsRule.cpp:11-29 | reading succeeds exactly when every rule has at least one argument and each names a method; a failure is the error of the first rule that does not read; a successful read that parsed no method gives the default rule: unset, GET only |
| Collectors.MethodsFromOk | config/rules/ruleTemplates/methodsRule.cpp:14-25 | reading the rules in order succeeds exactly when every rule reads |
| Collectors.MethodsFromFails | config/rules/ruleTemplates/methodsRule.cpp:14-25 | a failed read stops at the first rule that does not read, with that rule's error |
| Collectors.MethodsReadableCons | config/rules/ruleTemplates/methodsRule.cpp:14-25 | a prefix of rules reads when its first rule and the rest of it do |
| Collectors.ParseMethodsRule | config/rules/ruleTemplates/methodsRule.cpp:11-29 | the constructor yields `MethodsRuleOf`; on success every rule is marked used |
| Collectors.MethodsStepNamed | config/rules/ruleTemplates/methodsRule.cpp:14-25 | reading one rule adds exactly the methods its arguments name and sets the flag |
| Collectors.MethodsRead | config/types/argumentConverter.hpp:151-162 | the methods read from a rule are exactly those its arguments name |
| Collectors.MethodsFromNamed | config/rules/ruleTemplates/methodsRule.cpp:14-25 | reading a list of rules adds exactly the methods some rule names, and sets the flag exactly when some rule was read |
| Collectors.MethodsAllowed | config/rules/ruleTemplates/methodsRule.cpp:11-34 | after the constructor, `isSet` holds exactly when rules were given; then `isAllowed(m)` holds exactly when some rule names m; with no rule only GET is allowed |
| Collectors.IsAllowed | config/rules/ruleTemplates/methodsRule.cpp:32-34 | a single method is allowed exactly when its bit is in the set; any method the query shares with the set allows it; an empty set or an empty query allows nothing |
| Collectors.ParseTexts | config/rules/ruleTemplates/indexRule.cpp:8-14 | the loop shared by the index and cgi_extension constructors yields every rule's strings appended in rule order; on success every rule is marked used |
| Collectors.TextsOfRule | config/rules/ruleTemplates/indexRule.cpp:10-12 | reading one rule's strings succeeds exactly when it has at least one argument and all are strings, and gives their texts in order |
| Collectors.TextsAreArguments | config/rules/ruleTemplates/cgiExtensionRule.cpp:5-11 | reading string lists succeeds exactly when every rule reads, and gives the texts of all arguments of all rules in order after what was there |
| Collectors.ArgumentTextsEmpty | config/rules/ruleTemplates/indexRule.cpp:17-19 | when every rule has an argument, the list is empty exactly when there is no rule |
| Collectors.IndexRuleOf | config/rules/ruleTemplates/indexRule.cpp:8-19 | the index files are all arguments of all rules, in order, when every rule has at least one string argument; `isSet` then holds exactly when a rule was given |
| Collectors.ParseIndexRule | config/rules/ruleTemplates/indexRule.cpp:8-14 | the constructor yields `IndexRuleOf`; on success every rule is marked used |
| Collectors.CgiExtensionRuleOf | config/rules/ruleTemplates/cgiExtensionRule.cpp:5-16 | the extensions are all arguments of all rules, in order, when every rule has at least one string argument; `isSet` then holds exactly when a rule was given |
| Collectors.ParseCgiExtensionRule | config/rules/ruleTemplates/cgiExtensionRule.cpp:5-11 | the constructor yields `CgiExtensionRuleOf`; on success every rule is marked used |
| Servers.Setting | config/rules/ruleTemplates/locationRule.cpp:33-43 | a single-rule setting of a location hands on a rule, or nothing |
| Servers.Settings | config/rules/ruleTemplates/locationRule.cpp:33-44 | a many-rule setting of a location hands on rules only |
| Servers.AccessSettings | config/rules/ruleTemplates/locationRule.cpp:33-39 | methods, root, upload store, autoindex, index and return are each what its binder reads from the rules found up to the server; the path, the set flag and the other settings are untouched |
| Servers.ResponseSettings | config/rules/ruleTemplates/locationRule.cpp:40-44 | error pages, body size, CGI, CGI timeout and CGI extensions are each what its binder reads from the rules found up to the server; the other settings are untouched |
| Servers.LocationBody | config/rules/ruleTemplates/locationRule.cpp:30-45 | a location read from an object is set, keeps its path, and every setting is what its binder reads from the rules found from the object up to the enclosing server |
| Servers.LocationFromObject | config/rules/ruleTemplates/locationRule.cpp:9-14 | a location read straight from an object is set and has the dummy path |
| Servers.LocationFromRule | config/rules/ruleTemplates/locationRule.cpp:16-26 | a location rule needs exactly two arguments, a path then an object; the location is set and its path is the first argument; a wrong count is the arity error |
| Servers.ParseAccessSettings | config/rules/ruleTemplates/locationRule.cpp:33-39 | the first six reads compute exactly `AccessSettings` and keep the resolver bound to the server and optional |
| Servers.ParseResponseSettings | config/rules/ruleTemplates/locationRule.cpp:40-44 | the last five reads compute exactly `ResponseSettings` |
| Servers.ParseLocationBody | config/rules/ruleTemplates/locationRule.cpp:30-45 | `_parseFromObject` computes exactly `LocationBody` |
| Servers.ParseLocationRule | config/rules/ruleTemplates/locationRule.cpp:16-26 | the rule constructor computes exactly `LocationFromRule` |
| Servers.OwnRootWins | config/rules/ruleTemplates/locationRule.cpp:35 | a root rule in the location's own object is the location's root, whatever the levels above hold |
| Servers.RootDefaultsWhenAbsent | config/rules/ruleTemplates/locationRule.cpp:33-35 | with no root rule from the location up to its server, the location keeps the unset default root |
| Servers.MethodsGathered | config/rules/ruleTemplates/locationRule.cpp:33-34 | a location's allowed methods are read from the method rules of every level up to the server, outermost first |
| Servers.CollectEachReads | config/rules/objectParser.hpp:99-100 | collecting yields the values gathered so far, then exactly one value per rule, each the one read from that rule |
| Servers.LocationsFrom | config/rules/objectParser.hpp:99-100 | the locations are one per location rule, in order, each read from its rule |
| Servers.LocationsRead | config/rules/objectParser.hpp:99-100 | the reader used for the locations is the location rule constructor |
| Servers.ServerObject | config/rules/ruleTemplates/serverconfigRule.cpp:9-11 | a server rule's single object argument is an object |
| Servers.ServerIdentity | config/rules/ruleTemplates/serverconfigRule.cpp:13-16 | listen and server_name are read from the server object itself: no such rule is a missing-rule error naming the object, two or more a duplicate-rule error naming the first two; the identity reads exactly when each has one rule that reads, and then holds those rules' values, with the port set |
| Servers.IdentityPort | config/rules/ruleTemplates/serverconfigRule.cpp:14-15 | the listen rule of the object itself: none is a missing-rule error naming the object, two or more a duplicate; it reads exactly when there is one that reads, and then is that rule's set port |
| Servers.IdentityName | config/rules/ruleTemplates/serverconfigRule.cpp:14-16 | the server_name rule of the object itself: none is a missing-rule error naming the object, two or more a duplicate; it reads exactly when there is one that reads, and then is that rule's value |
| Servers.ServerSites | config/rules/ruleTemplates/serverconfigRule.cpp:17-20 | the locations are one per location rule of the server object itself, in order; the default location is that object read as a location |
| Servers.ServerBody | config/rules/ruleTemplates/serverconfigRule.cpp:13-20 | the identity is read first and its error wins, then the locations' error; the body reads exactly when both read; the locations and the default location are those of the server object |
| Servers.ServerConfigOf | config/rules/ruleTemplates/serverconfigRule.cpp:6-21 | a server rule needs exactly one object argument, else the arity error; a read server has a set port and a default location with the dummy path |
| Servers.ParseLocations | config/rules/objectParser.hpp:99-100 | the loop computes exactly `LocationsFrom` |
| Servers.ParseServerIdentity | config/rules/ruleTemplates/serverconfigRule.cpp:14-16 | the two required reads compute exactly `ServerIdentity` |
| Servers.ParseServerSites | config/rules/ruleTemplates/serverconfigRule.cpp:17-20 | the optional location reads and the default location compute exactly `ServerSites` |
| Servers.ParseServerBody | config/rules/ruleTemplates/serverconfigRule.cpp:13-20 | the object parser chain computes exactly `ServerBody` |
| Servers.ParseServerParts | config/rules/ruleTemplates/serverconfigRule.cpp:13-20 | the identity read on the local, required object parser, then the locations on the same parser made optional, compute exactly `ServerBody` |
| Servers.ParseServerConfig | config/rules/ruleTemplates/serverconfigRule.cpp:6-21 | the constructor computes exactly `ServerConfigOf` |
| Servers.ServerNeedsListen | config/rules/ruleTemplates/serverconfigRule.cpp:14-15 | a server whose own object has no listen rule is refused with a missing-rule error naming that object |
| Servers.ServerNeedsServerName | config/rules/ruleTemplates/serverconfigRule.cpp:14-16 | a server whose object has one good listen rule and no server_name rule is refused with a missing-rule error naming that object |
| Servers.ServerIdentityRead | config/rules/ruleTemplates/serverconfigRule.cpp:6-21 | a server that reads has exactly one listen and one server_name rule in its own object, and its port and name are their values; two listen rules, or two server_name rules after a good listen, make it a duplicate-rule error |
| Servers.ServerLocations | config/rules/ruleTemplates/serverconfigRule.cpp:17-20 | a server's locations are its own location rules, one each, in order; its default location is its own object read as one |
| Servers.GetLocation | config/rules/ruleTemplates/serverconfigRule.cpp:41-56 | with no set location whose non-empty path prefixes the URL, the default location; otherwise the matching location with the longest path, the first of those when several tie |

## Left out

- Reading files: `std::fstream` and `getline` are not modelled. A file is given as its list of lines, and a path missing from that map is a file that cannot be opened.
- Printing: `std::cerr` output, the logging macros of print.hpp, the `operator<<` printers, `printObject` and `printRule` are left out. The same goes for the colours and layout of `getMessage`, `_printErrorContext` and `_printTraceback`. Kept: the head line of the message, the caret length under a token and the rule that blank traceback lines are skipped. The trimming of traceback lines is not modelled.
- Memory: `operator new`, placement new and the destructor callbacks of config/arena.hpp are left out. Nodes live in a sequence and are addressed by allocation index, and nothing is freed.
- `Object::deepCopy`, `Rule::deepCopy` and `Argument::deepCopy` are declared but not defined in the C++ code, so they are not modelled.
- Time spans: config/types/timespan.cpp (`std::stod`, double multipliers) is floating point and is left out. `cgi_timeout` keeps its arity and string checks and stores the raw text.
- The unspecialised `ArgumentConverter` (config/types/argumentConverter.hpp:11-17) always throws. Each converter here is a separate typed function, so no call can reach the unspecialised case.
- main.cpp and the older root-level ruleParser.hpp and argumentConverter.hpp are not part of this model. The core is the `config/` tree.
- Getters and `isSet` flags that only return a field are datatype fields or predicates, with no rows of their own.
- `ParserException` is not a C++ exception here. Every fallible operation returns a `Result` or `Outcome`, and `parseFile` turns a failure into `false`. Catching `std::exception` in `parseFile` has no counterpart, because nothing else can throw.
- `ErrorContextAt` on a file with no lines would read `lineStarts` out of range in the C++ code (undefined behaviour). The model returns line 0 with an empty text instead.
- `UpdateFromUrl` on a text that becomes empty calls `back()` on an empty string in the C++ code (undefined behaviour). The model leaves the text empty.
- Collectors.ParseErrorPageRule: on failure it only bounds the used set between the old set and the old set plus every rule given. It does not say how far the loop got before the error; the same holds for Collectors.ParseMethodsRule, Collectors.ParseTexts, Collectors.ParseIndexRule and Collectors.ParseCgiExtensionRule.
- Servers.ParseLocations: states only that the used set grows, not which rules it gains; the same holds for Servers.ParseAccessSettings, Servers.ParseResponseSettings, Servers.ParseLocationBody, Servers.ParseLocationRule, Servers.ParseServerIdentity, Servers.ParseServerSites, Servers.ParseServerBody and Servers.ParseServerConfig.
- Parser.ConfigurationParser.ParseBlockArgument: the C++ code passes both `_parseObject(file, pos, rule)` and `file->tokens[pos]` to one allocation (config/parser.cpp:122), and C++ leaves the order in which they are evaluated unspecified. The argument's token is therefore either the `{` or the token after the block's `}`. The model takes the `{`. This only changes the location an error about that argument points to.

Notes on what the C++ code itself does, which the model follows:

- No `;` is consumed after a nested block: the parser reads the next token as a rule key, and `;` is not a key, so `location / { } ;` fails with "Expected a rule key".
- `include` is shallow. Each copied rule is a new rule node, but it shares the original's argument nodes, and through them any nested object.
- Quoted strings are matched against the keyword table, so `"on"` becomes the keyword `on`.
- Bare words are lexed as weak strings, while the parser accepts only strong strings as keys and arguments. So a bare word fails with "Expected a rule key" or "Unexpected token type while parsing rule", and only quoted words are read.
- The directive `redirect` is the spelling of the return key; the key table's `REDIRECT` has no other counterpart in the key enum. `cgi_extension` is not in the key table, so no file can produce that key; its binder is still modelled.
- The comment on `getErrorPage` (config/rules/ruleTemplates/errorpageRule.cpp:42) says that asking for the wildcard code returns the first page in the map. The code looks up the code itself and then the wildcard entry, so asking for the wildcard gives the wildcard's own page, or "" when there is none. `Collectors.GetErrorPage` follows the code.
- The "Included object not found" error of `_handleIncludeRule` cannot occur. Loading a file either fails or stores its root object under the path, so the name is always found afterwards. `HandleIncludeRule` proves this: a passing include names a known path.

## Findings

| source | as written | input that shows it | evidently intended | confidence | as-written member | corrected member |
|---|---|---|---|---|---|---|
| config/rules/ruleTemplates/cgiExtensionRule.cpp:30-36 | the search for the dot starts at the first `?` of the file name, so a name without `?` never matches; after a `?`, the extension length wraps and runs to the end of the name | `cgi_extension py;` then `isCGI` of `/cgi-bin/test.py` is false | the extension is the text between the last dot before the query and the query (or the end), and the path is a CGI script when that extension is listed | not executed | CgiExtensions.IsCgiAsWrittenMissesPlainScript | CgiExtensions.IsCgiByExtension |
| config/rules/ruleTemplates/rootRule.cpp:17-20 | `isSet` returns the negation of `Path::isValid`: the default root counts as set, and a given plain path as unset | `root /var/www;` then `isSet` is false, while with no root rule it is true | `isSet` holds when a non-empty root path was given, as its comment says | not executed | Binders.RootIsSetInverted | Binders.RootIsSetCorrected |
| config/types/path.cpp:84-86 | `createFromUrl` tests the inverted root `isSet`, so a location with a usable root yields the dummy path for every URL | a location with `root /var/www;` then `createFromUrl("/index.html", location)` is the unset dummy path | the URL, without its query, mapped below the root | not executed | Servers.CreateFromUrlAsWrittenIgnoresRoot | Servers.CreateFromUrlMapsBelowRoot |

=== FILE: binders.dfy ===
/**
 * The single-rule directive binders of config/rules/ruleTemplates: each one
 * is built from at most one rule, through the argument binder, and keeps
 * the typed value of that rule's arguments. A missing rule (a null `Rule*`)
 * gives the binder's defaults.
 *
 * Each binder is a value here: a datatype, a function stating what building
 * it from a rule yields, and the method that builds it through a
 * `RuleParser`, proved to yield exactly that. The getters of the C++
 * classes are the datatype fields.
 */
module Binders {
  import opened Wrappers
  import opened Strings
  import opened ConfigTypes
  import opened Document
  import opened Diagnostics
  import opened Converters
  import opened CustomTypes
  import opened Sizes
  import opened Paths
  import opened RuleParsing

  /** A binder's rule: absent, or a rule of the tree. */
  predicate RuleOrNull(nodes: seq<Node>, rule: Option<NodeId>) {
    rule.Some? ==> IsRule(nodes, rule.value)
  }

  /** The rules building a binder marks as used. */
  function UsedBy(rule: Option<NodeId>): set<NodeId> {
    if rule.Some? then {rule.value} else {}
  }

  /**
   * `create(rule).expectArgumentCount(1).parseArgument(target)`: the rule
   * must have exactly one argument, which is then converted.
   */
  function OneArgument<T>(nodes: seq<Node>, id: NodeId, format: string, convert: Argument -> Result<T, Complaint>): (r: Result<T, ParserError>)
    requires Valid(nodes) && IsRule(nodes, id)
    ensures r.Ok? <==> Arity(nodes, id) == 1 && convert(ArgumentsOf(nodes, id)[0]).Ok?
    ensures r.Ok? ==> r.value == convert(ArgumentsOf(nodes, id)[0]).value
    ensures Arity(nodes, id) != 1 ==> r == Err(ArityError(nodes, id, format, "exactly " + NatToString(1)))
    ensures Arity(nodes, id) == 1 && r.Err? ==> r.error.kind == AtArgument(nodes[id].rule.arguments[0])
  {
    match ExpectArgumentCount(nodes, id, format, 1)
    case Fail(e) => Err(e)
    case Pass =>
      Converted(nodes, id, convert, 0)
  }

  /** The chain `OneArgument` describes, run on a fresh argument binder. */
  method ParseOneArgument<T>(arena: Arena, id: NodeId, name: string, format: string, convert: Argument -> Result<T, Complaint>)
    returns (r: Result<T, ParserError>)
    requires Valid(arena.nodes) && IsRule(arena.nodes, id)
    modifies arena`used
    ensures r == OneArgument(arena.nodes, id, format, convert)
    ensures arena.used == old(arena.used) + {id}
  {
    var p := new RuleParser(arena, id, name, format);
    :- ExpectArgumentCount(p.nodes, id, format, 1);
    r := p.ParseArgument(convert);
  }

  // ---------------------------------------------------------------- autoindex

  datatype AutoIndexRule = AutoIndexRule(isSet: bool, autoIndex: bool)

  const AutoIndexDefault := false
  const AutoIndexName := "autoindex"
  const AutoIndexFormat := AutoIndexName + " <on|off>"

  /** `AutoIndexRule(Rule*)`: off and unset without a rule, else one boolean keyword. */
  function AutoIndexRuleOf(nodes: seq<Node>, rule: Option<NodeId>): (r: Result<AutoIndexRule, ParserError>)
    requires Valid(nodes) && RuleOrNull(nodes, rule)
    ensures rule.None? ==> r == Ok(AutoIndexRule(false, false))
    ensures rule.Some? ==> (r.Ok? <==> OneArgument(nodes, rule.value, AutoIndexFormat, ToBool).Ok?)
    ensures rule.Some? && r.Ok? ==> var a := ArgumentsOf(nodes, rule.value)[0];
      r.value.isSet && (r.value.autoIndex <==> a.value.keyword in {Enable, True, On})
    ensures rule.Some? && r.Err? ==> r.error == OneArgument(nodes, rule.value, AutoIndexFormat, ToBool).error
  {
    match rule
    case None => Ok(AutoIndexRule(false, AutoIndexDefault))
    case Some(id) =>
      var on :- OneArgument(nodes, id, AutoIndexFormat, ToBool);
      Ok(AutoIndexRule(true, on))
  }

  method ParseAutoIndexRule(arena: Arena, rule: Option<NodeId>) returns (r: Result<AutoIndexRule, ParserError>)
    requires Valid(arena.nodes) && RuleOrNull(arena.nodes, rule)
    modifies arena`used
    ensures r == AutoIndexRuleOf(arena.nodes, rule)
    ensures arena.used == old(arena.used) + UsedBy(rule)
  {
    match rule
    case None => r := Ok(AutoIndexRule(false, AutoIndexDefault));
    case Some(id) =>
      var on :- ParseOneArgument(arena, id, AutoIndexName, AutoIndexFormat, ToBool);
      r := Ok(AutoIndexRule(true, on));
  }

  // ---------------------------------------------------------------- cgi

  datatype CgiRule = CgiRule(isSet: bool, isEnabled: bool)

  const CgiDefaultEnabled := false
  const CgiName := "cgi"
  const CgiFormat := CgiName + " <path> [<timeout>]"

  /** `CgiRule(Rule*)`: disabled and unset without a rule, else one boolean keyword. */
  function CgiRuleOf(nodes: seq<Node>, rule: Option<NodeId>): (r: Result<CgiRule, ParserError>)
    requires Valid(nodes) && RuleOrNull(nodes, rule)
    ensures rule.None? ==> r == Ok(CgiRule(false, false))
    ensures rule.Some? ==> (r.Ok? <==> OneArgument(nodes, rule.value, CgiFormat, ToBool).Ok?)
    ensures rule.Some? && r.Ok? ==> var a := ArgumentsOf(nodes, rule.value)[0];
      r.value.isSet && (r.value.isEnabled <==> a.value.keyword in {Enable, True, On})
    ensures rule.Some? && r.Err? ==> r.error == OneArgument(nodes, rule.value, CgiFormat, ToBool).error
  {
    match rule
    case None => Ok(CgiRule(false, CgiDefaultEnabled))
    case Some(id) =>
      var enabled :- OneArgument(nodes, id, CgiFormat, ToBool);
      Ok(CgiRule(true, enabled))
  }

  method ParseCgiRule(arena: Arena, rule: Option<NodeId>) returns (r: Result<CgiRule, ParserError>)
    requires Valid(arena.nodes) && RuleOrNull(arena.nodes, rule)
    modifies arena`used
    ensures r == CgiRuleOf(arena.nodes, rule)
    ensures arena.used == old(arena.used) + UsedBy(rule)
  {
    match rule
    case None => r := Ok(CgiRule(false, CgiDefaultEnabled));
    case Some(id) =>
      var enabled :- ParseOneArgument(arena, id, CgiName, CgiFormat, ToBool);
      r := Ok(CgiRule(true, enabled));
  }

  // ---------------------------------------------------------------- cgi_timeout

  /** The time span is kept as the text of its argument; `None` is the default. */
  datatype CgiTimeoutRule = CgiTimeoutRule(isSet: bool, timeout: Option<string>)

  const CgiTimeoutName := "cgi_timeout"
  const CgiTimeoutFormat := CgiTimeoutName + " <timeout>"

  /** `CgiTimeoutRule(Rule*)`: the default without a rule, else one string argument. */
  function CgiTimeoutRuleOf(nodes: seq<Node>, rule: Option<NodeId>): (r: Result<CgiTimeoutRule, ParserError>)
    requires Valid(nodes) && RuleOrNull(nodes, rule)
    ensures rule.None? ==> r == Ok(CgiTimeoutRule(false, None))
    ensures rule.Some? ==> (r.Ok? <==> Arity(nodes, rule.value) == 1 && ArgumentsOf(nodes, rule.value)[0].value.StringValue?)
    ensures rule.Some? && r.Ok? ==> r.value == CgiTimeoutRule(true, Some(ArgumentsOf(nodes, rule.value)[0].value.text))
    ensures rule.Some? && r.Err? ==> r.error == OneArgument(nodes, rule.value, CgiTimeoutFormat, ToTimespanText).error
  {
    match rule
    case None => Ok(CgiTimeoutRule(false, None))
    case Some(id) =>
      var text :- OneArgument(nodes, id, CgiTimeoutFormat, ToTimespanText);
      Ok(CgiTimeoutRule(true, Some(text)))
  }

  method ParseCgiTimeoutRule(arena: Arena, rule: Option<NodeId>) returns (r: Result<CgiTimeoutRule, ParserError>)
    requires Valid(arena.nodes) && RuleOrNull(arena.nodes, rule)
    modifies arena`used
    ensures r == CgiTimeoutRuleOf(arena.nodes, rule)
    ensures arena.used == old(arena.used) + UsedBy(rule)
  {
    match rule
    case None => r := Ok(CgiTimeoutRule(false, None));
    case Some(id) =>
      var text :- ParseOneArgument(arena, id, CgiTimeoutName, CgiTimeoutFormat, ToTimespanText);
      r := Ok(CgiTimeoutRule(true, Some(text)));
  }

  // ---------------------------------------------------------------- root

  datatype RootRule = RootRule(rootPath: Path)

  const RootName := "root"
  const RootFormat := RootName + " <path>"

  /** `RootRule(Rule*)`: the dummy path without a rule, else one path argument. */
  function RootRuleOf(nodes: seq<Node>, rule: Option<NodeId>): (r: Result<RootRule, ParserError>)
    requires Valid(nodes) && RuleOrNull(nodes, rule)
    ensures rule.None? ==> r == Ok(RootRule(Dummy))
    ensures rule.Some? ==> (r.Ok? <==> Arity(nodes, rule.value) == 1 && ArgumentsOf(nodes, rule.value)[0].value.StringValue?)
    ensures rule.Some? && r.Ok? ==> r.value.rootPath == Path(ArgumentsOf(nodes, rule.value)[0].value.text, true)
    ensures rule.Some? && r.Err? ==> r.error == OneArgument(nodes, rule.value, RootFormat, ToPath).error
  {
    match rule
    case None => Ok(RootRule(Dummy))
    case Some(id) =>
      var path :- OneArgument(nodes, id, RootFormat, ToPath);
      Ok(RootRule(path))
  }

  method ParseRootRule(arena: Arena, rule: Option<NodeId>) returns (r: Result<RootRule, ParserError>)
    requires Valid(arena.nodes) && RuleOrNull(arena.nodes, rule)
    modifies arena`used
    ensures r == RootRuleOf(arena.nodes, rule)
    ensures arena.used == old(arena.used) + UsedBy(rule)
  {
    match rule
    case None => r := Ok(RootRule(Dummy));
    case Some(id) =>
      var path :- ParseOneArgument(arena, id, RootName, RootFormat, ToPath);
      r := Ok(RootRule(path));
  }

  /** `RootRule::isSet` as written: the negation of `Path::isValid`. */
  predicate RootIsSetAsWritten(root: RootRule): (b: bool)
    ensures b <==> !root.rootPath.isSet || exists i: nat :: DotsAt(root.rootPath.text, i)
  {
    !IsValid(root.rootPath)
  }

  /** What `isSet` means by the comment at rootRule.cpp:17: the root path is not empty. */
  predicate RootIsSet(root: RootRule) {
    root.rootPath.text != []
  }

  /**
   * As written, `isSet` is inverted: the default root counts as set, and a
   * root given as a plain path counts as unset.
   */
  lemma RootIsSetInverted(nodes: seq<Node>, id: NodeId)
    requires Valid(nodes) && IsRule(nodes, id)
    requires RootRuleOf(nodes, Some(id)).Ok?
    requires !Contains(ArgumentsOf(nodes, id)[0].value.text, "..")
    ensures RootIsSetAsWritten(RootRuleOf(nodes, None).value)
    ensures !RootIsSetAsWritten(RootRuleOf(nodes, Some(id)).value)
  {
  }

  /** With the meaning the comment at rootRule.cpp:17 gives, the default root is unset and a given non-empty path is set. */
  lemma RootIsSetCorrected(nodes: seq<Node>, id: NodeId)
    requires Valid(nodes) && IsRule(nodes, id)
    requires RootRuleOf(nodes, Some(id)).Ok?
    ensures !RootIsSet(RootRuleOf(nodes, None).value)
    ensures RootIsSet(RootRuleOf(nodes, Some(id)).value) <==> ArgumentsOf(nodes, id)[0].value.text != []
  {
  }

  // ---------------------------------------------------------------- upload_store

  datatype UploadStoreRule = UploadStoreRule(uploadDir: Path)

  const UploadStoreName := "upload_store"
  const UploadStoreFormat := UploadStoreName + " <path>"

  /** `UploadStoreRule(Rule*)`: the dummy path without a rule, else one path argument. */
  function UploadStoreRuleOf(nodes: seq<Node>, rule: Option<NodeId>): (r: Result<UploadStoreRule, ParserError>)
    requires Valid(nodes) && RuleOrNull(nodes, rule)
    ensures rule.None? ==> r == Ok(UploadStoreRule(Dummy))
    ensures rule.Some? ==> (r.Ok? <==> Arity(nodes, rule.value) == 1 && ArgumentsOf(nodes, rule.value)[0].value.StringValue?)
    ensures rule.Some? && r.Ok? ==> r.value.uploadDir == Path(ArgumentsOf(nodes, rule.value)[0].value.text, true)
    ensures rule.Some? && r.Err? ==> r.error == OneArgument(nodes, rule.value, UploadStoreFormat, ToPath).error
  {
    match rule
    case None => Ok(UploadStoreRule(Dummy))
    case Some(id) =>
      var dir :- OneArgument(nodes, id, UploadStoreFormat, ToPath);
      Ok(UploadStoreRule(dir))
  }

  method ParseUploadStoreRule(arena: Arena, rule: Option<NodeId>) returns (r: Result<UploadStoreRule, ParserError>)
    requires Valid(arena.nodes) && RuleOrNull(arena.nodes, rule)
    modifies arena`used
    ensures r == UploadStoreRuleOf(arena.nodes, rule)
    ensures arena.used == old(arena.used) + UsedBy(rule)
  {
    match rule
    case None => r := Ok(UploadStoreRule(Dummy));
    case Some(id) =>
      var dir :- ParseOneArgument(arena, id, UploadStoreName, UploadStoreFormat, ToPath);
      r := Ok(UploadStoreRule(dir));
  }

  /** `UploadStoreRule::isSet`: the directory text is not empty. */
  predicate UploadStoreIsSet(u: UploadStoreRule) {
    u.uploadDir.text != []
  }

  /** The default upload store is unset; a given one is set exactly when its text is not empty. */
  lemma UploadStoreSetWhenGiven(nodes: seq<Node>, rule: Option<NodeId>)
    requires Valid(nodes) && RuleOrNull(nodes, rule)
    requires UploadStoreRuleOf(nodes, rule).Ok?
    ensures rule.None? ==> !UploadStoreIsSet(UploadStoreRuleOf(nodes, rule).value)
    ensures rule.Some? ==> (UploadStoreIsSet(UploadStoreRuleOf(nodes, rule).value) <==> ArgumentsOf(nodes, rule.value)[0].value.text != [])
  {
  }

  // ---------------------------------------------------------------- client_max_body_size

  datatype MaxBodySizeRule = MaxBodySizeRule(isSet: bool, maxBodySize: Size)

  const MaxBodySizeName := "client_max_body_size"
  const MaxBodySizeFormat := MaxBodySizeName + " <size>"

  /** `MaxBodySizeRule(Rule*)`: unset with size 0 without a rule, else one size argument. */
  function MaxBodySizeRuleOf(nodes: seq<Node>, rule: Option<NodeId>): (r: Result<MaxBodySizeRule, ParserError>)
    requires Valid(nodes) && RuleOrNull(nodes, rule)
    ensures rule.None? ==> r == Ok(MaxBodySizeRule(false, Size(0)))
    ensures rule.Some? ==> var args := ArgumentsOf(nodes, rule.value);
      (r.Ok? <==> |args| == 1 && args[0].value.StringValue? && SizeOf(args[0].value.text).Some?)
    ensures rule.Some? && r.Ok? ==> r.value == MaxBodySizeRule(true, SizeOf(ArgumentsOf(nodes, rule.value)[0].value.text).value)
    ensures rule.Some? && r.Err? ==> r.error == OneArgument(nodes, rule.value, MaxBodySizeFormat, ToSize).error
  {
    match rule
    case None => Ok(MaxBodySizeRule(false, Size(0)))
    case Some(id) =>
      var size :- OneArgument(nodes, id, MaxBodySizeFormat, ToSize);
      Ok(MaxBodySizeRule(true, size))
  }

  method ParseMaxBodySizeRule(arena: Arena, rule: Option<NodeId>) returns (r: Result<MaxBodySizeRule, ParserError>)
    requires Valid(arena.nodes) && RuleOrNull(arena.nodes, rule)
    modifies arena`used
    ensures r == MaxBodySizeRuleOf(arena.nodes, rule)
    ensures arena.used == old(arena.used) + UsedBy(rule)
  {
    match rule
    case None => r := Ok(MaxBodySizeRule(false, Size(0)));
    case Some(id) =>
      var size :- ParseOneArgument(arena, id, MaxBodySizeName, MaxBodySizeFormat, ToSize);
      r := Ok(MaxBodySizeRule(true, size));
  }

  // ---------------------------------------------------------------- server_name

  datatype ServerNameRule = ServerNameRule(serverName: string)

  const ServerNameName := "server_name"
  const ServerNameFormat := ServerNameName + " <name> [default]"

  /** `ServerNameRule(Rule*)`: the empty name without a rule, else one string argument. */
  function ServerNameRuleOf(nodes: seq<Node>, rule: Option<NodeId>): (r: Result<ServerNameRule, ParserError>)
    requires Valid(nodes) && RuleOrNull(nodes, rule)
    ensures rule.None? ==> r == Ok(ServerNameRule(""))
    ensures rule.Some? ==> (r.Ok? <==> Arity(nodes, rule.value) == 1 && ArgumentsOf(nodes, rule.value)[0].value.StringValue?)
    ensures rule.Some? && r.Ok? ==> r.value.serverName == ArgumentsOf(nodes, rule.value)[0].value.text
    ensures rule.Some? && r.Err? ==> r.error == OneArgument(nodes, rule.value, ServerNameFormat, ToText).error
  {
    match rule
    case None => Ok(ServerNameRule(""))
    case Some(id) =>
      var name :- OneArgument(nodes, id, ServerNameFormat, ToText);
      Ok(ServerNameRule(name))
  }

  method ParseServerNameRule(arena: Arena, rule: Option<NodeId>) returns (r: Result<ServerNameRule, ParserError>)
    requires Valid(arena.nodes) && RuleOrNull(arena.nodes, rule)
    modifies arena`used
    ensures r == ServerNameRuleOf(arena.nodes, rule)
    ensures arena.used == old(arena.used) + UsedBy(rule)
  {
    match rule
    case None => r := Ok(ServerNameRule(""));
    case Some(id) =>
      var name :- ParseOneArgument(arena, id, ServerNameName, ServerNameFormat, ToText);
      r := Ok(ServerNameRule(name));
  }

  /** `ServerNameRule::isSet`: the name is not empty. */
  predicate ServerNameIsSet(s: ServerNameRule) {
    s.serverName != []
  }

  /** Without a rule the server name is unset; with one it is set exactly when the name given is not empty. */
  lemma ServerNameSetWhenGiven(nodes: seq<Node>, rule: Option<NodeId>)
    requires Valid(nodes) && RuleOrNull(nodes, rule)
    requires ServerNameRuleOf(nodes, rule).Ok?
    ensures rule.None? ==> !ServerNameIsSet(ServerNameRuleOf(nodes, rule).value)
    ensures rule.Some? ==> (ServerNameIsSet(ServerNameRuleOf(nodes, rule).value) <==> ArgumentsOf(nodes, rule.value)[0].value.text != [])
  {
  }

  // ---------------------------------------------------------------- include

  datatype IncludeRule = IncludeRule(includePath: string)

  const IncludeName := "include"
  const IncludeFormat := IncludeName + " <path | name>"

  /** `IncludeRule(Rule*)`: there is no default; the rule needs one string argument. */
  function IncludeRuleOf(nodes: seq<Node>, id: NodeId): (r: Result<IncludeRule, ParserError>)
    requires Valid(nodes) && IsRule(nodes, id)
    ensures r.Ok? <==> Arity(nodes, id) == 1 && ArgumentsOf(nodes, id)[0].value.StringValue?
    ensures r.Ok? ==> r.value.includePath == ArgumentsOf(nodes, id)[0].value.text
    ensures r.Err? ==> r.error == OneArgument(nodes, id, IncludeFormat, ToText).error
  {
    var path :- OneArgument(nodes, id, IncludeFormat, ToText);
    Ok(IncludeRule(path))
  }

  method ParseIncludeRule(arena: Arena, id: NodeId) returns (r: Result<IncludeRule, ParserError>)
    requires Valid(arena.nodes) && IsRule(arena.nodes, id)
    modifies arena`used
    ensures r == IncludeRuleOf(arena.nodes, id)
    ensures arena.used == old(arena.used) + {id}
  {
    var path :- ParseOneArgument(arena, id, IncludeName, IncludeFormat, ToText);
    r := Ok(IncludeRule(path));
  }

  /** `IncludeRule::isSet`: the path is not empty. */
  predicate IncludeIsSet(i: IncludeRule) {
    i.includePath != []
  }

  // ---------------------------------------------------------------- define

  /** Once built, the object is always present, so it is a plain node id. */
  datatype DefineRule = DefineRule(name: string, obj: NodeId)

  const DefineName := "define"
  const DefineFormat := DefineName + " <name> <object>"

  /** An object argument names an object of the tree. */
  lemma ObjectArgument(nodes: seq<Node>, id: NodeId, i: nat)
    requires Valid(nodes) && IsRule(nodes, id) && i < Arity(nodes, id)
    requires ArgumentsOf(nodes, id)[i].value.ObjectValue?
    ensures IsObject(nodes, ArgumentsOf(nodes, id)[i].value.obj)
  {
    ArgumentIds(nodes, id, i);
    assert NodeOk(nodes, nodes[id].rule.arguments[i]);
  }

  /** `DefineRule(Rule*)`: exactly two arguments, a name string and then an object. */
  function DefineRuleOf(nodes: seq<Node>, id: NodeId): (r: Result<DefineRule, ParserError>)
    requires Valid(nodes) && IsRule(nodes, id)
    ensures var args := ArgumentsOf(nodes, id);
      r.Ok? <==> |args| == 2 && args[0].value.StringValue? && args[1].value.ObjectValue?
    ensures var args := ArgumentsOf(nodes, id);
      r.Ok? ==> r.value.name == args[0].value.text && r.value.obj == args[1].value.obj && IsObject(nodes, r.value.obj)
    ensures Arity(nodes, id) != 2 ==> r == Err(ArityError(nodes, id, DefineFormat, "exactly " + NatToString(2)))
  {
    match ExpectArgumentCount(nodes, id, DefineFormat, 2)
    case Fail(e) => Err(e)
    case Pass =>
      var name :- Converted(nodes, id, ToText, 0);
      var obj :- Converted(nodes, id, ToObject, 1);
      ObjectArgument(nodes, id, 1);
      Ok(DefineRule(name, obj))
  }

  method ParseDefineRule(arena: Arena, id: NodeId) returns (r: Result<DefineRule, ParserError>)
    requires Valid(arena.nodes) && IsRule(arena.nodes, id)
    modifies arena`used
    ensures r == DefineRuleOf(arena.nodes, id)
    ensures arena.used == old(arena.used) + {id}
  {
    var p := new RuleParser(arena, id, DefineName, DefineFormat);
    :- ExpectArgumentCount(p.nodes, id, DefineFormat, 2);
    var name :- p.ParseArgument(ToText);
    var obj :- p.ParseArgument(ToObject);
    r := Ok(DefineRule(name, obj));
  }

  /** `DefineRule::isSet`: a non-empty name (the object is always present once built). */
  predicate DefineIsSet(d: DefineRule) {
    d.name != []
  }

  // ---------------------------------------------------------------- return

  datatype ReturnRule = ReturnRule(isSet: bool, statusCode: StatusCode, parameter: string)

  const ReturnName := "return"
  const ReturnFormat := ReturnName + " <status_code> [<parameter>]"

  /** `ReturnRule(Rule*)`: unset with the wildcard code without a rule, else a code and an optional string. */
  function ReturnRuleOf(nodes: seq<Node>, rule: Option<NodeId>): (r: Result<ReturnRule, ParserError>)
    requires Valid(nodes) && RuleOrNull(nodes, rule)
    ensures rule.None? ==> r == Ok(ReturnRule(false, Wildcard(), ""))
    ensures rule.Some? ==> var args := ArgumentsOf(nodes, rule.value);
      (r.Ok? <==> 1 <= |args| <= 2 && ToStatusCode(args[0]).Ok? && (|args| == 2 ==> args[1].value.StringValue?))
    ensures rule.Some? && r.Ok? ==> var args := ArgumentsOf(nodes, rule.value);
      && r.value.isSet
      && r.value.statusCode == ToStatusCode(args[0]).value
      && r.value.parameter == (if |args| == 2 then args[1].value.text else "")
    ensures rule.Some? && !(1 <= Arity(nodes, rule.value) <= 2) ==>
      r == Err(ArityError(nodes, rule.value, ReturnFormat, "between " + NatToString(1) + " and " + NatToString(2)))
  {
    match rule
    case None => Ok(ReturnRule(false, Wildcard(), ""))
    case Some(id) =>
      :- ExpectArgumentRange(nodes, id, ReturnFormat, 1, 2);
      var code :- Converted(nodes, id, ToStatusCode, 0);
      var parameter :- if Arity(nodes, id) == 2 then Converted(nodes, id, ToText, 1) else Ok("");
      Ok(ReturnRule(true, code, parameter))
  }

  method ParseReturnRule(arena: Arena, rule: Option<NodeId>) returns (r: Result<ReturnRule, ParserError>)
    requires Valid(arena.nodes) && RuleOrNull(arena.nodes, rule)
    modifies arena`used
    ensures r == ReturnRuleOf(arena.nodes, rule)
    ensures arena.used == old(arena.used) + UsedBy(rule)
  {
    match rule
    case None => r := Ok(ReturnRule(false, Wildcard(), ""));
    case Some(id) =>
      var p := new RuleParser(arena, id, ReturnName, ReturnFormat);
      :- ExpectArgumentRange(p.nodes, id, ReturnFormat, 1, 2);
      var code :- p.ParseArgument(ToStatusCode);
      var parameter :- p.ParseOptionalArgument(ToText);
      r := Ok(ReturnRule(true, code, if parameter.Some? then parameter.value else ""));
  }

  /** `isRedirect`: set, with a code from 300 to 399. */
  predicate IsRedirect(r: ReturnRule): (b: bool)
    ensures b <==> r.isSet && r.statusCode != Wildcard() && 300 <= r.statusCode.value < 400
  {
    r.isSet && 300 <= r.statusCode.value < 400
  }

  /**
   * A missing return rule is never a redirect, and neither is a wildcard
   * one; a given code in the 3xx range is.
   */
  lemma RedirectOnlyWhenGiven(nodes: seq<Node>, rule: Option<NodeId>)
    requires Valid(nodes) && RuleOrNull(nodes, rule)
    requires ReturnRuleOf(nodes, rule).Ok?
    ensures rule.None? ==> !IsRedirect(ReturnRuleOf(nodes, rule).value)
    ensures rule.Some? ==> var code := ReturnRuleOf(nodes, rule).value.statusCode;
      (IsRedirect(ReturnRuleOf(nodes, rule).value) <==> code != Wildcard() && 300 <= code.value < 400)
  {
  }

  // ---------------------------------------------------------------- listen

  datatype PortRule = PortRule(isSet: bool, port: PortNumber, isDefault: DefaultVal)

  const ListenName := "listen"
  const ListenFormat := ListenName + " <port>"

  /** `PortRule(Rule*)`: unset on port 0 without a rule, else a port and an optional `default`. */
  function PortRuleOf(nodes: seq<Node>, rule: Option<NodeId>): (r: Result<PortRule, ParserError>)
    requires Valid(nodes) && RuleOrNull(nodes, rule)
    ensures rule.None? ==> r == Ok(PortRule(false, PortNumber(0), DefaultVal(false)))
    ensures rule.Some? ==> var args := ArgumentsOf(nodes, rule.value);
      (r.Ok? <==> 1 <= |args| <= 2 && ToPortNumber(args[0]).Ok? && (|args| == 2 ==> args[1].value == KeywordValue(Default)))
    ensures rule.Some? && r.Ok? ==> var args := ArgumentsOf(nodes, rule.value);
      && r.value.isSet
      && r.value.port == ToPortNumber(args[0]).value
      && (r.value.isDefault.value <==> |args| == 2)
    ensures rule.Some? && !(1 <= Arity(nodes, rule.value) <= 2) ==>
      r == Err(ArityError(nodes, rule.value, ListenFormat, "between " + NatToString(1) + " and " + NatToString(2)))
  {
    match rule
    case None => Ok(PortRule(false, PortNumber(0), DefaultVal(false)))
    case Some(id) =>
      :- ExpectArgumentRange(nodes, id, ListenFormat, 1, 2);
      var port :- Converted(nodes, id, ToPortNumber, 0);
      var isDefault :- if Arity(nodes, id) == 2 then Converted(nodes, id, ToDefaultVal, 1) else Ok(DefaultVal(false));
      Ok(PortRule(true, port, isDefault))
  }

  method ParsePortRule(arena: Arena, rule: Option<NodeId>) returns (r: Result<PortRule, ParserError>)
    requires Valid(arena.nodes) && RuleOrNull(arena.nodes, rule)
    modifies arena`used
    ensures r == PortRuleOf(arena.nodes, rule)
    ensures arena.used == old(arena.used) + UsedBy(rule)
  {
    match rule
    case None => r := Ok(PortRule(false, PortNumber(0), DefaultVal(false)));
    case Some(id) =>
      var p := new RuleParser(arena, id, ListenName, ListenFormat);
      :- ExpectArgumentRange(p.nodes, id, ListenFormat, 1, 2);
      var port :- p.ParseArgument(ToPortNumber);
      var isDefault :- p.ParseOptionalArgument(ToDefaultVal);
      r := Ok(PortRule(true, port, if isDefault.Some? then isDefault.value else DefaultVal(false)));
  }

  /** A `listen` rule with a port in range written in decimal binds that port, not as the default. */
  lemma ListenBindsPort(nodes: seq<Node>, id: NodeId, p: nat)
    requires Valid(nodes) && IsRule(nodes, id) && p <= PortMax
    requires Arity(nodes, id) == 1 && ArgumentsOf(nodes, id)[0].value == StringValue(NatToString(p))
    ensures PortRuleOf(nodes, Some(id)) == Ok(PortRule(true, PortNumber(p), DefaultVal(false)))
  {
    var a := ArgumentsOf(nodes, id)[0];
    PortRoundTrip(p, [], a.token, a.parentRule);
    assert NatToString(p) + [] == NatToString(p);
  }
}

=== FILE: cgi_extension.dfy ===
/**
 * The value side of `CgiExtensionRule` (config/rules/ruleTemplates/
 * cgiExtensionRule.cpp): the list of extensions and the test whether a
 * path names a CGI script. Reading the rule is in the Collectors module.
 */
module CgiExtensions {
  import opened Wrappers
  import opened Paths

  datatype CgiExtensionRule = CgiExtensionRule(extensions: seq<string>)

  /** `isSet`: some extension is configured. */
  predicate CgiExtensionIsSet(c: CgiExtensionRule) { c.extensions != [] }

  /** `find_first_of(c, from)`: the first position at or after `from` holding `c`. */
  function FindFrom(s: string, c: char, from: nat): (r: Option<nat>)
    ensures r.Some? ==> from <= r.value < |s| && s[r.value] == c
    ensures r.Some? ==> forall i :: from <= i < r.value ==> s[i] != c
    ensures r.None? ==> forall i :: from <= i < |s| ==> s[i] != c
    decreases |s| - from
  {
    if from >= |s| then None
    else if s[from] == c then Some(from)
    else FindFrom(s, c, from + 1)
  }

  /** `find_last_of(c, end - 1)`: the last position before `end` holding `c`. */
  function FindLastBefore(s: string, c: char, end: nat): (r: Option<nat>)
    requires end <= |s|
    ensures r.Some? ==> r.value < end && s[r.value] == c
    ensures r.Some? ==> forall i :: r.value < i < end ==> s[i] != c
    ensures r.None? ==> forall i :: 0 <= i < end ==> s[i] != c
  {
    if end == 0 then None
    else if s[end - 1] == c then Some(end - 1)
    else FindLastBefore(s, c, end - 1)
  }

  /** `k` is the first position at or after `from` holding `c`. */
  predicate FirstAt(s: string, c: char, from: nat, k: nat) {
    from <= k < |s| && s[k] == c && forall i :: from <= i < k ==> s[i] != c
  }

  /** `k` is the last position before `end` holding `c`. */
  predicate LastBeforeAt(s: string, c: char, end: nat, k: nat) {
    k < end <= |s| && s[k] == c && forall i :: k < i < end ==> s[i] != c
  }

  /** Where the extension of a file name ends: at its first '?', or at its end when it has none. */
  predicate ExtensionEnd(name: string, end: nat) {
    FirstAt(name, '?', 0, end) || (end == |name| && NoneOf(name, '?'))
  }

  /** The forward search finds exactly the first position holding `c`. */
  lemma FirstAtIsFound(s: string, c: char, from: nat)
    ensures forall k: nat :: FirstAt(s, c, from, k) <==> FindFrom(s, c, from) == Some(k)
  {
  }

  /** The backward search finds exactly the last position before `end` holding `c`. */
  lemma LastBeforeAtIsFound(s: string, c: char, end: nat)
    requires end <= |s|
    ensures forall k: nat :: LastBeforeAt(s, c, end, k) <==> FindLastBefore(s, c, end) == Some(k)
  {
    forall k: nat | LastBeforeAt(s, c, end, k) ensures FindLastBefore(s, c, end) == Some(k) {
      LastBefore(s, c, end, k);
    }
  }

  /**
   * `isCGI` as written: the search for the dot starts at the first '?' of
   * the file name, so a name without '?' never matches, and a dot found
   * after the '?' makes the length of the extension wrap around, so the
   * extension runs to the end of the name.
   */
  function IsCgiAsWritten(rule: CgiExtensionRule, path: Path): (b: bool)
    ensures var name := Filename(path);
      b <==> (rule.extensions != [] &&
              exists q: nat, dot: nat :: FirstAt(name, '?', 0, q) && FirstAt(name, '.', q, dot) && name[dot + 1..] in rule.extensions)
  {
    if rule.extensions == [] then false
    else
      var name := Filename(path);
      FirstAtIsFound(name, '?', 0);
      match FindFrom(name, '?', 0)
      case None => false
      case Some(q) =>
        FirstAtIsFound(name, '.', q);
        match FindFrom(name, '.', q)
        case None => false
        case Some(dot) => name[dot + 1..] in rule.extensions
  }

  /**
   * The check the code evidently means: the extension is the text between
   * the last dot before the query ('?') and the query, or the end of the
   * name when there is none; the path is a CGI script when it is listed.
   */
  function IsCgi(rule: CgiExtensionRule, path: Path): (b: bool)
    ensures var name := Filename(path);
      b <==> (rule.extensions != [] &&
              exists end: nat, dot: nat :: ExtensionEnd(name, end) && LastBeforeAt(name, '.', end, dot) && name[dot + 1..end] in rule.extensions)
  {
    if rule.extensions == [] then false
    else
      var name := Filename(path);
      var end := match FindFrom(name, '?', 0) case Some(q) => q case None => |name|;
      FirstAtIsFound(name, '?', 0);
      assert forall e: nat :: ExtensionEnd(name, e) <==> e == end;
      LastBeforeAtIsFound(name, '.', end);
      match FindLastBefore(name, '.', end)
      case None => false
      case Some(dot) => name[dot + 1..end] in rule.extensions
  }

  predicate NoneOf(s: string, c: char) { forall i :: 0 <= i < |s| ==> s[i] != c }

  /** As written, no path whose file name lacks a '?' is ever a CGI script. */
  lemma IsCgiAsWrittenNeedsQuery(rule: CgiExtensionRule, path: Path)
    requires NoneOf(Filename(path), '?')
    ensures !IsCgiAsWritten(rule, path)
  {
  }

  /** The file name of `dir/name` is `name`. */
  lemma FilenameOfPiece(dir: string, name: string)
    requires NoSlash(name)
    ensures Filename(FromString(dir + "/" + name)) == name
  {
    LastSlashBeforePiece(dir, name);
    assert (dir + "/" + name)[|dir| + 1..] == name;
  }

  /** A script name: `base`, a dot, `ext`, then `tail`. */
  function ScriptName(base: string, ext: string, tail: string): (name: string)
    ensures |name| == |base| + 1 + |ext| + |tail|
    ensures name[|base|] == '.'
    ensures forall i :: 0 <= i < |base| ==> name[i] == base[i]
    ensures forall i :: 0 <= i < |ext| ==> name[|base| + 1 + i] == ext[i]
    ensures forall i :: 0 <= i < |tail| ==> name[|base| + 1 + |ext| + i] == tail[i]
    ensures name[|base| + 1..|base| + 1 + |ext|] == ext
  {
    var name := base + "." + ext + tail;
    assert name[|base| + 1..|base| + 1 + |ext|] == ext;
    name
  }

  /** `c` occurs at `k` before `end` and nowhere between them: that is the last `c` before `end`. */
  lemma LastBefore(s: string, c: char, end: nat, k: nat)
    requires k < end <= |s| && s[k] == c
    requires forall i :: k < i < end ==> s[i] != c
    ensures FindLastBefore(s, c, end) == Some(k)
  {
  }

  /** The search may skip positions known not to hold `c`. */
  lemma {:induction false} FindFromSkip(s: string, c: char, from: nat, upto: nat)
    requires from <= upto <= |s| && forall i :: from <= i < upto ==> s[i] != c
    ensures FindFrom(s, c, from) == FindFrom(s, c, upto)
    decreases upto - from
  {
    if from < upto {
      FindFromSkip(s, c, from + 1, upto);
    }
  }

  /** In a script name, the last dot before the tail is the one after `base`. */
  lemma LastDotOfScript(base: string, ext: string, tail: string)
    requires NoneOf(ext, '.')
    ensures FindLastBefore(ScriptName(base, ext, tail), '.', |base| + 1 + |ext|) == Some(|base|)
  {
    var name := ScriptName(base, ext, tail);
    forall i | |base| < i < |base| + 1 + |ext| ensures name[i] != '.' {
      assert name[|base| + 1 + (i - |base| - 1)] == ext[i - |base| - 1];
    }
    LastBefore(name, '.', |base| + 1 + |ext|, |base|);
  }

  /** In a script name, the search for '?' starts over at the tail. */
  lemma FirstQueryOfScript(base: string, ext: string, tail: string)
    requires NoneOf(base, '?') && NoneOf(ext, '?')
    ensures FindFrom(ScriptName(base, ext, tail), '?', 0) == FindFrom(ScriptName(base, ext, tail), '?', |base| + 1 + |ext|)
  {
    NoQueryBeforeTail(base, ext, tail);
    FindFromSkip(ScriptName(base, ext, tail), '?', 0, |base| + 1 + |ext|);
  }

  /** A script name has no '?' before its tail when its base and extension have none. */
  lemma NoQueryBeforeTail(base: string, ext: string, tail: string)
    requires NoneOf(base, '?') && NoneOf(ext, '?')
    ensures forall i :: 0 <= i < |base| + 1 + |ext| ==> ScriptName(base, ext, tail)[i] != '?'
  {
    var name := ScriptName(base, ext, tail);
    forall i | 0 <= i < |base| + 1 + |ext| ensures name[i] != '?' {
      if |base| < i {
        assert name[|base| + 1 + (i - |base| - 1)] == ext[i - |base| - 1];
      } else if i < |base| {
        assert name[i] == base[i];
      }
    }
  }

  /** A script name with a tail `?query` or no tail has no '/' when its parts have none. */
  lemma ScriptNameNoSlash(base: string, ext: string, tail: string)
    requires NoSlash(base) && NoSlash(ext) && NoSlash(tail)
    ensures NoSlash(ScriptName(base, ext, tail))
  {
    var name := ScriptName(base, ext, tail);
    forall i | 0 <= i < |name| ensures name[i] != '/' {
      if |base| < i < |base| + 1 + |ext| {
        assert name[|base| + 1 + (i - |base| - 1)] == ext[i - |base| - 1];
      } else if |base| + 1 + |ext| <= i {
        assert name[|base| + 1 + |ext| + (i - |base| - 1 - |ext|)] == tail[i - |base| - 1 - |ext|];
      }
    }
  }

  /** Where the intended check ends the extension: at the tail's '?', or at the end of a name without tail. */
  lemma QueryEnd(base: string, ext: string, tail: string)
    requires NoneOf(base, '?') && NoneOf(ext, '?')
    requires tail == [] || tail[0] == '?'
    ensures FindFrom(ScriptName(base, ext, tail), '?', 0) ==
      (if tail == [] then None else Some(|base| + 1 + |ext|))
  {
    FirstQueryOfScript(base, ext, tail);
    if tail != [] {
      assert ScriptName(base, ext, tail)[|base| + 1 + |ext| + 0] == tail[0];
    }
  }

  /**
   * With the intended check, a script `dir/base.ext`, with or without a
   * query after it, is a CGI script exactly when `ext` is listed.
   */
  lemma IsCgiByExtension(rule: CgiExtensionRule, dir: string, base: string, ext: string, tail: string)
    requires NoSlash(base) && NoneOf(base, '?')
    requires NoSlash(ext) && NoneOf(ext, '?') && NoneOf(ext, '.')
    requires NoSlash(tail) && (tail == [] || tail[0] == '?')
    ensures IsCgi(rule, FromString(dir + "/" + ScriptName(base, ext, tail))) <==> ext in rule.extensions
  {
    var name := ScriptName(base, ext, tail);
    ScriptNameNoSlash(base, ext, tail);
    FilenameOfPiece(dir, name);
    QueryEnd(base, ext, tail);
    LastDotOfScript(base, ext, tail);
  }

  /**
   * As written, the check misses the most common case: a plain script
   * `dir/base.ext` (`/cgi-bin/test.py`, say) with a listed extension is not
   * a CGI script, while the intended check accepts it.
   */
  lemma IsCgiAsWrittenMissesPlainScript(rule: CgiExtensionRule, dir: string, base: string, ext: string)
    requires NoSlash(base) && NoneOf(base, '?')
    requires NoSlash(ext) && NoneOf(ext, '?') && NoneOf(ext, '.')
    requires ext in rule.extensions
    ensures !IsCgiAsWritten(rule, FromString(dir + "/" + ScriptName(base, ext, "")))
    ensures IsCgi(rule, FromString(dir + "/" + ScriptName(base, ext, "")))
  {
    var name := ScriptName(base, ext, "");
    IsCgiByExtension(rule, dir, base, ext, "");
    QueryEnd(base, ext, "");
    ScriptNameNoSlash(base, ext, "");
    FilenameOfPiece(dir, name);
    IsCgiAsWrittenNeedsQuery(rule, FromString(dir + "/" + name));
  }
}

=== FILE: collectors.dfy ===
/**
 * The directive binders of config/rules/ruleTemplates that collect every
 * rule found for their key: error pages, allowed methods, index files and
 * CGI extensions. Each rule is read in turn through a fresh argument
 * binder, and the results accumulate in rule order.
 */
module Collectors {
  import opened Wrappers
  import opened Strings
  import opened ConfigTypes
  import opened Document
  import opened Diagnostics
  import opened Converters
  import opened CustomTypes
  import opened Paths
  import opened Consts
  import opened RuleParsing
  import opened CgiExtensions

  /**
   * `create(rule).expectMinNumArguments(1).parseAll(target)` on an empty
   * target: at least one argument, and all of them converted in order.
   */
  function EveryArgument<T>(nodes: seq<Node>, id: NodeId, format: string, convert: Argument -> Result<T, Complaint>): (r: Result<seq<T>, ParserError>)
    requires Valid(nodes) && IsRule(nodes, id)
    ensures r.Ok? <==> Arity(nodes, id) >= 1 && forall i :: 0 <= i < Arity(nodes, id) ==> convert(ArgumentsOf(nodes, id)[i]).Ok?
    ensures r.Ok? ==> |r.value| == Arity(nodes, id)
    ensures r.Ok? ==> forall i :: 0 <= i < Arity(nodes, id) ==> convert(ArgumentsOf(nodes, id)[i]) == Ok(r.value[i])
    ensures Arity(nodes, id) == 0 ==> r == Err(ArityError(nodes, id, format, "at least " + NatToString(1)))
  {
    match ExpectMinNumArguments(nodes, id, format, 1)
    case Fail(e) => Err(e)
    case Pass =>
      ConvertRange(nodes, id, convert, 0, Arity(nodes, id))
  }

  /** The chain `EveryArgument` describes, appending to `target`, run on a fresh argument binder. */
  method ParseEveryArgument<T>(arena: Arena, id: NodeId, name: string, format: string, target: seq<T>, convert: Argument -> Result<T, Complaint>)
    returns (r: Result<seq<T>, ParserError>)
    requires Valid(arena.nodes) && IsRule(arena.nodes, id)
    modifies arena`used
    ensures var all := EveryArgument(arena.nodes, id, format, convert);
      && (r.Ok? <==> all.Ok?)
      && (r.Ok? ==> r.value == target + all.value)
      && (r.Err? ==> r.error == all.error)
    ensures arena.used == old(arena.used) + {id}
  {
    var p := new RuleParser(arena, id, name, format);
    :- ExpectMinNumArguments(p.nodes, id, format, 1);
    r := p.ParseAll(target, convert);
  }

  /** The members of a list, as a set. */
  function Elements<T(!new)>(ids: seq<T>): (s: set<T>)
    ensures forall x :: x in s <==> x in ids
  {
    set x | x in ids
  }

  lemma ElementsStep<T(!new)>(ids: seq<T>, i: nat)
    requires i < |ids|
    ensures Elements(ids[..i + 1]) == Elements(ids[..i]) + {ids[i]}
  {
    assert ids[..i + 1] == ids[..i] + [ids[i]];
  }

  // ---------------------------------------------------------------- error_page

  /** Status codes mapped to page paths. */
  datatype ErrorPageRule = ErrorPageRule(errorPages: map<StatusCode, Path>)

  const ErrorPageName := "error_page"
  const ErrorPageFormat := ErrorPageName + " <status_code> <path>"

  /** Assigning `path` to each code of `codes` in turn. */
  function MapCodes(pages: map<StatusCode, Path>, codes: seq<StatusCode>, path: Path): (r: map<StatusCode, Path>)
    ensures r.Keys == pages.Keys + Elements(codes)
    ensures forall c :: c in codes ==> r[c] == path
    ensures forall c :: c in pages && c !in codes ==> r[c] == pages[c]
    decreases |codes|
  {
    if codes == [] then pages
    else MapCodes(pages[codes[0] := path], codes[1..], path)
  }

  /** The loop of `_addSingleRule`: every code maps to the path, overwriting what was there. */
  method AssignCodes(pages: map<StatusCode, Path>, codes: seq<StatusCode>, path: Path) returns (result: map<StatusCode, Path>)
    ensures result == MapCodes(pages, codes, path)
  {
    result := pages;
    for i := 0 to |codes|
      invariant MapCodes(pages, codes, path) == MapCodes(result, codes[i..], path)
    {
      assert codes[i..][1..] == codes[i + 1..];
      result := result[codes[i] := path];
    }
  }

  /** The page of an error_page rule: its last argument, as a path. */
  function PagePath(nodes: seq<Node>, id: NodeId): Path
    requires Valid(nodes) && IsRule(nodes, id) && Arity(nodes, id) > 0
  {
    var a := ArgumentsOf(nodes, id)[Arity(nodes, id) - 1];
    if a.value.StringValue? then FromString(a.value.text) else Dummy
  }

  /** Rule `id` lists code `c` among the arguments before its last one. */
  predicate Lists(nodes: seq<Node>, id: NodeId, c: StatusCode)
    requires Valid(nodes) && IsRule(nodes, id)
  {
    exists i :: 0 <= i < Arity(nodes, id) - 1 && ToStatusCode(ArgumentsOf(nodes, id)[i]) == Ok(c)
  }

  /**
   * The reading part of `_addSingleRule`: at least two arguments, all but
   * the last read as status codes and the last as a path.
   */
  function PageArguments(nodes: seq<Node>, id: NodeId): (r: Result<(seq<StatusCode>, Path), ParserError>)
    requires Valid(nodes) && IsRule(nodes, id)
    ensures r.Ok? ==> Arity(nodes, id) >= 2 && r.value.1 == PagePath(nodes, id)
    ensures r.Ok? ==> ConvertRange(nodes, id, ToStatusCode, 0, Arity(nodes, id) - 1) == Ok(r.value.0)
    ensures Arity(nodes, id) < 2 ==> r == Err(ArityError(nodes, id, ErrorPageFormat, "at least " + NatToString(2)))
  {
    match ExpectMinNumArguments(nodes, id, ErrorPageFormat, 2)
    case Fail(e) => Err(e)
    case Pass =>
      var n := Arity(nodes, id);
      var codes :- ConvertRange(nodes, id, ToStatusCode, 0, n - 1);
      var path :- Converted(nodes, id, ToPath, n - 1);
      Ok((codes, path))
  }

  /** An error_page rule reads exactly when it has two arguments or more, codes before a string. */
  lemma PageArgumentsOk(nodes: seq<Node>, id: NodeId)
    requires Valid(nodes) && IsRule(nodes, id)
    ensures var args := ArgumentsOf(nodes, id);
      (PageArguments(nodes, id).Ok? <==> (|args| >= 2 && args[|args| - 1].value.StringValue? &&
        forall i :: 0 <= i < |args| - 1 ==> ToStatusCode(args[i]).Ok?))
  {
  }

  /** The codes a rule lists are the ones its arguments read as. */
  lemma ListedCodes(nodes: seq<Node>, id: NodeId, codes: seq<StatusCode>)
    requires Valid(nodes) && IsRule(nodes, id) && Arity(nodes, id) >= 1
    requires ConvertRange(nodes, id, ToStatusCode, 0, Arity(nodes, id) - 1) == Ok(codes)
    ensures forall c :: Lists(nodes, id, c) <==> c in codes
  {
    forall c ensures Lists(nodes, id, c) <==> c in codes {
      if c in codes {
        var i :| 0 <= i < |codes| && codes[i] == c;
        assert ToStatusCode(ArgumentsOf(nodes, id)[i]) == Ok(c);
      }
    }
  }

  /**
   * `_addSingleRule` on the map `pages`: every code the rule lists maps to
   * its page, overwriting what was there, and nothing else changes.
   */
  function SingleRulePages(nodes: seq<Node>, pages: map<StatusCode, Path>, id: NodeId): (r: Result<map<StatusCode, Path>, ParserError>)
    requires Valid(nodes) && IsRule(nodes, id)
    ensures r.Ok? <==> PageArguments(nodes, id).Ok?
    ensures r.Err? ==> r.error == PageArguments(nodes, id).error
    ensures r.Ok? ==> forall c :: Lists(nodes, id, c) ==> c in r.value && r.value[c] == PagePath(nodes, id)
    ensures r.Ok? ==> forall c :: c in pages && !Lists(nodes, id, c) ==> c in r.value && r.value[c] == pages[c]
    ensures r.Ok? ==> forall c :: c in r.value ==> c in pages || Lists(nodes, id, c)
  {
    var args :- PageArguments(nodes, id);
    ListedCodes(nodes, id, args.0);
    Ok(MapCodes(pages, args.0, args.1))
  }

  /** `_addSingleRule`: reads the rule through a fresh argument binder, then assigns the codes one by one. */
  method AddSingleRule(arena: Arena, pages: map<StatusCode, Path>, id: NodeId) returns (r: Result<map<StatusCode, Path>, ParserError>)
    requires Valid(arena.nodes) && IsRule(arena.nodes, id)
    modifies arena`used
    ensures r == SingleRulePages(arena.nodes, pages, id)
    ensures arena.used == old(arena.used) + {id}
  {
    var p := new RuleParser(arena, id, ErrorPageName, ErrorPageFormat);
    var enough := ExpectMinNumArguments(p.nodes, id, ErrorPageFormat, 2);
    if enough.Fail? {
      assert PageArguments(arena.nodes, id) == Err(enough.error);
      return Err(enough.error);
    }
    var codes := p.ParseAllButX([], ToStatusCode, 1);
    if codes.Err? {
      assert PageArguments(arena.nodes, id) == Err(codes.error);
      return Err(codes.error);
    }
    assert codes.value == ConvertRange(p.nodes, id, ToStatusCode, 0, Arity(p.nodes, id) - 1).value;
    var path := p.ParseArgument(ToPath);
    if path.Err? {
      assert PageArguments(arena.nodes, id) == Err(path.error);
      return Err(path.error);
    }
    assert PageArguments(arena.nodes, id) == Ok((codes.value, path.value));
    var result := AssignCodes(pages, codes.value, path.value);
    r := Ok(result);
  }

  /** Applying `_addSingleRule` for each rule in order, starting from `pages`. */
  function PagesFrom(nodes: seq<Node>, pages: map<StatusCode, Path>, rules: seq<NodeId>): Result<map<StatusCode, Path>, ParserError>
    requires Valid(nodes) && AllRules(nodes, rules)
    decreases |rules|
  {
    if rules == [] then Ok(pages)
    else
      var next :- SingleRulePages(nodes, pages, rules[0]);
      PagesFrom(nodes, next, rules[1..])
  }

  /** `ErrorPageRule(rules)`: the map built from all rules, starting empty. */
  function ErrorPageRuleOf(nodes: seq<Node>, rules: seq<NodeId>): (r: Result<ErrorPageRule, ParserError>)
    requires Valid(nodes) && AllRules(nodes, rules)
    ensures r.Ok? <==> PagesReadable(nodes, rules)
    ensures r.Ok? ==> forall c :: c in r.value.errorPages <==> LastLister(nodes, rules, c).Some?
    ensures r.Ok? ==> forall c :: c in r.value.errorPages ==>
      r.value.errorPages[c] == PagePath(nodes, rules[LastLister(nodes, rules, c).value])
  {
    PagesFromOk(nodes, map[], rules);
    match PagesFrom(nodes, map[], rules)
    case Err(e) => Err(e)
    case Ok(pages) =>
      PagesOfLastListers(nodes, rules);
      Ok(ErrorPageRule(pages))
  }

  method ParseErrorPageRule(arena: Arena, rules: seq<NodeId>) returns (r: Result<ErrorPageRule, ParserError>)
    requires Valid(arena.nodes) && AllRules(arena.nodes, rules)
    modifies arena`used
    ensures r == ErrorPageRuleOf(arena.nodes, rules)
    ensures r.Ok? ==> arena.used == old(arena.used) + Elements(rules)
    ensures old(arena.used) <= arena.used <= old(arena.used) + Elements(rules)
  {
    var pages := map[];
    for i := 0 to |rules|
      invariant PagesFrom(arena.nodes, map[], rules) == PagesFrom(arena.nodes, pages, rules[i..])
      invariant arena.used == old(arena.used) + Elements(rules[..i])
    {
      assert rules[i..][1..] == rules[i + 1..];
      ElementsStep(rules, i);
      pages :- AddSingleRule(arena, pages, rules[i]);
    }
    assert rules[..|rules|] == rules;
    return Ok(ErrorPageRule(pages));
  }

  /** `isSet`: some page is configured. */
  predicate ErrorPagesSet(e: ErrorPageRule) {
    e.errorPages != map[]
  }

  /** `getErrorPage`: the page for the code, else the wildcard's page, else the empty string. */
  function GetErrorPage(e: ErrorPageRule, code: StatusCode): (page: string)
    ensures code in e.errorPages ==> page == e.errorPages[code].text
    ensures page != "" ==> exists c :: c in e.errorPages && (c == code || c == Wildcard()) && page == e.errorPages[c].text
    ensures code !in e.errorPages && Wildcard() in e.errorPages ==> page == e.errorPages[Wildcard()].text
    ensures code !in e.errorPages && Wildcard() !in e.errorPages ==> page == ""
  {
    if code in e.errorPages then e.errorPages[code].text
    else if Wildcard() in e.errorPages then e.errorPages[Wildcard()].text
    else ""
  }

  /** The position of the last rule in `rules` that lists `c`. */
  function LastLister(nodes: seq<Node>, rules: seq<NodeId>, c: StatusCode): (r: Option<nat>)
    requires Valid(nodes) && AllRules(nodes, rules)
    ensures r.Some? ==> r.value < |rules| && Lists(nodes, rules[r.value], c)
    ensures r.Some? ==> forall j :: r.value < j < |rules| ==> !Lists(nodes, rules[j], c)
    ensures r.None? ==> forall j :: 0 <= j < |rules| ==> !Lists(nodes, rules[j], c)
    decreases |rules|
  {
    if rules == [] then None
    else
      var rest := LastLister(nodes, rules[1..], c);
      assert forall j :: 1 <= j < |rules| ==> rules[j] == rules[1..][j - 1];
      if rest.Some? then Some(rest.value + 1)
      else if Lists(nodes, rules[0], c) then Some(0)
      else None
  }

  /**
   * Later rules overwrite earlier ones: a code maps to the page of the
   * last rule that lists it, and a code no rule lists keeps its entry.
   */
  lemma {:induction false} PagesLastWins(nodes: seq<Node>, pages: map<StatusCode, Path>, rules: seq<NodeId>, c: StatusCode)
    requires Valid(nodes) && AllRules(nodes, rules)
    requires PagesFrom(nodes, pages, rules).Ok?
    ensures var result := PagesFrom(nodes, pages, rules).value;
      match LastLister(nodes, rules, c)
      case Some(j) => c in result && result[c] == PagePath(nodes, rules[j])
      case None => (c in result <==> c in pages) && (c in pages ==> result[c] == pages[c])
    decreases |rules|
  {
    if rules != [] {
      var next := SingleRulePages(nodes, pages, rules[0]).value;
      PagesLastWins(nodes, next, rules[1..], c);
      assert forall j :: 1 <= j < |rules| ==> rules[j] == rules[1..][j - 1];
    }
  }

  /** Read from no pages, a code has a page exactly when some rule lists it, and it is the last such rule's page. */
  lemma PagesOfLastListers(nodes: seq<Node>, rules: seq<NodeId>)
    requires Valid(nodes) && AllRules(nodes, rules)
    requires PagesFrom(nodes, map[], rules).Ok?
    ensures var pages := PagesFrom(nodes, map[], rules).value;
      forall c :: (c in pages <==> LastLister(nodes, rules, c).Some?) &&
        (c in pages ==> pages[c] == PagePath(nodes, rules[LastLister(nodes, rules, c).value]))
  {
    forall c {
      PagesLastWins(nodes, map[], rules, c);
    }
  }

  /**
   * What `getErrorPage` returns once all rules are read: the page of the
   * last rule listing the code; failing that, the page of the last rule
   * listing the wildcard; failing that, the empty string.
   */
  lemma ErrorPageForCode(nodes: seq<Node>, rules: seq<NodeId>, code: StatusCode)
    requires Valid(nodes) && AllRules(nodes, rules)
    requires ErrorPageRuleOf(nodes, rules).Ok?
    ensures var page := GetErrorPage(ErrorPageRuleOf(nodes, rules).value, code);
      match LastLister(nodes, rules, code)
      case Some(j) => page == PagePath(nodes, rules[j]).text
      case None =>
        match LastLister(nodes, rules, Wildcard())
        case Some(j) => page == PagePath(nodes, rules[j]).text
        case None => page == ""
  {
    PagesLastWins(nodes, map[], rules, code);
    PagesLastWins(nodes, map[], rules, Wildcard());
  }

  /** Every rule of `rules` reads: codes before a path, at least two arguments. */
  predicate PagesReadable(nodes: seq<Node>, rules: seq<NodeId>)
    requires Valid(nodes) && AllRules(nodes, rules)
  {
    forall j :: 0 <= j < |rules| ==> PageArguments(nodes, rules[j]).Ok?
  }

  lemma PagesReadableCons(nodes: seq<Node>, rules: seq<NodeId>)
    requires Valid(nodes) && AllRules(nodes, rules) && rules != []
    ensures AllRules(nodes, rules[1..])
    ensures PagesReadable(nodes, rules) <==> PageArguments(nodes, rules[0]).Ok? && PagesReadable(nodes, rules[1..])
  {
    assert forall j :: 1 <= j < |rules| ==> rules[j] == rules[1..][j - 1];
  }

  /** Reading the rules succeeds exactly when every rule reads. */
  lemma {:induction false} PagesFromOk(nodes: seq<Node>, pages: map<StatusCode, Path>, rules: seq<NodeId>)
    requires Valid(nodes) && AllRules(nodes, rules)
    ensures PagesFrom(nodes, pages, rules).Ok? <==> PagesReadable(nodes, rules)
    decreases |rules|
  {
    if rules != [] {
      var rest := rules[1..];
      assert AllRules(nodes, rest);
      var first := SingleRulePages(nodes, pages, rules[0]);
      if first.Ok? {
        PagesFromOk(nodes, first.value, rest);
      }
      PagesReadableCons(nodes, rules);
    }
  }

  /**
   * The error pages are read when every rule has at least two arguments,
   * codes before a path; they are then set exactly when some rule was given.
   */
  lemma ErrorPagesSetIffRules(nodes: seq<Node>, rules: seq<NodeId>)
    requires Valid(nodes) && AllRules(nodes, rules)
    ensures ErrorPageRuleOf(nodes, rules).Ok? <==> PagesReadable(nodes, rules)
    ensures ErrorPageRuleOf(nodes, rules).Ok? ==> (ErrorPagesSet(ErrorPageRuleOf(nodes, rules).value) <==> rules != [])
  {
    PagesFromOk(nodes, map[], rules);
    if ErrorPageRuleOf(nodes, rules).Ok? && rules != [] {
      var c := ToStatusCode(ArgumentsOf(nodes, rules[0])[0]).value;
      assert Lists(nodes, rules[0], c);
      PagesLastWins(nodes, map[], rules, c);
    }
  }

  // ---------------------------------------------------------------- allowed_methods

  datatype MethodsRule = MethodsRule(isSet: bool, methods: MethodSet)

  const AllowedMethodsDefault: MethodSet := Get
  const AllowedMethodsName := "allowed_methods"
  const AllowedMethodsFormat := AllowedMethodsName + " <method1> [<method2> ...]"

  /** `MethodsRule()`: unset, allowing GET only. */
  const DefaultMethodsRule := MethodsRule(false, AllowedMethodsDefault)

  /** Adding each method of `ms` to `acc` in turn (`method | _methods`). */
  function AddMethods(acc: MethodSet, ms: seq<MethodSet>): MethodSet
    decreases |ms|
  {
    if ms == [] then acc
    else AddMethods(Union(ms[0], acc), ms[1..])
  }

  /** A single method shares a bit with method `k` exactly when it is method `k`. */
  lemma SameBit(m: MethodSet, k: nat)
    requires m in MethodBits && k < |MethodBits|
    ensures m & MethodBits[k] != 0 <==> m == MethodBits[k]
  {
  }

  /** Method `k` is in the result exactly when it was in `acc` or is one of `ms`. */
  lemma {:induction false} AddMethodsBit(acc: MethodSet, ms: seq<MethodSet>, k: nat)
    requires k < |MethodBits| && forall i :: 0 <= i < |ms| ==> ms[i] in MethodBits
    ensures AddMethods(acc, ms) & MethodBits[k] != 0 <==> acc & MethodBits[k] != 0 || MethodBits[k] in ms
    decreases |ms|
  {
    if ms != [] {
      AddMethodsBit(Union(ms[0], acc), ms[1..], k);
      SameBit(ms[0], k);
      assert ms == [ms[0]] + ms[1..];
    }
  }

  /** Reading one rule: its methods join the set, and the rule counts as set once a method was read. */
  function MethodsStep(nodes: seq<Node>, acc: MethodsRule, id: NodeId): Result<MethodsRule, ParserError>
    requires Valid(nodes) && IsRule(nodes, id)
  {
    var ms :- EveryArgument(nodes, id, AllowedMethodsFormat, ToMethod);
    Ok(MethodsRule(acc.isSet || ms != [], AddMethods(acc.methods, ms)))
  }

  /** The inner loop of the constructor: each method read joins the set and marks the rule set. */
  method AddEach(acc: MethodsRule, ms: seq<MethodSet>) returns (m: MethodsRule)
    ensures m == MethodsRule(acc.isSet || ms != [], AddMethods(acc.methods, ms))
  {
    m := acc;
    for i := 0 to |ms|
      invariant AddMethods(acc.methods, ms) == AddMethods(m.methods, ms[i..])
      invariant m.isSet == (acc.isSet || i > 0)
    {
      assert ms[i..][1..] == ms[i + 1..];
      m := MethodsRule(true, ms[i] | m.methods);
    }
  }

  /** One pass of the constructor's outer loop. */
  method ParseMethodsStep(arena: Arena, acc: MethodsRule, id: NodeId) returns (r: Result<MethodsRule, ParserError>)
    requires Valid(arena.nodes) && IsRule(arena.nodes, id)
    modifies arena`used
    ensures r == MethodsStep(arena.nodes, acc, id)
    ensures arena.used == old(arena.used) + {id}
  {
    var ms :- ParseEveryArgument(arena, id, AllowedMethodsName, AllowedMethodsFormat, [], ToMethod);
    assert ms == EveryArgument(arena.nodes, id, AllowedMethodsFormat, ToMethod).value;
    var m := AddEach(acc, ms);
    r := Ok(m);
  }

  /** Reading each rule's methods in order into the running flag and set. */
  function MethodsFrom(nodes: seq<Node>, acc: MethodsRule, rules: seq<NodeId>): Result<MethodsRule, ParserError>
    requires Valid(nodes) && AllRules(nodes, rules)
    decreases |rules|
  {
    if rules == [] then Ok(acc)
    else
      var next :- MethodsStep(nodes, acc, rules[0]);
      MethodsFrom(nodes, next, rules[1..])
  }

  /** Every rule of `rules` has at least one argument, and each names a method. */
  predicate MethodsReadable(nodes: seq<Node>, rules: seq<NodeId>)
    requires Valid(nodes) && AllRules(nodes, rules)
  {
    forall j :: 0 <= j < |rules| ==> EveryArgument(nodes, rules[j], AllowedMethodsFormat, ToMethod).Ok?
  }

  /** Reading the methods succeeds exactly when every rule reads. */
  lemma {:induction false} MethodsFromOk(nodes: seq<Node>, acc: MethodsRule, rules: seq<NodeId>)
    requires Valid(nodes) && AllRules(nodes, rules)
    ensures MethodsFrom(nodes, acc, rules).Ok? <==> MethodsReadable(nodes, rules)
    decreases |rules|
  {
    if rules != [] {
      assert forall j :: 1 <= j < |rules| ==> rules[j] == rules[1..][j - 1];
      var first := MethodsStep(nodes, acc, rules[0]);
      if first.Ok? {
        MethodsFromOk(nodes, first.value, rules[1..]);
      }
    }
  }

  /** Rule `j` is the first of `rules` that does not read, and `e` is its error. */
  predicate FirstMethodsError(nodes: seq<Node>, rules: seq<NodeId>, j: nat, e: ParserError)
    requires Valid(nodes) && AllRules(nodes, rules)
  {
    && j < |rules| && MethodsReadable(nodes, rules[..j])
    && EveryArgument(nodes, rules[j], AllowedMethodsFormat, ToMethod) == Err(e)
  }

  /** `e` is the error of the first rule of `rules` that does not read. */
  predicate MethodsFailAtFirst(nodes: seq<Node>, rules: seq<NodeId>, e: ParserError)
    requires Valid(nodes) && AllRules(nodes, rules)
  {
    exists j: nat :: j < |rules| && FirstMethodsError(nodes, rules, j, e)
  }

  /** Rules `0..j+1` read when the first one does and rules `1..j+1` do. */
  lemma MethodsReadableCons(nodes: seq<Node>, rules: seq<NodeId>, j: nat)
    requires Valid(nodes) && AllRules(nodes, rules) && j < |rules|
    requires AllRules(nodes, rules[1..][..j]) && MethodsReadable(nodes, rules[1..][..j])
    requires EveryArgument(nodes, rules[0], AllowedMethodsFormat, ToMethod).Ok?
    ensures AllRules(nodes, rules[..j + 1]) && MethodsReadable(nodes, rules[..j + 1])
  {
    assert rules[..j + 1] == [rules[0]] + rules[1..][..j];
  }

  /** A failed read stops at the first rule that does not read, with that rule's error. */
  lemma {:induction false} MethodsFromFails(nodes: seq<Node>, acc: MethodsRule, rules: seq<NodeId>)
    requires Valid(nodes) && AllRules(nodes, rules)
    requires MethodsFrom(nodes, acc, rules).Err?
    ensures MethodsFailAtFirst(nodes, rules, MethodsFrom(nodes, acc, rules).error)
    decreases |rules|
  {
    var e := MethodsFrom(nodes, acc, rules).error;
    var first := MethodsStep(nodes, acc, rules[0]);
    if first.Err? {
      assert FirstMethodsError(nodes, rules, 0, e);
    } else {
      var rest := rules[1..];
      assert AllRules(nodes, rest);
      MethodsFromFails(nodes, first.value, rest);
      var j: nat :| j < |rest| && FirstMethodsError(nodes, rest, j, e);
      assert rest[j] == rules[j + 1];
      MethodsReadableCons(nodes, rules, j);
      assert FirstMethodsError(nodes, rules, j + 1, e);
    }
  }

  /**
   * `MethodsRule(rules)`: the union of all methods given, or the default
   * when none was; it fails with the first rule that does not read.
   */
  function MethodsRuleOf(nodes: seq<Node>, rules: seq<NodeId>): (r: Result<MethodsRule, ParserError>)
    requires Valid(nodes) && AllRules(nodes, rules)
    ensures r.Ok? && !r.value.isSet ==> r.value == DefaultMethodsRule
    ensures r.Ok? <==> MethodsReadable(nodes, rules)
    ensures r.Err? ==> MethodsFailAtFirst(nodes, rules, r.error)
  {
    var none := MethodsRule(false, UnknownMethod);
    MethodsFromOk(nodes, none, rules);
    var m := MethodsFrom(nodes, none, rules);
    if m.Err? then
      MethodsFromFails(nodes, none, rules);
      Err(m.error)
    else
      Ok(if m.value.isSet then m.value else DefaultMethodsRule)
  }

  method ParseMethodsRule(arena: Arena, rules: seq<NodeId>) returns (r: Result<MethodsRule, ParserError>)
    requires Valid(arena.nodes) && AllRules(arena.nodes, rules)
    modifies arena`used
    ensures r == MethodsRuleOf(arena.nodes, rules)
    ensures r.Ok? ==> arena.used == old(arena.used) + Elements(rules)
    ensures old(arena.used) <= arena.used <= old(arena.used) + Elements(rules)
  {
    var acc := MethodsRule(false, UnknownMethod);
    for i := 0 to |rules|
      invariant MethodsFrom(arena.nodes, MethodsRule(false, UnknownMethod), rules) == MethodsFrom(arena.nodes, acc, rules[i..])
      invariant arena.used == old(arena.used) + Elements(rules[..i])
    {
      assert rules[i..][1..] == rules[i + 1..];
      ElementsStep(rules, i);
      acc :- ParseMethodsStep(arena, acc, rules[i]);
    }
    assert rules[..|rules|] == rules;
    if !acc.isSet {
      acc := acc.(methods := AllowedMethodsDefault);
    }
    return Ok(acc);
  }

  /** `isAllowed`: the set shares a method with `requested`. */
  predicate IsAllowed(m: MethodsRule, requested: MethodSet): (b: bool)
    ensures requested in MethodBits ==> (b <==> m.methods & requested == requested)
    ensures forall k :: 0 <= k < |MethodBits| && m.methods & MethodBits[k] != 0 && requested & MethodBits[k] != 0 ==> b
    ensures b ==> requested != UnknownMethod && m.methods != UnknownMethod
  {
    m.methods & requested != UnknownMethod
  }

  /** Some argument of rule `id` names method `m`. */
  predicate NamedIn(nodes: seq<Node>, id: NodeId, m: MethodSet)
    requires Valid(nodes) && IsRule(nodes, id)
  {
    exists i :: 0 <= i < Arity(nodes, id) && ToMethod(ArgumentsOf(nodes, id)[i]) == Ok(m)
  }

  /** Some rule of `rules` names method `m`. */
  predicate Named(nodes: seq<Node>, rules: seq<NodeId>, m: MethodSet)
    requires Valid(nodes) && AllRules(nodes, rules)
  {
    exists j :: 0 <= j < |rules| && NamedIn(nodes, rules[j], m)
  }

  /** Reading one rule adds exactly the methods it names, and sets the flag. */
  lemma MethodsStepNamed(nodes: seq<Node>, acc: MethodsRule, id: NodeId, k: nat)
    requires Valid(nodes) && IsRule(nodes, id) && k < |MethodBits|
    requires MethodsStep(nodes, acc, id).Ok?
    ensures var m := MethodsStep(nodes, acc, id).value;
      && (m.methods & MethodBits[k] != 0 <==> acc.methods & MethodBits[k] != 0 || NamedIn(nodes, id, MethodBits[k]))
      && m.isSet
  {
    var ms := EveryArgument(nodes, id, AllowedMethodsFormat, ToMethod).value;
    AddMethodsBit(acc.methods, ms, k);
    MethodsRead(nodes, id, ms, MethodBits[k]);
  }

  /** The methods read from a rule are the ones its arguments name. */
  lemma MethodsRead(nodes: seq<Node>, id: NodeId, ms: seq<MethodSet>, m: MethodSet)
    requires Valid(nodes) && IsRule(nodes, id)
    requires EveryArgument(nodes, id, AllowedMethodsFormat, ToMethod) == Ok(ms)
    ensures m in ms <==> NamedIn(nodes, id, m)
  {
    assert forall i :: 0 <= i < |ms| ==> ToMethod(ArgumentsOf(nodes, id)[i]) == Ok(ms[i]);
    if NamedIn(nodes, id, m) {
      var i :| 0 <= i < Arity(nodes, id) && ToMethod(ArgumentsOf(nodes, id)[i]) == Ok(m);
      assert ms[i] == m;
    }
  }

  /** A method is named by a list of rules when the first names it or the rest do. */
  lemma NamedCons(nodes: seq<Node>, rules: seq<NodeId>, m: MethodSet)
    requires Valid(nodes) && AllRules(nodes, rules) && rules != []
    ensures Named(nodes, rules, m) <==> NamedIn(nodes, rules[0], m) || Named(nodes, rules[1..], m)
  {
    if Named(nodes, rules, m) {
      var j :| 0 <= j < |rules| && NamedIn(nodes, rules[j], m);
      if j > 0 {
        assert rules[1..][j - 1] == rules[j];
      }
    }
    if Named(nodes, rules[1..], m) {
      var j :| 0 <= j < |rules[1..]| && NamedIn(nodes, rules[1..][j], m);
      assert rules[j + 1] == rules[1..][j];
    }
  }

  /** What reading the rules adds: the methods they name, and the flag once any rule is read. */
  lemma {:induction false} MethodsFromNamed(nodes: seq<Node>, acc: MethodsRule, rules: seq<NodeId>, k: nat)
    requires Valid(nodes) && AllRules(nodes, rules) && k < |MethodBits|
    requires MethodsFrom(nodes, acc, rules).Ok?
    ensures var m := MethodsFrom(nodes, acc, rules).value;
      && (m.methods & MethodBits[k] != 0 <==> acc.methods & MethodBits[k] != 0 || Named(nodes, rules, MethodBits[k]))
      && (m.isSet <==> acc.isSet || rules != [])
    decreases |rules|
  {
    if rules != [] {
      var next := MethodsStep(nodes, acc, rules[0]).value;
      MethodsStepNamed(nodes, acc, rules[0], k);
      assert AllRules(nodes, rules[1..]);
      MethodsFromNamed(nodes, next, rules[1..], k);
      NamedCons(nodes, rules, MethodBits[k]);
    }
  }

  /**
   * Once all rules are read, method `k` is allowed exactly when some rule
   * names it; with no rule at all, only GET is allowed and the rule is unset.
   */
  lemma MethodsAllowed(nodes: seq<Node>, rules: seq<NodeId>, k: nat)
    requires Valid(nodes) && AllRules(nodes, rules) && k < |MethodBits|
    requires MethodsRuleOf(nodes, rules).Ok?
    ensures var m := MethodsRuleOf(nodes, rules).value;
      && (m.isSet <==> rules != [])
      && (rules != [] ==> (IsAllowed(m, MethodBits[k]) <==> Named(nodes, rules, MethodBits[k])))
      && (rules == [] ==> (IsAllowed(m, MethodBits[k]) <==> MethodBits[k] == Get))
  {
    MethodsFromNamed(nodes, MethodsRule(false, UnknownMethod), rules, k);
    SameBit(Get, k);
  }

  // ---------------------------------------------------------------- index and cgi_extension

  /** Appending each rule's arguments, read as strings, to `acc` in rule order. */
  function TextsFrom(nodes: seq<Node>, acc: seq<string>, rules: seq<NodeId>, format: string): Result<seq<string>, ParserError>
    requires Valid(nodes) && AllRules(nodes, rules)
    decreases |rules|
  {
    if rules == [] then Ok(acc)
    else
      var texts :- EveryArgument(nodes, rules[0], format, ToText);
      TextsFrom(nodes, acc + texts, rules[1..], format)
  }

  /** The loop shared by the index and cgi_extension constructors: every rule's strings, appended in order. */
  method ParseTexts(arena: Arena, rules: seq<NodeId>, name: string, format: string) returns (r: Result<seq<string>, ParserError>)
    requires Valid(arena.nodes) && AllRules(arena.nodes, rules)
    modifies arena`used
    ensures r == TextsFrom(arena.nodes, [], rules, format)
    ensures r.Ok? ==> arena.used == old(arena.used) + Elements(rules)
    ensures old(arena.used) <= arena.used <= old(arena.used) + Elements(rules)
  {
    var texts := [];
    for i := 0 to |rules|
      invariant TextsFrom(arena.nodes, [], rules, format) == TextsFrom(arena.nodes, texts, rules[i..], format)
      invariant arena.used == old(arena.used) + Elements(rules[..i])
    {
      assert rules[i..][1..] == rules[i + 1..];
      ElementsStep(rules, i);
      texts :- ParseEveryArgument(arena, rules[i], name, format, texts, ToText);
    }
    assert rules[..|rules|] == rules;
    return Ok(texts);
  }

  /** The text of an argument, or nothing when it is not a string. */
  function TextOf(a: Argument): string {
    if a.value.StringValue? then a.value.text else ""
  }

  /** A rule with at least one argument, all of them strings. */
  predicate TextRule(nodes: seq<Node>, id: NodeId)
    requires Valid(nodes) && IsRule(nodes, id)
  {
    Arity(nodes, id) >= 1 && forall i :: 0 <= i < Arity(nodes, id) ==> ArgumentsOf(nodes, id)[i].value.StringValue?
  }

  predicate AllTextRules(nodes: seq<Node>, rules: seq<NodeId>)
    requires Valid(nodes) && AllRules(nodes, rules)
  {
    forall j :: 0 <= j < |rules| ==> TextRule(nodes, rules[j])
  }

  /** The texts of the arguments of one rule, in order. */
  function RuleTexts(nodes: seq<Node>, id: NodeId): (texts: seq<string>)
    requires Valid(nodes) && IsRule(nodes, id)
    ensures |texts| == Arity(nodes, id)
  {
    var args := ArgumentsOf(nodes, id);
    seq(|args|, i requires 0 <= i < |args| => TextOf(args[i]))
  }

  /** The texts of all arguments of all rules, in order. */
  function ArgumentTexts(nodes: seq<Node>, rules: seq<NodeId>): seq<string>
    requires Valid(nodes) && AllRules(nodes, rules)
    decreases |rules|
  {
    if rules == [] then [] else RuleTexts(nodes, rules[0]) + ArgumentTexts(nodes, rules[1..])
  }

  /** Reading one rule's strings succeeds exactly on a text rule, and gives its texts. */
  lemma TextsOfRule(nodes: seq<Node>, id: NodeId, format: string)
    requires Valid(nodes) && IsRule(nodes, id)
    ensures EveryArgument(nodes, id, format, ToText).Ok? <==> TextRule(nodes, id)
    ensures EveryArgument(nodes, id, format, ToText).Ok? ==> EveryArgument(nodes, id, format, ToText).value == RuleTexts(nodes, id)
  {
  }

  lemma AllTextRulesCons(nodes: seq<Node>, rules: seq<NodeId>)
    requires Valid(nodes) && AllRules(nodes, rules) && rules != []
    ensures AllRules(nodes, rules[1..])
    ensures AllTextRules(nodes, rules) <==> TextRule(nodes, rules[0]) && AllTextRules(nodes, rules[1..])
  {
    assert forall j :: 1 <= j < |rules| ==> rules[j] == rules[1..][j - 1];
  }

  /**
   * Reading string lists succeeds exactly when every rule has at least one
   * argument and all are strings; the list is then all argument texts, in order.
   */
  lemma {:induction false} TextsAreArguments(nodes: seq<Node>, acc: seq<string>, rules: seq<NodeId>, format: string)
    requires Valid(nodes) && AllRules(nodes, rules)
    ensures TextsFrom(nodes, acc, rules, format).Ok? <==> AllTextRules(nodes, rules)
    ensures TextsFrom(nodes, acc, rules, format).Ok? ==> TextsFrom(nodes, acc, rules, format).value == acc + ArgumentTexts(nodes, rules)
    decreases |rules|
  {
    if rules != [] {
      var rest := rules[1..];
      TextsOfRule(nodes, rules[0], format);
      AllTextRulesCons(nodes, rules);
      var texts := RuleTexts(nodes, rules[0]);
      TextsAreArguments(nodes, acc + texts, rest, format);
      assert ArgumentTexts(nodes, rules) == texts + ArgumentTexts(nodes, rest);
      assert acc + texts + ArgumentTexts(nodes, rest) == acc + (texts + ArgumentTexts(nodes, rest));
    }
  }

  /** With at least one argument per rule, the list is empty exactly when there is no rule. */
  lemma ArgumentTextsEmpty(nodes: seq<Node>, rules: seq<NodeId>)
    requires Valid(nodes) && AllRules(nodes, rules) && AllTextRules(nodes, rules)
    ensures ArgumentTexts(nodes, rules) == [] <==> rules == []
  {
    if rules != [] {
      assert TextRule(nodes, rules[0]);
    }
  }

  datatype IndexRule = IndexRule(indexFiles: seq<string>)

  const IndexName := "index"
  const IndexFormat := IndexName + " <file1> [<file2> ...]"

  /** `IndexRule(rules)`: every argument of every rule, as index file names. */
  function IndexRuleOf(nodes: seq<Node>, rules: seq<NodeId>): (r: Result<IndexRule, ParserError>)
    requires Valid(nodes) && AllRules(nodes, rules)
    ensures r.Ok? <==> AllTextRules(nodes, rules)
    ensures r.Ok? ==> r.value.indexFiles == ArgumentTexts(nodes, rules)
    ensures r.Ok? ==> (IndexIsSet(r.value) <==> rules != [])
  {
    TextsAreArguments(nodes, [], rules, IndexFormat);
    var files :- TextsFrom(nodes, [], rules, IndexFormat);
    ArgumentTextsEmpty(nodes, rules);
    Ok(IndexRule(files))
  }

  /** `isSet`: some index file is configured. */
  predicate IndexIsSet(i: IndexRule) { i.indexFiles != [] }

  method ParseIndexRule(arena: Arena, rules: seq<NodeId>) returns (r: Result<IndexRule, ParserError>)
    requires Valid(arena.nodes) && AllRules(arena.nodes, rules)
    modifies arena`used
    ensures r == IndexRuleOf(arena.nodes, rules)
    ensures r.Ok? ==> arena.used == old(arena.used) + Elements(rules)
    ensures old(arena.used) <= arena.used <= old(arena.used) + Elements(rules)
  {
    var files :- ParseTexts(arena, rules, IndexName, IndexFormat);
    r := Ok(IndexRule(files));
  }

  const CgiExtensionName := "cgi_extension"
  const CgiExtensionFormat := CgiExtensionName + " <ext1> [<ext2> ...]"

  /** `CgiExtensionRule(rules)`: every argument of every rule, as extensions. */
  function CgiExtensionRuleOf(nodes: seq<Node>, rules: seq<NodeId>): (r: Result<CgiExtensionRule, ParserError>)
    requires Valid(nodes) && AllRules(nodes, rules)
    ensures r.Ok? <==> AllTextRules(nodes, rules)
    ensures r.Ok? ==> r.value.extensions == ArgumentTexts(nodes, rules)
    ensures r.Ok? ==> (CgiExtensionIsSet(r.value) <==> rules != [])
  {
    TextsAreArguments(nodes, [], rules, CgiExtensionFormat);
    var extensions :- TextsFrom(nodes, [], rules, CgiExtensionFormat);
    ArgumentTextsEmpty(nodes, rules);
    Ok(CgiExtensionRule(extensions))
  }

  method ParseCgiExtensionRule(arena: Arena, rules: seq<NodeId>) returns (r: Result<CgiExtensionRule, ParserError>)
    requires Valid(arena.nodes) && AllRules(arena.nodes, rules)
    modifies arena`used
    ensures r == CgiExtensionRuleOf(arena.nodes, rules)
    ensures r.Ok? ==> arena.used == old(arena.used) + Elements(rules)
    ensures old(arena.used) <= arena.used <= old(arena.used) + Elements(rules)
  {
    var extensions :- ParseTexts(arena, rules, CgiExtensionName, CgiExtensionFormat);
    r := Ok(CgiExtensionRule(extensions));
  }
}

=== FILE: config_types.dfy ===
/**
 * The vocabulary shared by the lexer, the parser and the binders: token kinds
 * and their bit masks, keywords, rule keys, assembled file text and tokens
 * (config/config.hpp).
 */
module ConfigTypes {

  /** Kinds of tokens; each has a distinct bit so that kinds can be masked. */
  datatype TokenType =
    | UnknownToken | WeakStr | Str | ObjectOpen | ObjectClose | RuleEnd
    | Quote1 | Quote2 | Whitespace | Comment | End | LineEnd

  function TokenBit(t: TokenType): bv32 {
    match t
    case UnknownToken => 0
    case WeakStr => 1 << 0
    case Str => 1 << 1
    case ObjectOpen => 1 << 2
    case ObjectClose => 1 << 3
    case RuleEnd => 1 << 4
    case Quote1 => 1 << 5
    case Quote2 => 1 << 6
    case Whitespace => 1 << 7
    case Comment => 1 << 8
    case End => 1 << 9
    case LineEnd => 1 << 10
  }

  /**
   * A set of token kinds. The source builds these by or-ing the kinds' bits;
   * `MasksMatchBits` shows each set below is exactly the kinds whose bit the
   * source's mask has set.
   */
  type TokenMask = set<TokenType>

  predicate InMask(t: TokenType, mask: TokenMask) { t in mask }

  /** Where an unquoted word stops: every kind except a word character. */
  const EosMaskDefault: TokenMask :=
    {Str, ObjectOpen, ObjectClose, RuleEnd, Quote1, Quote2, Whitespace, Comment, End, LineEnd}

  /** Where a quoted string stops: its own closing quote or the end of the file. */
  function EosMaskQuote(quote: TokenType): TokenMask { {quote, End} }

  /** Where a comment stops: the end of the line or of the file. */
  const CommentMask: TokenMask := {LineEnd, End}

  /** The kinds the lexer hands on to the parser. */
  const IsUsable: TokenMask := {WeakStr, Str, ObjectOpen, ObjectClose, RuleEnd, End}

  predicate Usable(t: TokenType) { t in IsUsable }

  predicate IsQuote(t: TokenType) { t == Quote1 || t == Quote2 }

  /** Bit-mask membership as the source tests it: `type & mask`. */
  predicate InBits(t: TokenType, bits: bv32) { TokenBit(t) & bits != 0 }

  /**
   * Each mask holds exactly the kinds whose bit is set in the source's mask:
   * `~0 ^ WEAK_STR`, `quote | END`, `LINE_END | END` and the usable kinds.
   */
  lemma MasksMatchBits(t: TokenType, quote: TokenType)
    requires IsQuote(quote)
    ensures t in EosMaskDefault <==> InBits(t, !0 ^ TokenBit(WeakStr))
    ensures t in EosMaskQuote(quote) <==> InBits(t, TokenBit(quote) | TokenBit(End))
    ensures t in CommentMask <==> InBits(t, TokenBit(LineEnd) | TokenBit(End))
    ensures Usable(t) <==> InBits(t, TokenBit(WeakStr) | TokenBit(Str) | TokenBit(ObjectOpen)
                                   | TokenBit(ObjectClose) | TokenBit(RuleEnd) | TokenBit(End))
  {
    match t
    case UnknownToken =>
    case WeakStr =>
    case Str =>
    case ObjectOpen =>
    case ObjectClose =>
    case RuleEnd =>
    case Quote1 =>
    case Quote2 =>
    case Whitespace =>
    case Comment =>
    case End =>
    case LineEnd =>
  }

  /** Reserved words recognised in argument position. */
  datatype Keyword = NoKeyword | On | Off | True | False | Default | Enable | Disable | Auto

  function KeywordBit(k: Keyword): bv32 {
    match k
    case NoKeyword => 0
    case On => 1 << 0
    case Off => 1 << 1
    case True => 1 << 2
    case False => 1 << 3
    case Default => 1 << 4
    case Enable => 1 << 5
    case Disable => 1 << 6
    case Auto => 1 << 7
  }

  /** Directive names; the numeric value is what "Missing rule for key" prints. */
  datatype Key =
    | NoKey | Server | Listen | ServerName | MaxBodySize | ErrorPage | Root | Index
    | AutoIndex | Return | Location | AllowedMethods | UploadDir | CgiPass | CgiTimeout
    | Define | Include | CgiExtension

  function KeyBit(k: Key): bv32 {
    match k
    case NoKey => 0
    case Server => 1 << 0
    case Listen => 1 << 1
    case ServerName => 1 << 2
    case MaxBodySize => 1 << 3
    case ErrorPage => 1 << 4
    case Root => 1 << 5
    case Index => 1 << 6
    case AutoIndex => 1 << 7
    case Return => 1 << 8
    case Location => 1 << 9
    case AllowedMethods => 1 << 10
    case UploadDir => 1 << 11
    case CgiPass => 1 << 12
    case CgiTimeout => 1 << 13
    case Define => 1 << 14
    case Include => 1 << 15
    case CgiExtension => 1 << 16
  }

  /** A value with exactly one bit set. */
  predicate SingleBit(b: bv32) { b != 0 && b & (b - 1) == 0 }

  /** Every token kind except the zero value has its own single bit. */
  lemma TokenBitsDistinct(a: TokenType, b: TokenType)
    ensures a != UnknownToken ==> SingleBit(TokenBit(a))
    ensures a != b ==> TokenBit(a) & TokenBit(b) == 0
  {
  }

  /** Every keyword except the zero value has its own single bit. */
  lemma KeywordBitsDistinct(a: Keyword, b: Keyword)
    ensures a != NoKeyword ==> SingleBit(KeywordBit(a))
    ensures a != b ==> KeywordBit(a) & KeywordBit(b) == 0
  {
  }

  /** Every key except the zero value has its own single bit. */
  lemma KeyBitsDistinct(a: Key, b: Key)
    ensures a != NoKey ==> SingleBit(KeyBit(a))
    ensures a != b ==> KeyBit(a) & KeyBit(b) == 0
  {
  }

  /** Every key, by increasing value: the order in which a `std::map` keyed by `Key` is walked. */
  const AllKeys: seq<Key> := [
    NoKey, Server, Listen, ServerName, MaxBodySize, ErrorPage, Root, Index,
    AutoIndex, Return, Location, AllowedMethods, UploadDir, CgiPass, CgiTimeout,
    Define, Include, CgiExtension]

  /** Where a key stands in `AllKeys`. */
  function KeyIndex(k: Key): (i: nat)
    ensures i < |AllKeys| && AllKeys[i] == k
  {
    match k
    case NoKey => 0
    case Server => 1
    case Listen => 2
    case ServerName => 3
    case MaxBodySize => 4
    case ErrorPage => 5
    case Root => 6
    case Index => 7
    case AutoIndex => 8
    case Return => 9
    case Location => 10
    case AllowedMethods => 11
    case UploadDir => 12
    case CgiPass => 13
    case CgiTimeout => 14
    case Define => 15
    case Include => 16
    case CgiExtension => 17
  }

  /** `AllKeys` is in increasing order of value. */
  lemma AllKeysAscending(i: nat)
    requires i + 1 < |AllKeys|
    ensures KeyBit(AllKeys[i]) < KeyBit(AllKeys[i + 1])
  {
  }

  /** `AllKeys` lists each key once. */
  lemma AllKeysDistinct(i: nat, j: nat)
    requires i < j < |AllKeys|
    ensures AllKeys[i] != AllKeys[j]
  {
    assert KeyIndex(AllKeys[i]) == i && KeyIndex(AllKeys[j]) == j;
  }

  /**
   * The text of one configuration file as the loader assembles it: every
   * line followed by '\n', then a single '\0'; `lineStarts[i]` is the offset
   * of line i.
   */
  datatype SourceText = SourceText(fileName: string, content: string, lineStarts: seq<nat>)

  predicate WellAssembled(t: SourceText) {
    && |t.content| >= 1
    && t.content[|t.content| - 1] == '\0'
    && (|t.content| >= 2 ==> t.content[|t.content| - 2] == '\n')
    && (|t.lineStarts| == 0 <==> |t.content| == 1)
    && (|t.lineStarts| > 0 ==> t.lineStarts[0] == 0)
    && (forall i :: 0 <= i < |t.lineStarts| ==> LineStartOk(t, i))
  }

  /** Line `i` starts before the final '\0' and after line `i - 1`. */
  predicate LineStartOk(t: SourceText, i: nat)
    requires i < |t.lineStarts|
  {
    && t.lineStarts[i] + 1 < |t.content|
    && (i > 0 ==> t.lineStarts[i - 1] < t.lineStarts[i])
  }

  type AssembledText = t: SourceText | WellAssembled(t) witness SourceText("", "\0", [])

  /** A token remembers its kind, its text, its file and its offset in it. */
  datatype Token = Token(kind: TokenType, value: string, file: AssembledText, filePos: nat)

  /** The marker text of the tokens the lexer makes up around a whole file. */
  const SysMarker: string := "<sys>"

  /** A loaded file: its text and, once lexed, its tokens. */
  datatype ConfigFile = ConfigFile(text: AssembledText, tokens: seq<Token>)
}

=== FILE: consts.dfy ===
/**
 * The HTTP constants of config/consts.hpp and config/types/consts.cpp: the
 * request methods of section 9 of RFC 9110 as a bit set, the status codes
 * of section 15 of RFC 9110 with their reason phrases and default bodies,
 * and the canonical names of the header fields the server uses.
 */
module Consts {
  import opened Wrappers
  import opened Strings

  /** A set of request methods, one bit per method. */
  type MethodSet = bv8

  const UnknownMethod: MethodSet := 0
  const Get: MethodSet := 1
  const Post: MethodSet := 2
  const Delete: MethodSet := 4
  const Put: MethodSet := 8
  const Head: MethodSet := 16
  const Options: MethodSet := 32
  const AllMethods: MethodSet := Get | Post | Delete | Put | Head | Options

  /** The six methods in the order `methodToStr` lists them. */
  const MethodBits: seq<MethodSet> := [Get, Post, Delete, Put, Head, Options]
  const MethodNames: seq<string> := ["GET", "POST", "DELETE", "PUT", "HEAD", "OPTIONS"]
  const LowerMethodNames: seq<string> := ["get", "post", "delete", "put", "head", "options"]

  predicate SingleBit(b: MethodSet) { b != 0 && b & (b - 1) == 0 }

  /** The six methods are distinct single bits, the unknown method is none of them, and `AllMethods` is their union. */
  lemma MethodBitsDistinct(i: nat, j: nat)
    requires i < |MethodBits| && j < |MethodBits|
    ensures SingleBit(MethodBits[i]) && MethodBits[i] & AllMethods == MethodBits[i]
    ensures i != j ==> MethodBits[i] & MethodBits[j] == 0
  {
  }

  /** `operator|`: a method is in the union exactly when it is in either side. */
  function Union(a: MethodSet, b: MethodSet): (r: MethodSet)
    ensures forall i :: 0 <= i < |MethodBits| ==>
      (r & MethodBits[i] != 0 <==> a & MethodBits[i] != 0 || b & MethodBits[i] != 0)
  {
    a | b
  }

  /** `stringToMethod`: compares case-insensitively against the six names. */
  function StringToMethod(s: string): (m: MethodSet)
    ensures m == UnknownMethod <==> ToLower(s) !in LowerMethodNames
    ensures forall i :: 0 <= i < |LowerMethodNames| && ToLower(s) == LowerMethodNames[i] ==> m == MethodBits[i]
  {
    var lower := ToLower(s);
    if lower == "get" then Get
    else if lower == "post" then Post
    else if lower == "delete" then Delete
    else if lower == "put" then Put
    else if lower == "head" then Head
    else if lower == "options" then Options
    else UnknownMethod
  }

  /** The name of `bit` if `m` holds it. */
  function Chunk(m: MethodSet, bit: MethodSet, name: string): seq<string> {
    if m & bit != 0 then [name] else []
  }

  /** The names of the methods in `m`, in table order. */
  function SetNames(m: MethodSet): (names: seq<string>)
    ensures forall j :: 0 <= j < |names| ==> names[j] in MethodNames
  {
    Chunk(m, Get, "GET") + Chunk(m, Post, "POST") + Chunk(m, Delete, "DELETE")
      + Chunk(m, Put, "PUT") + Chunk(m, Head, "HEAD") + Chunk(m, Options, "OPTIONS")
  }

  /** The names joined by `sep`. */
  function Join(names: seq<string>, sep: string): string {
    if names == [] then ""
    else if |names| == 1 then names[0]
    else names[0] + sep + Join(names[1..], sep)
  }

  /** What `methodToStr` prints: the names of the set bits joined by '|', or "UNKNOWN". */
  function MethodText(m: MethodSet): string {
    var names := SetNames(m);
    if names == [] then "UNKNOWN" else Join(names, "|")
  }

  /** Every name followed by '|'. */
  function BarTerminated(names: seq<string>): (s: string)
    ensures names != [] ==> |s| > 0 && s == Join(names, "|") + "|"
  {
    if names == [] then ""
    else
      var s := names[0] + "|" + BarTerminated(names[1..]);
      assert |names| == 1 ==> names[1..] == [];
      s
  }

  lemma {:induction false} BarTerminatedAppend(a: seq<string>, b: seq<string>)
    ensures BarTerminated(a + b) == BarTerminated(a) + BarTerminated(b)
  {
    if a != [] {
      assert (a + b)[1..] == a[1..] + b;
      BarTerminatedAppend(a[1..], b);
    } else {
      assert a + b == b;
    }
  }

  /**
   * `methodToStr`: append "NAME|" for each set bit in table order, drop
   * the final '|', and say "UNKNOWN" when nothing was written.
   */
  method MethodToStr(m: MethodSet) returns (s: string)
    ensures s == MethodText(m)
  {
    var str: string := "";
    str := AppendIfSet(str, [], m, Get, "GET");
    ghost var names := Chunk(m, Get, "GET");
    assert [] + names == names;
    str := AppendIfSet(str, names, m, Post, "POST");
    names := names + Chunk(m, Post, "POST");
    str := AppendIfSet(str, names, m, Delete, "DELETE");
    names := names + Chunk(m, Delete, "DELETE");
    str := AppendIfSet(str, names, m, Put, "PUT");
    names := names + Chunk(m, Put, "PUT");
    str := AppendIfSet(str, names, m, Head, "HEAD");
    names := names + Chunk(m, Head, "HEAD");
    str := AppendIfSet(str, names, m, Options, "OPTIONS");
    names := names + Chunk(m, Options, "OPTIONS");
    assert names == SetNames(m);
    if str != [] { str := str[..|str| - 1]; }
    if str == [] { return "UNKNOWN"; }
    return str;
  }

  /** One line of `methodToStr`: `if (method & bit) str += "NAME|";`. */
  method AppendIfSet(str: string, ghost names: seq<string>, m: MethodSet, bit: MethodSet, name: string) returns (r: string)
    requires str == BarTerminated(names)
    ensures r == BarTerminated(names + Chunk(m, bit, name))
  {
    WriteStep(str, names, m, bit, name);
    r := str;
    if m & bit != 0 { r := r + name + "|"; }
  }

  /** One step of `methodToStr`: writing "NAME|" for a set bit extends the bar-terminated list by that name. */
  lemma WriteStep(str: string, names: seq<string>, m: MethodSet, bit: MethodSet, name: string)
    requires str == BarTerminated(names)
    ensures (if m & bit != 0 then str + name + "|" else str) == BarTerminated(names + Chunk(m, bit, name))
  {
    BarTerminatedAppend(names, Chunk(m, bit, name));
    if m & bit != 0 {
      assert BarTerminated([name]) == name + "|" + BarTerminated([]);
    } else {
      assert names + [] == names;
    }
  }

  /** A single method prints as its upper-case name. */
  lemma MethodTextSingle(i: nat)
    requires i < |MethodBits|
    ensures MethodText(MethodBits[i]) == MethodNames[i]
  {
    var b := MethodBits[i];
    if i == 0 { assert SetNames(b) == ["GET"]; }
    else if i == 1 { assert SetNames(b) == ["POST"]; }
    else if i == 2 { assert SetNames(b) == ["DELETE"]; }
    else if i == 3 { assert SetNames(b) == ["PUT"]; }
    else if i == 4 { assert SetNames(b) == ["HEAD"]; }
    else { assert SetNames(b) == ["OPTIONS"]; }
  }

  /** Upper-casing a word whose lower case is all letters is upper-casing that lower case. */
  lemma UpperOfLowered(s: string, lower: string)
    requires ToLower(s) == lower && forall j :: 0 <= j < |lower| ==> 'a' <= lower[j] <= 'z'
    ensures ToUpper(s) == ToUpper(lower)
  {
    var u, v := ToUpper(s), ToUpper(lower);
    forall j | 0 <= j < |s| ensures u[j] == v[j] {
      UpperOfLoweredChar(s[j]);
      assert u[j] == ToUpperChar(s[j]) && v[j] == ToUpperChar(lower[j]);
    }
  }

  /** The same for one character. */
  lemma UpperOfLoweredChar(c: char)
    requires 'a' <= ToLowerChar(c) <= 'z'
    ensures ToUpperChar(c) == ToUpperChar(ToLowerChar(c))
  {
  }

  /** The lower-case method names are words of letters, and upper-case to the method names. */
  lemma UpperNames(i: nat)
    requires i < |LowerMethodNames|
    ensures ToUpper(LowerMethodNames[i]) == MethodNames[i]
    ensures forall j :: 0 <= j < |LowerMethodNames[i]| ==> 'a' <= LowerMethodNames[i][j] <= 'z'
  {
    var l, u := LowerMethodNames[i], MethodNames[i];
    if i == 0 { assert l == "get" && u == "GET"; }
    else if i == 1 { assert l == "post" && u == "POST"; }
    else if i == 2 { assert l == "delete" && u == "DELETE"; }
    else if i == 3 { assert l == "put" && u == "PUT"; }
    else if i == 4 { assert l == "head" && u == "HEAD"; }
    else { assert l == "options" && u == "OPTIONS"; }
    UpperWord(l, u);
  }

  /** A word of lower-case letters upper-cases letter by letter. */
  lemma UpperWord(l: string, u: string)
    requires |l| == |u| && forall j :: 0 <= j < |l| ==> 'a' <= l[j] <= 'z' && u[j] == (l[j] as int - 32) as char
    ensures ToUpper(l) == u
  {
  }

  /**
   * Round trip: a word that `stringToMethod` recognises, in any mix of
   * cases, prints back as the upper-case method name.
   */
  lemma MethodRoundTrip(s: string, i: nat)
    requires i < |LowerMethodNames| && ToLower(s) == LowerMethodNames[i]
    ensures StringToMethod(s) == MethodBits[i]
    ensures MethodText(StringToMethod(s)) == MethodNames[i] == ToUpper(s)
  {
    MethodTextSingle(i);
    UpperNames(i);
    UpperOfLowered(s, LowerMethodNames[i]);
  }

  /** The enumerator of `HttpStatusCode` whose value is `code`, if any: each enumerator's value is its status code. */
  function StatusName(code: int): Option<string> {
    match code
    case 100 => Some("Continue")
    case 101 => Some("SwitchingProtocols")
    case 102 => Some("Processing")
    case 103 => Some("EarlyHints")
    case 200 => Some("OK")
    case 201 => Some("Created")
    case 202 => Some("Accepted")
    case 203 => Some("NonAuthoritativeInformation")
    case 204 => Some("NoContent")
    case 205 => Some("ResetContent")
    case 206 => Some("PartialContent")
    case 207 => Some("MultiStatus")
    case 208 => Some("AlreadyReported")
    case 226 => Some("IMUsed")
    case 300 => Some("MultipleChoices")
    case 301 => Some("MovedPermanently")
    case 302 => Some("Found")
    case 303 => Some("SeeOther")
    case 304 => Some("NotModified")
    case 305 => Some("UseProxy")
    case 307 => Some("TemporaryRedirect")
    case 308 => Some("PermanentRedirect")
    case 400 => Some("BadRequest")
    case 401 => Some("Unauthorized")
    case 402 => Some("PaymentRequired")
    case 403 => Some("Forbidden")
    case 404 => Some("NotFound")
    case 405 => Some("MethodNotAllowed")
    case 406 => Some("NotAcceptable")
    case 407 => Some("ProxyAuthenticationRequired")
    case 408 => Some("RequestTimeout")
    case 409 => Some("Conflict")
    case 410 => Some("Gone")
    case 411 => Some("LengthRequired")
    case 412 => Some("PreconditionFailed")
    case 413 => Some("PayloadTooLarge")
    case 414 => Some("URITooLong")
    case 415 => Some("UnsupportedMediaType")
    case 416 => Some("RangeNotSatisfiable")
    case 417 => Some("ExpectationFailed")
    case 418 => Some("ImATeapot")
    case 421 => Some("MisdirectedRequest")
    case 422 => Some("UnprocessableEntity")
    case 423 => Some("Locked")
    case 424 => Some("FailedDependency")
    case 425 => Some("TooEarly")
    case 426 => Some("UpgradeRequired")
    case 428 => Some("PreconditionRequired")
    case 429 => Some("TooManyRequests")
    case 431 => Some("RequestHeaderFieldsTooLarge")
    case 451 => Some("UnavailableForLegalReasons")
    case 500 => Some("InternalServerError")
    case 501 => Some("NotImplemented")
    case 502 => Some("BadGateway")
    case 503 => Some("ServiceUnavailable")
    case 504 => Some("GatewayTimeout")
    case 505 => Some("HTTPVersionNotSupported")
    case 506 => Some("VariantAlsoNegotiates")
    case 507 => Some("InsufficientStorage")
    case 508 => Some("LoopDetected")
    case 510 => Some("NotExtended")
    case 511 => Some("NetworkAuthenticationRequired")
    case _ => None
  }

  /** The reason phrases of section 15 of RFC 9110, as `getStatusCodeAsStr` lists them. */
  function ReasonPhrase(code: int): Option<string> {
    match code
    case 100 => Some("Continue")
    case 101 => Some("Switching Protocols")
    case 102 => Some("Processing")
    case 103 => Some("Early Hints")
    case 200 => Some("OK")
    case 201 => Some("Created")
    case 202 => Some("Accepted")
    case 203 => Some("Non-Authoritative Information")
    case 204 => Some("No Content")
    case 205 => Some("Reset Content")
    case 206 => Some("Partial Content")
    case 207 => Some("Multi-Status")
    case 208 => Some("Already Reported")
    case 226 => Some("IM Used")
    case 300 => Some("Multiple Choices")
    case 301 => Some("Moved Permanently")
    case 302 => Some("Found")
    case 303 => Some("See Other")
    case 304 => Some("Not Modified")
    case 305 => Some("Use Proxy")
    case 307 => Some("Temporary Redirect")
    case 308 => Some("Permanent Redirect")
    case 400 => Some("Bad Request")
    case 401 => Some("Unauthorized")
    case 402 => Some("Payment Required")
    case 403 => Some("Forbidden")
    case 404 => Some("Not Found")
    case 405 => Some("Method Not Allowed")
    case 406 => Some("Not Acceptable")
    case 407 => Some("Proxy Authentication Required")
    case 408 => Some("Request Timeout")
    case 409 => Some("Conflict")
    case 410 => Some("Gone")
    case 411 => Some("Length Required")
    case 412 => Some("Precondition Failed")
    case 413 => Some("Payload Too Large")
    case 414 => Some("URI Too Long")
    case 415 => Some("Unsupported Media Type")
    case 416 => Some("Range Not Satisfiable")
    case 417 => Some("Expectation Failed")
    case 418 => Some("I'm a teapot")
    case 421 => Some("Misdirected Request")
    case 422 => Some("Unprocessable Entity")
    case 423 => Some("Locked")
    case 424 => Some("Failed Dependency")
    case 425 => Some("Too Early")
    case 426 => Some("Upgrade Required")
    case 428 => Some("Precondition Required")
    case 429 => Some("Too Many Requests")
    case 431 => Some("Request Header Fields Too Large")
    case 451 => Some("Unavailable For Legal Reasons")
    case 500 => Some("Internal Server Error")
    case 501 => Some("Not Implemented")
    case 502 => Some("Bad Gateway")
    case 503 => Some("Service Unavailable")
    case 504 => Some("Gateway Timeout")
    case 505 => Some("HTTP Version Not Supported")
    case 506 => Some("Variant Also Negotiates")
    case 507 => Some("Insufficient Storage")
    case 508 => Some("Loop Detected")
    case 510 => Some("Not Extended")
    case 511 => Some("Network Authentication Required")
    case _ => None
  }

  /** `getStatusCodeAsStr`: the reason phrase, or "Unknown Status Code" for a value outside the enumeration. */
  function StatusCodeAsStr(code: int): (s: string)
    ensures s != "Unknown Status Code" <==> StatusName(code).Some?
  {
    match ReasonPhrase(code)
    case Some(p) => p
    case None => "Unknown Status Code"
  }

  /** `getDefaultBodyForCode`: a fixed sentence naming the status, or a fallback for other values. */
  function DefaultBodyForCode(code: int): (s: string)
    ensures StatusName(code).Some? ==> s == "Oh good heavens, " + StatusName(code).value + "!!!"
    ensures StatusName(code).None? ==> s == "Oh good heavens, How did you get here?!!!!"
  {
    match StatusName(code)
    case Some(name) => "Oh good heavens, " + name + "!!!"
    case None => "Oh good heavens, How did you get here?!!!!"
  }

  /** Both tables cover the same codes. */
  lemma StatusTablesAgree(code: int)
    ensures StatusName(code).Some? <==> ReasonPhrase(code).Some?
  {
  }

  /** Every enumerated code is a valid status code, between 100 and 599. */
  lemma StatusCodesInRange(code: int)
    requires StatusName(code).Some?
    ensures 100 <= code <= 599
  {
  }

  /** The header fields the server reads or writes. */
  datatype HeaderKey =
    | ContentType | ContentLength | Host | UserAgent | Accept | AcceptEncoding
    | AcceptLanguage | Connection | Cookie | SetCookie | Authorization | Date
    | Location | Referer | Status

  /**
   * A header field name as a response line needs it: it starts with a
   * capital letter and holds neither the ':' that ends it nor white space.
   */
  predicate FieldName(s: string) {
    |s| > 0 && 'A' <= s[0] <= 'Z' && ':' !in s && ' ' !in s && '\t' !in s
  }

  /** `headerKeyToString`: the canonical field name, a well-formed header field name. */
  function HeaderKeyToString(k: HeaderKey): (s: string)
    ensures FieldName(s)
  {
    match k
    case ContentType => "Content-Type"
    case ContentLength => "Content-Length"
    case Host => "Host"
    case UserAgent => "User-Agent"
    case Accept => "Accept"
    case AcceptEncoding => "Accept-Encoding"
    case AcceptLanguage => "Accept-Language"
    case Connection => "Connection"
    case Cookie => "Cookie"
    case SetCookie => "Set-Cookie"
    case Authorization => "Authorization"
    case Date => "Date"
    case Location => "Location"
    case Referer => "Referer"
    case Status => "Status"
  }

  /** Distinct keys have distinct field names. */
  lemma HeaderNamesDistinct(a: HeaderKey, b: HeaderKey)
    requires a != b
    ensures HeaderKeyToString(a) != HeaderKeyToString(b)
  {
  }
}

=== FILE: converters.dfy ===
/**
 * The argument converters of config/types/argumentConverter.hpp: each takes
 * one argument of a rule and yields a typed value, or a complaint that the
 * rule parser turns into an argument exception at that argument.
 *
 * The converters that read a number or a size go through the argument's
 * string alternative inside a `try`; a non-string argument fails that read
 * and so ends in the same complaint as a malformed number.
 */
module Converters {
  import opened Wrappers
  import opened Strings
  import opened ConfigTypes
  import opened Document
  import opened Numbers
  import opened Sizes
  import opened Paths
  import opened Consts
  import opened CustomTypes

  /** The message and hint of an argument exception, before it is placed. */
  datatype Complaint = Complaint(message: string, hint: string)

  /**
   * The shape every converter complaint has: "Expected <what>" and a hint
   * repeating what was expected (with `detail`) and the argument's text.
   */
  function Expected(what: string, detail: string, a: Argument): (c: Complaint)
    ensures c.message == "Expected " + what
    ensures c.hint == "Check the argument type. Expected " + what + detail + ", but found: " + a.token.value
  {
    Complaint("Expected " + what, "Check the argument type. Expected " + what + detail + ", but found: " + a.token.value)
  }

  /** `ArgumentConverter<int>`: `stoi` of the string. */
  function ToInt(a: Argument): (r: Result<int, Complaint>)
    ensures r.Ok? <==> a.value.StringValue? && Stoi(a.value.text).Some?
    ensures r.Ok? ==> IntMin <= r.value <= IntMax
    ensures r.Err? ==> r.error == Expected("an integer", "", a)
  {
    if a.value.StringValue? && Stoi(a.value.text).Some? then Ok(Stoi(a.value.text).value)
    else Err(Expected("an integer", "", a))
  }

  /** `ArgumentConverter<PortNumber>`: `stoi` of the string, then the port range check. */
  function ToPortNumber(a: Argument): (r: Result<PortNumber, Complaint>)
    ensures r.Ok? ==> 0 <= r.value.value <= PortMax
    ensures r.Ok? <==> a.value.StringValue? && Stoi(a.value.text).Some? && 0 <= Stoi(a.value.text).value <= PortMax
    ensures r.Err? ==> r.error == Expected("an unsigned 16-bit integer", "", a)
  {
    var n := if a.value.StringValue? then Stoi(a.value.text) else None;
    var port := if n.Some? then MakePortNumber(n.value) else None;
    if port.Some? then Ok(port.value) else Err(Expected("an unsigned 16-bit integer", "", a))
  }

  /** `ArgumentConverter<StatusCode>`: "*" is the wildcard, anything else goes through `stoi` and the code range check. */
  function ToStatusCode(a: Argument): (r: Result<StatusCode, Complaint>)
    ensures r.Ok? ==> r.value.value == -1 || 100 <= r.value.value <= 599
    ensures a.value == StringValue("*") ==> r == Ok(Wildcard())
    ensures r.Ok? <==>
      || a.value == StringValue("*")
      || (a.value.StringValue? && Stoi(a.value.text).Some? &&
          (100 <= Stoi(a.value.text).value <= 599 || Stoi(a.value.text).value == -1))
    ensures r.Ok? && a.value != StringValue("*") ==> r.value.value == Stoi(a.value.text).value
    ensures r.Err? ==> r.error == Expected("a valid error code", " {100 <= code <= 599}", a)
  {
    if a.value == StringValue("*") then Ok(Wildcard())
    else
      var n := if a.value.StringValue? then Stoi(a.value.text) else None;
      var code := if n.Some? then MakeStatusCode(n.value) else None;
      if code.Some? then Ok(code.value) else Err(Expected("a valid error code", " {100 <= code <= 599}", a))
  }

  /** `ArgumentConverter<std::string>`: only a string argument. */
  function ToText(a: Argument): (r: Result<string, Complaint>)
    ensures r.Ok? <==> a.value.StringValue?
    ensures r.Ok? ==> r.value == a.value.text
    ensures r.Err? ==> r.error == Expected("a string", "", a)
  {
    match a.value
    case StringValue(s) => Ok(s)
    case _ => Err(Expected("a string", "", a))
  }

  /**
   * `ArgumentConverter<Timespan>` reduced to its first step: only a string
   * argument gets as far as the time-span reading, whose text is kept as is.
   */
  function ToTimespanText(a: Argument): (r: Result<string, Complaint>)
    ensures r.Ok? <==> a.value.StringValue?
    ensures r.Ok? ==> r.value == a.value.text
    ensures r.Err? ==> r.error == Complaint("Expected a valid time span",
      "Check the argument type. Expected a valid time span in seconds, but found: " + a.token.value)
  {
    match a.value
    case StringValue(s) => Ok(s)
    case _ => Err(Complaint("Expected a valid time span",
      "Check the argument type. Expected a valid time span in seconds, but found: " + a.token.value))
  }

  /** `ArgumentConverter<Object*>`: only a nested object. */
  function ToObject(a: Argument): (r: Result<NodeId, Complaint>)
    ensures r.Ok? <==> a.value.ObjectValue?
    ensures r.Ok? ==> r.value == a.value.obj
    ensures r.Err? ==> r.error == Expected("an object", "", a)
  {
    match a.value
    case ObjectValue(o) => Ok(o)
    case _ => Err(Expected("an object", "", a))
  }

  /** `ArgumentConverter<Size>`: the size parser on the string. */
  function ToSize(a: Argument): (r: Result<Size, Complaint>)
    ensures r.Ok? <==> a.value.StringValue? && SizeOf(a.value.text).Some?
    ensures r.Ok? ==> r.value == SizeOf(a.value.text).value
    ensures r.Err? ==> r.error == Expected("a valid size", " {x (kb, mb, gb)}", a)
  {
    var size := if a.value.StringValue? then SizeOf(a.value.text) else None;
    if size.Some? then Ok(size.value)
    else Err(Expected("a valid size", " {x (kb, mb, gb)}", a))
  }

  /** `ArgumentConverter<Path>`: a string argument becomes a set path. */
  function ToPath(a: Argument): (r: Result<Path, Complaint>)
    ensures r.Ok? <==> a.value.StringValue?
    ensures r.Ok? ==> r.value.isSet && r.value.text == a.value.text
    ensures r.Err? ==> r.error == Expected("a path", "", a)
  {
    match a.value
    case StringValue(s) => Ok(FromString(s))
    case _ => Err(Expected("a path", "", a))
  }

  /** `ArgumentConverter<bool>`: enable, true and on are true; disable, false and off are false. */
  function ToBool(a: Argument): (r: Result<bool, Complaint>)
    ensures r.Ok? <==> a.value.KeywordValue? && a.value.keyword in {Enable, True, On, Disable, False, Off}
    ensures r.Ok? ==> (r.value <==> a.value.keyword in {Enable, True, On})
    ensures r.Err? ==> r.error == Expected("a boolean keyword", " (on/off)", a)
  {
    match a.value
    case KeywordValue(k) =>
      if k == Enable || k == True || k == On then Ok(true)
      else if k == Disable || k == False || k == Off then Ok(false)
      else Err(Expected("a boolean keyword", " (on/off)", a))
    case _ => Err(Expected("a boolean keyword", " (on/off)", a))
  }

  /** `ArgumentConverter<DefaultVal>`: only the `default` keyword. */
  function ToDefaultVal(a: Argument): (r: Result<DefaultVal, Complaint>)
    ensures r.Ok? <==> a.value == KeywordValue(Default)
    ensures r.Ok? ==> r.value == DefaultVal(true)
    ensures r.Err? ==> r.error == Expected("a default value keyword", " (default)", a)
  {
    if a.value == KeywordValue(Default) then Ok(DefaultVal(true))
    else Err(Expected("a default value keyword", " (default)", a))
  }

  /** `ArgumentConverter<Method>`: a string naming one of the six methods, in any case. */
  function ToMethod(a: Argument): (r: Result<MethodSet, Complaint>)
    ensures r.Ok? <==> a.value.StringValue? && ToLower(a.value.text) in LowerMethodNames
    ensures r.Ok? ==> r.value in MethodBits
    ensures r.Err? ==> r.error == Expected("a method keyword", " (get/post/delete/put/head/options)", a)
  {
    var m := if a.value.StringValue? then StringToMethod(a.value.text) else UnknownMethod;
    if m != UnknownMethod then Ok(m)
    else Err(Expected("a method keyword", " (get/post/delete/put/head/options)", a))
  }

  /** A port written as its decimal digits, possibly followed by junk, reads back as that port. */
  lemma PortRoundTrip(p: nat, t: string, token: Token, parent: NodeId)
    requires p <= PortMax && (t == [] || !IsDigit(t[0]))
    ensures ToPortNumber(Argument(StringValue(NatToString(p) + t), parent, token)) == Ok(PortNumber(p))
  {
    StoiRoundTrip(p, t);
  }

  /** A status code in range, written in decimal, reads back as that code. */
  lemma StatusCodeRoundTrip(c: nat, token: Token, parent: NodeId)
    requires 100 <= c <= 599
    ensures ToStatusCode(Argument(StringValue(NatToString(c)), parent, token)) == Ok(StatusCode(c))
  {
    StoiRoundTrip(c, []);
    assert NatToString(c) + [] == NatToString(c);
    assert IsDigit(NatToString(c)[0]) && !IsDigit("*"[0]);
  }

  /** Besides "*", the text "-1" also reads as the wildcard code. */
  lemma MinusOneIsWildcard(token: Token, parent: NodeId)
    ensures ToStatusCode(Argument(StringValue("-1"), parent, token)) == Ok(Wildcard())
  {
    var s := "-1";
    assert SpaceRun(s) == 0;
    assert s[0..] == s && s[1..] == "1";
    assert DigitRun("1") == 1 && "1"[..1] == "1";
    assert DigitsValue("1") == 1;
  }
}

=== FILE: custom_types.dfy ===
/**
 * The small validated value types of config/types/customTypes.hpp: HTTP
 * status codes (with -1 as the wildcard), port numbers and the `default`
 * marker. Their constructors throw on out-of-range values; here they
 * return `None` instead.
 */
module CustomTypes {
  import opened Wrappers

  datatype StatusCode = StatusCode(value: int)

  datatype PortNumber = PortNumber(value: int)

  /** `DefaultVal(bool)` wraps the flag; converting it to `bool` gives the flag back. */
  datatype DefaultVal = DefaultVal(value: bool)

  /** The largest `uint16_t`. */
  const PortMax: int := 0xffff

  /** `StatusCode(int)`: a code from 100 to 599, or -1. */
  function MakeStatusCode(v: int): (r: Option<StatusCode>)
    ensures r.Some? <==> 100 <= v <= 599 || v == -1
    ensures r.Some? ==> r.value.value == v
  {
    if (v < 100 || v > 599) && v != -1 then None else Some(StatusCode(v))
  }

  /** `StatusCode::Wildcard()`: the code -1, which matches any status. */
  function Wildcard(): (c: StatusCode)
    ensures MakeStatusCode(c.value) == Some(c) && c.value < 100
  {
    StatusCode(-1)
  }

  /** `PortNumber(int)`: a value from 0 to 65535. */
  function MakePortNumber(v: int): (r: Option<PortNumber>)
    ensures r.Some? <==> 0 <= v <= PortMax
    ensures r.Some? ==> r.value.value == v
  {
    if v < 0 || v > PortMax then None else Some(PortNumber(v))
  }
}

=== FILE: diagnostics.dfy ===
/**
 * Error reporting (config/parserExceptions.cpp): where in a file an offset
 * lies, the include traceback of a rule, and the exception kinds the parser
 * and the binders raise. Message rendering (colours, carets) is not modelled.
 */
module Diagnostics {
  import opened Wrappers
  import opened ConfigTypes
  import opened Document

  /** The line holding an offset: file name, line text, line number, column. */
  datatype ErrorContext = ErrorContext(fileName: string, line: string, lineNumber: nat, columnNumber: nat)

  predicate Sorted(s: seq<nat>) {
    forall i, j :: 0 <= i <= j < |s| ==> s[i] <= s[j]
  }

  /** The line starts of an assembled text are strictly increasing and inside the content. */
  lemma {:induction false} LineStartsIncrease(text: AssembledText, i: nat, j: nat)
    requires i < j < |text.lineStarts|
    ensures text.lineStarts[i] < text.lineStarts[j] < |text.content| - 1
    decreases j - i
  {
    assert LineStartOk(text, j);
    if i + 1 < j {
      LineStartsIncrease(text, i, j - 1);
    }
  }

  lemma LineStartsSorted(text: AssembledText)
    ensures Sorted(text.lineStarts)
    ensures forall i :: 0 <= i < |text.lineStarts| ==> text.lineStarts[i] < |text.content| - 1
  {
    forall i, j | 0 <= i <= j < |text.lineStarts| ensures text.lineStarts[i] <= text.lineStarts[j] {
      if i < j { LineStartsIncrease(text, i, j); }
    }
    forall i | 0 <= i < |text.lineStarts| ensures text.lineStarts[i] < |text.content| - 1 {
      assert LineStartOk(text, i);
    }
  }

  /**
   * `std::lower_bound` over `s[lo..hi]`: the first index whose entry is not
   * below `x`, found by halving the range.
   */
  function LowerBound(s: seq<nat>, x: nat, lo: nat, hi: nat): (k: nat)
    requires lo <= hi <= |s| && Sorted(s)
    requires forall i :: 0 <= i < lo ==> s[i] < x
    requires forall i :: hi <= i < |s| ==> s[i] >= x
    ensures lo <= k <= hi
    ensures forall i :: 0 <= i < k ==> s[i] < x
    ensures forall i :: k <= i < |s| ==> s[i] >= x
    decreases hi - lo
  {
    if lo == hi then lo
    else
      var mid := (lo + hi) / 2;
      if s[mid] < x then LowerBound(s, x, mid + 1, hi) else LowerBound(s, x, lo, mid)
  }

  /**
   * `ConfigFile::getErrorContext`: the 1-based number of the line holding
   * `pos`, the 0-based column, and the text of that line (for the last line,
   * everything to the end of the content). A file without lines reads the
   * first line start of an empty vector in the source; here it yields line 0
   * and an empty text.
   */
  function ErrorContextAt(text: AssembledText, pos: nat): (c: ErrorContext)
    ensures c.fileName == text.fileName
    ensures |text.lineStarts| > 0 ==>
      var ls := text.lineStarts;
      && 1 <= c.lineNumber <= |ls|
      && ls[c.lineNumber - 1] <= pos
      && (c.lineNumber < |ls| ==> pos < ls[c.lineNumber])
      && c.columnNumber == pos - ls[c.lineNumber - 1]
      && ls[c.lineNumber - 1] < |text.content|
      && (c.lineNumber < |ls| ==> ls[c.lineNumber - 1] < ls[c.lineNumber] < |text.content|)
      && c.line == text.content[ls[c.lineNumber - 1] .. if c.lineNumber < |ls| then ls[c.lineNumber] else |text.content|]
  {
    var ls := text.lineStarts;
    LineStartsSorted(text);
    var k := LowerBound(ls, pos + 1, 0, |ls|);
    if |ls| == 0 then ErrorContext(text.fileName, [], 0, pos)
    else
      assert k > 0;
      var start := ls[k - 1];
      var stop := if k < |ls| then ls[k] else |text.content|;
      ErrorContext(text.fileName, text.content[start .. stop], k, pos - start)
  }

  /**
   * An offset between the start of line k and the start of line k + 1 (or
   * the end of the content) is reported on line k + 1, at its distance from
   * the start of line k, with the text of line k.
   */
  lemma ContextOnLine(text: AssembledText, k: nat, pos: nat)
    requires k < |text.lineStarts|
    requires text.lineStarts[k] <= pos
    requires k + 1 < |text.lineStarts| ==> pos < text.lineStarts[k + 1]
    ensures var c := ErrorContextAt(text, pos);
      var ls := text.lineStarts;
      && c.lineNumber == k + 1
      && c.columnNumber == pos - ls[k]
      && c.line == text.content[ls[k] .. if k + 1 < |ls| then ls[k + 1] else |text.content|]
  {
    var ls := text.lineStarts;
    LineStartsSorted(text);
  }

  /** The context of a rule's own token. */
  function RuleContext(nodes: seq<Node>, rule: NodeId): ErrorContext
    requires IsRule(nodes, rule)
  {
    var t := nodes[rule].rule.token;
    ErrorContextAt(t.file, t.filePos)
  }

  /** One context per include directive on a rule's include path, in order. */
  function IncludeContexts(nodes: seq<Node>, path: seq<NodeId>): (cs: seq<ErrorContext>)
    requires AllRules(nodes, path)
    ensures |cs| == |path|
    ensures forall j :: 0 <= j < |path| ==> cs[j] == RuleContext(nodes, path[j])
  {
    seq(|path|, j requires 0 <= j < |path| => RuleContext(nodes, path[j]))
  }

  /**
   * The traceback of a rule: the include directives through which it was
   * copied, then those of the rule that owns its object, and so on up to the
   * file's root object.
   */
  function TracebackOf(nodes: seq<Node>, rule: Option<NodeId>): (r: seq<ErrorContext>)
    requires Valid(nodes) && (rule.Some? ==> IsRule(nodes, rule.value))
    ensures rule.None? ==> r == []
    ensures rule.Some? ==> NodeOk(nodes, rule.value) && IncludeContexts(nodes, nodes[rule.value].rule.includePath) <= r
    ensures forall c :: c in r ==> exists q :: IsRule(nodes, q) && c == RuleContext(nodes, q)
    decreases if rule.Some? then rule.value + 1 else 0
  {
    if rule.None? then []
    else
      assert NodeOk(nodes, rule.value);
      var r := nodes[rule.value].rule;
      assert NodeOk(nodes, r.parentObject);
      IncludeContexts(nodes, r.includePath) + TracebackOf(nodes, nodes[r.parentObject].obj.parentRule)
  }

  /** The rule owning the object a rule sits in, if any. */
  function EnclosingRule(nodes: seq<Node>, rule: NodeId): (p: Option<NodeId>)
    requires Valid(nodes) && IsRule(nodes, rule)
    ensures p.Some? ==> IsRule(nodes, p.value) && p.value < rule
  {
    assert NodeOk(nodes, rule);
    assert NodeOk(nodes, nodes[rule].rule.parentObject);
    nodes[nodes[rule].rule.parentObject].obj.parentRule
  }

  /** One step of the walk: a rule's own include contexts, then its enclosing rule's traceback. */
  lemma TracebackStep(nodes: seq<Node>, rule: NodeId)
    requires Valid(nodes) && IsRule(nodes, rule)
    ensures AllRules(nodes, nodes[rule].rule.includePath)
    ensures TracebackOf(nodes, Some(rule))
         == IncludeContexts(nodes, nodes[rule].rule.includePath) + TracebackOf(nodes, EnclosingRule(nodes, rule))
  {
    assert NodeOk(nodes, rule);
  }

  /** `loadTraceback`: walks up the tree collecting include contexts. */
  method LoadTraceback(nodes: seq<Node>, rule: Option<NodeId>) returns (traceback: seq<ErrorContext>)
    requires Valid(nodes) && (rule.Some? ==> IsRule(nodes, rule.value))
    ensures traceback == TracebackOf(nodes, rule)
  {
    traceback := [];
    var current := rule;
    while current.Some?
      invariant current.Some? ==> IsRule(nodes, current.value)
      invariant traceback + TracebackOf(nodes, current) == TracebackOf(nodes, rule)
      decreases if current.Some? then current.value + 1 else 0
    {
      TracebackStep(nodes, current.value);
      var up := EnclosingRule(nodes, current.value);
      ghost var inc := IncludeContexts(nodes, nodes[current.value].rule.includePath);
      assert traceback + TracebackOf(nodes, current) == (traceback + inc) + TracebackOf(nodes, up);
      traceback := PushIncludeContexts(nodes, nodes[current.value].rule.includePath, traceback);
      current := up;
    }
  }

  /** The inner loop of `loadTraceback`: one context per include directive. */
  method PushIncludeContexts(nodes: seq<Node>, path: seq<NodeId>, traceback: seq<ErrorContext>)
    returns (result: seq<ErrorContext>)
    requires AllRules(nodes, path)
    ensures result == traceback + IncludeContexts(nodes, path)
  {
    result := traceback;
    for j := 0 to |path|
      invariant result == traceback + IncludeContexts(nodes, path[..j])
    {
      result := result + [RuleContext(nodes, path[j])];
      assert path[..j + 1][..j] == path[..j];
    }
    assert path[..|path|] == path;
  }

  /** A rule no include directive copied, at any level above it, has an empty traceback. */
  lemma {:induction false} DirectRuleHasNoTraceback(nodes: seq<Node>, rule: Option<NodeId>)
    requires Valid(nodes) && (rule.Some? ==> IsRule(nodes, rule.value))
    requires forall r :: 0 <= r < |nodes| && nodes[r].RuleNode? ==> nodes[r].rule.includePath == []
    ensures TracebackOf(nodes, rule) == []
    decreases if rule.Some? then rule.value + 1 else 0
  {
    if rule.Some? {
      DirectRuleHasNoTraceback(nodes, EnclosingRule(nodes, rule.value));
    }
  }

  /** The exception classes of the parser and the extra data each carries. */
  datatype ErrorKind =
    | Plain
    | AtToken(token: Token)
    | AtRule(rule: NodeId)
    | AtArgument(argument: NodeId)
    | Duplicate(first: NodeId, second: NodeId, tracebackFirst: seq<ErrorContext>)
    | Missing(object: Option<NodeId>)
    | Std

  /** A raised exception: its class, message, hint and traceback. */
  datatype ParserError = ParserError(kind: ErrorKind, message: string, hint: string, traceback: seq<ErrorContext>)

  function PlainError(message: string, hint: string): ParserError {
    ParserError(Plain, message, hint, [])
  }

  function TokenError(message: string, token: Token, hint: string): ParserError {
    ParserError(AtToken(token), message, hint, [])
  }

  function RuleError(nodes: seq<Node>, message: string, rule: NodeId, hint: string): ParserError
    requires Valid(nodes) && IsRule(nodes, rule)
  {
    ParserError(AtRule(rule), message, hint, TracebackOf(nodes, Some(rule)))
  }

  function ArgumentError(nodes: seq<Node>, message: string, argument: NodeId, hint: string): ParserError
    requires Valid(nodes) && IsArgument(nodes, argument)
  {
    assert NodeOk(nodes, argument);
    ParserError(AtArgument(argument), message, hint, TracebackOf(nodes, Some(nodes[argument].arg.parentRule)))
  }

  function DuplicateError(nodes: seq<Node>, message: string, first: NodeId, second: NodeId, hint: string): ParserError
    requires Valid(nodes) && IsRule(nodes, first) && IsRule(nodes, second)
  {
    ParserError(Duplicate(first, second, TracebackOf(nodes, Some(first))), message, hint, TracebackOf(nodes, Some(second)))
  }

  function MissingError(message: string, hint: string): ParserError {
    ParserError(Missing(None), message, hint, [])
  }

  /** A `std::exception` that is not a parser exception. */
  function StdError(what: string): ParserError {
    ParserError(Std, what, "", [])
  }

  /**
   * `addTracebackFromRule`, applied when a parser exception leaves an
   * included file: the include directive's own context and then its
   * traceback are appended. Other exceptions pass through untouched.
   */
  function AddTracebackFromRule(e: ParserError, nodes: seq<Node>, rule: NodeId): (r: ParserError)
    requires Valid(nodes) && IsRule(nodes, rule)
    ensures r.kind == e.kind && r.message == e.message && r.hint == e.hint
    ensures !e.kind.Std? ==>
      && |r.traceback| > |e.traceback|
      && r.traceback[..|e.traceback|] == e.traceback
      && r.traceback[|e.traceback|] == RuleContext(nodes, rule)
      && r.traceback[|e.traceback| + 1..] == TracebackOf(nodes, Some(rule))
    ensures e.kind.Std? ==> r == e
  {
    if e.kind.Std? then e
    else e.(traceback := e.traceback + [RuleContext(nodes, rule)] + TracebackOf(nodes, Some(rule)))
  }

  /**
   * `attachObject`: a missing-rule exception learns the object that was
   * searched, and its traceback becomes that object's.
   */
  function AttachObject(e: ParserError, nodes: seq<Node>, obj: NodeId): (r: ParserError)
    requires Valid(nodes) && IsObject(nodes, obj) && e.kind.Missing?
    ensures r.kind == Missing(Some(obj)) && r.message == e.message && r.hint == e.hint
    ensures NodeOk(nodes, obj) && r.traceback == TracebackOf(nodes, nodes[obj].obj.parentRule)
  {
    assert NodeOk(nodes, obj);
    e.(kind := Missing(Some(obj)), traceback := TracebackOf(nodes, nodes[obj].obj.parentRule))
  }

  function KindTag(kind: ErrorKind): string {
    match kind
    case Plain => "ParserException"
    case AtToken(_) => "ParserTokenException"
    case AtRule(_) => "ParserRuleException"
    case AtArgument(_) => "ParserArgumentException"
    case Duplicate(_, _, _) => "ParserDuplicateException"
    case Missing(_) => "ParserMissingException"
    case Std => "exception"
  }

  /**
   * The head line of `getMessage` without colours. A missing-rule exception
   * with no object attached cannot be rendered and raises instead.
   */
  function MessageHead(e: ParserError): (r: Result<string, ParserError>)
    ensures r.Err? <==> e.kind == Missing(None)
    ensures r.Ok? ==> r.value == "[" + KindTag(e.kind) + "]: " + e.message
  {
    if e.kind == Missing(None) then
      Err(PlainError("ParserMissingException: No object attached",
                     "Attach an object to the exception before calling getMessage()"))
    else Ok("[" + KindTag(e.kind) + "]: " + e.message)
  }

  /**
   * How many characters the caret line of `_printErrorContext` marks under
   * a token: its text, except that a quote is marked as one character.
   */
  function HighlightLength(t: Token): (n: nat)
    ensures IsQuote(t.kind) ==> n == 1
    ensures !IsQuote(t.kind) ==> n == |t.value|
  {
    if IsQuote(t.kind) then 1 else |t.value|
  }

  /** A traceback line `_printTraceback` skips: only spaces, tabs and line breaks. */
  predicate BlankLine(line: string) {
    forall i :: 0 <= i < |line| ==> line[i] in {' ', '\t', '\r', '\n'}
  }

  /** The positions, from `from` on and in increasing order, of the traceback lines that are not blank. */
  function ShownIndices(traceback: seq<ErrorContext>, from: nat): (idx: seq<nat>)
    requires from <= |traceback|
    ensures |idx| <= |traceback| - from
    ensures forall k :: 0 <= k < |idx| ==> from <= idx[k] < |traceback| && !BlankLine(traceback[idx[k]].line)
    ensures forall k, l :: 0 <= k < l < |idx| ==> idx[k] < idx[l]
    ensures forall i :: from <= i < |traceback| && !BlankLine(traceback[i].line) ==> i in idx
    decreases |traceback| - from
  {
    if from == |traceback| then []
    else (if BlankLine(traceback[from].line) then [] else [from]) + ShownIndices(traceback, from + 1)
  }

  /** The entries `_printTraceback` prints from position `from` on. */
  function ShownFrom(traceback: seq<ErrorContext>, from: nat): (shown: seq<ErrorContext>)
    requires from <= |traceback|
    ensures |shown| == |ShownIndices(traceback, from)|
    ensures forall k :: 0 <= k < |shown| ==> shown[k] == traceback[ShownIndices(traceback, from)[k]]
    ensures forall c :: c in shown ==> c in traceback && !BlankLine(c.line)
    ensures forall i :: from <= i < |traceback| && !BlankLine(traceback[i].line) ==> traceback[i] in shown
    decreases |traceback| - from
  {
    if from == |traceback| then []
    else (if BlankLine(traceback[from].line) then [] else [traceback[from]]) + ShownFrom(traceback, from + 1)
  }

  /**
   * The traceback entries `_printTraceback` prints, in order: those whose
   * line is not blank. `shown[k]` is the entry at the `k`-th position of
   * `ShownIndices`, which rise and hit every entry that is not blank.
   */
  function PrintedTraceback(traceback: seq<ErrorContext>): (shown: seq<ErrorContext>)
    ensures |shown| <= |traceback|
    ensures forall c :: c in shown ==> c in traceback && !BlankLine(c.line)
    ensures forall c :: c in traceback && !BlankLine(c.line) ==> c in shown
    ensures |shown| == |ShownIndices(traceback, 0)|
    ensures forall k :: 0 <= k < |shown| ==> shown[k] == traceback[ShownIndices(traceback, 0)[k]]
  {
    ShownFrom(traceback, 0)
  }
}

=== FILE: document.dfy ===
/**
 * The parse tree (config/config.hpp): objects hold rules by key, rules hold
 * arguments, arguments may hold a nested object. Nodes live in an arena and
 * refer to each other by their index in it, which is also their allocation
 * order (config/arena.hpp).
 */
module Document {
  import opened Wrappers
  import opened ConfigTypes

  type NodeId = nat

  /** What an argument holds: a string, a nested object or a keyword. */
  datatype ArgValue = StringValue(text: string) | ObjectValue(obj: NodeId) | KeywordValue(keyword: Keyword)

  /**
   * A `{ ... }` block. `closeToken` is `None` while the block is still being
   * parsed; the scope resolver only ever sees closed blocks.
   */
  datatype Object = Object(
    rules: map<Key, seq<NodeId>>,
    parentRule: Option<NodeId>,
    openToken: Token,
    closeToken: Option<Token>)

  /**
   * A directive. `includePath` lists the include directives through which
   * this rule was copied into its object, innermost first; it is empty for a
   * rule written where it stands.
   */
  datatype Rule = Rule(
    key: Key,
    arguments: seq<NodeId>,
    parentObject: NodeId,
    includePath: seq<NodeId>,
    token: Token)

  datatype Argument = Argument(value: ArgValue, parentRule: NodeId, token: Token)

  datatype Node = ObjectNode(obj: Object) | RuleNode(rule: Rule) | ArgumentNode(arg: Argument)

  predicate IsObject(nodes: seq<Node>, id: NodeId) { id < |nodes| && nodes[id].ObjectNode? }
  predicate IsRule(nodes: seq<Node>, id: NodeId) { id < |nodes| && nodes[id].RuleNode? }
  predicate IsArgument(nodes: seq<Node>, id: NodeId) { id < |nodes| && nodes[id].ArgumentNode? }

  /** An object whose closing brace has been read. */
  predicate Closed(nodes: seq<Node>, id: NodeId) { IsObject(nodes, id) && nodes[id].obj.closeToken.Some? }

  /** Every id in `ids` is a rule with key `key` whose parent object is `owner`. */
  predicate RulesBelong(nodes: seq<Node>, ids: seq<NodeId>, key: Key, owner: NodeId) {
    forall j :: 0 <= j < |ids| ==>
      IsRule(nodes, ids[j]) && nodes[ids[j]].rule.key == key && nodes[ids[j]].rule.parentObject == owner
  }

  predicate AllArguments(nodes: seq<Node>, ids: seq<NodeId>) {
    forall j :: 0 <= j < |ids| ==> IsArgument(nodes, ids[j])
  }

  predicate AllRules(nodes: seq<Node>, ids: seq<NodeId>) {
    forall j :: 0 <= j < |ids| ==> IsRule(nodes, ids[j])
  }

  /** The links of node `i`: parents are older nodes of the right kind. */
  predicate NodeOk(nodes: seq<Node>, i: nat)
    requires i < |nodes|
  {
    match nodes[i]
    case ObjectNode(o) =>
      && (o.parentRule.Some? ==> o.parentRule.value < i && IsRule(nodes, o.parentRule.value))
      && Define !in o.rules && Include !in o.rules
      && (forall k :: k in o.rules ==> RulesBelong(nodes, o.rules[k], k, i))
    case RuleNode(r) =>
      && r.parentObject < i && IsObject(nodes, r.parentObject)
      && AllArguments(nodes, r.arguments)
      && AllRules(nodes, r.includePath)
    case ArgumentNode(a) =>
      && a.parentRule < i && IsRule(nodes, a.parentRule)
      && (a.value.ObjectValue? ==> a.value.obj < i && Closed(nodes, a.value.obj))
  }

  /** The invariant the parser keeps for the whole arena. */
  predicate Valid(nodes: seq<Node>) {
    forall i :: 0 <= i < |nodes| ==> NodeOk(nodes, i)
  }

  /** The rules an object stores under `key`, in arrival order. */
  function RulesAt(nodes: seq<Node>, obj: NodeId, key: Key): (ids: seq<NodeId>)
    requires IsObject(nodes, obj)
    ensures Valid(nodes) ==> RulesBelong(nodes, ids, key, obj)
  {
    assert Valid(nodes) ==> NodeOk(nodes, obj);
    var o := nodes[obj].obj;
    if key in o.rules then o.rules[key] else []
  }

  /** The arguments of a rule, in order. */
  function ArgumentsOf(nodes: seq<Node>, rule: NodeId): (args: seq<Argument>)
    requires Valid(nodes) && IsRule(nodes, rule)
    ensures |args| == |nodes[rule].rule.arguments|
  {
    assert NodeOk(nodes, rule);
    var ids := nodes[rule].rule.arguments;
    seq(|ids|, j requires 0 <= j < |ids| => nodes[ids[j]].arg)
  }

  /** Node `i` keeps its links when the arena grows. */
  lemma NodeOkGrows(nodes: seq<Node>, more: seq<Node>, i: nat)
    requires i < |nodes| && NodeOk(nodes, i)
    ensures NodeOk(nodes + more, i)
  {
    var all := nodes + more;
    match nodes[i]
    case ObjectNode(o) =>
      forall k | k in o.rules ensures RulesBelong(all, o.rules[k], k, i) {
        assert RulesBelong(nodes, o.rules[k], k, i);
      }
    case RuleNode(r) =>
      assert AllArguments(nodes, r.arguments) && AllRules(nodes, r.includePath);
    case ArgumentNode(a) =>
  }

  /** Appending a node whose own links are in order keeps the arena valid. */
  lemma ValidAppend(nodes: seq<Node>, n: Node)
    requires Valid(nodes) && NodeOk(nodes + [n], |nodes|)
    ensures Valid(nodes + [n])
  {
    forall i | 0 <= i < |nodes| + 1 ensures NodeOk(nodes + [n], i) {
      if i < |nodes| { NodeOkGrows(nodes, [n], i); }
    }
  }

  /**
   * Replacing a node by one of the same kind (for a rule: same key and same
   * parent; for a closed object: closed) whose own links are in order keeps
   * the arena valid.
   */
  lemma ValidReplace(nodes: seq<Node>, id: NodeId, n: Node)
    requires Valid(nodes) && id < |nodes|
    requires n.ObjectNode? <==> nodes[id].ObjectNode?
    requires n.RuleNode? <==> nodes[id].RuleNode?
    requires n.RuleNode? ==> n.rule.key == nodes[id].rule.key && n.rule.parentObject == nodes[id].rule.parentObject
    requires Closed(nodes, id) ==> n.obj.closeToken.Some?
    requires NodeOk(nodes[id := n], id)
    ensures Valid(nodes[id := n])
  {
    var all := nodes[id := n];
    forall i | 0 <= i < |all| ensures NodeOk(all, i) {
      if i != id {
        assert NodeOk(nodes, i);
        match nodes[i]
        case ObjectNode(o) =>
          forall k | k in o.rules ensures RulesBelong(all, o.rules[k], k, i) {
            assert RulesBelong(nodes, o.rules[k], k, i);
          }
        case RuleNode(r) =>
          assert AllArguments(nodes, r.arguments) && AllRules(nodes, r.includePath);
        case ArgumentNode(a) =>
      }
    }
  }

  /**
   * The arena: nodes in allocation order, plus the set of rules some binder
   * has consumed (each rule's `isUsed` flag).
   */
  class Arena {
    var nodes: seq<Node>
    var used: set<NodeId>

    constructor ()
      ensures nodes == [] && used == {}
    {
      nodes := [];
      used := {};
    }

    method Alloc(n: Node) returns (id: NodeId)
      modifies this`nodes
      ensures id == old(|nodes|) && nodes == old(nodes) + [n]
    {
      id := |nodes|;
      nodes := nodes + [n];
    }

    method Store(id: NodeId, n: Node)
      requires id < |nodes|
      modifies this`nodes
      ensures nodes == old(nodes)[id := n]
    {
      nodes := nodes[id := n];
    }

    method MarkUsed(id: NodeId)
      modifies this`used
      ensures used == old(used) + {id}
    {
      used := used + {id};
    }
  }
}

=== FILE: lexer.dfy ===
/**
 * The lexer (config/lexer.cpp): single characters are classified by a fixed
 * pattern table, runs of word characters, comments and quoted strings are
 * merged, and only the kinds the parser needs are kept. The whole file is
 * wrapped in a made-up `{ ... }` pair so that it parses as one object.
 */
module Lexer {
  import opened Wrappers
  import opened ConfigTypes
  import opened Diagnostics

  /** The pattern table, tried in this order; every pattern is one character long. */
  const TokenPatterns: seq<(char, TokenType)> := [
    ('{', ObjectOpen), ('}', ObjectClose), (';', RuleEnd), ('#', Comment),
    ('\'', Quote1), (' ', Whitespace), ('"', Quote2), ('\n', LineEnd),
    ('\t', Whitespace), ('\r', Whitespace), ('\U{B}', Whitespace), ('\U{C}', Whitespace)
  ]

  /** The kind the pattern table gives a character, if any entry matches it. */
  function PatternOf(c: char): Option<TokenType> {
    if c == '{' then Some(ObjectOpen)
    else if c == '}' then Some(ObjectClose)
    else if c == ';' then Some(RuleEnd)
    else if c == '#' then Some(Comment)
    else if c == '\'' then Some(Quote1)
    else if c == ' ' then Some(Whitespace)
    else if c == '"' then Some(Quote2)
    else if c == '\n' then Some(LineEnd)
    else if c == '\t' || c == '\r' || c == '\U{B}' || c == '\U{C}' then Some(Whitespace)
    else None
  }

  /** The table and `PatternOf` agree: a character matches an entry exactly when it has a kind. */
  lemma PatternTableAgrees(c: char)
    ensures forall i :: 0 <= i < |TokenPatterns| && TokenPatterns[i].0 == c ==> PatternOf(c) == Some(TokenPatterns[i].1)
    ensures PatternOf(c).Some? ==> exists i :: 0 <= i < |TokenPatterns| && TokenPatterns[i].0 == c
  {
    var chars := seq(|TokenPatterns|, i requires 0 <= i < |TokenPatterns| => TokenPatterns[i].0);
    assert chars == ['{', '}', ';', '#', '\'', ' ', '"', '\n', '\t', '\r', '\U{B}', '\U{C}'];
    if PatternOf(c).Some? {
      assert c in chars;
    }
  }

  /** `std::string::operator[]`: reading at the size gives '\0'. */
  function CharAt(s: string, i: nat): char
    requires i <= |s|
  {
    if i < |s| then s[i] else '\0'
  }

  /**
   * The token `getNextToken` returns at `pos`: a table kind, or else a word
   * character — unless the next character is '\0', in which case it is the
   * end of the input.
   */
  function TokenAt(file: AssembledText, pos: nat): (t: Token)
    requires pos < |file.content|
    ensures t.file == file && t.filePos == pos && t.value == [file.content[pos]]
    ensures t.kind != UnknownToken
    ensures t.kind != End ==> pos + 1 < |file.content|
    ensures IsQuote(t.kind) ==> pos + 2 < |file.content|
    ensures t.kind == WeakStr ==> PatternOf(file.content[pos]) == None
  {
    var c := file.content[pos];
    match PatternOf(c)
    case Some(kind) => Token(kind, [c], file, pos)
    case None => Token(if CharAt(file.content, pos + 1) != '\0' then WeakStr else End, [c], file, pos)
  }

  /** `getNextToken`: scans the pattern table for the character at `pos` and advances by one. */
  method GetNextToken(file: AssembledText, pos: nat) returns (token: Token, newPos: nat)
    requires pos < |file.content|
    ensures token == TokenAt(file, pos) && newPos == pos + 1
  {
    var c := file.content[pos];
    PatternTableAgrees(c);
    for i := 0 to |TokenPatterns|
      invariant forall j :: 0 <= j < i ==> TokenPatterns[j].0 != c
    {
      if TokenPatterns[i].0 == c {
        return Token(TokenPatterns[i].1, [TokenPatterns[i].0], file, pos), pos + 1;
      }
    }
    newPos := pos + 1;
    var kind := if CharAt(file.content, newPos) != '\0' then WeakStr else End;
    token := Token(kind, [file.content[newPos - 1]], file, newPos - 1);
  }

  /**
   * What `parseContinuousToken` does from `pos`: the text of every token up
   * to the first one whose kind is in `mask`, and that token.
   */
  function Absorb(file: AssembledText, pos: nat, mask: TokenMask): (r: (string, Token))
    requires pos < |file.content| && InMask(End, mask)
    ensures pos <= r.1.filePos < |file.content|
    ensures r.1 == TokenAt(file, r.1.filePos) && InMask(r.1.kind, mask)
    ensures r.0 == file.content[pos..r.1.filePos]
    decreases |file.content| - pos
  {
    var t := TokenAt(file, pos);
    if InMask(t.kind, mask) then ("", t)
    else
      var rest := Absorb(file, pos + 1, mask);
      (t.value + rest.0, rest.1)
  }

  /** The stopping token is the first one in the mask: every token absorbed before it is outside the mask. */
  lemma {:induction false} AbsorbSkips(file: AssembledText, pos: nat, mask: TokenMask, p: nat)
    requires pos < |file.content| && InMask(End, mask)
    requires pos <= p < Absorb(file, pos, mask).1.filePos
    ensures !InMask(TokenAt(file, p).kind, mask)
    decreases |file.content| - pos
  {
    if p > pos {
      AbsorbSkips(file, pos + 1, mask, p);
    }
  }

  /** `parseContinuousToken`: appends the absorbed text to `current` and returns the stopping token. */
  method ParseContinuousToken(file: AssembledText, pos: nat, current: Token, mask: TokenMask)
    returns (merged: Token, next: Token, newPos: nat)
    requires pos < |file.content| && InMask(End, mask)
    ensures merged == current.(value := current.value + Absorb(file, pos, mask).0)
    ensures next == Absorb(file, pos, mask).1 && newPos == next.filePos + 1
  {
    merged := current;
    var p := pos;
    ghost var stop := Absorb(file, pos, mask).1;
    while true
      invariant pos <= p <= stop.filePos
      invariant Absorb(file, p, mask).1 == stop
      invariant merged == current.(value := merged.value)
      invariant merged.value == current.value + file.content[pos..p]
      decreases stop.filePos - p
    {
      AbsorbStep(file, p, mask);
      var t, q := GetNextToken(file, p);
      if InMask(t.kind, mask) {
        return merged, t, q;
      }
      SliceGrows(file.content, pos, p);
      merged := merged.(value := merged.value + t.value);
      p := q;
    }
  }

  lemma SliceGrows(s: string, i: nat, j: nat)
    requires i <= j < |s|
    ensures s[i..j + 1] == s[i..j] + [s[j]]
  {
  }

  /** One token of `Absorb`: it stops at a token in the mask and moves past any other. */
  lemma AbsorbStep(file: AssembledText, p: nat, mask: TokenMask)
    requires p < |file.content| && InMask(End, mask)
    ensures var t := TokenAt(file, p);
      && (InMask(t.kind, mask) ==> Absorb(file, p, mask).1 == t)
      && (!InMask(t.kind, mask) ==> p < Absorb(file, p, mask).1.filePos && Absorb(file, p, mask).1 == Absorb(file, p + 1, mask).1)
  {
  }

  /** The token the lexer starts from and the one it closes the file with. */
  function SysOpen(file: AssembledText): Token { Token(ObjectOpen, SysMarker, file, 0) }

  function SysClose(file: AssembledText, pos: nat): Token { Token(ObjectClose, SysMarker, file, pos) }

  const EmptyQuoteMessage := "Quote without content in configuration file"
  const EmptyQuoteHint := "Put some content in the quotes; or remove them if not needed!"
  const UnmatchedQuoteMessage := "Unmatched quote in configuration file"
  const UnmatchedQuoteHint := "Close it dummy!"

  /** Where the tokenizer may stand: `pos` is just after `cur` (or 0 for the opening token). */
  predicate LexState(file: AssembledText, pos: nat, cur: Token) {
    && pos <= |file.content|
    && (cur.kind != End ==> pos < |file.content|)
    && (IsQuote(cur.kind) ==> pos + 1 < |file.content|)
  }

  function Prepend(prefix: seq<Token>, rest: Result<seq<Token>, ParserError>): Result<seq<Token>, ParserError> {
    if rest.Ok? then Ok(prefix + rest.value) else rest
  }

  /** What one pass of the `_tokenize` loop does. */
  datatype LexOutcome =
    | Done(tokens: seq<Token>)
    | Failed(error: ParserError)
    | Next(pushed: seq<Token>, pos: nat, current: Token)

  /**
   * One pass of the `_tokenize` loop with `cur` in hand: the tokens it
   * pushes and the new position and token in hand, or the final tokens once
   * the end is reached, or the quote error it raises.
   */
  function LexStepOf(file: AssembledText, pos: nat, cur: Token): (o: LexOutcome)
    requires LexState(file, pos, cur)
    ensures o.Done? <==> cur.kind == End
    ensures o.Failed? ==> IsQuote(cur.kind)
    ensures o.Next? ==> LexState(file, o.pos, o.current) && pos < o.pos
    ensures o.Next? ==> forall t :: t in o.pushed ==> Usable(t.kind)
  {
    match cur.kind
    case End => Done([SysClose(file, pos), cur])
    case WeakStr =>
      var (text, stop) := Absorb(file, pos, EosMaskDefault);
      Next([cur.(value := cur.value + text)], stop.filePos + 1, stop)
    case Comment =>
      var stop := Absorb(file, pos, CommentMask).1;
      Next([], stop.filePos + 1, stop)
    case Quote1 | Quote2 => QuoteStepOf(file, pos, cur)
    case _ => Next(if Usable(cur.kind) then [cur] else [], pos + 1, TokenAt(file, pos))
  }

  /**
   * A quoted string: at least one character, then the same quote kind,
   * before the end of the file; it becomes one string token.
   */
  function QuoteStepOf(file: AssembledText, pos: nat, quote: Token): (o: LexOutcome)
    requires IsQuote(quote.kind) && LexState(file, pos, quote)
    ensures !o.Done?
    ensures o.Next? ==> LexState(file, o.pos, o.current) && pos < o.pos
    ensures o.Next? ==> |o.pushed| == 1 && o.pushed[0].kind == Str
  {
    var first := TokenAt(file, pos);
    if first.kind == quote.kind then Failed(TokenError(EmptyQuoteMessage, quote, EmptyQuoteHint))
    else
      var (text, stop) := Absorb(file, pos + 1, EosMaskQuote(quote.kind));
      if stop.kind != quote.kind then Failed(TokenError(UnmatchedQuoteMessage, quote, UnmatchedQuoteHint))
      else Next([first.(kind := Str, value := first.value + text)], stop.filePos + 2, TokenAt(file, stop.filePos + 1))
  }

  /**
   * The three ways a quoted string ends: the same quote right away is an
   * empty string, the end of the file first is an unmatched quote, and
   * otherwise the text up to the closing quote becomes one string token,
   * without the quotes.
   */
  lemma QuoteOutcome(file: AssembledText, pos: nat, quote: Token)
    requires IsQuote(quote.kind) && LexState(file, pos, quote)
    ensures var o := QuoteStepOf(file, pos, quote);
      var stop := Absorb(file, pos + 1, EosMaskQuote(quote.kind)).1;
      && (TokenAt(file, pos).kind == quote.kind ==> o == Failed(TokenError(EmptyQuoteMessage, quote, EmptyQuoteHint)))
      && (TokenAt(file, pos).kind != quote.kind && stop.kind == End ==>
            o == Failed(TokenError(UnmatchedQuoteMessage, quote, UnmatchedQuoteHint)))
      && (TokenAt(file, pos).kind != quote.kind && stop.kind != End ==>
            && stop.kind == quote.kind
            && o == Next([Token(Str, file.content[pos..stop.filePos], file, pos)], stop.filePos + 2, TokenAt(file, stop.filePos + 1)))
  {
    var first := TokenAt(file, pos);
    var (text, stop) := Absorb(file, pos + 1, EosMaskQuote(quote.kind));
    if first.kind != quote.kind && stop.kind != End {
      assert first.value + text == file.content[pos..stop.filePos];
    }
  }

  /** The caret line of an error under `t` marks, in the content of `file`, exactly the token's text. */
  predicate MarksItsText(file: AssembledText, t: Token) {
    && t.filePos + HighlightLength(t) <= |file.content|
    && file.content[t.filePos..t.filePos + HighlightLength(t)] == t.value
  }

  /** The token in hand at `pos`: the opening token at the start, else the one read just before `pos`. */
  predicate InHand(file: AssembledText, pos: nat, cur: Token) {
    || (pos == 0 && cur == SysOpen(file))
    || (0 < pos <= |file.content| && cur == TokenAt(file, pos - 1))
  }

  /** Every token of `ts` other than the opening and closing tokens is not a quote and marks its text. */
  predicate TokensMarkText(file: AssembledText, ts: seq<Token>) {
    forall t :: t in ts ==> t == SysOpen(file) || t == SysClose(file, t.filePos) || (!IsQuote(t.kind) && MarksItsText(file, t))
  }

  /** The error is raised at a quote, marked as that one character. */
  predicate QuoteMarked(file: AssembledText, e: ParserError) {
    e.kind.AtToken? && IsQuote(e.kind.token.kind) && HighlightLength(e.kind.token) == 1 && MarksItsText(file, e.kind.token)
  }

  /** A word merged by the lexer marks its whole text. */
  lemma WordMarksText(file: AssembledText, pos: nat, cur: Token)
    requires LexState(file, pos, cur) && InHand(file, pos, cur) && cur.kind == WeakStr
    ensures StepMarksText(file, LexStepOf(file, pos, cur))
  {
    var (text, stop) := Absorb(file, pos, EosMaskDefault);
    assert cur.value + text == file.content[pos - 1..stop.filePos];
    assert MarksItsText(file, cur.(value := cur.value + text)) && InHand(file, stop.filePos + 1, stop);
  }

  /** A comment is dropped up to the end of its line. */
  lemma CommentMarksText(file: AssembledText, pos: nat, cur: Token)
    requires LexState(file, pos, cur) && InHand(file, pos, cur) && cur.kind == Comment
    ensures StepMarksText(file, LexStepOf(file, pos, cur))
  {
    var stop := Absorb(file, pos, CommentMask).1;
    assert InHand(file, stop.filePos + 1, stop);
  }

  /** A pass of the lexer marks text: what it pushes does, and the next token in hand is the one just read. */
  predicate StepMarksText(file: AssembledText, o: LexOutcome) {
    match o
    case Done(tokens) => TokensMarkText(file, tokens)
    case Failed(e) => QuoteMarked(file, e)
    case Next(pushed, next, current) => TokensMarkText(file, pushed) && InHand(file, next, current)
  }

  /** A quote in hand is marked as the one character it was read from, whichever quote error it raises. */
  lemma QuoteIsMarked(file: AssembledText, pos: nat, cur: Token)
    requires LexState(file, pos, cur) && InHand(file, pos, cur) && IsQuote(cur.kind)
    ensures QuoteMarked(file, TokenError(EmptyQuoteMessage, cur, EmptyQuoteHint))
    ensures QuoteMarked(file, TokenError(UnmatchedQuoteMessage, cur, UnmatchedQuoteHint))
  {
  }

  /** The string token of a closed quote marks the text between the quotes. */
  lemma QuotedStringMarked(file: AssembledText, pos: nat, stop: Token)
    requires pos <= stop.filePos && stop.filePos + 1 < |file.content|
    ensures TokensMarkText(file, [Token(Str, file.content[pos..stop.filePos], file, pos)])
    ensures InHand(file, stop.filePos + 2, TokenAt(file, stop.filePos + 1))
  {
  }

  /** A quoted string marks its text without the quotes; a quote error is marked at the quote. */
  lemma QuoteMarksText(file: AssembledText, pos: nat, cur: Token)
    requires LexState(file, pos, cur) && InHand(file, pos, cur) && IsQuote(cur.kind)
    ensures StepMarksText(file, QuoteStepOf(file, pos, cur))
  {
    QuoteOutcome(file, pos, cur);
    var stop := Absorb(file, pos + 1, EosMaskQuote(cur.kind)).1;
    QuoteIsMarked(file, pos, cur);
    if TokenAt(file, pos).kind != cur.kind && stop.kind != End {
      QuotedStringMarked(file, pos, stop);
    }
  }

  /** A single-character token is kept as read, and the end token closes the file. */
  lemma PlainMarksText(file: AssembledText, pos: nat, cur: Token)
    requires LexState(file, pos, cur) && InHand(file, pos, cur)
    requires cur.kind != WeakStr && cur.kind != Comment && !IsQuote(cur.kind)
    ensures StepMarksText(file, LexStepOf(file, pos, cur))
  {
    if pos > 0 {
      assert MarksItsText(file, cur);
    }
    if cur.kind == End {
      assert LexStepOf(file, pos, cur) == Done([SysClose(file, pos), cur]);
    } else {
      assert LexStepOf(file, pos, cur) == Next(if Usable(cur.kind) then [cur] else [], pos + 1, TokenAt(file, pos));
      assert InHand(file, pos + 1, TokenAt(file, pos));
    }
  }

  /** One pass of the lexer: what it pushes marks its text, and the next token in hand is the one just read. */
  lemma LexStepMarksText(file: AssembledText, pos: nat, cur: Token)
    requires LexState(file, pos, cur) && InHand(file, pos, cur)
    ensures StepMarksText(file, LexStepOf(file, pos, cur))
  {
    if cur.kind == WeakStr {
      WordMarksText(file, pos, cur);
    } else if cur.kind == Comment {
      CommentMarksText(file, pos, cur);
    } else if IsQuote(cur.kind) {
      QuoteMarksText(file, pos, cur);
      assert LexStepOf(file, pos, cur) == QuoteStepOf(file, pos, cur);
    } else {
      PlainMarksText(file, pos, cur);
    }
  }

  /**
   * What the caret line marks under a token the lexer produced: every token
   * it emits, other than the opening and closing tokens it adds, is never a
   * quote and is marked over its text as it stands in the file (a merged
   * word in full, a quoted string without its quotes); the token of a quote
   * error is the quote, marked as one character.
   */
  lemma {:induction false} LexedTokensMarkText(file: AssembledText, pos: nat, cur: Token)
    requires LexState(file, pos, cur) && InHand(file, pos, cur)
    ensures LexFrom(file, pos, cur).Ok? ==> TokensMarkText(file, LexFrom(file, pos, cur).value)
    ensures LexFrom(file, pos, cur).Err? ==> QuoteMarked(file, LexFrom(file, pos, cur).error)
    decreases |file.content| + 1 - pos
  {
    LexStepMarksText(file, pos, cur);
    match LexStepOf(file, pos, cur)
    case Done(tokens) =>
    case Failed(e) =>
    case Next(pushed, next, current) =>
      LexedTokensMarkText(file, next, current);
  }

  /**
   * `_printErrorContext` on a token `_tokenize` produced: the caret marks
   * the token's own text in the file, and a quote error is marked at the
   * quote as one character.
   */
  lemma HighlightOfToken(file: AssembledText)
    ensures LexFrom(file, 0, SysOpen(file)).Ok? ==> TokensMarkText(file, LexFrom(file, 0, SysOpen(file)).value)
    ensures LexFrom(file, 0, SysOpen(file)).Err? ==> QuoteMarked(file, LexFrom(file, 0, SysOpen(file)).error)
  {
    LexedTokensMarkText(file, 0, SysOpen(file));
  }

  /** The tokens `_tokenize` emits from position `pos` with `cur` in hand, or the error it raises. */
  function LexFrom(file: AssembledText, pos: nat, cur: Token): Result<seq<Token>, ParserError>
    requires LexState(file, pos, cur)
    decreases |file.content| + 1 - pos
  {
    match LexStepOf(file, pos, cur)
    case Done(tokens) => Ok(tokens)
    case Failed(e) => Err(e)
    case Next(pushed, next, current) => Prepend(pushed, LexFrom(file, next, current))
  }

  /** The quote arm of `_tokenize`. */
  method LexQuote(file: AssembledText, pos: nat, quote: Token) returns (o: LexOutcome)
    requires IsQuote(quote.kind) && LexState(file, pos, quote)
    ensures o == QuoteStepOf(file, pos, quote)
  {
    var current, next, p, stop;
    current, p := GetNextToken(file, pos);
    if current.kind == quote.kind {
      return Failed(TokenError(EmptyQuoteMessage, quote, EmptyQuoteHint));
    }
    current, stop, p := ParseContinuousToken(file, p, current, EosMaskQuote(quote.kind));
    if stop.kind != quote.kind {
      return Failed(TokenError(UnmatchedQuoteMessage, quote, UnmatchedQuoteHint));
    }
    current := current.(kind := Str);
    next, p := GetNextToken(file, p);
    return Next([current], p, next);
  }

  /**
   * One pass of the `_tokenize` loop: dispatch on the token in hand; the
   * token is kept when the parser needs its kind (the end token, a merged
   * word, a single-character token of a usable kind), a comment is dropped.
   */
  method LexStep(file: AssembledText, pos: nat, current: Token) returns (o: LexOutcome)
    requires LexState(file, pos, current)
    ensures o == LexStepOf(file, pos, current)
  {
    if current.kind == End {
      return Done([SysClose(file, pos), current]);
    } else if current.kind == WeakStr || current.kind == Comment {
      o := LexRun(file, pos, current);
    } else if IsQuote(current.kind) {
      o := LexQuote(file, pos, current);
    } else {
      o := LexPlain(file, pos, current);
    }
  }

  /** The remaining arm of `_tokenize`: a single-character token, kept when the parser needs its kind. */
  method LexPlain(file: AssembledText, pos: nat, current: Token) returns (o: LexOutcome)
    requires LexState(file, pos, current)
    requires current.kind !in {End, WeakStr, Comment, Quote1, Quote2}
    ensures o == LexStepOf(file, pos, current)
  {
    var next, p := GetNextToken(file, pos);
    var pushed := if Usable(current.kind) then [current] else [];
    return Next(pushed, p, next);
  }

  /** The word and comment arms of `_tokenize`: a word is merged and kept, a comment skipped. */
  method LexRun(file: AssembledText, pos: nat, current: Token) returns (o: LexOutcome)
    requires LexState(file, pos, current) && (current.kind == WeakStr || current.kind == Comment)
    ensures o == LexStepOf(file, pos, current)
  {
    if current.kind == WeakStr {
      var merged, next, p := ParseContinuousToken(file, pos, current, EosMaskDefault);
      return Next([merged], p, next);
    } else {
      var _, next, p := ParseContinuousToken(file, pos, current.(value := []), CommentMask);
      return Next([], p, next);
    }
  }

  lemma PrependPrepend(tokens: seq<Token>, pushed: seq<Token>, rest: Result<seq<Token>, ParserError>)
    ensures Prepend(tokens, Prepend(pushed, rest)) == Prepend(tokens + pushed, rest)
  {
    if rest.Ok? {
      assert tokens + (pushed + rest.value) == tokens + pushed + rest.value;
    }
  }

  /**
   * What the parser relies on in a token list: it starts with the made-up
   * opening brace at offset 0, ends with the made-up closing brace and the
   * end token, and holds only tokens the parser may rely on.
   */
  predicate WellLexed(file: AssembledText, ts: seq<Token>) {
    && |ts| >= 3
    && ts[0] == SysOpen(file)
    && ts[|ts| - 1].kind == End
    && ts[|ts| - 2] == SysClose(file, ts[|ts| - 2].filePos)
    && AllEmittedOk(ts)
  }

  /**
   * `_tokenize`: the token sequence of a file, or the quote error it
   * contains; a token sequence it returns is well lexed.
   */
  method Tokenize(file: AssembledText) returns (r: Result<seq<Token>, ParserError>)
    ensures r == LexFrom(file, 0, SysOpen(file))
    ensures r.Ok? ==> WellLexed(file, r.value)
  {
    var tokens: seq<Token> := [];
    var pos: nat := 0;
    var current := SysOpen(file);
    ghost var whole := LexFrom(file, 0, SysOpen(file));
    assert Prepend(tokens, whole) == whole by {
      if whole.Ok? { assert [] + whole.value == whole.value; }
    }
    while true
      invariant LexState(file, pos, current)
      invariant Prepend(tokens, LexFrom(file, pos, current)) == whole
      invariant HandOk(current) && AllEmittedOk(tokens)
      invariant pos == 0 ==> tokens == [] && current == SysOpen(file)
      invariant pos > 0 ==> |tokens| > 0 && tokens[0] == SysOpen(file)
      decreases |file.content| + 1 - pos
    {
      StepOk(file, pos, current);
      var step := LexStep(file, pos, current);
      match step
      case Failed(e) =>
        return Err(e);
      case Done(pushed) =>
        assert pushed == [SysClose(file, pos), current];
        ClosedWellLexed(file, tokens, pos, current);
        return Ok(tokens + pushed);
      case Next(pushed, newPos, next) =>
        PrependPrepend(tokens, pushed, LexFrom(file, newPos, next));
        AppendEmitted(tokens, pushed);
        tokens, pos, current := tokens + pushed, newPos, next;
    }
  }

  /** The end token closes a token list begun with the opening brace into a well-lexed one. */
  lemma ClosedWellLexed(file: AssembledText, tokens: seq<Token>, pos: nat, end: Token)
    requires end.kind == End && |tokens| > 0 && tokens[0] == SysOpen(file) && AllEmittedOk(tokens)
    ensures WellLexed(file, tokens + [SysClose(file, pos), end])
  {
    AppendEmitted(tokens, [SysClose(file, pos), end]);
  }

  /** Every token in `ts` is one the parser may rely on. */
  predicate AllEmittedOk(ts: seq<Token>) {
    forall i :: 0 <= i < |ts| ==> EmittedOk(ts[i])
  }

  lemma AppendEmitted(a: seq<Token>, b: seq<Token>)
    requires AllEmittedOk(a) && AllEmittedOk(b)
    ensures AllEmittedOk(a + b) && (|a| > 0 ==> (a + b)[0] == a[0])
  {
    forall i | 0 <= i < |a + b| ensures EmittedOk((a + b)[i]) {
      if i >= |a| { assert (a + b)[i] == b[i - |a|]; }
    }
  }

  /** A word token is non-empty and holds no character the pattern table knows. */
  predicate WordOk(t: Token) {
    t.kind == WeakStr ==> |t.value| > 0 && forall i :: 0 <= i < |t.value| ==> PatternOf(t.value[i]) == None
  }

  /** What the parser may rely on in the emitted tokens. */
  predicate EmittedOk(t: Token) {
    && Usable(t.kind)
    && WordOk(t)
    && (t.kind == Str ==> |t.value| > 0)
  }

  /** The token a word step emits is a word made of word characters only. */
  lemma {:induction false} WordStepOk(file: AssembledText, pos: nat, cur: Token)
    requires LexState(file, pos, cur) && cur.kind == WeakStr && WordOk(cur)
    ensures WordOk(cur.(value := cur.value + Absorb(file, pos, EosMaskDefault).0))
  {
    var (text, stop) := Absorb(file, pos, EosMaskDefault);
    forall i | 0 <= i < |text| ensures PatternOf(text[i]) == None {
      AbsorbSkips(file, pos, EosMaskDefault, pos + i);
      assert text[i] == file.content[pos + i];
    }
    var w := cur.value + text;
    forall i | 0 <= i < |w| ensures PatternOf(w[i]) == None {
      if i >= |cur.value| { assert w[i] == text[i - |cur.value|]; }
    }
  }

  /** What may be in hand: words and strings are never empty. */
  predicate HandOk(t: Token) {
    WordOk(t) && (t.kind == Str ==> |t.value| > 0)
  }

  /** One pass pushes only tokens the parser may rely on, and keeps a sound token in hand. */
  lemma StepOk(file: AssembledText, pos: nat, cur: Token)
    requires LexState(file, pos, cur) && HandOk(cur)
    ensures var o := LexStepOf(file, pos, cur);
      o.Next? ==> HandOk(o.current) && AllEmittedOk(o.pushed)
  {
    if cur.kind == WeakStr {
      WordStepOk(file, pos, cur);
    } else if IsQuote(cur.kind) {
      QuoteStepOk(file, pos, cur);
    } else {
      PlainStepOk(file, pos, cur);
    }
  }

  /** `StepOk` for a quote: the string token is never empty, and the next token is sound. */
  lemma QuoteStepOk(file: AssembledText, pos: nat, cur: Token)
    requires LexState(file, pos, cur) && IsQuote(cur.kind)
    ensures var o := QuoteStepOf(file, pos, cur);
      o.Next? ==> HandOk(o.current) && AllEmittedOk(o.pushed)
  {
  }

  /** `StepOk` for the end, a comment and a single-character token. */
  lemma PlainStepOk(file: AssembledText, pos: nat, cur: Token)
    requires LexState(file, pos, cur) && HandOk(cur) && cur.kind != WeakStr && !IsQuote(cur.kind)
    ensures var o := LexStepOf(file, pos, cur);
      o.Next? ==> HandOk(o.current) && AllEmittedOk(o.pushed)
  {
  }
}

=== FILE: loader.dfy ===
/**
 * How `_loadConfigFile` (config/config.cpp) lays out a file in memory: the
 * lines as read, each followed by '\n', then one '\0'; before each line its
 * start offset is recorded. Reading the lines themselves is I/O and is not
 * modelled: the lines are the input.
 */
module Loader {
  import opened ConfigTypes
  import opened Diagnostics

  /** The lines, each followed by '\n'. */
  function JoinLines(lines: seq<string>): (s: string)
    ensures |lines| > 0 ==> |s| > 0 && s[|s| - 1] == '\n'
  {
    if |lines| == 0 then [] else JoinLines(lines[..|lines| - 1]) + lines[|lines| - 1] + "\n"
  }

  /** Where line `i` starts: the length of everything before it. */
  function LineStartsOf(lines: seq<string>): (ls: seq<nat>)
    ensures |ls| == |lines|
  {
    seq(|lines|, i requires 0 <= i < |lines| => |JoinLines(lines[..i])|)
  }

  /** Joining one more line adds exactly that line and its '\n'. */
  lemma JoinStep(lines: seq<string>, i: nat)
    requires i < |lines|
    ensures JoinLines(lines[..i + 1]) == JoinLines(lines[..i]) + lines[i] + "\n"
  {
    assert lines[..i + 1][..i] == lines[..i];
  }

  /** A longer prefix of the lines joins to a longer text that extends the shorter one. */
  lemma {:induction false} JoinPrefix(lines: seq<string>, i: nat, j: nat)
    requires i <= j <= |lines|
    ensures JoinLines(lines[..i]) <= JoinLines(lines[..j])
    ensures i < j ==> |JoinLines(lines[..i])| < |JoinLines(lines[..j])|
    decreases j - i
  {
    if i < j {
      JoinStep(lines, j - 1);
      JoinPrefix(lines, i, j - 1);
    }
  }

  /** The text of a file made of `lines`, as the loader assembles it. */
  function Assemble(fileName: string, lines: seq<string>): (t: AssembledText)
    ensures |t.lineStarts| == |lines|
    ensures t.fileName == fileName
  {
    var t := SourceText(fileName, JoinLines(lines) + "\0", LineStartsOf(lines));
    assert lines[..|lines|] == lines;
    forall i | 0 <= i < |lines| ensures LineStartOk(t, i) {
      JoinPrefix(lines, i, |lines|);
      if i > 0 { JoinPrefix(lines, i - 1, i); }
    }
    t
  }

  /**
   * The content/lineStarts loop of `_loadConfigFile`: push the current
   * length, then the line and '\n'; finally one '\0'.
   */
  method AssembleContent(fileName: string, lines: seq<string>) returns (t: AssembledText)
    ensures t == Assemble(fileName, lines)
  {
    var content: string := [];
    var lineStarts: seq<nat> := [];
    for i := 0 to |lines|
      invariant content == JoinLines(lines[..i])
      invariant lineStarts == LineStartsOf(lines[..i])
    {
      lineStarts := lineStarts + [|content|];
      content := content + lines[i] + "\n";
      JoinStep(lines, i);
      assert lines[..i + 1][..i] == lines[..i];
      forall j | 0 <= j < i ensures lines[..i + 1][..j] == lines[..i][..j] {
      }
    }
    assert lines[..|lines|] == lines;
    t := Assemble(fileName, lines);
    assert t.content == content + "\0";
  }

  /** Inside the joined text, line `i` sits right after the lines before it, followed by '\n'. */
  lemma LineInJoin(lines: seq<string>, i: nat)
    requires i < |lines|
    ensures var all := JoinLines(lines);
      var start := |JoinLines(lines[..i])|;
      && start + |lines[i]| < |all|
      && all[start .. start + |lines[i]|] == lines[i]
      && all[start + |lines[i]|] == '\n'
      && (i + 1 < |lines| ==> |JoinLines(lines[..i + 1])| == start + |lines[i]| + 1)
  {
    var before := JoinLines(lines[..i]);
    var upto := JoinLines(lines[..i + 1]);
    JoinStep(lines, i);
    JoinPrefix(lines, i + 1, |lines|);
    assert lines[..|lines|] == lines;
    var start := |before|;
    assert upto[start .. start + |lines[i]|] == lines[i];
    assert upto[start + |lines[i]|] == '\n';
  }

  /**
   * Line `i` of the input is stored at `lineStarts[i]`, followed by '\n', and
   * the next line (if any) starts right after that '\n'.
   */
  lemma LineIsStored(fileName: string, lines: seq<string>, i: nat)
    requires i < |lines|
    ensures var t := Assemble(fileName, lines);
      var start := t.lineStarts[i];
      && start + |lines[i]| < |t.content|
      && t.content[start .. start + |lines[i]|] == lines[i]
      && t.content[start + |lines[i]|] == '\n'
      && (i + 1 < |lines| ==> t.lineStarts[i + 1] == start + |lines[i]| + 1)
  {
    var t := Assemble(fileName, lines);
    var all := JoinLines(lines);
    LineInJoin(lines, i);
    var start := |JoinLines(lines[..i])|;
    assert t.content == all + "\0" && t.lineStarts == LineStartsOf(lines);
    assert t.lineStarts[i] == start;
    assert t.content[start .. start + |lines[i]|] == all[start .. start + |lines[i]|];
    assert t.content[start + |lines[i]|] == all[start + |lines[i]|];
    if i + 1 < |lines| {
      assert t.lineStarts[i + 1] == |JoinLines(lines[..i + 1])|;
    }
  }

  /**
   * The error context of an offset on line `i` (or on its '\n') names line
   * i + 1, the offset within the line, and the line's text with its '\n'
   * (and, for the last line, the final '\0').
   */
  lemma ContextOfLine(fileName: string, lines: seq<string>, i: nat, column: nat)
    requires i < |lines| && column <= |lines[i]|
    ensures var t := Assemble(fileName, lines);
      var c := ErrorContextAt(t, t.lineStarts[i] + column);
      && c.fileName == fileName
      && c.lineNumber == i + 1
      && c.columnNumber == column
      && c.line == lines[i] + (if i + 1 < |lines| then "\n" else "\n\0")
  {
    var t := Assemble(fileName, lines);
    var ls := t.lineStarts;
    var start := ls[i];
    LineIsStored(fileName, lines, i);
    ContextOnLine(t, i, start + column);
    var stop := if i + 1 < |lines| then ls[i + 1] else |t.content|;
    assert stop == start + |lines[i]| + (if i + 1 < |lines| then 1 else 2) by {
      if i + 1 == |lines| {
        assert lines[..|lines|] == lines;
        LineInJoin(lines, i);
        JoinStep(lines, i);
        assert lines[..i + 1] == lines;
      }
    }
    assert t.content[start .. stop] == t.content[start .. start + |lines[i]|] + t.content[start + |lines[i]| .. stop];
  }
}

=== FILE: numbers.dfy ===
/**
 * The decimal readers of the C++ library that the converters rely on:
 * `std::stoi` (port numbers, status codes) and `std::stoul` (sizes). Both
 * skip leading white space, take an optional sign and then at least one
 * digit, and ignore whatever follows the digits.
 */
module Numbers {
  import opened Wrappers
  import opened Strings

  /** The number of white-space characters at the front of `s`. */
  function SpaceRun(s: string): (n: nat)
    ensures n <= |s|
    ensures forall i :: 0 <= i < n ==> IsSpace(s[i])
    ensures n < |s| ==> !IsSpace(s[n])
  {
    if s == [] || !IsSpace(s[0]) then 0 else 1 + SpaceRun(s[1..])
  }

  /** The number of decimal digits at the front of `s`. */
  function DigitRun(s: string): (n: nat)
    ensures n <= |s| && AllDigits(s[..n])
    ensures n < |s| ==> !IsDigit(s[n])
  {
    if s == [] || !IsDigit(s[0]) then 0
    else
      var n := 1 + DigitRun(s[1..]);
      assert s[..n] == [s[0]] + s[1..][..n - 1];
      n
  }

  /** A run of digits followed by a non-digit (or nothing) is read up to its end. */
  lemma {:induction false} DigitRunOfDigits(d: string, t: string)
    requires AllDigits(d) && (t == [] || !IsDigit(t[0]))
    ensures DigitRun(d + t) == |d|
  {
    if d != [] {
      assert (d + t)[1..] == d[1..] + t;
      DigitRunOfDigits(d[1..], t);
    } else {
      assert d + t == t;
    }
  }

  /** The sign and the digits' value read from the front of a text. */
  datatype Leading = Leading(negative: bool, magnitude: nat)

  /**
   * What `strtol`/`strtoul` read in base 10: white space, an optional `+`
   * or `-`, then the longest run of digits, which must not be empty.
   */
  function ParseLeading(s: string): (r: Option<Leading>)
    ensures r.Some? && |s| > 0 && IsDigit(s[0]) ==> !r.value.negative
  {
    var rest := s[SpaceRun(s)..];
    var signed := |rest| > 0 && (rest[0] == '+' || rest[0] == '-');
    var body := if signed then rest[1..] else rest;
    var n := DigitRun(body);
    if n == 0 then None
    else Some(Leading(signed && rest[0] == '-', DigitsValue(body[..n])))
  }

  const IntMin: int := -0x8000_0000
  const IntMax: int := 0x7fff_ffff
  /** 2^64: `size_t` and `unsigned long` arithmetic wraps modulo this. */
  const WordModulus: nat := 0x1_0000_0000_0000_0000

  /** `std::stoi`: `None` where it throws (no digits, or out of `int` range). */
  function Stoi(s: string): (r: Option<int>)
    ensures r.Some? ==> IntMin <= r.value <= IntMax
    ensures r.Some? <==> ParseLeading(s).Some? && var l := ParseLeading(s).value;
      (if l.negative then l.magnitude <= -IntMin else l.magnitude <= IntMax)
  {
    match ParseLeading(s)
    case None => None
    case Some(l) =>
      var v: int := if l.negative then -(l.magnitude as int) else l.magnitude;
      if IntMin <= v <= IntMax then Some(v) else None
  }

  /**
   * `std::stoul`: `None` where it throws (no digits, or a magnitude beyond
   * 2^64 - 1); a `-` sign negates modulo 2^64, as `strtoul` does.
   */
  function Stoul(s: string): (r: Option<nat>)
    ensures r.Some? ==> r.value < WordModulus
    ensures r.Some? <==> ParseLeading(s).Some? && ParseLeading(s).value.magnitude < WordModulus
  {
    match ParseLeading(s)
    case None => None
    case Some(l) =>
      if l.magnitude >= WordModulus then None
      else if l.negative then Some((WordModulus - l.magnitude) % WordModulus)
      else Some(l.magnitude)
  }

  /** A text that starts with digits is read as exactly those digits, whatever follows them. */
  lemma LeadingDigits(d: string, t: string)
    requires d != [] && AllDigits(d) && (t == [] || !IsDigit(t[0]))
    ensures ParseLeading(d + t) == Some(Leading(false, DigitsValue(d)))
  {
    var s := d + t;
    assert !IsSpace(s[0]);
    assert SpaceRun(s) == 0;
    assert s[0..] == s;
    DigitRunOfDigits(d, t);
    assert s[..|d|] == d;
  }

  /** `std::stoi` reads back what `std::to_string` printed, and stops at the first non-digit after it. */
  lemma StoiRoundTrip(n: nat, t: string)
    requires n <= IntMax && (t == [] || !IsDigit(t[0]))
    ensures Stoi(NatToString(n) + t) == Some(n)
  {
    NatToStringRoundTrip(n);
    LeadingDigits(NatToString(n), t);
  }

  /** The same for `std::stoul`. */
  lemma StoulRoundTrip(n: nat, t: string)
    requires n < WordModulus && (t == [] || !IsDigit(t[0]))
    ensures Stoul(NatToString(n) + t) == Some(n)
  {
    NatToStringRoundTrip(n);
    LeadingDigits(NatToString(n), t);
  }
}

=== FILE: parser.dfy ===
/**
 * The recursive-descent parser with `define` and `include`
 * (config/parser.cpp) and the file loader around it (config/config.cpp).
 * Files are read from `fileSystem`, a map from path to the file's lines;
 * a path missing from it is a file that cannot be opened.
 */
module Parser {
  import opened Wrappers
  import opened Strings
  import opened ConfigTypes
  import opened Document
  import opened Diagnostics
  import opened Lexer
  import opened Loader
  import opened ParserTables

  /** The parser reads tokens up to the end token, which closes every token list. */
  predicate EndsWithEnd(tokens: seq<Token>) {
    |tokens| > 0 && tokens[|tokens| - 1].kind == End
  }

  /** `after` keeps every entry of `before`: loading only ever adds files. */
  predicate Extends(before: map<string, ConfigFile>, after: map<string, ConfigFile>) {
    forall f :: f in before ==> f in after && after[f] == before[f]
  }

  lemma ExtendsTrans(a: map<string, ConfigFile>, b: map<string, ConfigFile>, c: map<string, ConfigFile>)
    requires Extends(a, b) && Extends(b, c)
    ensures Extends(a, c)
  {
  }

  /** Every name in the table names a closed object. */
  predicate Registered(objects: map<string, NodeId>, nodes: seq<Node>) {
    forall name :: name in objects ==> Closed(nodes, objects[name])
  }

  lemma RegisteredPrefix(objects: map<string, NodeId>, before: seq<Node>, after: seq<Node>)
    requires Registered(objects, before) && before <= after
    ensures Registered(objects, after)
  {
    forall name | name in objects ensures Closed(after, objects[name]) {
      assert Closed(before, objects[name]);
      assert after[objects[name]] == before[objects[name]];
    }
  }

  /** Replacing a node that is not a closed object leaves every registered object as it was. */
  lemma RegisteredStore(objects: map<string, NodeId>, nodes: seq<Node>, id: NodeId, n: Node)
    requires Registered(objects, nodes) && id < |nodes| && !Closed(nodes, id)
    ensures Registered(objects, nodes[id := n])
  {
    forall name | name in objects ensures Closed(nodes[id := n], objects[name]) {
      assert Closed(nodes, objects[name]);
    }
  }

  /** The copy of rule `r` that include directive `via` places into object `dest`: same key, same arguments. */
  function IncludedCopy(r: Rule, dest: NodeId, via: NodeId): Rule {
    Rule(r.key, r.arguments, dest, r.includePath + [via], r.token)
  }

  /** The copies of the rules `ids`, in order. */
  function CopiesOf(nodes: seq<Node>, ids: seq<NodeId>, dest: NodeId, via: NodeId): (copies: seq<Node>)
    requires AllRules(nodes, ids)
    ensures |copies| == |ids|
  {
    seq(|ids|, j requires 0 <= j < |ids| => RuleNode(IncludedCopy(nodes[ids[j]].rule, dest, via)))
  }

  /**
   * After including `included` into `dest` through `via`, the rules of
   * `dest` under `k` are the ones it had, followed by fresh copies of the
   * included object's rules under `k`, in their order.
   */
  predicate IncludedUnder(before: seq<Node>, after: seq<Node>, dest: NodeId, included: NodeId, via: NodeId, k: Key)
  {
    && IsObject(before, dest) && IsObject(before, included) && IsObject(after, dest)
    && var mine := RulesAt(before, dest, k);
       var theirs := RulesAt(before, included, k);
       var now := RulesAt(after, dest, k);
       && |now| == |mine| + |theirs|
       && now[..|mine|] == mine
       && forall j :: 0 <= j < |theirs| ==> CopyAt(before, after, now[|mine| + j], theirs[j], dest, via)
  }

  /** The node at `slot`, new since `before`, is the copy of the rule `original` under `dest` through `via`. */
  predicate CopyAt(before: seq<Node>, after: seq<Node>, slot: NodeId, original: NodeId, dest: NodeId, via: NodeId) {
    && |before| <= slot < |after|
    && IsRule(before, original)
    && after[slot] == RuleNode(IncludedCopy(before[original].rule, dest, via))
  }

  /** `IncludedUnder` survives growing the arena and changing `dest`'s other keys. */
  lemma IncludedUnderKept(before: seq<Node>, mid: seq<Node>, after: seq<Node>,
                          dest: NodeId, included: NodeId, via: NodeId, k: Key)
    requires IncludedUnder(before, mid, dest, included, via, k)
    requires |mid| <= |after| && IsObject(after, dest)
    requires forall i :: |before| <= i < |mid| ==> after[i] == mid[i]
    requires RulesAt(after, dest, k) == RulesAt(mid, dest, k)
    ensures IncludedUnder(before, after, dest, included, via, k)
  {
    var mine := RulesAt(before, dest, k);
    var theirs := RulesAt(before, included, k);
    var now := RulesAt(after, dest, k);
    forall j | 0 <= j < |theirs|
      ensures CopyAt(before, after, now[|mine| + j], theirs[j], dest, via)
    {
      assert CopyAt(before, mid, now[|mine| + j], theirs[j], dest, via);
    }
    assert IsObject(before, dest) && IsObject(before, included) && IsObject(after, dest);
    assert |now| == |mine| + |theirs|;
    assert now[..|mine|] == mine;
  }

  /**
   * Adding the copies of `ids` (rules of `included` under `k`) to the rules
   * `dest` holds under `k` keeps `dest`'s links in order.
   */
  lemma IncludeKeyLinks(before: seq<Node>, nodes: seq<Node>, dest: NodeId, included: NodeId, via: NodeId,
                        k: Key, ids: seq<NodeId>, copies: seq<NodeId>)
    requires Document.Valid(before) && IsObject(before, dest) && Closed(before, included)
    requires RulesBelong(before, ids, k, included) && |copies| == |ids|
    requires k in before[included].obj.rules
    requires nodes == before + CopiesOf(before, ids, dest, via)
    requires forall j :: 0 <= j < |ids| ==> copies[j] == |before| + j
    ensures var o := nodes[dest].obj;
      NodeOk(nodes[dest := ObjectNode(o.(rules := o.rules[k := RulesAt(nodes, dest, k) + copies]))], dest)
  {
    var o := nodes[dest].obj;
    var o' := o.(rules := o.rules[k := RulesAt(nodes, dest, k) + copies]);
    var after := nodes[dest := ObjectNode(o')];
    assert NodeOk(before, included);
    assert NodeOk(before, dest);
    NodeOkGrows(before, CopiesOf(before, ids, dest, via), dest);
    assert NodeOk(nodes, dest);
    forall key | key in o'.rules ensures RulesBelong(after, o'.rules[key], key, dest) {
      if key == k {
        var mine := RulesAt(nodes, dest, k);
        assert RulesBelong(nodes, mine, k, dest);
        forall j | 0 <= j < |mine + copies|
          ensures IsRule(after, (mine + copies)[j]) && after[(mine + copies)[j]].rule.key == k
          ensures after[(mine + copies)[j]].rule.parentObject == dest
        {
          if j >= |mine| {
            var c := j - |mine|;
            assert (mine + copies)[j] == copies[c];
            assert IsRule(before, ids[c]);
          }
        }
      } else {
        assert RulesBelong(nodes, o.rules[key], key, dest);
      }
    }
  }

  /** The rules of `dest` under `k` now end with the copies of the included rules: `IncludedUnder` holds for `k`. */
  lemma KeyCopied(before: seq<Node>, after: seq<Node>, dest: NodeId, included: NodeId, via: NodeId,
                  k: Key, copies: seq<NodeId>)
    requires IsObject(before, dest) && IsObject(before, included) && IsObject(after, dest)
    requires Document.Valid(before)
    requires var ids := RulesAt(before, included, k);
      && |copies| == |ids|
      && RulesAt(after, dest, k) == RulesAt(before, dest, k) + copies
      && forall j :: 0 <= j < |ids| ==>
           && |before| <= copies[j] < |after|
           && after[copies[j]] == RuleNode(IncludedCopy(before[ids[j]].rule, dest, via))
    ensures IncludedUnder(before, after, dest, included, via, k)
  {
    var mine := RulesAt(before, dest, k);
    var theirs := RulesAt(before, included, k);
    var now := RulesAt(after, dest, k);
    assert RulesBelong(before, theirs, k, included);
    forall j | 0 <= j < |theirs|
      ensures IsRule(before, theirs[j])
      ensures |before| <= now[|mine| + j] < |after|
      ensures after[now[|mine| + j]] == RuleNode(IncludedCopy(before[theirs[j]].rule, dest, via))
    {
      assert now[|mine| + j] == copies[j];
    }
    assert |now| == |mine| + |theirs|;
    assert now[..|mine|] == mine;
  }

  /**
   * The key loop of `_includeObjectIntoScope` keeps its invariant: after the
   * pass for `AllKeys[n]`, every key up to it has been included and the
   * later keys are untouched.
   */
  lemma IncludeKeyDone(before: seq<Node>, mid: seq<Node>, after: seq<Node>,
                       dest: NodeId, included: NodeId, via: NodeId, n: nat)
    requires n < |AllKeys| && IsObject(before, dest) && IsObject(before, included)
    requires IsObject(mid, dest) && IsObject(after, dest) && |mid| <= |after|
    requires forall i :: |before| <= i < |mid| ==> after[i] == mid[i]
    requires forall j :: 0 <= j < n ==> IncludedUnder(before, mid, dest, included, via, AllKeys[j])
    requires forall j :: n <= j < |AllKeys| ==> RulesAt(mid, dest, AllKeys[j]) == RulesAt(before, dest, AllKeys[j])
    requires forall key :: key != AllKeys[n] ==> RulesAt(after, dest, key) == RulesAt(mid, dest, key)
    requires IncludedUnder(before, after, dest, included, via, AllKeys[n])
    ensures forall j :: 0 <= j < n + 1 ==> IncludedUnder(before, after, dest, included, via, AllKeys[j])
    ensures forall j :: n + 1 <= j < |AllKeys| ==> RulesAt(after, dest, AllKeys[j]) == RulesAt(before, dest, AllKeys[j])
  {
    EarlierKeysKept(before, mid, after, dest, included, via, n);
    LaterKeysUntouched(before, mid, after, dest, n);
  }

  /** The keys included before `AllKeys[n]` stay included while `AllKeys[n]` is. */
  lemma EarlierKeysKept(before: seq<Node>, mid: seq<Node>, after: seq<Node>,
                        dest: NodeId, included: NodeId, via: NodeId, n: nat)
    requires n < |AllKeys| && IsObject(mid, dest) && IsObject(after, dest) && |mid| <= |after|
    requires forall i :: |before| <= i < |mid| ==> after[i] == mid[i]
    requires forall j :: 0 <= j < n ==> IncludedUnder(before, mid, dest, included, via, AllKeys[j])
    requires forall key :: key != AllKeys[n] ==> RulesAt(after, dest, key) == RulesAt(mid, dest, key)
    ensures forall j :: 0 <= j < n ==> IncludedUnder(before, after, dest, included, via, AllKeys[j])
  {
    forall j | 0 <= j < n ensures IncludedUnder(before, after, dest, included, via, AllKeys[j]) {
      AllKeysDistinct(j, n);
      IncludedUnderKept(before, mid, after, dest, included, via, AllKeys[j]);
    }
  }

  /** The keys after `AllKeys[n]` are still untouched once `AllKeys[n]` is included. */
  lemma LaterKeysUntouched(before: seq<Node>, mid: seq<Node>, after: seq<Node>, dest: NodeId, n: nat)
    requires n < |AllKeys| && IsObject(before, dest) && IsObject(mid, dest) && IsObject(after, dest)
    requires forall j :: n <= j < |AllKeys| ==> RulesAt(mid, dest, AllKeys[j]) == RulesAt(before, dest, AllKeys[j])
    requires forall key :: key != AllKeys[n] ==> RulesAt(after, dest, key) == RulesAt(mid, dest, key)
    ensures forall j :: n + 1 <= j < |AllKeys| ==> RulesAt(after, dest, AllKeys[j]) == RulesAt(before, dest, AllKeys[j])
  {
    forall j | n + 1 <= j < |AllKeys|
      ensures RulesAt(after, dest, AllKeys[j]) == RulesAt(before, dest, AllKeys[j])
    {
      AllKeysDistinct(n, j);
    }
  }

  /** Error messages and hints of the parser. */
  const KeyExpectedMessage := "Expected a rule key, but found something else"
  const UnexpectedTokenMessage := "Unexpected token type while parsing rule"
  const DefineHint := "Check the syntax of the DEFINE rule. Expected format:\n\tdefine <name> <object>"

  /**
   * The checks of `_handleDefineRule`, in order: two arguments, a string
   * then an object, a name not yet in the table and not the rule's own file
   * name. The result is the name and the object to register.
   */
  function DefineOf(nodes: seq<Node>, objects: map<string, NodeId>, rule: NodeId): (r: Result<(string, NodeId), ParserError>)
    requires Document.Valid(nodes) && IsRule(nodes, rule)
    ensures var args := ArgumentsOf(nodes, rule);
      r.Ok? <==>
        && |args| == 2
        && args[0].value.StringValue?
        && args[1].value.ObjectValue?
        && args[0].value.text !in objects
        && args[0].value.text != nodes[rule].rule.token.file.fileName
    ensures r.Ok? ==> Closed(nodes, r.value.1) && r.value.0 !in objects
    ensures r.Ok? ==> var args := ArgumentsOf(nodes, rule); r.value == (args[0].value.text, args[1].value.obj)
    ensures r.Err? && |ArgumentsOf(nodes, rule)| != 2 ==> r.error.kind == AtRule(rule)
  {
    assert NodeOk(nodes, rule);
    var ids := nodes[rule].rule.arguments;
    var args := ArgumentsOf(nodes, rule);
    if |args| != 2 then
      Err(RuleError(nodes, "Expected 2 arguments; found " + NatToString(|args|), rule, DefineHint))
    else if !args[0].value.StringValue? then
      Err(ArgumentError(nodes, "Expected a string; found \"" + args[0].token.value + "\" instead.", ids[0], DefineHint))
    else if !args[1].value.ObjectValue? then
      Err(ArgumentError(nodes, "Expected an object; found \"" + args[0].token.value + "\" instead.", ids[1], DefineHint))
    else
      var name := args[0].value.text;
      if name in objects then
        Err(ArgumentError(nodes, "Object with name '" + name + "' already exists", ids[0],
                          "Give the object a different (unique) name to avoid conflicts."))
      else if name == nodes[rule].rule.token.file.fileName then
        Err(ArgumentError(nodes, "Object name cannot be the same as the configuration file name", ids[0],
                          "Choose a different name for the object to avoid conflicts with the configuration file name."))
      else
        assert NodeOk(nodes, ids[1]);
        Ok((name, args[1].value.obj))
  }

  /**
   * The argument checks of `_handleIncludeRule`: exactly one argument, and a
   * string. The count error points at `at`, the token after the rule.
   */
  function IncludeTargetOf(nodes: seq<Node>, rule: NodeId, at: Token): (r: Result<string, ParserError>)
    requires Document.Valid(nodes) && IsRule(nodes, rule)
    ensures var args := ArgumentsOf(nodes, rule);
      r.Ok? <==> |args| == 1 && args[0].value.StringValue?
    ensures r.Ok? ==> r.value == ArgumentsOf(nodes, rule)[0].value.text
    ensures |ArgumentsOf(nodes, rule)| != 1 ==> r.Err? && r.error.kind == AtToken(at)
  {
    assert NodeOk(nodes, rule);
    var ids := nodes[rule].rule.arguments;
    var args := ArgumentsOf(nodes, rule);
    if |args| != 1 then
      Err(TokenError("Invalid INCLUDE rule format. Expected 1 argument; found " + NatToString(|args|), at, ""))
    else if !args[0].value.StringValue? then
      Err(ArgumentError(nodes, "Argument of INCLUDE rule must be a string", ids[0], ""))
    else
      Ok(args[0].value.text)
  }

  // ---- What `_parseRule` and `_parseObject` read

  /** The argument a word token becomes: a keyword the keyword table knows, a string otherwise. */
  function WordValue(t: Token): ArgValue {
    var keyword := KeywordOf(t.value);
    if keyword != NoKeyword then KeywordValue(keyword) else StringValue(t.value)
  }

  /** The first position from `from` on that does not hold a word (STR) token; the end token stops the search. */
  function WordsEnd(tokens: seq<Token>, from: nat): (m: nat)
    requires EndsWithEnd(tokens) && from < |tokens|
    ensures from <= m < |tokens| && tokens[m].kind != Str
    ensures forall i :: from <= i < m ==> tokens[i].kind == Str
    decreases |tokens| - from
  {
    if tokens[from].kind != Str then from else WordsEnd(tokens, from + 1)
  }

  // ---- Token lists the parser accepts whatever its tables hold

  /** A key token naming a directive other than `define` and `include`, whose handling cannot fail. */
  predicate PlainKey(t: Token) {
    t.kind == Str && RuleKeyOf(t).Ok? && RuleKeyOf(t).value != Define && RuleKeyOf(t).value != Include
  }

  /**
   * Where the members of a block, read from `p` on, end when every member
   * is a plain rule: a plain key, words, then a `;` or a block of the same
   * kind. The result is the position of the block's closing token.
   */
  function PlainMembersEnd(tokens: seq<Token>, p: nat): (c: Option<nat>)
    requires EndsWithEnd(tokens) && p < |tokens|
    ensures c.Some? ==> p <= c.value < |tokens| - 1 && tokens[c.value].kind == ObjectClose
    decreases |tokens| - p, 2
  {
    if tokens[p].kind == ObjectClose then Some(p)
    else if !PlainKey(tokens[p]) then None
    else
      match PlainArgumentsEnd(tokens, p + 1)
      case None => None
      case Some(q) => PlainMembersEnd(tokens, q)
  }

  /**
   * Where the arguments of a rule, read from `from` on, end when they are
   * words followed by a `;`, or by a block whose members are plain rules:
   * the position just after the `;` or the block's closing token.
   */
  function PlainArgumentsEnd(tokens: seq<Token>, from: nat): (q: Option<nat>)
    requires EndsWithEnd(tokens) && from < |tokens|
    ensures q.Some? ==> from < q.value < |tokens|
    decreases |tokens| - from, 1
  {
    AfterWords(tokens, WordsEnd(tokens, from))
  }

  /** `PlainArgumentsEnd` once the words end at `m`: a `;`, or a block of plain rules. */
  function AfterWords(tokens: seq<Token>, m: nat): (q: Option<nat>)
    requires EndsWithEnd(tokens) && m < |tokens| && tokens[m].kind != Str
    ensures q.Some? ==> m < q.value < |tokens| && tokens[q.value - 1].kind in {RuleEnd, ObjectClose}
    decreases |tokens| - m, 0
  {
    if tokens[m].kind == RuleEnd then Some(m + 1)
    else if tokens[m].kind == ObjectOpen then
      match PlainMembersEnd(tokens, m + 1)
      case None => None
      case Some(c) => Some(c + 1)
    else None
  }

  /** The words from `pos` end at `p`: what follows them decides where the arguments end. */
  lemma PlainArgumentsAt(tokens: seq<Token>, pos: nat, p: nat)
    requires EndsWithEnd(tokens) && pos <= p < |tokens| && tokens[p].kind != Str && WordsEnd(tokens, p) == WordsEnd(tokens, pos)
    ensures tokens[p].kind == RuleEnd ==> PlainArgumentsEnd(tokens, pos) == Some(p + 1)
    ensures tokens[p].kind == ObjectOpen ==>
      && p + 1 < |tokens|
      && (PlainArgumentsEnd(tokens, pos).Some? <==> PlainMembersEnd(tokens, p + 1).Some?)
      && (PlainArgumentsEnd(tokens, pos).Some? ==> PlainArgumentsEnd(tokens, pos).value == PlainMembersEnd(tokens, p + 1).value + 1)
    ensures tokens[p].kind != RuleEnd && tokens[p].kind != ObjectOpen ==> PlainArgumentsEnd(tokens, pos) == None
  {
    assert WordsEnd(tokens, p) == p;
  }

  /** A token list the parser reads whole as one root object of plain rules. */
  predicate PlainTokens(tokens: seq<Token>) {
    EndsWithEnd(tokens) && 1 < |tokens| && PlainMembersEnd(tokens, 1).Some?
  }

  /** A file whose assembled text lexes to a token list of plain rules. */
  predicate PlainFile(path: string, lines: seq<string>) {
    var text := Assemble(path, lines);
    LexFrom(text, 0, SysOpen(text)).Ok? && PlainTokens(LexFrom(text, 0, SysOpen(text)).value)
  }

  /** A plain member unfolds into its key, its arguments and the members after them. */
  lemma PlainMemberStep(tokens: seq<Token>, p: nat)
    requires EndsWithEnd(tokens) && p < |tokens|
    requires PlainMembersEnd(tokens, p).Some? && tokens[p].kind != ObjectClose
    ensures PlainKey(tokens[p]) && p + 1 < |tokens|
    ensures PlainArgumentsEnd(tokens, p + 1).Some?
    ensures PlainMembersEnd(tokens, PlainArgumentsEnd(tokens, p + 1).value) == PlainMembersEnd(tokens, p)
  {
  }

  /** Node `a` is an argument of `rule` read from the word token `t`. */
  predicate WordArgument(nodes: seq<Node>, a: NodeId, rule: NodeId, t: Token) {
    a < |nodes| && nodes[a] == ArgumentNode(Argument(WordValue(t), rule, t))
  }

  /**
   * Node `a` is an argument of `rule` holding the block that opens at
   * `tokens[m]` and closes at `tokens[to - 1]`, parsed with `rule` as parent.
   */
  predicate BlockArgument(nodes: seq<Node>, a: NodeId, rule: NodeId, tokens: seq<Token>, m: nat, to: nat) {
    && m < to <= |tokens| && IsArgument(nodes, a)
    && var arg := nodes[a].arg;
       && arg.parentRule == rule && arg.token == tokens[m] && arg.value.ObjectValue?
       && var o := arg.value.obj;
          && Closed(nodes, o) && nodes[o].obj.parentRule == Some(rule)
          && nodes[o].obj.openToken == tokens[m] && nodes[o].obj.closeToken == Some(tokens[to - 1])
          && tokens[to - 1].kind == ObjectClose
  }

  /**
   * The arguments of `rule` are what `_parseRule` reads from `tokens[from]`
   * up to `to`: one per word token, a keyword or a string, in token order;
   * then either a `;`, or a block, which becomes the last argument.
   */
  predicate ArgumentsRead(nodes: seq<Node>, rule: NodeId, tokens: seq<Token>, from: nat, to: nat)
    requires EndsWithEnd(tokens) && from < |tokens| && IsRule(nodes, rule)
  {
    var m := WordsEnd(tokens, from);
    var args := nodes[rule].rule.arguments;
    && (tokens[m].kind == RuleEnd || tokens[m].kind == ObjectOpen)
    && m - from <= |args|
    && (forall j :: 0 <= j < m - from ==> WordArgument(nodes, args[j], rule, tokens[from + j]))
    && (tokens[m].kind == RuleEnd ==> |args| == m - from && to == m + 1)
    && (tokens[m].kind == ObjectOpen ==> |args| == m - from + 1 && BlockArgument(nodes, args[m - from], rule, tokens, m, to))
  }

  /**
   * Node `rule` is a rule `_parseRule` read into `obj` from `tokens[at]` up
   * to `next`: its key is the word at `at`, written where it stands, and its
   * arguments follow the key.
   */
  predicate MemberAt(nodes: seq<Node>, rule: NodeId, obj: NodeId, tokens: seq<Token>, at: nat, next: nat) {
    && EndsWithEnd(tokens) && at + 1 < |tokens| && IsRule(nodes, rule)
    && tokens[at].kind == Str && RuleKeyOf(tokens[at]).Ok?
    && nodes[rule].rule.key == RuleKeyOf(tokens[at]).value
    && nodes[rule].rule.parentObject == obj
    && nodes[rule].rule.includePath == []
    && nodes[rule].rule.token == tokens[at]
    && ArgumentsRead(nodes, rule, tokens, at + 1, next)
  }

  /** An object whose closing brace has not been read yet. */
  predicate Open(nodes: seq<Node>, i: NodeId) { IsObject(nodes, i) && nodes[i].obj.closeToken.None? }

  /** `after` extends `before` and differs from it only in objects still open in `before`. */
  predicate Settled(before: seq<Node>, after: seq<Node>) {
    |before| <= |after| && forall i :: 0 <= i < |before| && !Open(before, i) ==> after[i] == before[i]
  }

  lemma SettledTrans(a: seq<Node>, b: seq<Node>, c: seq<Node>)
    requires Settled(a, b) && Settled(b, c)
    ensures Settled(a, c)
  {
    forall i | 0 <= i < |a| && !Open(a, i) ensures c[i] == a[i] {
      assert b[i] == a[i] && !Open(b, i);
    }
  }

  /** What `_parseRule` read stays as it was while the parser goes on. */
  lemma ArgumentsReadKept(before: seq<Node>, after: seq<Node>, rule: NodeId, tokens: seq<Token>, from: nat, to: nat)
    requires EndsWithEnd(tokens) && from < |tokens| && IsRule(before, rule)
    requires ArgumentsRead(before, rule, tokens, from, to) && Settled(before, after)
    ensures IsRule(after, rule) && ArgumentsRead(after, rule, tokens, from, to)
  {
    var m := WordsEnd(tokens, from);
    var args := before[rule].rule.arguments;
    assert !Open(before, rule) && after[rule] == before[rule];
    forall j | 0 <= j < m - from ensures WordArgument(after, args[j], rule, tokens[from + j]) {
      assert WordArgument(before, args[j], rule, tokens[from + j]);
      assert !Open(before, args[j]);
    }
    if tokens[m].kind == ObjectOpen {
      var a := args[m - from];
      assert BlockArgument(before, a, rule, tokens, m, to);
      var o := before[a].arg.value.obj;
      assert !Open(before, a) && !Open(before, o);
    }
  }

  lemma MemberAtKept(before: seq<Node>, after: seq<Node>, rule: NodeId, obj: NodeId, tokens: seq<Token>, at: nat, next: nat)
    requires MemberAt(before, rule, obj, tokens, at, next) && Settled(before, after)
    ensures MemberAt(after, rule, obj, tokens, at, next)
  {
    ArgumentsReadKept(before, after, rule, tokens, at + 1, next);
  }

  /** The rules among `ids` written where they stand, not copied in by an include, in order. */
  function DirectRules(nodes: seq<Node>, ids: seq<NodeId>): seq<NodeId> {
    if ids == [] then []
    else
      var last := ids[|ids| - 1];
      DirectRules(nodes, ids[..|ids| - 1])
        + (if last < |nodes| && nodes[last].RuleNode? && nodes[last].rule.includePath == [] then [last] else [])
  }

  /** The rules among `ids` with key `k`, in order. */
  function KeyedRules(nodes: seq<Node>, ids: seq<NodeId>, k: Key): seq<NodeId> {
    if ids == [] then []
    else
      var last := ids[|ids| - 1];
      KeyedRules(nodes, ids[..|ids| - 1], k)
        + (if last < |nodes| && nodes[last].RuleNode? && nodes[last].rule.key == k then [last] else [])
  }

  lemma {:induction false} DirectRulesKept(before: seq<Node>, after: seq<Node>, ids: seq<NodeId>)
    requires AllRules(before, ids) && Settled(before, after)
    ensures DirectRules(after, ids) == DirectRules(before, ids)
    decreases |ids|
  {
    if ids != [] {
      var last := ids[|ids| - 1];
      assert IsRule(before, last) && !Open(before, last);
      DirectRulesKept(before, after, ids[..|ids| - 1]);
    }
  }

  lemma {:induction false} KeyedRulesKept(before: seq<Node>, after: seq<Node>, ids: seq<NodeId>, k: Key)
    requires AllRules(before, ids) && Settled(before, after)
    ensures KeyedRules(after, ids, k) == KeyedRules(before, ids, k)
    decreases |ids|
  {
    if ids != [] {
      var last := ids[|ids| - 1];
      assert IsRule(before, last) && !Open(before, last);
      KeyedRulesKept(before, after, ids[..|ids| - 1], k);
    }
  }

  lemma {:induction false} DirectRulesAppend(nodes: seq<Node>, ids: seq<NodeId>, more: seq<NodeId>)
    ensures DirectRules(nodes, ids + more) == DirectRules(nodes, ids) + DirectRules(nodes, more)
    decreases |more|
  {
    if more == [] {
      assert ids + more == ids;
    } else {
      var init := more[..|more| - 1];
      assert (ids + more)[..|ids + more| - 1] == ids + init;
      DirectRulesAppend(nodes, ids, init);
    }
  }

  /** Rules copied in by an include are not direct rules. */
  lemma {:induction false} NoDirectCopies(nodes: seq<Node>, ids: seq<NodeId>)
    requires forall j :: 0 <= j < |ids| ==> IsRule(nodes, ids[j]) && nodes[ids[j]].rule.includePath != []
    ensures DirectRules(nodes, ids) == []
    decreases |ids|
  {
    if ids != [] {
      NoDirectCopies(nodes, ids[..|ids| - 1]);
    }
  }

  /**
   * Including `included` into `dest` through `via` took `dest`'s rules under
   * `k` from what they were in `before` to those rules followed by a copy of
   * each rule `included` holds under `k`, in order.
   */
  predicate IncludedInto(before: seq<Node>, after: seq<Node>, dest: NodeId, included: NodeId, via: NodeId, k: Key) {
    && IsObject(before, dest) && IsObject(after, dest) && IsObject(after, included)
    && var mine := RulesAt(before, dest, k);
       var theirs := RulesAt(after, included, k);
       var now := RulesAt(after, dest, k);
       && |now| == |mine| + |theirs|
       && now[..|mine|] == mine
       && forall j :: 0 <= j < |theirs| ==> CopiedAt(before, after, now[|mine| + j], theirs[j], dest, via)
  }

  /** The node at `slot`, new since `before`, is the copy of the rule `original` under `dest` through `via`. */
  predicate CopiedAt(before: seq<Node>, after: seq<Node>, slot: NodeId, original: NodeId, dest: NodeId, via: NodeId) {
    && |before| <= slot < |after| && IsRule(after, original)
    && after[slot] == RuleNode(IncludedCopy(after[original].rule, dest, via))
  }

  /** `IncludedUnder`, seen from a state before the included file was loaded. */
  lemma IncludedIntoOf(before: seq<Node>, mid: seq<Node>, after: seq<Node>,
                       dest: NodeId, included: NodeId, via: NodeId, k: Key)
    requires IncludedUnder(mid, after, dest, included, via, k)
    requires IsObject(before, dest) && |before| <= |mid| <= |after| && RulesAt(mid, dest, k) == RulesAt(before, dest, k)
    requires included != dest && forall i :: 0 <= i < |mid| && i != dest ==> after[i] == mid[i]
    ensures IncludedInto(before, after, dest, included, via, k)
  {
    assert after[included] == mid[included];
    var theirs := RulesAt(mid, included, k);
    assert RulesAt(after, included, k) == theirs;
    forall j | 0 <= j < |theirs|
      ensures CopiedAt(before, after, RulesAt(after, dest, k)[|RulesAt(before, dest, k)| + j], theirs[j], dest, via)
    {
      CopyCarried(before, mid, after, dest, included, via, k, j);
    }
  }

  /** One copy made from `mid` still reads as a copy of its original seen from `before`. */
  lemma CopyCarried(before: seq<Node>, mid: seq<Node>, after: seq<Node>,
                    dest: NodeId, included: NodeId, via: NodeId, k: Key, j: nat)
    requires IncludedUnder(mid, after, dest, included, via, k)
    requires IsObject(before, dest) && |before| <= |mid| && RulesAt(mid, dest, k) == RulesAt(before, dest, k)
    requires j < |RulesAt(mid, included, k)| && |mid| <= |after|
    requires forall i :: 0 <= i < |mid| && i != dest ==> after[i] == mid[i]
    ensures var slot := RulesAt(after, dest, k)[|RulesAt(before, dest, k)| + j];
      CopiedAt(before, after, slot, RulesAt(mid, included, k)[j], dest, via)
  {
    var original := RulesAt(mid, included, k)[j];
    var slot := RulesAt(after, dest, k)[|RulesAt(mid, dest, k)| + j];
    assert CopyAt(mid, after, slot, original, dest, via);
    assert after[original] == mid[original];
  }

  /** A copy made from `mid` reads the same against `after` when its original did not change. */
  lemma CopyUnchanged(mid: seq<Node>, after: seq<Node>, slot: NodeId, original: NodeId, dest: NodeId, via: NodeId)
    requires CopyAt(mid, after, slot, original, dest, via) && original < |after| && after[original] == mid[original]
    ensures CopiedAt(mid, after, slot, original, dest, via)
  {
  }

  /** `IncludedInto` still holds seen from an earlier state in which `dest` held the same rules. */
  lemma IncludedIntoEarlier(before: seq<Node>, mid: seq<Node>, after: seq<Node>,
                            dest: NodeId, included: NodeId, via: NodeId, k: Key)
    requires IncludedInto(mid, after, dest, included, via, k)
    requires IsObject(before, dest) && |before| <= |mid| && RulesAt(mid, dest, k) == RulesAt(before, dest, k)
    ensures IncludedInto(before, after, dest, included, via, k)
  {
  }

  /** The rules an include appended to `dest` are copies, which name the include. */
  lemma IncludedCopiesNamed(before: seq<Node>, after: seq<Node>, dest: NodeId, included: NodeId, via: NodeId, k: Key)
    requires IncludedInto(before, after, dest, included, via, k)
    ensures var now := RulesAt(after, dest, k);
      var copies := now[|RulesAt(before, dest, k)|..];
      forall j :: 0 <= j < |copies| ==> IsRule(after, copies[j]) && after[copies[j]].rule.includePath != []
  {
    var mine := RulesAt(before, dest, k);
    var theirs := RulesAt(after, included, k);
    var now := RulesAt(after, dest, k);
    var copies := now[|mine|..];
    forall j | 0 <= j < |copies| ensures IsRule(after, copies[j]) && after[copies[j]].rule.includePath != [] {
      assert copies[j] == now[|mine| + j];
      assert CopiedAt(before, after, now[|mine| + j], theirs[j], dest, via);
    }
  }

  /** An include adds no direct rule to `dest`: only copies. */
  lemma IncludeAddsNoDirectRule(before: seq<Node>, after: seq<Node>, dest: NodeId, included: NodeId, via: NodeId, k: Key)
    requires Document.Valid(before) && IncludedInto(before, after, dest, included, via, k) && Settled(before, after)
    ensures DirectRules(after, RulesAt(after, dest, k)) == DirectRules(before, RulesAt(before, dest, k))
  {
    var mine := RulesAt(before, dest, k);
    var now := RulesAt(after, dest, k);
    var copies := now[|mine|..];
    assert now == mine + copies;
    DirectRulesAppend(after, mine, copies);
    IncludedCopiesNamed(before, after, dest, included, via, k);
    NoDirectCopies(after, copies);
    assert AllRules(before, mine);
    DirectRulesKept(before, after, mine);
  }

  /** A rule appended where it stands is a direct rule. */
  lemma DirectRulesPush(nodes: seq<Node>, ids: seq<NodeId>, rule: NodeId)
    requires IsRule(nodes, rule) && nodes[rule].rule.includePath == []
    ensures DirectRules(nodes, ids + [rule]) == DirectRules(nodes, ids) + [rule]
  {
    assert (ids + [rule])[..|ids|] == ids;
  }

  lemma KeyedRulesPush(nodes: seq<Node>, ids: seq<NodeId>, rule: NodeId, k: Key)
    requires IsRule(nodes, rule)
    ensures KeyedRules(nodes, ids + [rule], k) == KeyedRules(nodes, ids, k) + (if nodes[rule].rule.key == k then [rule] else [])
  {
    assert (ids + [rule])[..|ids|] == ids;
  }

  /** The arguments of a rule stay as they were while the parser goes on. */
  lemma ArgumentsOfKept(before: seq<Node>, after: seq<Node>, rule: NodeId)
    requires Document.Valid(before) && Document.Valid(after) && IsRule(before, rule) && Settled(before, after)
    ensures IsRule(after, rule) && ArgumentsOf(after, rule) == ArgumentsOf(before, rule)
  {
    assert NodeOk(before, rule);
    assert !Open(before, rule);
    var ids := before[rule].rule.arguments;
    forall j | 0 <= j < |ids| ensures after[ids[j]] == before[ids[j]] {
      assert IsArgument(before, ids[j]) && !Open(before, ids[j]);
    }
  }

  /** The arguments of `id` so far are the words `tokens[pos..p]`, in order. */
  predicate WordsSoFar(nodes: seq<Node>, id: NodeId, tokens: seq<Token>, pos: nat, p: nat)
    requires IsRule(nodes, id)
  {
    var args := nodes[id].rule.arguments;
    |args| == p - pos && pos + |args| <= |tokens|
    && forall j :: 0 <= j < |args| ==> WordArgument(nodes, args[j], id, tokens[pos + j])
  }

  /** One more word token read: one more word argument. */
  lemma WordArgumentMade(before: seq<Node>, after: seq<Node>, id: NodeId, arg: NodeId, tokens: seq<Token>, pos: nat, p: nat)
    requires p < |tokens| && IsRule(before, id) && WordsSoFar(before, id, tokens, pos, p)
    requires arg == |before| && |after| == arg + 1
    requires after[arg] == ArgumentNode(Argument(WordValue(tokens[p]), id, tokens[p]))
    requires forall i :: 0 <= i < arg && i != id ==> after[i] == before[i]
    requires after[id] == RuleNode(before[id].rule.(arguments := before[id].rule.arguments + [arg]))
    ensures IsRule(after, id) && WordsSoFar(after, id, tokens, pos, p + 1)
  {
    var args := before[id].rule.arguments;
    forall j | 0 <= j < |args| ensures WordArgument(after, args[j], id, tokens[pos + j]) {
      assert WordArgument(before, args[j], id, tokens[pos + j]);
    }
  }

  /**
   * The arena after a step of reading the arguments of rule `id`: it only
   * grew, among the old nodes only `id` may have changed, and `id` differs
   * at most in its arguments.
   */
  predicate ArgumentsGrew(before: seq<Node>, after: seq<Node>, id: NodeId) {
    && |before| <= |after| && IsRule(before, id) && IsRule(after, id)
    && (forall i :: 0 <= i < |before| && i != id ==> after[i] == before[i])
    && after[id].rule.(arguments := before[id].rule.arguments) == before[id].rule
  }

  lemma ArgumentsGrewTrans(a: seq<Node>, b: seq<Node>, c: seq<Node>, id: NodeId)
    requires ArgumentsGrew(a, b, id) && ArgumentsGrew(b, c, id)
    ensures ArgumentsGrew(a, c, id)
  {
  }

  /** The end of the rule reached after the words: the arguments are complete. */
  lemma WordsDone(nodes: seq<Node>, id: NodeId, tokens: seq<Token>, pos: nat, p: nat)
    requires EndsWithEnd(tokens) && pos <= p < |tokens| && tokens[p].kind == RuleEnd
    requires WordsEnd(tokens, p) == WordsEnd(tokens, pos)
    requires IsRule(nodes, id) && WordsSoFar(nodes, id, tokens, pos, p)
    ensures ArgumentsRead(nodes, id, tokens, pos, p + 1)
  {
    assert WordsEnd(tokens, p) == p;
  }

  /** A block read after the words: the arguments are complete. */
  lemma BlockArgumentMade(before: seq<Node>, mid: seq<Node>, after: seq<Node>, id: NodeId, o: NodeId, arg: NodeId,
                          tokens: seq<Token>, pos: nat, p: nat, q: nat, members: seq<NodeId>, starts: seq<nat>)
    requires EndsWithEnd(tokens) && pos <= p < |tokens| && tokens[p].kind == ObjectOpen
    requires WordsEnd(tokens, p) == WordsEnd(tokens, pos)
    requires IsRule(before, id) && WordsSoFar(before, id, tokens, pos, p) && before <= mid
    requires ObjectRead(mid, o, Some(id), tokens, p, q, members, starts)
    requires arg == |mid| && |after| == arg + 1
    requires after[arg] == ArgumentNode(Argument(ObjectValue(o), id, tokens[p]))
    requires forall i :: 0 <= i < arg && i != id ==> after[i] == mid[i]
    requires after[id] == RuleNode(mid[id].rule.(arguments := mid[id].rule.arguments + [arg]))
    ensures IsRule(after, id) && ArgumentsRead(after, id, tokens, pos, q)
  {
    var args := before[id].rule.arguments;
    assert mid[id] == before[id];
    assert after[id].rule.arguments == args + [arg];
    forall j | 0 <= j < |args| ensures WordArgument(after, args[j], id, tokens[pos + j]) {
      assert WordArgument(before, args[j], id, tokens[pos + j]);
      assert mid[args[j]] == before[args[j]];
    }
    assert o != id && after[o] == mid[o];
    assert BlockArgument(after, arg, id, tokens, p, q);
  }

  lemma PrefixSettled(a: seq<Node>, b: seq<Node>)
    requires a <= b
    ensures Settled(a, b)
  {
  }

  /**
   * The arena after a step of reading the open object `obj`: it only grew,
   * among the old nodes only `obj` may have changed, and `obj` is still open
   * with the same parent and opening token.
   */
  predicate GrewAround(before: seq<Node>, after: seq<Node>, obj: NodeId) {
    && |before| <= |after| && Open(before, obj) && Open(after, obj)
    && (forall i :: 0 <= i < |before| && i != obj ==> after[i] == before[i])
    && after[obj].obj.parentRule == before[obj].obj.parentRule
    && after[obj].obj.openToken == before[obj].obj.openToken
  }

  lemma PrefixGrewAround(before: seq<Node>, after: seq<Node>, obj: NodeId)
    requires before <= after && Open(before, obj)
    ensures GrewAround(before, after, obj) && Settled(before, after)
  {
  }

  lemma GrewAroundTrans(a: seq<Node>, b: seq<Node>, c: seq<Node>, obj: NodeId)
    requires GrewAround(a, b, obj) && GrewAround(b, c, obj)
    ensures GrewAround(a, c, obj) && Settled(a, c)
  {
  }

  /** A prefix that ends before `obj` survives a step around `obj`. */
  lemma GrewAroundPrefix(base: seq<Node>, before: seq<Node>, after: seq<Node>, obj: NodeId)
    requires base <= before && |base| <= obj && GrewAround(before, after, obj)
    ensures base <= after
  {
    assert after[..|base|] == base by {
      forall i | 0 <= i < |base| ensures after[i] == base[i] {
        assert before[i] == base[i];
      }
    }
  }

  lemma FrameSettled(a: seq<Node>, b: seq<Node>, dest: NodeId)
    requires |a| <= |b| && Open(a, dest)
    requires forall i :: 0 <= i < |a| && i != dest ==> b[i] == a[i]
    ensures Settled(a, b)
  {
  }

  /**
   * What `_parseObject` has read of object `id` when the next key is at
   * `p`: the rules `members`, whose keys stood at `starts`, and the object
   * holds, under each key other than `define` and `include`, exactly those
   * members among its rules written where they stand.
   */
  predicate MembersRead(nodes: seq<Node>, id: NodeId, tokens: seq<Token>, pos: nat, p: nat,
                        members: seq<NodeId>, starts: seq<nat>)
  {
    && IsObject(nodes, id)
    && |starts| == |members| + 1 && starts[0] == pos + 1 && starts[|members|] == p
    && (forall i :: 0 <= i < |members| ==> MemberAt(nodes, members[i], id, tokens, starts[i], starts[i + 1]))
    && forall k :: k != Define && k != Include ==>
         DirectRules(nodes, RulesAt(nodes, id, k)) == KeyedRules(nodes, members, k)
  }

  /**
   * Object `id` is the block read from `tokens[pos]`, its opening token, up
   * to `tokens[end - 1]`, its closing token, owned by `parentRule`, and
   * holding the rules `members` read in between.
   */
  predicate ObjectRead(nodes: seq<Node>, id: NodeId, parentRule: Option<NodeId>, tokens: seq<Token>, pos: nat, end: nat,
                       members: seq<NodeId>, starts: seq<nat>) {
    && pos < end <= |tokens|
    && Closed(nodes, id) && nodes[id].obj.parentRule == parentRule
    && nodes[id].obj.openToken == tokens[pos]
    && nodes[id].obj.closeToken == Some(tokens[end - 1]) && tokens[end - 1].kind == ObjectClose
    && MembersRead(nodes, id, tokens, pos, end - 1, members, starts)
  }

  lemma PrefixStore(base: seq<Node>, nodes: seq<Node>, id: NodeId, n: Node)
    requires base <= nodes && |base| <= id < |nodes|
    ensures base <= nodes[id := n]
  {
    assert nodes[id := n][..|base|] == nodes[..|base|];
  }

  /** Object `id` is a root object: a block read from the first token of `tokens`, owned by no rule. */
  ghost predicate RootRead(nodes: seq<Node>, id: NodeId, tokens: seq<Token>) {
    exists end: nat, members: seq<NodeId>, starts: seq<nat> :: ObjectRead(nodes, id, None, tokens, 0, end, members, starts)
  }

  /** `MembersRead` after one more member. */
  lemma MembersStep(before: seq<Node>, after: seq<Node>, id: NodeId, tokens: seq<Token>, pos: nat, p: nat, q: nat,
                    members: seq<NodeId>, starts: seq<nat>, rule: NodeId)
    requires MembersRead(before, id, tokens, pos, p, members, starts) && Settled(before, after) && IsObject(after, id)
    requires MemberAt(after, rule, id, tokens, p, q) && DirectRuleAdded(before, after, id, rule)
    ensures MembersRead(after, id, tokens, pos, q, members + [rule], starts + [q])
  {
    var ms, ss := members + [rule], starts + [q];
    forall i | 0 <= i < |ms| ensures MemberAt(after, ms[i], id, tokens, ss[i], ss[i + 1]) {
      if i < |members| {
        MemberAtKept(before, after, members[i], id, tokens, starts[i], starts[i + 1]);
      }
    }
    assert AllRules(before, members) by {
      forall i | 0 <= i < |members| ensures IsRule(before, members[i]) {
        assert MemberAt(before, members[i], id, tokens, starts[i], starts[i + 1]);
      }
    }
    forall k | k != Define && k != Include
      ensures DirectRules(after, RulesAt(after, id, k)) == KeyedRules(after, ms, k)
    {
      KeyedRulesKept(before, after, members, k);
      KeyedRulesPush(after, members, rule, k);
    }
  }

  /** Closing the object keeps `MembersRead`. */
  lemma MembersClosed(before: seq<Node>, after: seq<Node>, id: NodeId, tokens: seq<Token>, pos: nat, p: nat,
                      members: seq<NodeId>, starts: seq<nat>)
    requires Document.Valid(before) && MembersRead(before, id, tokens, pos, p, members, starts)
    requires Open(before, id) && |after| == |before| && IsObject(after, id)
    requires after[id].obj.rules == before[id].obj.rules
    requires forall i :: 0 <= i < |before| && i != id ==> after[i] == before[i]
    ensures MembersRead(after, id, tokens, pos, p, members, starts)
  {
    FrameSettled(before, after, id);
    forall i | 0 <= i < |members| ensures MemberAt(after, members[i], id, tokens, starts[i], starts[i + 1]) {
      MemberAtKept(before, after, members[i], id, tokens, starts[i], starts[i + 1]);
    }
    assert AllRules(before, members) by {
      forall i | 0 <= i < |members| ensures IsRule(before, members[i]) {
        assert MemberAt(before, members[i], id, tokens, starts[i], starts[i + 1]);
      }
    }
    forall k | k != Define && k != Include
      ensures DirectRules(after, RulesAt(after, id, k)) == KeyedRules(after, members, k)
    {
      assert RulesAt(after, id, k) == RulesAt(before, id, k);
      assert AllRules(before, RulesAt(before, id, k));
      DirectRulesKept(before, after, RulesAt(before, id, k));
      KeyedRulesKept(before, after, members, k);
    }
  }

  /** A member that stores nothing leaves the object's direct rules as they were. */
  lemma UnchangedMemberRules(before: seq<Node>, after: seq<Node>, obj: NodeId)
    requires Document.Valid(before) && IsObject(before, obj) && IsObject(after, obj) && Settled(before, after)
    requires after[obj] == before[obj]
    ensures forall k :: RulesAt(after, obj, k) == RulesAt(before, obj, k)
    ensures forall k :: DirectRules(after, RulesAt(after, obj, k)) == DirectRules(before, RulesAt(before, obj, k))
  {
    forall k ensures DirectRules(after, RulesAt(after, obj, k)) == DirectRules(before, RulesAt(before, obj, k)) {
      assert AllRules(before, RulesAt(before, obj, k));
      DirectRulesKept(before, after, RulesAt(before, obj, k));
    }
  }

  /**
   * How the loading step of `_handleIncludeRule` ends for `path`, given the
   * names `known` and the files `started` before it: a known name, or a new
   * file of plain rules, passes; a failure is the loader's error with the
   * include rule's location added, in particular for a file that cannot be
   * opened and for a circular import.
   */
  ghost predicate LoadReported(path: string, known: set<string>, started: set<string>, fs: map<string, seq<string>>,
                         r: Outcome<ParserError>, nodes: seq<Node>, rule: NodeId)
    requires Document.Valid(nodes) && IsRule(nodes, rule)
  {
    && (r.Fail? ==> exists e :: r.error == AddTracebackFromRule(e, nodes, rule))
    && (path !in known && path !in fs ==>
          r == Fail(AddTracebackFromRule(PlainError("Failed to open configuration file: " + path, ""), nodes, rule)))
    && (path !in known && path in fs && path in started ==>
          r == Fail(AddTracebackFromRule(PlainError("Circulair import detected for: " + path, ""), nodes, rule)))
    && (path in known || (path in fs && path !in started && PlainFile(path, fs[path])) ==> r.Pass?)
  }

  /** A load that passed was not refused: the name was known, or its file existed and had not been started. */
  lemma PassedLoadReported(path: string, known: set<string>, started: set<string>, fs: map<string, seq<string>>,
                           nodes: seq<Node>, nodes': seq<Node>, rule: NodeId)
    requires Document.Valid(nodes) && IsRule(nodes, rule) && Document.Valid(nodes') && IsRule(nodes', rule)
    requires LoadReported(path, known, started, fs, Pass, nodes, rule)
    ensures path in known || (path in fs && path !in started)
    ensures LoadReported(path, known, started, fs, Pass, nodes', rule)
  {
  }

  /**
   * `include` rule `rule` carries one string naming a registered object,
   * and `dest` gained, under every key, copies of that object's rules
   * after its own.
   */
  predicate IncludeDone(before: seq<Node>, after: seq<Node>, objects: map<string, NodeId>, dest: NodeId, rule: NodeId) {
    && Document.Valid(after) && IsRule(after, rule)
    && var args := ArgumentsOf(after, rule);
       && |args| == 1 && args[0].value.StringValue? && args[0].value.text in objects
       && forall k :: IncludedInto(before, after, dest, objects[args[0].value.text], rule, k)
  }

  /**
   * `define` rule `rule` carries a name, not registered before, and a
   * block, and the name now stands for that block; `dest` stores nothing.
   */
  predicate DefineDone(before: seq<Node>, after: seq<Node>, objectsBefore: map<string, NodeId>,
                       objects: map<string, NodeId>, dest: NodeId, rule: NodeId) {
    && Document.Valid(after) && IsRule(after, rule) && IsObject(before, dest) && IsObject(after, dest)
    && (forall k :: RulesAt(after, dest, k) == RulesAt(before, dest, k))
    && var args := ArgumentsOf(after, rule);
       && |args| == 2 && args[0].value.StringValue? && args[1].value.ObjectValue?
       && args[0].value.text !in objectsBefore
       && args[0].value.text in objects && objects[args[0].value.text] == args[1].value.obj
  }

  /** `dest` stores `rule` after its rules under `rule`'s key, and nothing else changes among its rules. */
  predicate RuleAppended(before: seq<Node>, after: seq<Node>, dest: NodeId, rule: NodeId) {
    && IsObject(before, dest) && IsObject(after, dest) && IsRule(after, rule)
    && forall k :: RulesAt(after, dest, k) == RulesAt(before, dest, k) + (if k == after[rule].rule.key then [rule] else [])
  }

  /** Among the rules written directly in `dest`, `rule` is the one new, under its own key. */
  predicate DirectRuleAdded(before: seq<Node>, after: seq<Node>, dest: NodeId, rule: NodeId) {
    && IsObject(before, dest) && IsObject(after, dest) && IsRule(after, rule)
    && forall k :: k != Define && k != Include ==>
         DirectRules(after, RulesAt(after, dest, k))
           == DirectRules(before, RulesAt(before, dest, k)) + (if k == after[rule].rule.key then [rule] else [])
  }

  /** What `_parseObject` does with the rule `rule` it has just read into `dest`, by the rule's key. */
  predicate MemberHandled(before: seq<Node>, after: seq<Node>, objectsBefore: map<string, NodeId>,
                          objects: map<string, NodeId>, dest: NodeId, rule: NodeId) {
    && IsRule(after, rule)
    && (after[rule].rule.key == Define ==> DefineDone(before, after, objectsBefore, objects, dest, rule))
    && (after[rule].rule.key == Include ==> IncludeDone(before, after, objects, dest, rule))
    && (after[rule].rule.key != Define && after[rule].rule.key != Include ==> RuleAppended(before, after, dest, rule))
    && DirectRuleAdded(before, after, dest, rule)
  }

  /** `MemberHandled` from an earlier arena, which `mid` extends without touching `dest`. */
  lemma MemberHandledEarlier(start: seq<Node>, mid: seq<Node>, after: seq<Node>,
                             objectsStart: map<string, NodeId>, objectsMid: map<string, NodeId>, objects: map<string, NodeId>,
                             dest: NodeId, rule: NodeId)
    requires Document.Valid(start) && IsObject(start, dest) && start <= mid && mid[dest] == start[dest]
    requires objectsStart.Keys <= objectsMid.Keys
    requires MemberHandled(mid, after, objectsMid, objects, dest, rule)
    ensures MemberHandled(start, after, objectsStart, objects, dest, rule)
  {
    PrefixSettled(start, mid);
    forall k ensures RulesAt(mid, dest, k) == RulesAt(start, dest, k) {}
    forall k ensures DirectRules(mid, RulesAt(mid, dest, k)) == DirectRules(start, RulesAt(start, dest, k)) {
      assert AllRules(start, RulesAt(start, dest, k));
      DirectRulesKept(start, mid, RulesAt(start, dest, k));
    }
    if after[rule].rule.key == Include {
      var args := ArgumentsOf(after, rule);
      forall k ensures IncludedInto(start, after, dest, objects[args[0].value.text], rule, k) {
        IncludedIntoEarlier(start, mid, after, dest, objects[args[0].value.text], rule, k);
      }
    }
  }

  /** An `include` member adds copies of the included rules and no direct rule. */
  lemma IncludeMemberRules(before: seq<Node>, after: seq<Node>, objectsBefore: map<string, NodeId>,
                           objects: map<string, NodeId>, dest: NodeId, rule: NodeId)
    requires Document.Valid(before) && IsObject(before, dest) && Settled(before, after)
    requires IsObject(after, dest) && IncludeDone(before, after, objects, dest, rule) && after[rule].rule.key == Include
    ensures MemberHandled(before, after, objectsBefore, objects, dest, rule)
  {
    var args := ArgumentsOf(after, rule);
    forall k | k != Define && k != Include
      ensures DirectRules(after, RulesAt(after, dest, k)) == DirectRules(before, RulesAt(before, dest, k)) + []
    {
      IncludeAddsNoDirectRule(before, after, dest, objects[args[0].value.text], rule, k);
      assert DirectRules(before, RulesAt(before, dest, k)) + [] == DirectRules(before, RulesAt(before, dest, k));
    }
  }

  /** The effect of `_includeObjectIntoScope`, seen from before the included file was loaded. */
  lemma IncludeDoneOf(start: seq<Node>, mid: seq<Node>, after: seq<Node>, objects: map<string, NodeId>, path: string,
                      dest: NodeId, rule: NodeId)
    requires Document.Valid(start) && Document.Valid(mid) && Document.Valid(after) && start <= mid
    requires Open(start, dest) && IsRule(start, rule)
    requires var args := ArgumentsOf(start, rule); |args| == 1 && args[0].value.StringValue? && args[0].value.text == path
    requires path in objects && Closed(mid, objects[path])
    requires GrewAround(mid, after, dest) && forall k :: IncludedUnder(mid, after, dest, objects[path], rule, k)
    ensures Settled(start, after) && IncludeDone(start, after, objects, dest, rule)
  {
    var included := objects[path];
    assert mid[dest] == start[dest];
    forall k ensures IncludedInto(start, after, dest, included, rule, k) {
      IncludedIntoOf(start, mid, after, dest, included, rule, k);
    }
    FrameSettled(mid, after, dest);
    PrefixSettled(start, mid);
    SettledTrans(start, mid, after);
    ArgumentsOfKept(start, after, rule);
  }

  /** A plain rule appended under its key is one more direct rule there. */
  lemma PlainMemberRules(before: seq<Node>, after: seq<Node>, obj: NodeId, rule: NodeId, key: Key)
    requires Document.Valid(before) && IsObject(before, obj) && IsObject(after, obj) && Settled(before, after)
    requires IsRule(after, rule) && after[rule].rule.includePath == [] && after[rule].rule.key == key
    requires forall k :: RulesAt(after, obj, k) == RulesAt(before, obj, k) + (if k == key then [rule] else [])
    ensures forall k ::
      DirectRules(after, RulesAt(after, obj, k)) == DirectRules(before, RulesAt(before, obj, k)) + (if k == key then [rule] else [])
  {
    forall k ensures DirectRules(after, RulesAt(after, obj, k))
      == DirectRules(before, RulesAt(before, obj, k)) + (if k == key then [rule] else [])
    {
      var mine := RulesAt(before, obj, k);
      assert AllRules(before, mine);
      DirectRulesKept(before, after, mine);
      if k == key {
        DirectRulesPush(after, mine, rule);
      } else {
        assert mine + [] == mine;
      }
    }
  }

  /**
   * `ConfigurationParser`: the arena, the name table `objects` (file paths
   * and `define` names) and the table of files whose loading has started.
   */
  class ConfigurationParser {
    const fileSystem: map<string, seq<string>>
    const arena: Arena
    var objects: map<string, NodeId>
    var configFiles: map<string, ConfigFile>

    ghost predicate Valid()
      reads this, arena
    {
      Document.Valid(arena.nodes) && Registered(objects, arena.nodes)
    }

    constructor (fileSystem: map<string, seq<string>>)
      ensures this.fileSystem == fileSystem && fresh(arena)
      ensures arena.nodes == [] && objects == map[] && configFiles == map[]
      ensures Valid()
    {
      this.fileSystem := fileSystem;
      arena := new Arena();
      objects := map[];
      configFiles := map[];
    }

    /** `isFileLoaded`: whether the name table knows the path (or a `define` of that name). */
    predicate IsFileLoaded(path: string)
      reads this
    {
      path in objects
    }

    /** `getResult`: the object stored under a path, if any. */
    function GetResult(path: string): (r: Option<NodeId>)
      reads this
      ensures r.Some? <==> IsFileLoaded(path)
      ensures r.Some? ==> r.value == objects[path]
    {
      if path in objects then Some(objects[path]) else None
    }

    /** Appends `rule` to the rules of the open object `obj` under the rule's key. */
    method AppendRule(obj: NodeId, rule: NodeId)
      requires Valid() && IsObject(arena.nodes, obj) && !Closed(arena.nodes, obj) && IsRule(arena.nodes, rule)
      requires arena.nodes[rule].rule.parentObject == obj
      requires arena.nodes[rule].rule.key != Define && arena.nodes[rule].rule.key != Include
      modifies arena
      ensures Valid()
      ensures |arena.nodes| == old(|arena.nodes|)
      ensures forall i :: 0 <= i < |arena.nodes| && i != obj ==> arena.nodes[i] == old(arena.nodes[i])
      ensures IsObject(arena.nodes, obj) && !Closed(arena.nodes, obj)
      ensures arena.nodes[obj].obj.parentRule == old(arena.nodes[obj].obj.parentRule)
      ensures arena.nodes[obj].obj.openToken == old(arena.nodes[obj].obj.openToken)
      ensures var key := arena.nodes[rule].rule.key;
        forall k :: RulesAt(arena.nodes, obj, k) == old(RulesAt(arena.nodes, obj, k)) + (if k == key then [rule] else [])
    {
      var o := arena.nodes[obj].obj;
      var key := arena.nodes[rule].rule.key;
      var o' := o.(rules := o.rules[key := RulesAt(arena.nodes, obj, key) + [rule]]);
      assert NodeOk(arena.nodes, obj);
      ghost var after := arena.nodes[obj := ObjectNode(o')];
      forall k | k in o'.rules ensures RulesBelong(after, o'.rules[k], k, obj) {
        assert RulesBelong(arena.nodes, RulesAt(arena.nodes, obj, k), k, obj);
      }
      ValidReplace(arena.nodes, obj, ObjectNode(o'));
      RegisteredStore(objects, arena.nodes, obj, ObjectNode(o'));
      arena.Store(obj, ObjectNode(o'));
    }

    /**
     * Allocates an argument of `rule` and appends it to the rule's
     * arguments; nothing else changes.
     */
    method AddArgument(rule: NodeId, value: ArgValue, token: Token) returns (arg: NodeId)
      requires Valid() && IsRule(arena.nodes, rule)
      requires value.ObjectValue? ==> Closed(arena.nodes, value.obj)
      modifies arena
      ensures Valid()
      ensures arg == old(|arena.nodes|) && |arena.nodes| == arg + 1
      ensures arena.nodes[arg] == ArgumentNode(Argument(value, rule, token))
      ensures forall i :: 0 <= i < arg && i != rule ==> arena.nodes[i] == old(arena.nodes[i])
      ensures arena.nodes[rule] == old(arena.nodes[rule].(rule := arena.nodes[rule].rule.(arguments := arena.nodes[rule].rule.arguments + [arg])))
    {
      var r := arena.nodes[rule].rule;
      var n := ArgumentNode(Argument(value, rule, token));
      ValidAppend(arena.nodes, n);
      RegisteredPrefix(objects, arena.nodes, arena.nodes + [n]);
      arg := arena.Alloc(n);
      var r' := r.(arguments := r.arguments + [arg]);
      assert NodeOk(arena.nodes, rule);
      assert AllArguments(arena.nodes, r.arguments);
      ValidReplace(arena.nodes, rule, RuleNode(r'));
      RegisteredStore(objects, arena.nodes, rule, RuleNode(r'));
      arena.Store(rule, RuleNode(r'));
    }

    /** `_handleDefineRule`: registers the named object, or raises the first failed check. */
    method HandleDefineRule(rule: NodeId) returns (r: Outcome<ParserError>)
      requires Valid() && IsRule(arena.nodes, rule)
      modifies this`objects
      ensures Valid()
      ensures var d := DefineOf(arena.nodes, old(objects), rule);
        && (d.Ok? ==> r.Pass? && objects == old(objects)[d.value.0 := d.value.1])
        && (d.Err? ==> r == Fail(d.error) && objects == old(objects))
    {
      var d := DefineOf(arena.nodes, objects, rule);
      if d.Err? {
        return Fail(d.error);
      }
      objects := objects[d.value.0 := d.value.1];
      return Pass;
    }

    /**
     * The inner loop of `_includeObjectIntoScope` for one key: allocates a
     * copy of each rule in `ids`, in order, owned by `dest`.
     */
    method CopyRules(dest: NodeId, ids: seq<NodeId>, via: NodeId) returns (copies: seq<NodeId>)
      requires Valid() && IsObject(arena.nodes, dest) && IsRule(arena.nodes, via) && AllRules(arena.nodes, ids)
      modifies arena
      ensures Valid()
      ensures arena.nodes == old(arena.nodes) + CopiesOf(old(arena.nodes), ids, dest, via)
      ensures |copies| == |ids| && forall j :: 0 <= j < |ids| ==> copies[j] == old(|arena.nodes|) + j
    {
      ghost var before := arena.nodes;
      copies := [];
      for j := 0 to |ids|
        invariant Valid() && |arena.nodes| == |before| + j
        invariant arena.nodes == before + CopiesOf(before, ids[..j], dest, via)
        invariant |copies| == j && forall i :: 0 <= i < j ==> copies[i] == |before| + i
      {
        assert IsRule(arena.nodes, ids[j]) && arena.nodes[ids[j]] == before[ids[j]];
        var original := arena.nodes[ids[j]].rule;
        assert NodeOk(arena.nodes, ids[j]);
        assert NodeOk(arena.nodes, via);
        var n := RuleNode(IncludedCopy(original, dest, via));
        assert AllRules(arena.nodes + [n], original.includePath + [via]) by {
          assert AllRules(arena.nodes, original.includePath);
        }
        assert AllArguments(arena.nodes + [n], original.arguments) by {
          assert AllArguments(arena.nodes, original.arguments);
        }
        ValidAppend(arena.nodes, n);
        RegisteredPrefix(objects, arena.nodes, arena.nodes + [n]);
        var id := arena.Alloc(n);
        copies := copies + [id];
        assert CopiesOf(before, ids[..j + 1], dest, via) == CopiesOf(before, ids[..j], dest, via) + [n];
      }
      assert ids[..|ids|] == ids;
    }

    /**
     * `_includeObjectIntoScope`: for every key of the included object, in
     * key order, copies of its rules are added after `dest`'s own rules of
     * that key. The copies share the originals' argument nodes; nothing but
     * `dest` and the new copies changes.
     */
    method IncludeObjectIntoScope(dest: NodeId, included: NodeId, via: NodeId)
      requires Valid() && IsObject(arena.nodes, dest) && !Closed(arena.nodes, dest)
      requires Closed(arena.nodes, included) && IsRule(arena.nodes, via)
      modifies arena
      ensures Valid()
      ensures GrewAround(old(arena.nodes), arena.nodes, dest)
      ensures forall k :: IncludedUnder(old(arena.nodes), arena.nodes, dest, included, via, k)
    {
      ghost var before := arena.nodes;
      var source := arena.nodes[included].obj;
      for n := 0 to |AllKeys|
        invariant Valid() && |arena.nodes| >= |before|
        invariant forall i :: 0 <= i < |before| && i != dest ==> arena.nodes[i] == before[i]
        invariant IsObject(arena.nodes, dest) && !Closed(arena.nodes, dest)
        invariant arena.nodes[dest].obj.parentRule == before[dest].obj.parentRule
        invariant arena.nodes[dest].obj.openToken == before[dest].obj.openToken
        invariant forall j :: 0 <= j < n ==> IncludedUnder(before, arena.nodes, dest, included, via, AllKeys[j])
        invariant forall j :: n <= j < |AllKeys| ==> RulesAt(arena.nodes, dest, AllKeys[j]) == RulesAt(before, dest, AllKeys[j])
      {
        IncludeKey(before, dest, included, via, n);
      }
      forall k ensures IncludedUnder(before, arena.nodes, dest, included, via, k) {
        assert AllKeys[KeyIndex(k)] == k;
      }
    }

    /** One pass of the key loop of `_includeObjectIntoScope`: the key `AllKeys[n]`. */
    method IncludeKey(ghost before: seq<Node>, dest: NodeId, included: NodeId, via: NodeId, n: nat)
      requires n < |AllKeys|
      requires Document.Valid(before) && IsObject(before, dest) && !Closed(before, dest)
      requires Closed(before, included) && IsRule(before, via)
      requires Valid() && |arena.nodes| >= |before|
      requires forall i :: 0 <= i < |before| && i != dest ==> arena.nodes[i] == before[i]
      requires IsObject(arena.nodes, dest) && !Closed(arena.nodes, dest)
      requires forall j :: 0 <= j < n ==> IncludedUnder(before, arena.nodes, dest, included, via, AllKeys[j])
      requires forall j :: n <= j < |AllKeys| ==> RulesAt(arena.nodes, dest, AllKeys[j]) == RulesAt(before, dest, AllKeys[j])
      modifies arena
      ensures Valid() && |arena.nodes| >= |before|
      ensures forall i :: 0 <= i < |before| && i != dest ==> arena.nodes[i] == before[i]
      ensures IsObject(arena.nodes, dest) && !Closed(arena.nodes, dest)
      ensures arena.nodes[dest].obj.parentRule == old(arena.nodes[dest].obj.parentRule)
      ensures arena.nodes[dest].obj.openToken == old(arena.nodes[dest].obj.openToken)
      ensures forall j :: 0 <= j < n + 1 ==> IncludedUnder(before, arena.nodes, dest, included, via, AllKeys[j])
      ensures forall j :: n + 1 <= j < |AllKeys| ==> RulesAt(arena.nodes, dest, AllKeys[j]) == RulesAt(before, dest, AllKeys[j])
    {
      var k := AllKeys[n];
      ghost var mid := arena.nodes;
      var source := arena.nodes[included].obj;
      assert source == before[included].obj;
      var ids := RulesAt(arena.nodes, included, k);
      assert NodeOk(before, included);
      assert RulesBelong(before, ids, k, included);
      if k in source.rules {
        var copies := CopyRules(dest, ids, via);
        var o := arena.nodes[dest].obj;
        var mine := RulesAt(arena.nodes, dest, k);
        var o' := o.(rules := o.rules[k := mine + copies]);
        IncludeKeyLinks(mid, arena.nodes, dest, included, via, k, ids, copies);
        ValidReplace(arena.nodes, dest, ObjectNode(o'));
        RegisteredStore(objects, arena.nodes, dest, ObjectNode(o'));
        arena.Store(dest, ObjectNode(o'));
        forall j | 0 <= j < |ids|
          ensures |before| <= copies[j] < |arena.nodes|
          ensures arena.nodes[copies[j]] == RuleNode(IncludedCopy(before[ids[j]].rule, dest, via))
        {
          assert IsRule(before, ids[j]);
          assert arena.nodes[copies[j]] == CopiesOf(mid, ids, dest, via)[j];
        }
        KeyCopied(before, arena.nodes, dest, included, via, k, copies);
      }
      IncludeKeyDone(before, mid, arena.nodes, dest, included, via, n);
    }

    /**
     * `_handleIncludeRule`: checks the argument, loads the named file unless
     * the name is already known (a failure there gets the include rule's
     * location added), then copies the named object's rules into `dest`.
     * `at` is the token after the rule, where the count error points.
     */
    method HandleIncludeRule(at: Token, rule: NodeId, dest: NodeId) returns (r: Outcome<ParserError>)
      requires Valid() && IsRule(arena.nodes, rule) && IsObject(arena.nodes, dest) && !Closed(arena.nodes, dest)
      modifies this, arena
      ensures Valid()
      ensures GrewAround(old(arena.nodes), arena.nodes, dest)
      ensures old(objects).Keys <= objects.Keys && Extends(old(configFiles), configFiles)
      ensures old(IncludeTargetOf(arena.nodes, rule, at)).Err? ==>
        r == Fail(old(IncludeTargetOf(arena.nodes, rule, at)).error) && arena.nodes == old(arena.nodes)
      ensures r.Pass? ==> exists path :: path in objects && old(IncludeTargetOf(arena.nodes, rule, at)) == Ok(path)
      ensures Settled(old(arena.nodes), arena.nodes)
      ensures r.Pass? ==> IncludeDone(old(arena.nodes), arena.nodes, objects, dest, rule)
      ensures IsRule(arena.nodes, rule)
      ensures old(IncludeTargetOf(arena.nodes, rule, at)).Ok? ==>
        LoadReported(old(IncludeTargetOf(arena.nodes, rule, at)).value, old(objects.Keys), old(configFiles.Keys), fileSystem,
                     r, arena.nodes, rule)
      decreases fileSystem.Keys - configFiles.Keys, 0, 5
    {
      var target := IncludeTargetOf(arena.nodes, rule, at);
      if target.Err? {
        return Fail(target.error);
      }
      r := IncludeNamed(target.value, at, rule, dest);
    }

    /** `_handleIncludeRule` once the rule's one string argument `path` is read. */
    method IncludeNamed(path: string, at: Token, rule: NodeId, dest: NodeId) returns (r: Outcome<ParserError>)
      requires Valid() && IsRule(arena.nodes, rule) && IsObject(arena.nodes, dest) && !Closed(arena.nodes, dest)
      requires IncludeTargetOf(arena.nodes, rule, at) == Ok(path)
      modifies this, arena
      ensures Valid()
      ensures GrewAround(old(arena.nodes), arena.nodes, dest)
      ensures old(objects).Keys <= objects.Keys && Extends(old(configFiles), configFiles)
      ensures r.Pass? ==> path in objects
      ensures Settled(old(arena.nodes), arena.nodes)
      ensures r.Pass? ==> IncludeDone(old(arena.nodes), arena.nodes, objects, dest, rule)
      ensures IsRule(arena.nodes, rule)
      ensures LoadReported(path, old(objects.Keys), old(configFiles.Keys), fileSystem, r, arena.nodes, rule)
      decreases fileSystem.Keys - configFiles.Keys, 0, 4
    {
      var loaded := LoadIncludedFile(path, rule, dest);
      if loaded.Fail? {
        return loaded;
      }
      if path !in objects {
        return Fail(TokenError("Included object '" + path + "' not found in the configuration", at, ""));
      }
      ghost var mid := arena.nodes;
      var included := objects[path];
      IncludeObjectIntoScope(dest, included, rule);
      PassedLoadReported(path, old(objects.Keys), old(configFiles.Keys), fileSystem, mid, arena.nodes, rule);
      IncludeDoneOf(old(arena.nodes), mid, arena.nodes, objects, path, dest, rule);
      return Pass;
    }

    /**
     * The loading step of `_handleIncludeRule`: a file not loaded yet is
     * loaded now, and its failure is reported with the include rule added
     * to the traceback; the arena only grows.
     */
    method LoadIncludedFile(path: string, rule: NodeId, dest: NodeId) returns (r: Outcome<ParserError>)
      requires Valid() && IsRule(arena.nodes, rule) && IsObject(arena.nodes, dest) && !Closed(arena.nodes, dest)
      modifies this, arena
      ensures Valid() && old(arena.nodes) <= arena.nodes
      ensures old(objects).Keys <= objects.Keys && Extends(old(configFiles), configFiles)
      ensures old(IsFileLoaded(path)) ==> r.Pass? && arena.nodes == old(arena.nodes) && objects == old(objects)
      ensures !old(IsFileLoaded(path)) && r.Pass? ==> path in objects
      ensures IsRule(arena.nodes, rule)
      ensures LoadReported(path, old(objects.Keys), old(configFiles.Keys), fileSystem, r, arena.nodes, rule)
      decreases fileSystem.Keys - configFiles.Keys, 0, 3
    {
      if IsFileLoaded(path) {
        return Pass;
      }
      var loaded := LoadConfigFile(path);
      assert IsRule(arena.nodes, rule) by {
        assert arena.nodes[rule] == old(arena.nodes)[rule];
      }
      if loaded.Fail? {
        return Fail(AddTracebackFromRule(loaded.error, arena.nodes, rule));
      }
      return Pass;
    }

    /**
     * `_parseRule`: a key token of kind STR, then arguments up to a `;`, or
     * up to and including a nested object.
     */
    method ParseRule(file: ConfigFile, pos: nat, parentObject: NodeId) returns (r: Result<NodeId, ParserError>, newPos: nat)
      requires Valid() && EndsWithEnd(file.tokens) && pos < |file.tokens|
      requires IsObject(arena.nodes, parentObject)
      modifies this, arena
      ensures Valid() && old(arena.nodes) <= arena.nodes
      ensures old(objects).Keys <= objects.Keys && Extends(old(configFiles), configFiles)
      ensures file.tokens[pos].kind != Str ==> r == Err(TokenError(KeyExpectedMessage, file.tokens[pos], ""))
      ensures file.tokens[pos].kind == Str && RuleKeyOf(file.tokens[pos]).Err? ==> r == Err(RuleKeyOf(file.tokens[pos]).error)
      ensures file.tokens[pos].kind == Str && RuleKeyOf(file.tokens[pos]).Ok? ==>
        var m := WordsEnd(file.tokens, pos + 1);
        file.tokens[m].kind != RuleEnd && file.tokens[m].kind != ObjectOpen ==>
          r == Err(TokenError(UnexpectedTokenMessage, file.tokens[m], ""))
      ensures r.Ok? ==>
        && pos < newPos < |file.tokens| && r.value == old(|arena.nodes|)
        && MemberAt(arena.nodes, r.value, parentObject, file.tokens, pos, newPos)
      ensures file.tokens[pos].kind == Str && RuleKeyOf(file.tokens[pos]).Ok? && pos + 1 < |file.tokens| &&
              PlainArgumentsEnd(file.tokens, pos + 1).Some? ==>
        r.Ok? && newPos == PlainArgumentsEnd(file.tokens, pos + 1).value
      decreases fileSystem.Keys - configFiles.Keys, |file.tokens| - pos, 1
    {
      var tokens := file.tokens;
      if tokens[pos].kind != Str {
        return Err(TokenError(KeyExpectedMessage, tokens[pos], "")), pos;
      }
      var keyToken := tokens[pos];
      var p := pos + 1;
      var key := RuleKeyOf(keyToken);
      if key.Err? {
        return Err(key.error), p;
      }
      var n := RuleNode(Rule(key.value, [], parentObject, [], keyToken));
      ValidAppend(arena.nodes, n);
      RegisteredPrefix(objects, arena.nodes, arena.nodes + [n]);
      var id := arena.Alloc(n);
      ghost var withRule := arena.nodes;
      var args, q := ParseArguments(file, p, id);
      assert old(arena.nodes) <= arena.nodes by {
        assert withRule[..old(|arena.nodes|)] == old(arena.nodes);
        assert forall i :: 0 <= i < old(|arena.nodes|) ==> arena.nodes[i] == withRule[i];
      }
      if args.Fail? {
        return Err(args.error), q;
      }
      return Ok(id), q;
    }

    /**
     * The argument loop of `_parseRule`, on the rule just allocated: words
     * and strings, each a new argument of `id`, up to and including a `;`,
     * or a nested object that becomes the last argument. Any other token
     * after the words is an error.
     */
    method ParseArguments(file: ConfigFile, pos: nat, id: NodeId) returns (r: Outcome<ParserError>, newPos: nat)
      requires Valid() && EndsWithEnd(file.tokens) && pos < |file.tokens|
      requires IsRule(arena.nodes, id) && arena.nodes[id].rule.arguments == []
      modifies this, arena
      ensures Valid() && ArgumentsGrew(old(arena.nodes), arena.nodes, id)
      ensures old(objects).Keys <= objects.Keys && Extends(old(configFiles), configFiles)
      ensures var m := WordsEnd(file.tokens, pos);
        && (file.tokens[m].kind == RuleEnd ==> r.Pass?)
        && (file.tokens[m].kind != RuleEnd && file.tokens[m].kind != ObjectOpen ==>
              r == Fail(TokenError(UnexpectedTokenMessage, file.tokens[m], "")))
      ensures r.Pass? ==> pos < newPos < |file.tokens| && ArgumentsRead(arena.nodes, id, file.tokens, pos, newPos)
      ensures PlainArgumentsEnd(file.tokens, pos).Some? ==> r.Pass? && newPos == PlainArgumentsEnd(file.tokens, pos).value
      decreases fileSystem.Keys - configFiles.Keys, |file.tokens| - pos, 5
    {
      var tokens := file.tokens;
      var p := pos;
      while true
        invariant Valid() && ArgumentsGrew(old(arena.nodes), arena.nodes, id)
        invariant old(objects).Keys <= objects.Keys && Extends(old(configFiles), configFiles)
        invariant pos <= p < |tokens| && WordsEnd(tokens, p) == WordsEnd(tokens, pos)
        invariant WordsSoFar(arena.nodes, id, tokens, pos, p)
        decreases |tokens| - p
      {
        var t := tokens[p];
        if t.kind != Str {
          PlainArgumentsAt(tokens, pos, p);
        }
        if t.kind == RuleEnd {
          WordsDone(arena.nodes, id, tokens, pos, p);
          return Pass, p + 1;
        } else if t.kind == ObjectOpen {
          ghost var before := arena.nodes;
          r, newPos := ParseBlockArgument(file, p, id, pos);
          ArgumentsGrewTrans(old(arena.nodes), before, arena.nodes, id);
          return;
        } else if t.kind == Str {
          var keyword := KeywordOf(t.value);
          var value := if keyword != NoKeyword then KeywordValue(keyword) else StringValue(t.value);
          assert value == WordValue(t);
          ghost var before := arena.nodes;
          var arg := AddArgument(id, value, t);
          WordArgumentMade(before, arena.nodes, id, arg, tokens, pos, p);
          ArgumentsGrewTrans(old(arena.nodes), before, arena.nodes, id);
          p := p + 1;
        } else {
          return Fail(TokenError(UnexpectedTokenMessage, t, "")), p;
        }
      }
    }

    /**
     * The nested-object branch of the `_parseRule` argument loop: the block
     * read from `tokens[p]` becomes the last argument of `id`.
     */
    method ParseBlockArgument(file: ConfigFile, p: nat, id: NodeId, ghost pos: nat) returns (r: Outcome<ParserError>, newPos: nat)
      requires Valid() && EndsWithEnd(file.tokens) && pos <= p < |file.tokens| && file.tokens[p].kind == ObjectOpen
      requires WordsEnd(file.tokens, p) == WordsEnd(file.tokens, pos)
      requires IsRule(arena.nodes, id) && WordsSoFar(arena.nodes, id, file.tokens, pos, p)
      modifies this, arena
      ensures Valid() && ArgumentsGrew(old(arena.nodes), arena.nodes, id)
      ensures old(objects).Keys <= objects.Keys && Extends(old(configFiles), configFiles)
      ensures r.Pass? ==> p < newPos < |file.tokens| && ArgumentsRead(arena.nodes, id, file.tokens, pos, newPos)
      ensures p + 1 < |file.tokens| && PlainMembersEnd(file.tokens, p + 1).Some? ==>
        r.Pass? && newPos == PlainMembersEnd(file.tokens, p + 1).value + 1
      decreases fileSystem.Keys - configFiles.Keys, |file.tokens| - p, 4
    {
      var o, q, members, starts := ParseObject(file, p, Some(id));
      ghost var mid := arena.nodes;
      assert ArgumentsGrew(old(arena.nodes), mid, id) by {
        assert mid[id] == old(arena.nodes)[id];
      }
      if o.Err? {
        return Fail(o.error), q;
      }
      var arg := AddArgument(id, ObjectValue(o.value), file.tokens[p]);
      BlockArgumentMade(old(arena.nodes), mid, arena.nodes, id, o.value, arg, file.tokens, pos, p, q, members, starts);
      ArgumentsGrewTrans(old(arena.nodes), mid, arena.nodes, id);
      return Pass, q;
    }

    /**
     * `_parseObject`: the opening token, then rules until a closing token,
     * which is recorded and consumed. `define` and `include` rules are
     * handled on the spot and never stored; every other rule is appended
     * under its key. `members` are the rules read, in order, and `starts`
     * the positions of their keys, then the position of the closing token.
     */
    method ParseObject(file: ConfigFile, pos: nat, parentRule: Option<NodeId>)
      returns (r: Result<NodeId, ParserError>, newPos: nat, ghost members: seq<NodeId>, ghost starts: seq<nat>)
      requires Valid() && EndsWithEnd(file.tokens) && pos + 1 < |file.tokens|
      requires parentRule.Some? ==> IsRule(arena.nodes, parentRule.value)
      modifies this, arena
      ensures Valid() && old(arena.nodes) <= arena.nodes
      ensures old(objects).Keys <= objects.Keys && Extends(old(configFiles), configFiles)
      ensures r.Ok? ==>
        && pos < newPos < |file.tokens| && old(|arena.nodes|) <= r.value
        && ObjectRead(arena.nodes, r.value, parentRule, file.tokens, pos, newPos, members, starts)
      ensures PlainMembersEnd(file.tokens, pos + 1).Some? ==> r.Ok? && newPos == PlainMembersEnd(file.tokens, pos + 1).value + 1
      decreases fileSystem.Keys - configFiles.Keys, |file.tokens| - pos, 3
    {
      var tokens := file.tokens;
      var n := ObjectNode(Object(map[], parentRule, tokens[pos], None));
      ValidAppend(arena.nodes, n);
      RegisteredPrefix(objects, arena.nodes, arena.nodes + [n]);
      var id := arena.Alloc(n);
      var p := pos + 1;
      members, starts := [], [p];
      while tokens[p].kind != ObjectClose
        invariant Valid() && old(arena.nodes) <= arena.nodes
        invariant old(objects).Keys <= objects.Keys && Extends(old(configFiles), configFiles)
        invariant pos < p < |tokens|
        invariant old(|arena.nodes|) <= id && Open(arena.nodes, id)
        invariant arena.nodes[id].obj.parentRule == parentRule && arena.nodes[id].obj.openToken == tokens[pos]
        invariant MembersRead(arena.nodes, id, tokens, pos, p, members, starts)
        invariant PlainMembersEnd(tokens, pos + 1).Some? ==> PlainMembersEnd(tokens, p) == PlainMembersEnd(tokens, pos + 1)
        decreases |tokens| - p
      {
        ghost var before := arena.nodes;
        var done, q := ParseMember(file, p, id, pos, members, starts);
        GrewAroundPrefix(old(arena.nodes), before, arena.nodes, id);
        if done.Fail? {
          return Err(done.error), q, members, starts;
        }
        ghost var member: NodeId := |before|;
        members, starts := members + [member], starts + [q];
        p := q;
      }
      ghost var before := arena.nodes;
      CloseObject(id, tokens, pos, p, members, starts);
      PrefixStore(old(arena.nodes), before, id, arena.nodes[id]);
      return Ok(id), p + 1, members, starts;
    }

    /** The end of `_parseObject`: the closing token `tokens[p]` is recorded in the object. */
    method CloseObject(id: NodeId, tokens: seq<Token>, ghost pos: nat, p: nat, ghost members: seq<NodeId>, ghost starts: seq<nat>)
      requires Valid() && Open(arena.nodes, id) && pos < p < |tokens| && tokens[p].kind == ObjectClose
      requires arena.nodes[id].obj.openToken == tokens[pos]
      requires MembersRead(arena.nodes, id, tokens, pos, p, members, starts)
      modifies arena
      ensures Valid() && |arena.nodes| == old(|arena.nodes|) && arena.nodes == old(arena.nodes)[id := arena.nodes[id]]
      ensures ObjectRead(arena.nodes, id, old(arena.nodes[id].obj.parentRule), tokens, pos, p + 1, members, starts)
    {
      var o := arena.nodes[id].obj.(closeToken := Some(tokens[p]));
      assert NodeOk(arena.nodes, id);
      ValidReplace(arena.nodes, id, ObjectNode(o));
      RegisteredStore(objects, arena.nodes, id, ObjectNode(o));
      arena.Store(id, ObjectNode(o));
      MembersClosed(old(arena.nodes), arena.nodes, id, tokens, pos, p, members, starts);
    }

    /**
     * One pass of the `_parseObject` loop: a rule, then its handling by key
     * (`HandleMember`).
     */
    method ParseMember(file: ConfigFile, pos: nat, obj: NodeId, ghost objPos: nat, ghost members: seq<NodeId>, ghost starts: seq<nat>)
      returns (r: Outcome<ParserError>, newPos: nat)
      requires Valid() && EndsWithEnd(file.tokens) && pos < |file.tokens|
      requires IsObject(arena.nodes, obj) && !Closed(arena.nodes, obj)
      requires MembersRead(arena.nodes, obj, file.tokens, objPos, pos, members, starts)
      modifies this, arena
      ensures Valid() && GrewAround(old(arena.nodes), arena.nodes, obj) && Settled(old(arena.nodes), arena.nodes)
      ensures old(objects).Keys <= objects.Keys && Extends(old(configFiles), configFiles)
      ensures file.tokens[pos].kind != Str ==> r == Fail(TokenError(KeyExpectedMessage, file.tokens[pos], ""))
      ensures r.Pass? ==>
        && pos < newPos < |file.tokens| && MemberAt(arena.nodes, old(|arena.nodes|), obj, file.tokens, pos, newPos)
        && MemberHandled(old(arena.nodes), arena.nodes, old(objects), objects, obj, old(|arena.nodes|))
        && MembersRead(arena.nodes, obj, file.tokens, objPos, newPos, members + [old(|arena.nodes|)], starts + [newPos])
      ensures PlainMembersEnd(file.tokens, pos).Some? && file.tokens[pos].kind != ObjectClose ==>
        && r.Pass? && pos < newPos < |file.tokens|
        && PlainMembersEnd(file.tokens, newPos) == PlainMembersEnd(file.tokens, pos)
      decreases fileSystem.Keys - configFiles.Keys, |file.tokens| - pos, 2
    {
      if PlainMembersEnd(file.tokens, pos).Some? && file.tokens[pos].kind != ObjectClose {
        PlainMemberStep(file.tokens, pos);
      }
      var rr, p := ParseRule(file, pos, obj);
      ghost var mid := arena.nodes;
      assert GrewAround(old(arena.nodes), mid, obj) by {
        assert mid[obj] == old(arena.nodes)[obj];
      }
      if rr.Err? {
        PrefixSettled(old(arena.nodes), mid);
        return Fail(rr.error), p;
      }
      ghost var midObjects := objects;
      r := HandleMember(file.tokens[p], rr.value, obj);
      GrewAroundTrans(old(arena.nodes), mid, arena.nodes, obj);
      if r.Pass? {
        MemberAtKept(mid, arena.nodes, rr.value, obj, file.tokens, pos, p);
        MemberHandledEarlier(old(arena.nodes), mid, arena.nodes, old(objects), midObjects, objects, obj, rr.value);
        MembersStep(old(arena.nodes), arena.nodes, obj, file.tokens, objPos, pos, p, members, starts, rr.value);
      }
      return r, p;
    }

    /**
     * The body of the `_parseObject` loop once a rule is read: a plain rule
     * is appended under its key; a `define` registers its name for its
     * block; an `include` appends copies of the named object's rules.
     */
    method HandleMember(at: Token, rule: NodeId, obj: NodeId) returns (r: Outcome<ParserError>)
      requires Valid() && IsObject(arena.nodes, obj) && !Closed(arena.nodes, obj)
      requires IsRule(arena.nodes, rule) && arena.nodes[rule].rule.parentObject == obj
      requires arena.nodes[rule].rule.includePath == []
      modifies this, arena
      ensures Valid() && GrewAround(old(arena.nodes), arena.nodes, obj) && Settled(old(arena.nodes), arena.nodes)
      ensures old(objects).Keys <= objects.Keys && Extends(old(configFiles), configFiles)
      ensures r.Pass? ==> MemberHandled(old(arena.nodes), arena.nodes, old(objects), objects, obj, rule)
      ensures old(arena.nodes[rule].rule.key) != Define && old(arena.nodes[rule].rule.key) != Include ==> r.Pass?
      decreases fileSystem.Keys - configFiles.Keys, 0, 6
    {
      var key := arena.nodes[rule].rule.key;
      if key == Define {
        r := HandleDefineRule(rule);
        PrefixSettled(old(arena.nodes), arena.nodes);
        if r.Pass? {
          UnchangedMemberRules(old(arena.nodes), arena.nodes, obj);
        }
      } else if key == Include {
        r := HandleIncludeRule(at, rule, obj);
        if r.Pass? {
          IncludeMemberRules(old(arena.nodes), arena.nodes, old(objects), objects, obj, rule);
        }
      } else {
        AppendRule(obj, rule);
        r := Pass;
        FrameSettled(old(arena.nodes), arena.nodes, obj);
        PlainMemberRules(old(arena.nodes), arena.nodes, obj, rule, key);
      }
    }

    /**
     * `_loadConfigFile`: a file that cannot be opened, or whose loading has
     * already started, is an error. Otherwise the file is registered, its
     * text assembled, tokenized and parsed, and its root object stored under
     * its path.
     */
    method LoadConfigFile(path: string) returns (r: Outcome<ParserError>)
      requires Valid()
      modifies this, arena
      ensures Valid() && old(arena.nodes) <= arena.nodes
      ensures old(objects).Keys <= objects.Keys && Extends(old(configFiles), configFiles)
      ensures path !in fileSystem ==>
        && r == Fail(PlainError("Failed to open configuration file: " + path, ""))
        && objects == old(objects) && configFiles == old(configFiles)
      ensures path in fileSystem && path in old(configFiles) ==>
        && r == Fail(PlainError("Circulair import detected for: " + path, ""))
        && objects == old(objects) && configFiles == old(configFiles)
      ensures path in fileSystem ==> path in configFiles
      ensures r.Pass? ==>
        && path in fileSystem && path !in old(configFiles)
        && path in objects && Closed(arena.nodes, objects[path])
        && arena.nodes[objects[path]].obj.parentRule == None
        && configFiles[path].text == Assemble(path, fileSystem[path])
        && arena.nodes[objects[path]].obj.openToken == SysOpen(configFiles[path].text)
        && LexFrom(configFiles[path].text, 0, SysOpen(configFiles[path].text)) == Ok(configFiles[path].tokens)
        && RootRead(arena.nodes, objects[path], configFiles[path].tokens)
      ensures path in fileSystem && path !in old(configFiles) && PlainFile(path, fileSystem[path]) ==> r.Pass?
      decreases fileSystem.Keys - configFiles.Keys, 0, 1
    {
      if path !in fileSystem {
        return Fail(PlainError("Failed to open configuration file: " + path, ""));
      }
      if path in configFiles {
        return Fail(PlainError("Circulair import detected for: " + path, ""));
      }
      r := LoadNewFile(path);
    }

    /** The loading proper: register, assemble, tokenize, then parse the root object. */
    method LoadNewFile(path: string) returns (r: Outcome<ParserError>)
      requires Valid() && path in fileSystem && path !in configFiles
      modifies this, arena
      ensures Valid() && old(arena.nodes) <= arena.nodes
      ensures old(objects).Keys <= objects.Keys && Extends(old(configFiles), configFiles)
      ensures path in configFiles
      ensures r.Pass? ==>
        && path in objects && Closed(arena.nodes, objects[path])
        && arena.nodes[objects[path]].obj.parentRule == None
        && configFiles[path].text == Assemble(path, fileSystem[path])
        && arena.nodes[objects[path]].obj.openToken == SysOpen(configFiles[path].text)
        && LexFrom(configFiles[path].text, 0, SysOpen(configFiles[path].text)) == Ok(configFiles[path].tokens)
        && RootRead(arena.nodes, objects[path], configFiles[path].tokens)
      ensures PlainFile(path, fileSystem[path]) ==> r.Pass?
      decreases fileSystem.Keys - configFiles.Keys, 0, 0
    {
      var text := AssembleContent(path, fileSystem[path]);
      configFiles := configFiles[path := ConfigFile(text, [])];
      var lexed := Tokenize(text);
      if lexed.Err? {
        return Fail(lexed.error);
      }
      var file := ConfigFile(text, lexed.value);
      configFiles := configFiles[path := file];
      ghost var registered := configFiles;
      assert Extends(old(configFiles), registered);
      assert path in old(fileSystem.Keys - configFiles.Keys) && path !in fileSystem.Keys - configFiles.Keys;
      r := ParseRootObject(path, file);
      ExtendsTrans(old(configFiles), registered, configFiles);
    }

    /**
     * The end of `loadConfigFile`: the tokens of a registered file parsed
     * as one object, stored under the file's path.
     */
    method ParseRootObject(path: string, file: ConfigFile) returns (r: Outcome<ParserError>)
      requires Valid() && path in configFiles && configFiles[path] == file
      requires EndsWithEnd(file.tokens) && 1 < |file.tokens|
      modifies this, arena
      ensures Valid() && old(arena.nodes) <= arena.nodes
      ensures old(objects).Keys <= objects.Keys && Extends(old(configFiles), configFiles)
      ensures r.Pass? ==>
        && path in objects && Closed(arena.nodes, objects[path])
        && arena.nodes[objects[path]].obj.parentRule == None
        && arena.nodes[objects[path]].obj.openToken == file.tokens[0]
        && RootRead(arena.nodes, objects[path], file.tokens)
      ensures PlainTokens(file.tokens) ==> r.Pass?
      decreases fileSystem.Keys - configFiles.Keys, |file.tokens| + 1, 0
    {
      var root, end, members, starts := ParseObject(file, 0, None);
      if root.Err? {
        return Fail(root.error);
      }
      objects := objects[path := root.value];
      assert ObjectRead(arena.nodes, objects[path], None, file.tokens, 0, end, members, starts);
      return Pass;
    }

    /**
     * `parseFile`: false without loading when the name is already known;
     * otherwise loads the file and reports whether that succeeded (the
     * message of a failure is printed in the source).
     */
    method ParseFile(path: string) returns (ok: bool)
      requires Valid()
      modifies this, arena
      ensures Valid()
      ensures old(IsFileLoaded(path)) ==> !ok && objects == old(objects) && arena.nodes == old(arena.nodes)
      ensures !old(IsFileLoaded(path)) && path !in fileSystem ==> !ok
      ensures !old(IsFileLoaded(path)) && path in old(configFiles) ==> !ok
      ensures ok ==> IsFileLoaded(path) && GetResult(path).Some? && Closed(arena.nodes, GetResult(path).value)
      ensures ok ==>
        && path in fileSystem && path !in old(configFiles) && path in configFiles
        && arena.nodes[objects[path]].obj.parentRule == None
        && configFiles[path].text == Assemble(path, fileSystem[path])
        && LexFrom(configFiles[path].text, 0, SysOpen(configFiles[path].text)) == Ok(configFiles[path].tokens)
        && RootRead(arena.nodes, objects[path], configFiles[path].tokens)
      ensures !old(IsFileLoaded(path)) && path in fileSystem && path !in old(configFiles) && PlainFile(path, fileSystem[path]) ==> ok
    {
      if IsFileLoaded(path) {
        return false;
      }
      var loaded := LoadConfigFile(path);
      ok := loaded.Pass?;
    }
  }
}

=== FILE: parser_tables.dfy ===
/**
 * The two lookup tables of config/parser.cpp: directive names to keys and
 * argument words to keywords.
 */
module ParserTables {
  import opened Wrappers
  import opened ConfigTypes
  import opened Diagnostics

  /** `getRuleKeyFromToken`'s table. The directive `redirect` is the only spelling of the return key. */
  const KeyTable: map<string, Key> := map[
    "server" := Server,
    "listen" := Listen,
    "server_name" := ServerName,
    "client_max_body_size" := MaxBodySize,
    "error_page" := ErrorPage,
    "root" := Root,
    "index" := Index,
    "autoindex" := AutoIndex,
    "redirect" := Return,
    "location" := Location,
    "allowed_methods" := AllowedMethods,
    "upload_store" := UploadDir,
    "cgi" := CgiPass,
    "cgi_timeout" := CgiTimeout,
    "define" := Define,
    "include" := Include]

  /**
   * How each key is written in a configuration file; the zero key and
   * `cgi_extension` have no spelling, so no file can produce them.
   */
  function KeyName(k: Key): Option<string> {
    match k
    case NoKey => None
    case Server => Some("server")
    case Listen => Some("listen")
    case ServerName => Some("server_name")
    case MaxBodySize => Some("client_max_body_size")
    case ErrorPage => Some("error_page")
    case Root => Some("root")
    case Index => Some("index")
    case AutoIndex => Some("autoindex")
    case Return => Some("redirect")
    case Location => Some("location")
    case AllowedMethods => Some("allowed_methods")
    case UploadDir => Some("upload_store")
    case CgiPass => Some("cgi")
    case CgiTimeout => Some("cgi_timeout")
    case Define => Some("define")
    case Include => Some("include")
    case CgiExtension => None
  }

  /**
   * `getRuleKeyFromToken`: the key a directive name stands for, found by
   * exact lookup, or a token error naming the unknown word.
   */
  function RuleKeyOf(token: Token): (r: Result<Key, ParserError>)
    ensures r.Ok? ==> KeyName(r.value) == Some(token.value)
    ensures r.Err? ==> forall k :: KeyName(k) != Some(token.value)
    ensures r.Err? ==> r.error == TokenError("Unknown rule key \"" + token.value + "\"", token, "")
  {
    if token.value in KeyTable then Ok(KeyTable[token.value])
    else Err(TokenError("Unknown rule key \"" + token.value + "\"", token, ""))
  }

  /** Every spelled key is found again from its spelling. */
  lemma KeyNameRoundTrip(k: Key, token: Token)
    requires KeyName(k).Some? && token.value == KeyName(k).value
    ensures RuleKeyOf(token) == Ok(k)
  {
  }

  /** `getKeyword`'s table. */
  const KeywordTable: map<string, Keyword> := map[
    "on" := On,
    "off" := Off,
    "true" := True,
    "false" := False,
    "default" := Default,
    "enable" := Enable,
    "disable" := Disable,
    "auto" := Auto]

  function KeywordName(k: Keyword): Option<string> {
    match k
    case NoKeyword => None
    case On => Some("on")
    case Off => Some("off")
    case True => Some("true")
    case False => Some("false")
    case Default => Some("default")
    case Enable => Some("enable")
    case Disable => Some("disable")
    case Auto => Some("auto")
  }

  /** `getKeyword`: the keyword a word spells, or the zero keyword; it never fails. */
  function KeywordOf(s: string): (k: Keyword)
    ensures k != NoKeyword ==> KeywordName(k) == Some(s)
    ensures k == NoKeyword ==> forall w :: KeywordName(w) != Some(s)
  {
    if s in KeywordTable then KeywordTable[s] else NoKeyword
  }

  lemma KeywordNameRoundTrip(k: Keyword)
    requires k != NoKeyword
    ensures KeywordName(k).Some? && KeywordOf(KeywordName(k).value) == k
  {
  }
}

=== FILE: path.dfy ===
/**
 * `Path` (config/types/path.cpp): a file-system path kept as text, with a
 * flag telling whether it was ever given a value. The C++ class is copied
 * by value wherever it is stored, so the rules hold a `Path` value and each
 * mutator is a function returning the updated path; `PathObject` performs
 * the same edits in place.
 */
module Paths {
  import opened Wrappers
  import opened Strings

  datatype Path = Path(text: string, isSet: bool)

  /** `Path()` and `Path::createDummy()`: empty and unset. */
  const Dummy: Path := Path("", false)

  /** `Path(const std::string&)`: the text, marked set. */
  function FromString(s: string): (p: Path)
    ensures p.text == s && p.isSet
  {
    Path(s, true)
  }

  /** The position of the last '/' in `s` (`find_last_of('/')`). */
  function LastSlash(s: string): (r: Option<nat>)
    ensures r.Some? ==> r.value < |s| && s[r.value] == '/' && forall i :: r.value < i < |s| ==> s[i] != '/'
    ensures r.None? ==> forall i :: 0 <= i < |s| ==> s[i] != '/'
  {
    if s == [] then None
    else if s[|s| - 1] == '/' then Some(|s| - 1)
    else LastSlash(s[..|s| - 1])
  }

  predicate NoSlash(s: string) { forall i :: 0 <= i < |s| ==> s[i] != '/' }

  /** `s` without one trailing '/', if it has one. */
  function DropTrailingSlash(s: string): (r: string)
    ensures s != [] && s[|s| - 1] == '/' ==> s == r + "/"
    ensures (s == [] || s[|s| - 1] != '/') ==> r == s
  {
    if s != [] && s[|s| - 1] == '/' then s[..|s| - 1] else s
  }

  /**
   * `append`: an empty piece changes nothing; an absolute piece, or any
   * piece appended to an empty path, replaces the text; otherwise the two
   * are joined by exactly one '/'.
   */
  function Append(p: Path, s: string): (r: Path)
    ensures r.isSet == p.isSet
    ensures s == [] ==> r == p
    ensures s != [] && (p.text == [] || s[0] == '/') ==> r.text == s
    ensures s != [] && p.text != [] && s[0] != '/' ==> r.text == DropTrailingSlash(p.text) + "/" + s
  {
    if s == [] then p
    else if p.text == [] || s[0] == '/' then p.(text := s)
    else if p.text[|p.text| - 1] == '/' then p.(text := p.text + s)
    else p.(text := p.text + "/" + s)
  }

  /**
   * `pop`: drop the last segment. An empty path stays empty, a path
   * without '/' becomes empty, otherwise the text is cut at its last '/'.
   */
  function Pop(p: Path): (r: Path)
    ensures r.isSet == p.isSet
    ensures LastSlash(p.text).None? ==> r.text == []
    ensures LastSlash(p.text).Some? ==> r.text == p.text[..LastSlash(p.text).value]
  {
    match LastSlash(p.text)
    case None => p.(text := [])
    case Some(i) => p.(text := p.text[..i])
  }

  /** `getFilename`: the text after the last '/', or all of it when there is none. */
  function Filename(p: Path): (name: string)
    ensures NoSlash(name)
  {
    match LastSlash(p.text)
    case None => p.text
    case Some(i) => p.text[i + 1..]
  }

  /** Two dots in a row at `i`. */
  predicate DotsAt(s: string, i: nat) {
    i + 1 < |s| && s[i] == '.' && s[i + 1] == '.'
  }

  /** ".." occurs in `s` exactly when two dots stand side by side. */
  lemma ContainsDots(s: string)
    ensures Contains(s, "..") <==> exists i: nat :: DotsAt(s, i)
  {
    if Contains(s, "..") {
      var i :| 0 <= i <= |s| - 2 && OccursAt(s, "..", i);
      assert s[i..i + 2][0] == '.' && s[i..i + 2][1] == '.';
      assert DotsAt(s, i);
    }
    if i: nat :| DotsAt(s, i) {
      assert s[i..i + 2] == "..";
      assert OccursAt(s, "..", i);
    }
  }

  /** `isValid`: set, with no two dots side by side anywhere in the text. */
  predicate IsValid(p: Path): (b: bool)
    ensures b <==> p.isSet && forall i: nat :: !DotsAt(p.text, i)
  {
    ContainsDots(p.text);
    p.isSet && !Contains(p.text, "..")
  }

  /** A path is its popped part, then '/', then its file name (when it has a '/'). */
  lemma PopFilenameSplit(p: Path)
    ensures LastSlash(p.text).Some? ==> p.text == Pop(p).text + "/" + Filename(p)
    ensures LastSlash(p.text).None? ==> Pop(p).text == [] && Filename(p) == p.text
  {
    if LastSlash(p.text).Some? {
      var i := LastSlash(p.text).value;
      assert p.text == p.text[..i] + [p.text[i]] + p.text[i + 1..];
    }
  }

  /** The last '/' of a text followed by a slash-free piece is the one before that piece. */
  lemma LastSlashBeforePiece(a: string, s: string)
    requires NoSlash(s)
    ensures LastSlash(a + "/" + s) == Some(|a|)
    decreases |s|
  {
    var t := a + "/" + s;
    if s == [] {
      assert t[|t| - 1] == '/';
    } else {
      assert t[..|t| - 1] == a + "/" + s[..|s| - 1];
      LastSlashBeforePiece(a, s[..|s| - 1]);
    }
  }

  /** Appending a relative file name and then asking for the file name gives that name back. */
  lemma AppendThenFilename(p: Path, s: string)
    requires s != [] && NoSlash(s)
    ensures Filename(Append(p, s)) == s
  {
    if p.text != [] {
      var a := DropTrailingSlash(p.text);
      LastSlashBeforePiece(a, s);
      assert (a + "/" + s)[|a| + 1..] == s;
    } else {
      assert LastSlash(s).None?;
    }
  }

  /**
   * Appending a relative file name and popping it again gives back the
   * original path, less the trailing '/' it may have had.
   */
  lemma AppendThenPop(p: Path, s: string)
    requires p.text != [] && s != [] && NoSlash(s)
    ensures Pop(Append(p, s)) == p.(text := DropTrailingSlash(p.text))
  {
    var a := DropTrailingSlash(p.text);
    LastSlashBeforePiece(a, s);
    assert (a + "/" + s)[..|a|] == a;
  }

  /**
   * `updateFromUrl`: the first |route| characters of the text (all of it
   * if shorter) become `root`; a '/' is inserted after `root` when the next
   * character exists and is neither '/' nor NUL; then one trailing '/' is
   * dropped. (On an empty result the C++ `back()` is undefined; the model
   * leaves the text empty.)
   */
  function UpdateFromUrl(p: Path, route: string, root: string): (r: Path)
    ensures r.isSet == p.isSet
  {
    var cut := if |route| < |p.text| then |route| else |p.text|;
    var replaced := root + p.text[cut..];
    var joined :=
      if |root| < |replaced| && replaced[|root|] != '\0' && replaced[|root|] != '/'
      then root + "/" + replaced[|root|..]
      else replaced;
    p.(text := DropTrailingSlash(joined))
  }

  /**
   * A URL under `route` is mapped below `root`: the part after the route
   * follows `root` behind exactly one '/' (none is added when the part
   * already starts with one), less a trailing '/'.
   */
  lemma UpdateFromUrlUnderRoute(url: string, route: string, root: string)
    requires StartsWith(url, route)
    requires var rest := url[|route|..]; rest != [] && rest[0] != '\0'
    ensures var rest := url[|route|..];
      UpdateFromUrl(FromString(url), route, root).text ==
        DropTrailingSlash(if rest[0] == '/' then root + rest else root + "/" + rest)
  {
    var rest := url[|route|..];
    var replaced := root + rest;
    assert replaced[|root|] == rest[0];
    assert replaced[|root|..] == rest;
  }
  /**
   * A `Path` object as the C++ code changes it: `append`, `pop` and
   * `updateFromUrl` edit the text in place. Each method leaves the object
   * holding the value the function of the same operation computes.
   */
  class PathObject {
    var text: string
    var isSet: bool

    function Value(): Path
      reads this
    {
      Path(text, isSet)
    }

    /** `Path(const std::string&)`. */
    constructor FromText(s: string)
      ensures Value() == FromString(s)
    {
      text := s;
      isSet := true;
    }

    /** `Path()`. */
    constructor Unset()
      ensures Value() == Dummy
    {
      text := "";
      isSet := false;
    }

    /** `append`, in place. */
    method AppendText(s: string)
      modifies this
      ensures Value() == Append(old(Value()), s)
    {
      if s == [] {
        return;
      }
      if text == [] || s[0] == '/' {
        text := s;
      } else if text[|text| - 1] == '/' {
        text := text + s;
      } else {
        text := text + "/" + s;
      }
    }

    /** `pop`, in place. */
    method PopSegment()
      modifies this
      ensures Value() == Pop(old(Value()))
    {
      if text == [] {
        return;
      }
      match LastSlash(text)
      case None => text := "";
      case Some(i) => text := text[..i];
    }

    /**
     * `updateFromUrl`, in place: replace the front, insert the '/', drop
     * the trailing '/'. Reading the character at `|root|` when the text is
     * exactly that long gives the C++ string's terminating NUL.
     */
    method MapFromUrl(route: string, root: string)
      modifies this
      ensures Value() == UpdateFromUrl(old(Value()), route, root)
    {
      ghost var start := Value();
      var cut := if |route| < |text| then |route| else |text|;
      text := root + text[cut..];
      ghost var replaced := text;
      assert replaced == root + start.text[cut..];
      if |root| < |text| && text[|root|] != '\0' && text[|root|] != '/' {
        assert text[..|root|] == root;
        text := text[..|root|] + "/" + text[|root|..];
      }
      ghost var joined := text;
      assert joined == if |root| < |replaced| && replaced[|root|] != '\0' && replaced[|root|] != '/'
        then root + "/" + replaced[|root|..] else replaced;
      if text != [] && text[|text| - 1] == '/' {
        text := text[..|text| - 1];
      }
      assert text == DropTrailingSlash(joined);
      assert isSet == start.isSet;
      assert UpdateFromUrl(start, route, root) == start.(text := DropTrailingSlash(joined));
    }
  }
}

=== FILE: rule_parser.dfy ===
/**
 * The argument binder (config/rules/ruleParser.cpp/.hpp): a cursor over the
 * arguments of one rule, with arity checks and typed reads through the
 * converters. Building one marks the rule as used.
 *
 * The parse tree is complete by the time binders run and they never change
 * it, so the binder keeps the node list it was built on.
 */
module RuleParsing {
  import opened Wrappers
  import opened Strings
  import opened ConfigTypes
  import opened Document
  import opened Diagnostics
  import opened Converters

  /** The hint every arity error carries. */
  function FormatHint(format: string): string {
    "Check the syntax of the rule. Expected format:\n\t" + format
  }

  /** A converter's complaint, placed at the argument it is about. */
  function Place<T>(c: Result<T, Complaint>, nodes: seq<Node>, argument: NodeId): (r: Result<T, ParserError>)
    requires Valid(nodes) && IsArgument(nodes, argument)
    ensures c.Ok? <==> r.Ok?
    ensures c.Ok? ==> r.value == c.value
    ensures c.Err? ==> r.error.kind == AtArgument(argument) && r.error.message == c.error.message && r.error.hint == c.error.hint
  {
    match c
    case Ok(v) => Ok(v)
    case Err(e) => Err(ArgumentError(nodes, e.message, argument, e.hint))
  }

  /** The ids of a rule's arguments are argument nodes. */
  lemma ArgumentIds(nodes: seq<Node>, rule: NodeId, i: nat)
    requires Valid(nodes) && IsRule(nodes, rule) && i < |nodes[rule].rule.arguments|
    ensures IsArgument(nodes, nodes[rule].rule.arguments[i])
    ensures ArgumentsOf(nodes, rule)[i] == nodes[nodes[rule].rule.arguments[i]].arg
  {
    assert NodeOk(nodes, rule);
  }

  /** Converting argument `i` of a rule: the value, or the complaint placed at that argument. */
  function Converted<T>(nodes: seq<Node>, rule: NodeId, convert: Argument -> Result<T, Complaint>, i: nat): (r: Result<T, ParserError>)
    requires Valid(nodes) && IsRule(nodes, rule) && i < |nodes[rule].rule.arguments|
    ensures r.Ok? <==> convert(ArgumentsOf(nodes, rule)[i]).Ok?
    ensures r.Ok? ==> r.value == convert(ArgumentsOf(nodes, rule)[i]).value
    ensures r.Err? ==> r.error.kind == AtArgument(nodes[rule].rule.arguments[i])
    ensures r.Err? ==> r.error.message == convert(ArgumentsOf(nodes, rule)[i]).error.message
  {
    ArgumentIds(nodes, rule, i);
    Place(convert(ArgumentsOf(nodes, rule)[i]), nodes, nodes[rule].rule.arguments[i])
  }

  /**
   * Converting the arguments `lo` up to `hi` of a rule in order: the
   * values, or the complaint about the first argument that fails.
   */
  function ConvertRange<T>(nodes: seq<Node>, rule: NodeId, convert: Argument -> Result<T, Complaint>, lo: nat, hi: nat): (r: Result<seq<T>, ParserError>)
    requires Valid(nodes) && IsRule(nodes, rule) && lo <= hi <= |nodes[rule].rule.arguments|
    ensures r.Ok? ==> |r.value| == hi - lo
    ensures r.Ok? ==> forall i :: lo <= i < hi ==> convert(ArgumentsOf(nodes, rule)[i]) == Ok(r.value[i - lo])
    ensures r.Err? ==> exists i :: lo <= i < hi && convert(ArgumentsOf(nodes, rule)[i]).Err?
    decreases hi
  {
    if hi == lo then Ok([])
    else
      var front :- ConvertRange(nodes, rule, convert, lo, hi - 1);
      var last :- Converted(nodes, rule, convert, hi - 1);
      Ok(front + [last])
  }

  /** If every argument in the range converts, so does the range, value by value. */
  lemma {:induction false} ConvertRangeAllOk<T>(nodes: seq<Node>, rule: NodeId, convert: Argument -> Result<T, Complaint>, lo: nat, hi: nat)
    requires Valid(nodes) && IsRule(nodes, rule) && lo <= hi <= |nodes[rule].rule.arguments|
    requires forall i :: lo <= i < hi ==> convert(ArgumentsOf(nodes, rule)[i]).Ok?
    ensures ConvertRange(nodes, rule, convert, lo, hi).Ok?
    decreases hi
  {
    if hi > lo {
      ConvertRangeAllOk(nodes, rule, convert, lo, hi - 1);
      ArgumentIds(nodes, rule, hi - 1);
    }
  }

  /** Converting a range piece by piece: the two halves, one after the other. */
  lemma {:induction false} ConvertRangeSplit<T>(nodes: seq<Node>, rule: NodeId, convert: Argument -> Result<T, Complaint>, lo: nat, mid: nat, hi: nat)
    requires Valid(nodes) && IsRule(nodes, rule) && lo <= mid <= hi <= |nodes[rule].rule.arguments|
    requires ConvertRange(nodes, rule, convert, lo, hi).Ok?
    ensures ConvertRange(nodes, rule, convert, lo, mid).Ok? && ConvertRange(nodes, rule, convert, mid, hi).Ok?
    ensures ConvertRange(nodes, rule, convert, lo, hi).value ==
      ConvertRange(nodes, rule, convert, lo, mid).value + ConvertRange(nodes, rule, convert, mid, hi).value
    decreases hi
  {
    if hi > mid {
      ConvertRangeSplit(nodes, rule, convert, lo, mid, hi - 1);
      ArgumentIds(nodes, rule, hi - 1);
    }
  }

  /** The number of arguments a rule has. */
  function Arity(nodes: seq<Node>, rule: NodeId): nat
    requires Valid(nodes) && IsRule(nodes, rule)
  {
    |nodes[rule].rule.arguments|
  }

  /** The arity error, reporting the count found and what was expected. */
  function ArityError(nodes: seq<Node>, rule: NodeId, format: string, expected: string): (e: ParserError)
    requires Valid(nodes) && IsRule(nodes, rule)
    ensures e.kind == AtRule(rule) && e.hint == FormatHint(format)
    ensures e.message == "Invalid number of arguments; found " + NatToString(Arity(nodes, rule)) + ", expected " + expected
  {
    RuleError(nodes, "Invalid number of arguments; found " + NatToString(Arity(nodes, rule)) + ", expected " + expected, rule, FormatHint(format))
  }

  /** `expectMinNumArguments`: fails exactly when there are fewer than `min` arguments. */
  function ExpectMinNumArguments(nodes: seq<Node>, rule: NodeId, format: string, min: nat): (r: Outcome<ParserError>)
    requires Valid(nodes) && IsRule(nodes, rule)
    ensures r.Fail? <==> Arity(nodes, rule) < min
    ensures r.Fail? ==> r.error == ArityError(nodes, rule, format, "at least " + NatToString(min))
  {
    if Arity(nodes, rule) < min then Fail(ArityError(nodes, rule, format, "at least " + NatToString(min))) else Pass
  }

  /** `expectArgumentCount(min, max)`: fails exactly when the count lies outside [min, max]. */
  function ExpectArgumentRange(nodes: seq<Node>, rule: NodeId, format: string, min: nat, max: nat): (r: Outcome<ParserError>)
    requires Valid(nodes) && IsRule(nodes, rule)
    ensures r.Pass? <==> min <= Arity(nodes, rule) <= max
    ensures r.Fail? ==> r.error == ArityError(nodes, rule, format, "between " + NatToString(min) + " and " + NatToString(max))
  {
    if Arity(nodes, rule) < min || Arity(nodes, rule) > max then
      Fail(ArityError(nodes, rule, format, "between " + NatToString(min) + " and " + NatToString(max)))
    else Pass
  }

  /** `expectArgumentCount(count)`: fails exactly when the count differs from `n`. */
  function ExpectArgumentCount(nodes: seq<Node>, rule: NodeId, format: string, n: nat): (r: Outcome<ParserError>)
    requires Valid(nodes) && IsRule(nodes, rule)
    ensures r.Pass? <==> Arity(nodes, rule) == n
    ensures r.Fail? ==> r.error == ArityError(nodes, rule, format, "exactly " + NatToString(n))
  {
    if Arity(nodes, rule) != n then Fail(ArityError(nodes, rule, format, "exactly " + NatToString(n))) else Pass
  }

  /** The error for reading past the last argument. */
  function NotEnough(nodes: seq<Node>, rule: NodeId, name: string, format: string): (e: ParserError)
    requires Valid(nodes) && IsRule(nodes, rule)
    ensures e.kind == AtRule(rule) && e.hint == FormatHint(format)
    ensures e.message == "Not enough arguments provided for rule '" + name + "'"
  {
    RuleError(nodes, "Not enough arguments provided for rule '" + name + "'", rule, FormatHint(format))
  }

  /** The cursor over one rule's arguments. */
  class RuleParser {
    const nodes: seq<Node>
    const rule: NodeId
    const name: string
    const format: string
    var index: nat

    /** The rule is in the tree and the cursor within its arguments. */
    ghost predicate Ready()
      reads this
    {
      Valid(nodes) && IsRule(nodes, rule) && index <= Arity(nodes, rule)
    }

    /**
     * `RuleParser(rule, name, format)`, and `create`, which takes the name
     * and format from the binder: the cursor starts at the first argument
     * and the rule is marked as used.
     */
    constructor (arena: Arena, rule: NodeId, name: string, format: string)
      requires Valid(arena.nodes) && IsRule(arena.nodes, rule)
      modifies arena`used
      ensures Ready() && index == 0
      ensures this.nodes == arena.nodes && this.rule == rule && this.name == name && this.format == format
      ensures arena.used == old(arena.used) + {rule}
    {
      this.nodes := arena.nodes;
      this.rule := rule;
      this.name := name;
      this.format := format;
      index := 0;
      new;
      arena.MarkUsed(rule);
    }

    /**
     * `parseArgument`: fails when no argument is left; otherwise converts
     * the argument under the cursor and moves past it.
     */
    method ParseArgument<T>(convert: Argument -> Result<T, Complaint>) returns (r: Result<T, ParserError>)
      requires Ready()
      modifies this`index
      ensures Ready()
      ensures old(index) == Arity(nodes, rule) ==> r == Err(NotEnough(nodes, rule, name, format)) && index == old(index)
      ensures old(index) < Arity(nodes, rule) ==> index == old(index) + 1 && r == Converted(nodes, rule, convert, old(index))
    {
      if index >= Arity(nodes, rule) {
        return Err(NotEnough(nodes, rule, name, format));
      }
      r := Converted(nodes, rule, convert, index);
      index := index + 1;
    }

    /** `parseOptionalArgument`: nothing when no argument is left, otherwise `parseArgument`. */
    method ParseOptionalArgument<T>(convert: Argument -> Result<T, Complaint>) returns (r: Result<Option<T>, ParserError>)
      requires Ready()
      modifies this`index
      ensures Ready()
      ensures old(index) == Arity(nodes, rule) ==> r == Ok(None) && index == old(index)
      ensures old(index) < Arity(nodes, rule) ==> index == old(index) + 1
      ensures old(index) < Arity(nodes, rule) ==> var v := Converted(nodes, rule, convert, old(index));
        (r.Ok? <==> v.Ok?) && (r.Ok? ==> r.value == Some(v.value)) && (r.Err? ==> r.error == v.error)
    {
      if index < Arity(nodes, rule) {
        var v := ParseArgument(convert);
        match v
        case Ok(x) => r := Ok(Some(x));
        case Err(e) => r := Err(e);
      } else {
        r := Ok(None);
      }
    }

    /**
     * `parseAllButX`: fails unless more than `save` arguments are left;
     * otherwise converts all but the last `save` of them, in order, and
     * appends them to `target`.
     */
    method ParseAllButX<T>(target: seq<T>, convert: Argument -> Result<T, Complaint>, save: nat) returns (r: Result<seq<T>, ParserError>)
      requires Ready()
      modifies this`index
      ensures Ready()
      ensures save >= Arity(nodes, rule) - old(index) ==> r == Err(NotEnough(nodes, rule, name, format)) && index == old(index)
      ensures save < Arity(nodes, rule) - old(index) ==>
        var converted := ConvertRange(nodes, rule, convert, old(index), Arity(nodes, rule) - save);
        && (r.Ok? <==> converted.Ok?)
        && (r.Ok? ==> r.value == target + converted.value && index == Arity(nodes, rule) - save)
        && (r.Err? ==> r.error == converted.error)
    {
      if save >= Arity(nodes, rule) - index {
        return Err(NotEnough(nodes, rule, name, format));
      }
      r := ParseUpTo(target, convert, Arity(nodes, rule) - save);
    }

    /** The loop of `parseAllButX`: converts the arguments from the cursor up to `stop`, appending them to `target`. */
    method ParseUpTo<T>(target: seq<T>, convert: Argument -> Result<T, Complaint>, stop: nat) returns (r: Result<seq<T>, ParserError>)
      requires Ready() && index <= stop <= Arity(nodes, rule)
      modifies this`index
      ensures Ready()
      ensures var converted := ConvertRange(nodes, rule, convert, old(index), stop);
        && (r.Ok? <==> converted.Ok?)
        && (r.Ok? ==> r.value == target + converted.value && index == stop)
        && (r.Err? ==> r.error == converted.error)
    {
      var start := index;
      var acc := target;
      while index < stop
        invariant start <= index <= stop && Ready()
        invariant ConvertRange(nodes, rule, convert, start, index).Ok?
        invariant acc == target + ConvertRange(nodes, rule, convert, start, index).value
        decreases stop - index
      {
        var k := index;
        var v := ParseArgument(convert);
        if v.Err? {
          ConvertRangeStops(nodes, rule, convert, start, k, stop);
          return Err(v.error);
        }
        ConvertRangeStep(nodes, rule, convert, start, k);
        acc := acc + [v.value];
      }
      return Ok(acc);
    }

    /** `parseAll`: `parseAllButX` saving nothing, so it fails when no argument is left. */
    method ParseAll<T>(target: seq<T>, convert: Argument -> Result<T, Complaint>) returns (r: Result<seq<T>, ParserError>)
      requires Ready()
      modifies this`index
      ensures Ready()
      ensures old(index) == Arity(nodes, rule) ==> r == Err(NotEnough(nodes, rule, name, format)) && index == old(index)
      ensures old(index) < Arity(nodes, rule) ==>
        var converted := ConvertRange(nodes, rule, convert, old(index), Arity(nodes, rule));
        && (r.Ok? <==> converted.Ok?)
        && (r.Ok? ==> r.value == target + converted.value && index == Arity(nodes, rule))
        && (r.Err? ==> r.error == converted.error)
    {
      r := ParseAllButX(target, convert, 0);
    }
  }

  /** Once a range fails to convert, every longer range from the same start fails too, with the same error. */
  lemma {:induction false} ConvertRangeFails<T>(nodes: seq<Node>, rule: NodeId, convert: Argument -> Result<T, Complaint>, lo: nat, hi: nat, longer: nat)
    requires Valid(nodes) && IsRule(nodes, rule) && lo <= hi <= longer <= |nodes[rule].rule.arguments|
    requires ConvertRange(nodes, rule, convert, lo, hi).Err?
    ensures ConvertRange(nodes, rule, convert, lo, longer) == ConvertRange(nodes, rule, convert, lo, hi)
    decreases longer
  {
    if longer > hi {
      ConvertRangeFails(nodes, rule, convert, lo, hi, longer - 1);
    }
  }

  /** One more argument that converts extends the converted range by its value. */
  lemma ConvertRangeStep<T>(nodes: seq<Node>, rule: NodeId, convert: Argument -> Result<T, Complaint>, lo: nat, k: nat)
    requires Valid(nodes) && IsRule(nodes, rule) && lo <= k < |nodes[rule].rule.arguments|
    requires ConvertRange(nodes, rule, convert, lo, k).Ok? && Converted(nodes, rule, convert, k).Ok?
    ensures ConvertRange(nodes, rule, convert, lo, k + 1) ==
      Ok(ConvertRange(nodes, rule, convert, lo, k).value + [Converted(nodes, rule, convert, k).value])
  {
  }

  /** The first argument that fails to convert decides the error of every range reaching past it. */
  lemma ConvertRangeStops<T>(nodes: seq<Node>, rule: NodeId, convert: Argument -> Result<T, Complaint>, lo: nat, k: nat, longer: nat)
    requires Valid(nodes) && IsRule(nodes, rule) && lo <= k < longer <= |nodes[rule].rule.arguments|
    requires ConvertRange(nodes, rule, convert, lo, k).Ok? && Converted(nodes, rule, convert, k).Err?
    ensures ConvertRange(nodes, rule, convert, lo, longer) == Err(Converted(nodes, rule, convert, k).error)
  {
    ConvertRangeFails(nodes, rule, convert, lo, k + 1, longer);
  }
}

=== FILE: scope.dfy ===
/**
 * The scope resolver (config/rules/objectParser.cpp/.hpp): given the object
 * a directive binder works on, find the rules for a key in that object and,
 * depending on the policy, in the objects that enclose it.
 *
 * The walk goes from an object to the object holding the rule that opened
 * it. It collects each level's rules in front of what it already has (so the
 * outermost level comes first) and stops at the top, at the first level with
 * a match when a single rule is expected, after the level opened by the
 * bound key, or at once in the local mode.
 */
module Scope {
  import opened Wrappers
  import opened Strings
  import opened ConfigTypes
  import opened Document
  import opened Diagnostics

  /** How many rules the caller expects (`ExpectedRuleCount`). */
  datatype RuleCount = One | Multiple

  /** How far up the walk may go (`RulesScope`). */
  datatype RulesScope = LocalScope | BoundScope | GlobalScope

  /** Every id is a rule stored under `key`. */
  predicate RulesWithKey(nodes: seq<Node>, ids: seq<NodeId>, key: Key) {
    forall j :: 0 <= j < |ids| ==> IsRule(nodes, ids[j]) && nodes[ids[j]].rule.key == key
  }

  /** The object one level up: the one holding the rule that opened `obj`. */
  function Up(nodes: seq<Node>, obj: NodeId): (p: NodeId)
    requires Valid(nodes) && IsObject(nodes, obj) && nodes[obj].obj.parentRule.Some?
    ensures p < obj && IsObject(nodes, p)
  {
    assert NodeOk(nodes, obj);
    var opener := nodes[obj].obj.parentRule.value;
    assert NodeOk(nodes, opener);
    nodes[opener].rule.parentObject
  }

  /** The key of the rule that opened `obj`. */
  function OpenerKey(nodes: seq<Node>, obj: NodeId): Key
    requires Valid(nodes) && IsObject(nodes, obj) && nodes[obj].obj.parentRule.Some?
  {
    assert NodeOk(nodes, obj);
    nodes[nodes[obj].obj.parentRule.value].rule.key
  }

  /**
   * The walk ends at `obj` whatever was found: it is a top-level object, the
   * mode is local, or the mode is bound and `obj` was opened by the bound key.
   */
  predicate ScopeEndsAt(nodes: seq<Node>, obj: NodeId, scope: RulesScope, bound: Key)
    requires Valid(nodes) && IsObject(nodes, obj)
  {
    || nodes[obj].obj.parentRule.None?
    || scope == LocalScope
    || (scope == BoundScope && OpenerKey(nodes, obj) == bound)
  }

  /**
   * The loop of `_fetchRules`, one level per call: `acc` holds what the
   * levels below have contributed so far.
   */
  function Walk(nodes: seq<Node>, obj: NodeId, key: Key, count: RuleCount, scope: RulesScope, bound: Key, acc: seq<NodeId>): (r: seq<NodeId>)
    requires Valid(nodes) && IsObject(nodes, obj) && RulesWithKey(nodes, acc, key)
    ensures RulesWithKey(nodes, r, key)
    decreases obj
  {
    var rules := RulesAt(nodes, obj, key) + acc;
    if ScopeEndsAt(nodes, obj, scope, bound) || (count == One && rules != []) then rules
    else Walk(nodes, Up(nodes, obj), key, count, scope, bound, rules)
  }

  predicate AllObjects(nodes: seq<Node>, ls: seq<NodeId>) {
    forall i :: 0 <= i < |ls| ==> IsObject(nodes, ls[i])
  }

  /**
   * The objects the walk may visit, innermost first, when no early stop for
   * a found rule happens.
   */
  function Levels(nodes: seq<Node>, obj: NodeId, scope: RulesScope, bound: Key): (ls: seq<NodeId>)
    requires Valid(nodes) && IsObject(nodes, obj)
    ensures |ls| > 0 && ls[0] == obj && AllObjects(nodes, ls)
    ensures scope == LocalScope ==> ls == [obj]
    decreases obj
  {
    if ScopeEndsAt(nodes, obj, scope, bound) then [obj]
    else [obj] + Levels(nodes, Up(nodes, obj), scope, bound)
  }

  /**
   * The levels form the chain of enclosing objects: each is the level above
   * the previous one, no level but the last ends the scope, and the last
   * one does (the top, or the level opened by the bound key).
   */
  lemma {:induction false} LevelsChain(nodes: seq<Node>, obj: NodeId, scope: RulesScope, bound: Key, i: nat)
    requires Valid(nodes) && IsObject(nodes, obj)
    requires i < |Levels(nodes, obj, scope, bound)|
    ensures var ls := Levels(nodes, obj, scope, bound);
      && (i + 1 < |ls| ==> !ScopeEndsAt(nodes, ls[i], scope, bound) && ls[i + 1] == Up(nodes, ls[i]))
      && (i + 1 == |ls| ==> ScopeEndsAt(nodes, ls[i], scope, bound))
    decreases obj
  {
    if !ScopeEndsAt(nodes, obj, scope, bound) && i > 0 {
      LevelsChain(nodes, Up(nodes, obj), scope, bound, i - 1);
    }
  }

  /** The rules of all the given levels, the last level's first. */
  function Gather(nodes: seq<Node>, ls: seq<NodeId>, key: Key): seq<NodeId>
    requires AllObjects(nodes, ls)
  {
    if ls == [] then [] else Gather(nodes, ls[1..], key) + RulesAt(nodes, ls[0], key)
  }

  /** The rules of the first of the given levels that has any. */
  function FirstFound(nodes: seq<Node>, ls: seq<NodeId>, key: Key): (r: seq<NodeId>)
    requires AllObjects(nodes, ls)
    ensures r == [] <==> forall i :: 0 <= i < |ls| ==> RulesAt(nodes, ls[i], key) == []
    ensures r != [] ==> exists i :: 0 <= i < |ls| && r == RulesAt(nodes, ls[i], key) &&
                                  forall j :: 0 <= j < i ==> RulesAt(nodes, ls[j], key) == []
  {
    if ls == [] then []
    else if RulesAt(nodes, ls[0], key) != [] then RulesAt(nodes, ls[0], key)
    else
      var r := FirstFound(nodes, ls[1..], key);
      assert forall i :: 1 <= i < |ls| ==> ls[i] == ls[1..][i - 1];
      if r != [] then
        var i :| 0 <= i < |ls| - 1 && r == RulesAt(nodes, ls[1..][i], key) &&
          forall j :: 0 <= j < i ==> RulesAt(nodes, ls[1..][j], key) == [];
        assert r == RulesAt(nodes, ls[i + 1], key);
        r
      else r
  }

  /**
   * With several rules expected, the walk returns every level's rules, the
   * outermost level first and each level's rules in stored order.
   */
  lemma {:induction false} WalkMultiple(nodes: seq<Node>, obj: NodeId, key: Key, scope: RulesScope, bound: Key, acc: seq<NodeId>)
    requires Valid(nodes) && IsObject(nodes, obj) && RulesWithKey(nodes, acc, key)
    ensures Walk(nodes, obj, key, Multiple, scope, bound, acc) == Gather(nodes, Levels(nodes, obj, scope, bound), key) + acc
    decreases obj, 1
  {
    if ScopeEndsAt(nodes, obj, scope, bound) {
      var ls := Levels(nodes, obj, scope, bound);
      assert ls == [obj] && ls[1..] == [];
      assert Gather(nodes, ls, key) == RulesAt(nodes, obj, key);
    } else {
      WalkMultipleUp(nodes, obj, key, scope, bound, acc);
    }
  }

  /** The step of `WalkMultiple` where the walk goes on one level up. */
  lemma {:induction false} WalkMultipleUp(nodes: seq<Node>, obj: NodeId, key: Key, scope: RulesScope, bound: Key, acc: seq<NodeId>)
    requires Valid(nodes) && IsObject(nodes, obj) && RulesWithKey(nodes, acc, key)
    requires !ScopeEndsAt(nodes, obj, scope, bound)
    ensures Walk(nodes, obj, key, Multiple, scope, bound, acc) == Gather(nodes, Levels(nodes, obj, scope, bound), key) + acc
    decreases obj, 0
  {
    var ls := Levels(nodes, obj, scope, bound);
    var rules := RulesAt(nodes, obj, key) + acc;
    var up := Up(nodes, obj);
    WalkMultiple(nodes, up, key, scope, bound, rules);
    assert ls[1..] == Levels(nodes, up, scope, bound);
    assert Gather(nodes, ls, key) == Gather(nodes, ls[1..], key) + RulesAt(nodes, obj, key);
  }

  /** With one rule expected, the walk returns the rules of the innermost level that has any. */
  lemma {:induction false} WalkOne(nodes: seq<Node>, obj: NodeId, key: Key, scope: RulesScope, bound: Key)
    requires Valid(nodes) && IsObject(nodes, obj)
    ensures Walk(nodes, obj, key, One, scope, bound, []) == FirstFound(nodes, Levels(nodes, obj, scope, bound), key)
    decreases obj
  {
    var ls := Levels(nodes, obj, scope, bound);
    assert RulesAt(nodes, obj, key) + [] == RulesAt(nodes, obj, key);
    if ScopeEndsAt(nodes, obj, scope, bound) {
      assert ls == [obj] && ls[1..] == [];
    } else if RulesAt(nodes, obj, key) == [] {
      var up := Up(nodes, obj);
      WalkOne(nodes, up, key, scope, bound);
      assert ls[1..] == Levels(nodes, up, scope, bound);
    }
  }

  /** The missing-rule error; the key is printed as its numeric value. */
  function MissingRule(key: Key): (e: ParserError)
    ensures e.kind == Missing(None) && e.traceback == []
  {
    MissingError("Missing rule for key: " + NatToString(KeyBit(key) as nat),
      "Check the configuration file for the required rule.")
  }

  /** The duplicate-rule error for the first two rules found. */
  function DuplicatedRule(nodes: seq<Node>, first: NodeId, second: NodeId): (e: ParserError)
    requires Valid(nodes) && IsRule(nodes, first) && IsRule(nodes, second)
    ensures e.kind.Duplicate? && e.kind.first == first && e.kind.second == second
  {
    DuplicateError(nodes, "Duplicated rule found", first, second,
      "Remove the duplicate rule outside of its scope to avoid conflicts.")
  }

  /**
   * What `_fetchRules` returns or throws once the walk has collected
   * `rules`: a required key with no rule is a missing-rule error, and two
   * rules where one is expected a duplicate error naming the first two.
   */
  function CheckFound(nodes: seq<Node>, key: Key, count: RuleCount, optional: bool, rules: seq<NodeId>): (r: Result<seq<NodeId>, ParserError>)
    requires Valid(nodes) && RulesWithKey(nodes, rules, key)
    ensures r.Ok? <==> (rules != [] || optional) && (count != One || |rules| <= 1)
    ensures r.Ok? ==> r.value == rules
    ensures r.Err? && rules == [] ==> r.error.kind == Missing(None)
    ensures r.Err? && rules != [] ==>
      r.error.kind.Duplicate? && r.error.kind.first == rules[0] && r.error.kind.second == rules[1]
  {
    if rules == [] && !optional then
      Err(MissingRule(key))
    else if count == One && |rules| > 1 then
      Err(DuplicatedRule(nodes, rules[0], rules[1]))
    else Ok(rules)
  }

  /** `_fetchRules` from object `obj` under the given policy. */
  function FetchResult(nodes: seq<Node>, obj: NodeId, key: Key, count: RuleCount, scope: RulesScope, bound: Key, optional: bool): Result<seq<NodeId>, ParserError>
    requires Valid(nodes) && IsObject(nodes, obj)
  {
    CheckFound(nodes, key, count, optional, Walk(nodes, obj, key, count, scope, bound, []))
  }

  /**
   * A duplicate error can only come from one level holding two rules for
   * the key: both rules it names sit in the same object.
   */
  lemma DuplicateOnOneLevel(nodes: seq<Node>, obj: NodeId, key: Key, scope: RulesScope, bound: Key, optional: bool)
    requires Valid(nodes) && IsObject(nodes, obj)
    requires FetchResult(nodes, obj, key, One, scope, bound, optional).Err?
    requires FetchResult(nodes, obj, key, One, scope, bound, optional).error.kind.Duplicate?
    ensures var k := FetchResult(nodes, obj, key, One, scope, bound, optional).error.kind;
      nodes[k.first].rule.parentObject == nodes[k.second].rule.parentObject
  {
    WalkOne(nodes, obj, key, scope, bound);
    FirstFoundOneOwner(nodes, Levels(nodes, obj, scope, bound), key);
  }

  /** The rules found first all sit on one level, so the first two share their object. */
  lemma FirstFoundOneOwner(nodes: seq<Node>, ls: seq<NodeId>, key: Key)
    requires Valid(nodes) && AllObjects(nodes, ls)
    ensures var r := FirstFound(nodes, ls, key);
      |r| > 1 ==> IsRule(nodes, r[0]) && IsRule(nodes, r[1]) && nodes[r[0]].rule.parentObject == nodes[r[1]].rule.parentObject
  {
    var r := FirstFound(nodes, ls, key);
    if r != [] {
      var i :| 0 <= i < |ls| && r == RulesAt(nodes, ls[i], key);
      assert RulesBelong(nodes, r, key, ls[i]);
    }
  }

  /** Under the local mode only the object's own rules are seen, whatever the count. */
  lemma LocalSeesOwnRules(nodes: seq<Node>, obj: NodeId, key: Key, count: RuleCount, bound: Key)
    requires Valid(nodes) && IsObject(nodes, obj)
    ensures Walk(nodes, obj, key, count, LocalScope, bound, []) == RulesAt(nodes, obj, key)
    ensures forall id :: id in Walk(nodes, obj, key, count, LocalScope, bound, []) ==>
      nodes[id].rule.parentObject == obj
  {
    assert RulesAt(nodes, obj, key) + [] == RulesAt(nodes, obj, key);
    assert RulesBelong(nodes, RulesAt(nodes, obj, key), key, obj);
  }

  /**
   * The resolver of one object: its policy fields, set through the chaining
   * setters, and the arena it reads.
   */
  class ObjectParser {
    const arena: Arena
    const obj: NodeId
    var count: RuleCount
    var scope: RulesScope
    var boundKey: Key
    var optional: bool

    /** A fresh resolver expects one rule, looks locally and requires a match. */
    constructor (arena: Arena, obj: NodeId)
      ensures this.arena == arena && this.obj == obj
      ensures count == One && scope == LocalScope && boundKey == NoKey && !optional
    {
      this.arena := arena;
      this.obj := obj;
      count := One;
      scope := LocalScope;
      boundKey := NoKey;
      optional := false;
    }

    method Local()
      modifies this`scope
      ensures scope == LocalScope
    {
      scope := LocalScope;
    }

    method Bound(key: Key)
      modifies this`scope, this`boundKey
      ensures scope == BoundScope && boundKey == key
    {
      scope := BoundScope;
      boundKey := key;
    }

    method Global()
      modifies this`scope
      ensures scope == GlobalScope
    {
      scope := GlobalScope;
    }

    method Optional()
      modifies this`optional
      ensures optional
    {
      optional := true;
    }

    method Required()
      modifies this`optional
      ensures !optional
    {
      optional := false;
    }

    /** The loop of `_fetchRules`: the walk up the object chain under the current policy. */
    method CollectRules(key: Key) returns (rules: seq<NodeId>)
      requires Valid(arena.nodes) && IsObject(arena.nodes, obj)
      ensures rules == Walk(arena.nodes, obj, key, count, scope, boundKey, [])
    {
      var nodes := arena.nodes;
      rules := [];
      var cur := obj;
      while true
        invariant IsObject(nodes, cur) && RulesWithKey(nodes, rules, key)
        invariant Walk(nodes, obj, key, count, scope, boundKey, []) == Walk(nodes, cur, key, count, scope, boundKey, rules)
        decreases cur
      {
        rules := RulesAt(nodes, cur, key) + rules;
        if || nodes[cur].obj.parentRule.None?
           || (count == One && |rules| > 0)
           || (scope == BoundScope && boundKey == OpenerKey(nodes, cur))
           || scope == LocalScope
        {
          return;
        }
        cur := Up(nodes, cur);
      }
    }

    /** `_fetchRules`: the walk, then the missing and duplicate checks. */
    method FetchRules(key: Key) returns (r: Result<seq<NodeId>, ParserError>)
      requires Valid(arena.nodes) && IsObject(arena.nodes, obj)
      ensures r == FetchResult(arena.nodes, obj, key, count, scope, boundKey, optional)
    {
      var rules := CollectRules(key);
      r := CheckFound(arena.nodes, key, count, optional, rules);
    }

    /**
     * `parseFromOne`: expect one rule and hand the binder that rule, or
     * nothing when an optional key is absent. A missing-rule error learns
     * the object that was searched.
     */
    method ParseFromOne(key: Key) returns (r: Result<Option<NodeId>, ParserError>)
      requires Valid(arena.nodes) && IsObject(arena.nodes, obj)
      modifies this`count
      ensures count == One
      ensures r == FromOne(arena.nodes, obj, key, scope, boundKey, optional)
    {
      count := One;
      var fetched := FetchRules(key);
      match fetched
      case Err(e) =>
        r := Err(Attach(e, arena.nodes, obj));
      case Ok(rules) =>
        r := Ok(if rules == [] then None else Some(rules[0]));
    }

    /**
     * `parseFromRange` and `parseRange`: expect any number of rules and hand
     * the binder all of them, outermost first.
     */
    method ParseFromRange(key: Key) returns (r: Result<seq<NodeId>, ParserError>)
      requires Valid(arena.nodes) && IsObject(arena.nodes, obj)
      modifies this`count
      ensures count == Multiple
      ensures r == FromRange(arena.nodes, obj, key, scope, boundKey, optional)
    {
      count := Multiple;
      var fetched := FetchRules(key);
      match fetched
      case Err(e) =>
        r := Err(Attach(e, arena.nodes, obj));
      case Ok(rules) =>
        r := Ok(rules);
    }
  }

  /** A missing-rule error with the searched object attached; other errors unchanged. */
  function Attach(e: ParserError, nodes: seq<Node>, obj: NodeId): (r: ParserError)
    requires Valid(nodes) && IsObject(nodes, obj)
    ensures e.kind.Missing? ==> r.kind == Missing(Some(obj)) && r.message == e.message && r.hint == e.hint
    ensures e.kind.Missing? ==> NodeOk(nodes, obj) && r.traceback == TracebackOf(nodes, nodes[obj].obj.parentRule)
    ensures e.kind.Missing? ==> r == AttachObject(e, nodes, obj)
    ensures !e.kind.Missing? ==> r == e
  {
    if e.kind.Missing? then AttachObject(e, nodes, obj) else e
  }

  /** What `parseFromOne` hands on: the single rule found, if any. */
  function FromOne(nodes: seq<Node>, obj: NodeId, key: Key, scope: RulesScope, bound: Key, optional: bool): (r: Result<Option<NodeId>, ParserError>)
    requires Valid(nodes) && IsObject(nodes, obj)
    ensures r.Ok? && r.value.Some? ==> IsRule(nodes, r.value.value) && nodes[r.value.value].rule.key == key
    ensures r.Ok? && r.value.None? ==> optional
  {
    match FetchResult(nodes, obj, key, One, scope, bound, optional)
    case Err(e) => Err(Attach(e, nodes, obj))
    case Ok(rules) => Ok(if rules == [] then None else Some(rules[0]))
  }

  /** What `parseFromRange` hands on: all rules found. */
  function FromRange(nodes: seq<Node>, obj: NodeId, key: Key, scope: RulesScope, bound: Key, optional: bool): (r: Result<seq<NodeId>, ParserError>)
    requires Valid(nodes) && IsObject(nodes, obj)
    ensures r.Ok? ==> RulesWithKey(nodes, r.value, key) && (r.value == [] ==> optional)
    ensures r.Err? ==> r.error.kind == Missing(Some(obj))
    ensures optional ==> r.Ok?
  {
    match FetchResult(nodes, obj, key, Multiple, scope, bound, optional)
    case Err(e) => Err(Attach(e, nodes, obj))
    case Ok(rules) => Ok(rules)
  }

  /**
   * Under one expected rule, the rule handed on is the first rule of the
   * innermost level that has one; an inner rule shadows all outer ones.
   */
  lemma FromOneInnermost(nodes: seq<Node>, obj: NodeId, key: Key, scope: RulesScope, bound: Key, optional: bool)
    requires Valid(nodes) && IsObject(nodes, obj)
    requires FromOne(nodes, obj, key, scope, bound, optional).Ok?
    ensures var r := FromOne(nodes, obj, key, scope, bound, optional).value;
      var ls := Levels(nodes, obj, scope, bound);
      && (r.None? <==> forall i :: 0 <= i < |ls| ==> RulesAt(nodes, ls[i], key) == [])
      && (r.Some? ==>
            exists i :: 0 <= i < |ls| && RulesAt(nodes, ls[i], key) == [r.value] &&
                        forall j :: 0 <= j < i ==> RulesAt(nodes, ls[j], key) == [])
  {
    WalkOne(nodes, obj, key, scope, bound);
    var ls := Levels(nodes, obj, scope, bound);
    var rules := FirstFound(nodes, ls, key);
    assert FetchResult(nodes, obj, key, One, scope, bound, optional) == CheckFound(nodes, key, One, optional, rules);
    if rules != [] {
      var r := FromOne(nodes, obj, key, scope, bound, optional).value;
      assert rules == [r.value];
      var i :| 0 <= i < |ls| && rules == RulesAt(nodes, ls[i], key) &&
        forall j :: 0 <= j < i ==> RulesAt(nodes, ls[j], key) == [];
    }
  }

  /** Under several expected rules, every level's rules are handed on, outermost first. */
  lemma FromRangeGathers(nodes: seq<Node>, obj: NodeId, key: Key, scope: RulesScope, bound: Key, optional: bool)
    requires Valid(nodes) && IsObject(nodes, obj)
    requires FromRange(nodes, obj, key, scope, bound, optional).Ok?
    ensures FromRange(nodes, obj, key, scope, bound, optional).value == Gather(nodes, Levels(nodes, obj, scope, bound), key)
  {
    WalkMultiple(nodes, obj, key, scope, bound, []);
    assert Gather(nodes, Levels(nodes, obj, scope, bound), key) + [] == Gather(nodes, Levels(nodes, obj, scope, bound), key);
  }
}

=== FILE: servers.dfy ===
/**
 * The two binders that hold other binders: `LocationRule`
 * (config/rules/ruleTemplates/locationRule.cpp) and `ServerConfig`
 * (config/rules/ruleTemplates/serverconfigRule.cpp), plus the choice of a
 * location for a URL.
 *
 * A location reads each of its settings through the scope resolver bound
 * to the enclosing server and made optional, so a setting missing in the
 * location is taken from the levels above it, up to the server. A server
 * reads its own listen and server_name rules (both required) and its own
 * location rules, and keeps a default location read from the server object.
 */
module Servers {
  import opened Wrappers
  import opened Strings
  import opened ConfigTypes
  import opened Document
  import opened Diagnostics
  import opened Converters
  import opened CustomTypes
  import opened Sizes
  import opened Paths
  import opened Scope
  import opened RuleParsing
  import opened Binders
  import opened Collectors
  import opened CgiExtensions

  datatype LocationRule = LocationRule(
    isSet: bool,
    path: Path,
    methods: MethodsRule,
    root: RootRule,
    uploadStore: UploadStoreRule,
    autoIndex: AutoIndexRule,
    index: IndexRule,
    returnRule: ReturnRule,
    errorPages: ErrorPageRule,
    maxBodySize: MaxBodySizeRule,
    cgi: CgiRule,
    cgiTimeout: CgiTimeoutRule,
    cgiExtension: CgiExtensionRule)

  const LocationName := "location"
  const LocationFormat := LocationName + " <path> { ... }"

  /** A location before `_parseFromObject` has filled in its settings. */
  function Blank(path: Path): LocationRule {
    LocationRule(true, path, DefaultMethodsRule, RootRule(Dummy), UploadStoreRule(Dummy),
      AutoIndexRule(false, AutoIndexDefault), IndexRule([]), ReturnRule(false, Wildcard(), ""),
      ErrorPageRule(map[]), MaxBodySizeRule(false, Size(0)), CgiRule(false, CgiDefaultEnabled),
      CgiTimeoutRule(false, None), CgiExtensionRule([]))
  }

  /** What a location hands on for a single-rule setting: the innermost rule up to the server, if any. */
  function Setting(nodes: seq<Node>, obj: NodeId, key: Key): (r: Result<Option<NodeId>, ParserError>)
    requires Valid(nodes) && IsObject(nodes, obj)
    ensures r.Ok? ==> RuleOrNull(nodes, r.value)
  {
    FromOne(nodes, obj, key, BoundScope, Server, true)
  }

  /** What a location hands on for a many-rule setting: the rules of every level up to the server. */
  function Settings(nodes: seq<Node>, obj: NodeId, key: Key): (rules: seq<NodeId>)
    requires Valid(nodes) && IsObject(nodes, obj)
    ensures AllRules(nodes, rules)
  {
    FromRange(nodes, obj, key, BoundScope, Server, true).value
  }

  /** The first half of `_parseFromObject`: methods, root, upload store, autoindex, index and return. */
  function AccessSettings(nodes: seq<Node>, obj: NodeId, loc: LocationRule): (r: Result<LocationRule, ParserError>)
    requires Valid(nodes) && IsObject(nodes, obj)
    ensures r.Ok? ==> r.value.isSet == loc.isSet && r.value.path == loc.path
    ensures r.Ok? ==> (r.value.errorPages == loc.errorPages && r.value.maxBodySize == loc.maxBodySize &&
      r.value.cgi == loc.cgi && r.value.cgiTimeout == loc.cgiTimeout && r.value.cgiExtension == loc.cgiExtension)
    ensures r.Ok? ==> (MethodsRuleOf(nodes, Settings(nodes, obj, AllowedMethods)) == Ok(r.value.methods))
    ensures r.Ok? ==> Setting(nodes, obj, Root).Ok? && RootRuleOf(nodes, Setting(nodes, obj, Root).value) == Ok(r.value.root)
    ensures r.Ok? ==> (Setting(nodes, obj, UploadDir).Ok? &&
      UploadStoreRuleOf(nodes, Setting(nodes, obj, UploadDir).value) == Ok(r.value.uploadStore))
    ensures r.Ok? ==> (Setting(nodes, obj, AutoIndex).Ok? &&
      AutoIndexRuleOf(nodes, Setting(nodes, obj, AutoIndex).value) == Ok(r.value.autoIndex))
    ensures r.Ok? ==> IndexRuleOf(nodes, Settings(nodes, obj, Index)) == Ok(r.value.index)
    ensures r.Ok? ==> (Setting(nodes, obj, Return).Ok? &&
      ReturnRuleOf(nodes, Setting(nodes, obj, Return).value) == Ok(r.value.returnRule))
  {
    var methodRules := Settings(nodes, obj, AllowedMethods);
    var methods :- MethodsRuleOf(nodes, methodRules);
    var rootRule :- Setting(nodes, obj, Root);
    var root :- RootRuleOf(nodes, rootRule);
    var uploadRule :- Setting(nodes, obj, UploadDir);
    var uploadStore :- UploadStoreRuleOf(nodes, uploadRule);
    var autoIndexRule :- Setting(nodes, obj, AutoIndex);
    var autoIndex :- AutoIndexRuleOf(nodes, autoIndexRule);
    var indexRules := Settings(nodes, obj, Index);
    var index :- IndexRuleOf(nodes, indexRules);
    var returnRule :- Setting(nodes, obj, Return);
    var ret :- ReturnRuleOf(nodes, returnRule);
    Ok(loc.(methods := methods, root := root, uploadStore := uploadStore, autoIndex := autoIndex,
            index := index, returnRule := ret))
  }

  /** The second half of `_parseFromObject`: error pages, body size, CGI, CGI timeout and CGI extensions. */
  function ResponseSettings(nodes: seq<Node>, obj: NodeId, loc: LocationRule): (r: Result<LocationRule, ParserError>)
    requires Valid(nodes) && IsObject(nodes, obj)
    ensures r.Ok? ==> r.value.isSet == loc.isSet && r.value.path == loc.path
    ensures r.Ok? ==> (r.value.methods == loc.methods && r.value.root == loc.root && r.value.uploadStore == loc.uploadStore &&
      r.value.autoIndex == loc.autoIndex && r.value.index == loc.index && r.value.returnRule == loc.returnRule)
    ensures r.Ok? ==> (ErrorPageRuleOf(nodes, Settings(nodes, obj, ErrorPage)) == Ok(r.value.errorPages))
    ensures r.Ok? ==> (Setting(nodes, obj, MaxBodySize).Ok? &&
      MaxBodySizeRuleOf(nodes, Setting(nodes, obj, MaxBodySize).value) == Ok(r.value.maxBodySize))
    ensures r.Ok? ==> Setting(nodes, obj, CgiPass).Ok? && CgiRuleOf(nodes, Setting(nodes, obj, CgiPass).value) == Ok(r.value.cgi)
    ensures r.Ok? ==> (Setting(nodes, obj, CgiTimeout).Ok? &&
      CgiTimeoutRuleOf(nodes, Setting(nodes, obj, CgiTimeout).value) == Ok(r.value.cgiTimeout))
    ensures r.Ok? ==> (CgiExtensionRuleOf(nodes, Settings(nodes, obj, CgiExtension)) == Ok(r.value.cgiExtension))
  {
    var pageRules := Settings(nodes, obj, ErrorPage);
    var errorPages :- ErrorPageRuleOf(nodes, pageRules);
    var sizeRule :- Setting(nodes, obj, MaxBodySize);
    var maxBodySize :- MaxBodySizeRuleOf(nodes, sizeRule);
    var cgiRule :- Setting(nodes, obj, CgiPass);
    var cgi :- CgiRuleOf(nodes, cgiRule);
    var timeoutRule :- Setting(nodes, obj, CgiTimeout);
    var cgiTimeout :- CgiTimeoutRuleOf(nodes, timeoutRule);
    var extensionRules := Settings(nodes, obj, CgiExtension);
    var cgiExtension :- CgiExtensionRuleOf(nodes, extensionRules);
    Ok(loc.(errorPages := errorPages, maxBodySize := maxBodySize, cgi := cgi, cgiTimeout := cgiTimeout,
            cgiExtension := cgiExtension))
  }

  /** `_parseFromObject`: every setting read from the object, in the order the source lists them. */
  function LocationBody(nodes: seq<Node>, obj: NodeId, path: Path): (r: Result<LocationRule, ParserError>)
    requires Valid(nodes) && IsObject(nodes, obj)
    ensures r.Ok? ==> r.value.isSet && r.value.path == path
    ensures r.Ok? ==> (MethodsRuleOf(nodes, Settings(nodes, obj, AllowedMethods)) == Ok(r.value.methods))
    ensures r.Ok? ==> Setting(nodes, obj, Root).Ok? && RootRuleOf(nodes, Setting(nodes, obj, Root).value) == Ok(r.value.root)
    ensures r.Ok? ==> (Setting(nodes, obj, UploadDir).Ok? &&
      UploadStoreRuleOf(nodes, Setting(nodes, obj, UploadDir).value) == Ok(r.value.uploadStore))
    ensures r.Ok? ==> (Setting(nodes, obj, AutoIndex).Ok? &&
      AutoIndexRuleOf(nodes, Setting(nodes, obj, AutoIndex).value) == Ok(r.value.autoIndex))
    ensures r.Ok? ==> IndexRuleOf(nodes, Settings(nodes, obj, Index)) == Ok(r.value.index)
    ensures r.Ok? ==> (Setting(nodes, obj, Return).Ok? &&
      ReturnRuleOf(nodes, Setting(nodes, obj, Return).value) == Ok(r.value.returnRule))
    ensures r.Ok? ==> (ErrorPageRuleOf(nodes, Settings(nodes, obj, ErrorPage)) == Ok(r.value.errorPages))
    ensures r.Ok? ==> (Setting(nodes, obj, MaxBodySize).Ok? &&
      MaxBodySizeRuleOf(nodes, Setting(nodes, obj, MaxBodySize).value) == Ok(r.value.maxBodySize))
    ensures r.Ok? ==> Setting(nodes, obj, CgiPass).Ok? && CgiRuleOf(nodes, Setting(nodes, obj, CgiPass).value) == Ok(r.value.cgi)
    ensures r.Ok? ==> (Setting(nodes, obj, CgiTimeout).Ok? &&
      CgiTimeoutRuleOf(nodes, Setting(nodes, obj, CgiTimeout).value) == Ok(r.value.cgiTimeout))
    ensures r.Ok? ==> (CgiExtensionRuleOf(nodes, Settings(nodes, obj, CgiExtension)) == Ok(r.value.cgiExtension))
  {
    var first :- AccessSettings(nodes, obj, Blank(path));
    ResponseSettings(nodes, obj, first)
  }

  /** `LocationRule(Object*)`: the settings of an object, under the dummy path. */
  function LocationFromObject(nodes: seq<Node>, obj: NodeId): (r: Result<LocationRule, ParserError>)
    requires Valid(nodes) && IsObject(nodes, obj)
    ensures r.Ok? ==> r.value.isSet && r.value.path == Dummy
  {
    LocationBody(nodes, obj, Dummy)
  }

  /** `LocationRule(Rule*)`: exactly two arguments, a path and an object, then the object's settings. */
  function LocationFromRule(nodes: seq<Node>, id: NodeId): (r: Result<LocationRule, ParserError>)
    requires Valid(nodes) && IsRule(nodes, id)
    ensures var args := ArgumentsOf(nodes, id);
      r.Ok? ==> |args| == 2 && args[0].value.StringValue? && args[1].value.ObjectValue?
    ensures var args := ArgumentsOf(nodes, id);
      r.Ok? ==> r.value.isSet && r.value.path == FromString(args[0].value.text)
    ensures Arity(nodes, id) != 2 ==> r == Err(ArityError(nodes, id, LocationFormat, "exactly " + NatToString(2)))
  {
    match ExpectArgumentCount(nodes, id, LocationFormat, 2)
    case Fail(e) => Err(e)
    case Pass =>
      var path :- Converted(nodes, id, ToPath, 0);
      var obj :- Converted(nodes, id, ToObject, 1);
      ObjectArgument(nodes, id, 1);
      LocationBody(nodes, obj, path)
  }

  /** The first half of `_parseFromObject`, on an object parser bound to the server and optional. */
  method ParseAccessSettings(arena: Arena, op: ObjectParser, loc: LocationRule) returns (r: Result<LocationRule, ParserError>)
    requires op.arena == arena && Valid(arena.nodes) && IsObject(arena.nodes, op.obj)
    requires op.scope == BoundScope && op.boundKey == Server && op.optional
    modifies arena`used, op`count
    ensures r == AccessSettings(arena.nodes, op.obj, loc)
    ensures op.scope == BoundScope && op.boundKey == Server && op.optional
    ensures old(arena.used) <= arena.used
  {
    var methodFound := op.ParseFromRange(AllowedMethods);
    var methodRules := methodFound.value;
    var methods :- ParseMethodsRule(arena, methodRules);
    var rootRule :- op.ParseFromOne(Root);
    var root :- ParseRootRule(arena, rootRule);
    var uploadRule :- op.ParseFromOne(UploadDir);
    var uploadStore :- ParseUploadStoreRule(arena, uploadRule);
    var autoIndexRule :- op.ParseFromOne(AutoIndex);
    var autoIndex :- ParseAutoIndexRule(arena, autoIndexRule);
    var indexFound := op.ParseFromRange(Index);
    var indexRules := indexFound.value;
    var index :- ParseIndexRule(arena, indexRules);
    var returnRule :- op.ParseFromOne(Return);
    var ret :- ParseReturnRule(arena, returnRule);
    r := Ok(loc.(methods := methods, root := root, uploadStore := uploadStore, autoIndex := autoIndex,
                 index := index, returnRule := ret));
  }

  /** The second half of `_parseFromObject`, on the same object parser. */
  method ParseResponseSettings(arena: Arena, op: ObjectParser, loc: LocationRule) returns (r: Result<LocationRule, ParserError>)
    requires op.arena == arena && Valid(arena.nodes) && IsObject(arena.nodes, op.obj)
    requires op.scope == BoundScope && op.boundKey == Server && op.optional
    modifies arena`used, op`count
    ensures r == ResponseSettings(arena.nodes, op.obj, loc)
    ensures old(arena.used) <= arena.used
  {
    var pageFound := op.ParseFromRange(ErrorPage);
    var pageRules := pageFound.value;
    var errorPages :- ParseErrorPageRule(arena, pageRules);
    var sizeRule :- op.ParseFromOne(MaxBodySize);
    var maxBodySize :- ParseMaxBodySizeRule(arena, sizeRule);
    var cgiRule :- op.ParseFromOne(CgiPass);
    var cgi :- ParseCgiRule(arena, cgiRule);
    var timeoutRule :- op.ParseFromOne(CgiTimeout);
    var cgiTimeout :- ParseCgiTimeoutRule(arena, timeoutRule);
    var extensionFound := op.ParseFromRange(CgiExtension);
    var extensionRules := extensionFound.value;
    var cgiExtension :- ParseCgiExtensionRule(arena, extensionRules);
    r := Ok(loc.(errorPages := errorPages, maxBodySize := maxBodySize, cgi := cgi, cgiTimeout := cgiTimeout,
                 cgiExtension := cgiExtension));
  }

  /** `_parseFromObject`: an object parser bound to the server and made optional reads every setting. */
  method ParseLocationBody(arena: Arena, obj: NodeId, path: Path) returns (r: Result<LocationRule, ParserError>)
    requires Valid(arena.nodes) && IsObject(arena.nodes, obj)
    modifies arena`used
    ensures r == LocationBody(arena.nodes, obj, path)
    ensures old(arena.used) <= arena.used
  {
    var op := new ObjectParser(arena, obj);
    op.Bound(Server);
    op.Optional();
    var first :- ParseAccessSettings(arena, op, Blank(path));
    r := ParseResponseSettings(arena, op, first);
  }

  /** `LocationRule(Rule*)` on a fresh argument binder. */
  method ParseLocationRule(arena: Arena, id: NodeId) returns (r: Result<LocationRule, ParserError>)
    requires Valid(arena.nodes) && IsRule(arena.nodes, id)
    modifies arena`used
    ensures r == LocationFromRule(arena.nodes, id)
    ensures old(arena.used) <= arena.used
  {
    var p := new RuleParser(arena, id, LocationName, LocationFormat);
    :- ExpectArgumentCount(p.nodes, id, LocationFormat, 2);
    var path :- p.ParseArgument(ToPath);
    var obj :- p.ParseArgument(ToObject);
    ObjectArgument(arena.nodes, id, 1);
    r := ParseLocationBody(arena, obj, path);
  }

  /**
   * A location's own single-rule setting wins: with one root rule in the
   * location's object, that rule is the location's root.
   */
  lemma OwnRootWins(nodes: seq<Node>, obj: NodeId, path: Path, id: NodeId)
    requires Valid(nodes) && IsObject(nodes, obj)
    requires RulesAt(nodes, obj, Root) == [id]
    requires LocationBody(nodes, obj, path).Ok?
    ensures IsRule(nodes, id) && RootRuleOf(nodes, Some(id)).Ok?
    ensures LocationBody(nodes, obj, path).value.root == RootRuleOf(nodes, Some(id)).value
  {
    FromOneInnermost(nodes, obj, Root, BoundScope, Server, true);
    assert Levels(nodes, obj, BoundScope, Server)[0] == obj;
  }

  /**
   * Without a root rule anywhere from the location up to the enclosing
   * server, the location keeps the unset default root.
   */
  lemma RootDefaultsWhenAbsent(nodes: seq<Node>, obj: NodeId, path: Path)
    requires Valid(nodes) && IsObject(nodes, obj)
    requires var ls := Levels(nodes, obj, BoundScope, Server);
      forall i :: 0 <= i < |ls| ==> RulesAt(nodes, ls[i], Root) == []
    requires LocationBody(nodes, obj, path).Ok?
    ensures LocationBody(nodes, obj, path).value.root == RootRule(Dummy)
  {
    FromOneInnermost(nodes, obj, Root, BoundScope, Server, true);
  }

  /**
   * Many-rule settings add up along the way: a location's allowed methods
   * are read from the method rules of every level from the location up to
   * the enclosing server, outermost first.
   */
  lemma MethodsGathered(nodes: seq<Node>, obj: NodeId, path: Path)
    requires Valid(nodes) && IsObject(nodes, obj)
    requires LocationBody(nodes, obj, path).Ok?
    ensures var rules := Gather(nodes, Levels(nodes, obj, BoundScope, Server), AllowedMethods);
      AllRules(nodes, rules) && MethodsRuleOf(nodes, rules).Ok? &&
      LocationBody(nodes, obj, path).value.methods == MethodsRuleOf(nodes, rules).value
  {
    FromRangeGathers(nodes, obj, AllowedMethods, BoundScope, Server, true);
  }

  // ---------------------------------------------------------------- server

  datatype ServerConfig = ServerConfig(
    locations: seq<LocationRule>,
    defaultLocation: LocationRule,
    port: PortRule,
    serverName: ServerNameRule)

  const ServerRuleName := "server"
  const ServerFormat := ServerRuleName + " { ... }"

  /**
   * Reads one value per rule, in order, appended to `acc`; the first
   * refusal stops the reading.
   */
  function CollectEach<T>(acc: seq<T>, rules: seq<NodeId>, read: NodeId --> Result<T, ParserError>): Result<seq<T>, ParserError>
    requires forall i :: 0 <= i < |rules| ==> read.requires(rules[i])
    decreases |rules|
  {
    if rules == [] then Ok(acc)
    else
      var v :- read(rules[0]);
      CollectEach(acc + [v], rules[1..], read)
  }

  /** What is collected: `acc`, then one value per rule, each the one read from that rule. */
  lemma {:induction false} CollectEachReads<T>(acc: seq<T>, rules: seq<NodeId>, read: NodeId --> Result<T, ParserError>)
    requires forall i :: 0 <= i < |rules| ==> read.requires(rules[i])
    requires CollectEach(acc, rules, read).Ok?
    ensures var vs := CollectEach(acc, rules, read).value;
      && |vs| == |acc| + |rules|
      && vs[..|acc|] == acc
      && forall i :: 0 <= i < |rules| ==> read(rules[i]) == Ok(vs[|acc| + i])
    decreases |rules|
  {
    if rules != [] {
      var v := read(rules[0]).value;
      CollectEachReads(acc + [v], rules[1..], read);
      var vs := CollectEach(acc, rules, read).value;
      assert vs[..|acc| + 1] == acc + [v];
      assert vs[..|acc|] == (acc + [v])[..|acc|];
      forall i | 0 <= i < |rules|
        ensures read(rules[i]) == Ok(vs[|acc| + i])
      {
        if i == 0 {
          assert vs[|acc|] == (acc + [v])[|acc|];
        } else {
          assert rules[i] == rules[1..][i - 1];
          assert |acc| + i == |acc + [v]| + (i - 1);
        }
      }
    }
  }

  /** `LocationRule(Rule*)` as a reader of rules of `nodes`. */
  function LocationReader(nodes: seq<Node>): NodeId --> Result<LocationRule, ParserError>
    requires Valid(nodes)
  {
    (id: NodeId) requires IsRule(nodes, id) => LocationFromRule(nodes, id)
  }

  /** `parseRange(_locations)`: one location per rule, in order. */
  function LocationsFrom(nodes: seq<Node>, rules: seq<NodeId>): (r: Result<seq<LocationRule>, ParserError>)
    requires Valid(nodes) && AllRules(nodes, rules)
    ensures r.Ok? ==> |r.value| == |rules| && forall i :: 0 <= i < |rules| ==> LocationFromRule(nodes, rules[i]) == Ok(r.value[i])
  {
    var r := CollectEach([], rules, LocationReader(nodes));
    if r.Ok? then
      CollectEachReads([], rules, LocationReader(nodes));
      LocationsRead(nodes, rules, r.value);
      r
    else r
  }

  /** What the reader gives for a rule is what `LocationRule(Rule*)` gives. */
  lemma LocationsRead(nodes: seq<Node>, rules: seq<NodeId>, locs: seq<LocationRule>)
    requires Valid(nodes) && AllRules(nodes, rules) && |locs| == |rules|
    requires forall i :: 0 <= i < |rules| ==> LocationReader(nodes)(rules[i]) == Ok(locs[i])
    ensures forall i :: 0 <= i < |rules| ==> LocationFromRule(nodes, rules[i]) == Ok(locs[i])
  {
    forall i | 0 <= i < |rules| ensures LocationFromRule(nodes, rules[i]) == Ok(locs[i]) {
      assert LocationReader(nodes)(rules[i]) == Ok(locs[i]);
    }
  }

  /** The object a server rule holds, once its single argument is known to be one. */
  function ServerObject(nodes: seq<Node>, id: NodeId): (obj: NodeId)
    requires Valid(nodes) && IsRule(nodes, id) && Arity(nodes, id) == 1
    requires ArgumentsOf(nodes, id)[0].value.ObjectValue?
    ensures IsObject(nodes, obj)
  {
    ObjectArgument(nodes, id, 0);
    ArgumentsOf(nodes, id)[0].value.obj
  }

  /**
   * The listen and server_name rules of the server object itself, both
   * required, one each: the port and the name are read from those two
   * rules; a missing rule is a missing-rule error naming the object, and a
   * second rule of either key in the object a duplicate error naming the
   * first two.
   */
  function ServerIdentity(nodes: seq<Node>, obj: NodeId): (r: Result<(PortRule, ServerNameRule), ParserError>)
    requires Valid(nodes) && IsObject(nodes, obj)
    ensures var listens := RulesAt(nodes, obj, Listen);
      && (listens == [] ==> r.Err? && r.error.kind == Missing(Some(obj)))
      && (|listens| > 1 ==> r.Err? && r.error.kind.Duplicate? && r.error.kind.first == listens[0] && r.error.kind.second == listens[1])
    ensures var listens, names := RulesAt(nodes, obj, Listen), RulesAt(nodes, obj, ServerName);
      |listens| == 1 && PortRuleOf(nodes, Some(listens[0])).Ok? ==>
        && (names == [] ==> r.Err? && r.error.kind == Missing(Some(obj)))
        && (|names| > 1 ==> r.Err? && r.error.kind.Duplicate? && r.error.kind.first == names[0] && r.error.kind.second == names[1])
    ensures var listens, names := RulesAt(nodes, obj, Listen), RulesAt(nodes, obj, ServerName);
      r.Ok? <==>
        && |listens| == 1 && PortRuleOf(nodes, Some(listens[0])).Ok?
        && |names| == 1 && ServerNameRuleOf(nodes, Some(names[0])).Ok?
    ensures r.Ok? ==>
      && r.value.0 == PortRuleOf(nodes, Some(RulesAt(nodes, obj, Listen)[0])).value
      && r.value.1 == ServerNameRuleOf(nodes, Some(RulesAt(nodes, obj, ServerName)[0])).value
      && r.value.0.isSet
  {
    var port :- IdentityPort(nodes, obj);
    var serverName :- IdentityName(nodes, obj);
    Ok((port, serverName))
  }

  /** `parseFromOne(port)` on the server object: exactly one listen rule of its own, which must read. */
  function IdentityPort(nodes: seq<Node>, obj: NodeId): (r: Result<PortRule, ParserError>)
    requires Valid(nodes) && IsObject(nodes, obj)
    ensures var listens := RulesAt(nodes, obj, Listen);
      && (listens == [] ==> r.Err? && r.error.kind == Missing(Some(obj)))
      && (|listens| > 1 ==> r.Err? && r.error.kind.Duplicate? && r.error.kind.first == listens[0] && r.error.kind.second == listens[1])
      && (r.Ok? <==> |listens| == 1 && PortRuleOf(nodes, Some(listens[0])).Ok?)
      && (r.Ok? ==> r.value == PortRuleOf(nodes, Some(listens[0])).value && r.value.isSet)
  {
    LocalSeesOwnRules(nodes, obj, Listen, One, NoKey);
    var portRule :- FromOne(nodes, obj, Listen, LocalScope, NoKey, false);
    PortRuleOf(nodes, portRule)
  }

  /** `parseFromOne(serverName)` on the server object: exactly one server_name rule of its own, which must read. */
  function IdentityName(nodes: seq<Node>, obj: NodeId): (r: Result<ServerNameRule, ParserError>)
    requires Valid(nodes) && IsObject(nodes, obj)
    ensures var names := RulesAt(nodes, obj, ServerName);
      && (names == [] ==> r.Err? && r.error.kind == Missing(Some(obj)))
      && (|names| > 1 ==> r.Err? && r.error.kind.Duplicate? && r.error.kind.first == names[0] && r.error.kind.second == names[1])
      && (r.Ok? <==> |names| == 1 && ServerNameRuleOf(nodes, Some(names[0])).Ok?)
      && (r.Ok? ==> r.value == ServerNameRuleOf(nodes, Some(names[0])).value)
  {
    LocalSeesOwnRules(nodes, obj, ServerName, One, NoKey);
    var nameRule :- FromOne(nodes, obj, ServerName, LocalScope, NoKey, false);
    ServerNameRuleOf(nodes, nameRule)
  }

  /** The location rules of the server object itself, and the default location read from that object. */
  function ServerSites(nodes: seq<Node>, obj: NodeId): (r: Result<(seq<LocationRule>, LocationRule), ParserError>)
    requires Valid(nodes) && IsObject(nodes, obj)
    ensures r.Ok? ==> (|r.value.0| == |RulesAt(nodes, obj, Location)| &&
      forall i :: 0 <= i < |r.value.0| ==> LocationFromRule(nodes, RulesAt(nodes, obj, Location)[i]) == Ok(r.value.0[i]))
    ensures r.Ok? ==> LocationFromObject(nodes, obj) == Ok(r.value.1)
  {
    LocalSeesOwnRules(nodes, obj, Location, Multiple, NoKey);
    var locationRules := FromRange(nodes, obj, Location, LocalScope, NoKey, true).value;
    var locations :- LocationsFrom(nodes, locationRules);
    var defaultLocation :- LocationFromObject(nodes, obj);
    Ok((locations, defaultLocation))
  }

  /** The constructor once its argument is read: identity first, then the locations. */
  function ServerBody(nodes: seq<Node>, obj: NodeId): (r: Result<ServerConfig, ParserError>)
    requires Valid(nodes) && IsObject(nodes, obj)
    ensures r.Ok? ==> ServerIdentity(nodes, obj) == Ok((r.value.port, r.value.serverName))
    ensures r.Ok? ==> ServerSites(nodes, obj) == Ok((r.value.locations, r.value.defaultLocation))
    ensures ServerIdentity(nodes, obj).Err? ==> r == Err(ServerIdentity(nodes, obj).error)
    ensures ServerIdentity(nodes, obj).Ok? && ServerSites(nodes, obj).Err? ==> r == Err(ServerSites(nodes, obj).error)
    ensures r.Ok? <==> ServerIdentity(nodes, obj).Ok? && ServerSites(nodes, obj).Ok?
  {
    var identity :- ServerIdentity(nodes, obj);
    var sites :- ServerSites(nodes, obj);
    Ok(ServerConfig(sites.0, sites.1, identity.0, identity.1))
  }

  /**
   * `ServerConfig(Rule*)`: exactly one object argument; then, in that
   * object only, the required listen and server_name rules and any number
   * of location rules; the default location is read from the object itself.
   */
  function ServerConfigOf(nodes: seq<Node>, id: NodeId): (r: Result<ServerConfig, ParserError>)
    requires Valid(nodes) && IsRule(nodes, id)
    ensures r.Ok? ==> Arity(nodes, id) == 1 && ArgumentsOf(nodes, id)[0].value.ObjectValue?
    ensures r.Ok? ==> ServerBody(nodes, ServerObject(nodes, id)) == r
    ensures r.Ok? ==> r.value.port.isSet && r.value.defaultLocation.path == Dummy
    ensures Arity(nodes, id) != 1 ==> r == Err(ArityError(nodes, id, ServerFormat, "exactly " + NatToString(1)))
  {
    match ExpectArgumentCount(nodes, id, ServerFormat, 1)
    case Fail(e) => Err(e)
    case Pass =>
      var obj :- Converted(nodes, id, ToObject, 0);
      ObjectArgument(nodes, id, 0);
      ServerBody(nodes, obj)
  }

  /** `parseRange(_locations)` as a loop: each rule becomes a location, appended in order. */
  method ParseLocations(arena: Arena, rules: seq<NodeId>) returns (r: Result<seq<LocationRule>, ParserError>)
    requires Valid(arena.nodes) && AllRules(arena.nodes, rules)
    modifies arena`used
    ensures r == LocationsFrom(arena.nodes, rules)
    ensures old(arena.used) <= arena.used
  {
    var read := LocationReader(arena.nodes);
    var locations := [];
    for i := 0 to |rules|
      invariant CollectEach([], rules, read) == CollectEach(locations, rules[i..], read)
      invariant old(arena.used) <= arena.used
    {
      assert rules[i..][1..] == rules[i + 1..];
      var loc :- ParseLocationRule(arena, rules[i]);
      locations := locations + [loc];
    }
    assert rules[|rules|..] == [];
    return Ok(locations);
  }

  /** The required listen and server_name rules, on a local, required object parser. */
  method ParseServerIdentity(arena: Arena, op: ObjectParser) returns (r: Result<(PortRule, ServerNameRule), ParserError>)
    requires op.arena == arena && Valid(arena.nodes) && IsObject(arena.nodes, op.obj)
    requires op.scope == LocalScope && op.boundKey == NoKey && !op.optional
    modifies arena`used, op`count
    ensures r == ServerIdentity(arena.nodes, op.obj)
    ensures old(arena.used) <= arena.used
  {
    var portRule :- op.ParseFromOne(Listen);
    var port :- ParsePortRule(arena, portRule);
    var nameRule :- op.ParseFromOne(ServerName);
    var serverName :- ParseServerNameRule(arena, nameRule);
    r := Ok((port, serverName));
  }

  /** The locations, on the same object parser made optional, then the default location. */
  method ParseServerSites(arena: Arena, op: ObjectParser) returns (r: Result<(seq<LocationRule>, LocationRule), ParserError>)
    requires op.arena == arena && Valid(arena.nodes) && IsObject(arena.nodes, op.obj)
    requires op.scope == LocalScope && op.boundKey == NoKey && op.optional
    modifies arena`used, op`count
    ensures r == ServerSites(arena.nodes, op.obj)
    ensures old(arena.used) <= arena.used
  {
    var locationFound := op.ParseFromRange(Location);
    var locationRules := locationFound.value;
    var locations :- ParseLocations(arena, locationRules);
    var defaultLocation :- ParseLocationBody(arena, op.obj, Dummy);
    r := Ok((locations, defaultLocation));
  }

  /** The constructor body: one object parser, local and required, then optional for the locations. */
  method ParseServerBody(arena: Arena, obj: NodeId) returns (r: Result<ServerConfig, ParserError>)
    requires Valid(arena.nodes) && IsObject(arena.nodes, obj)
    modifies arena`used
    ensures r == ServerBody(arena.nodes, obj)
    ensures old(arena.used) <= arena.used
  {
    var op := new ObjectParser(arena, obj);
    op.Local();
    op.Required();
    r := ParseServerParts(arena, op);
  }

  /** The identity on the local, required object parser, then the sites once it is made optional. */
  method ParseServerParts(arena: Arena, op: ObjectParser) returns (r: Result<ServerConfig, ParserError>)
    requires op.arena == arena && Valid(arena.nodes) && IsObject(arena.nodes, op.obj)
    requires op.scope == LocalScope && op.boundKey == NoKey && !op.optional
    modifies arena`used, op`count, op`optional
    ensures r == ServerBody(arena.nodes, op.obj)
    ensures old(arena.used) <= arena.used
  {
    var identity := ParseServerIdentity(arena, op);
    if identity.Err? {
      return Err(identity.error);
    }
    op.Optional();
    var sites := ParseServerSites(arena, op);
    if sites.Err? {
      return Err(sites.error);
    }
    r := Ok(ServerConfig(sites.value.0, sites.value.1, identity.value.0, identity.value.1));
  }

  /** `ServerConfig(Rule*)` on a fresh argument binder. */
  method ParseServerConfig(arena: Arena, id: NodeId) returns (r: Result<ServerConfig, ParserError>)
    requires Valid(arena.nodes) && IsRule(arena.nodes, id)
    modifies arena`used
    ensures r == ServerConfigOf(arena.nodes, id)
    ensures old(arena.used) <= arena.used
  {
    var p := new RuleParser(arena, id, ServerRuleName, ServerFormat);
    :- ExpectArgumentCount(p.nodes, id, ServerFormat, 1);
    var obj :- p.ParseArgument(ToObject);
    ObjectArgument(arena.nodes, id, 0);
    r := ParseServerBody(arena, obj);
  }

  /**
   * A server needs its own listen rule: when its object holds none, the
   * server is refused with a missing-rule error naming that object.
   */
  lemma ServerNeedsListen(nodes: seq<Node>, id: NodeId)
    requires Valid(nodes) && IsRule(nodes, id) && Arity(nodes, id) == 1
    requires ArgumentsOf(nodes, id)[0].value.ObjectValue?
    requires RulesAt(nodes, ServerObject(nodes, id), Listen) == []
    ensures ServerConfigOf(nodes, id).Err?
    ensures ServerConfigOf(nodes, id).error.kind == Missing(Some(ServerObject(nodes, id)))
  {
  }

  /**
   * A server needs its own server_name rule: with a well-formed listen
   * rule and no server_name rule in its object, the server is refused with
   * a missing-rule error naming that object.
   */
  lemma ServerNeedsServerName(nodes: seq<Node>, id: NodeId)
    requires Valid(nodes) && IsRule(nodes, id) && Arity(nodes, id) == 1
    requires ArgumentsOf(nodes, id)[0].value.ObjectValue?
    requires var listens := RulesAt(nodes, ServerObject(nodes, id), Listen);
      |listens| == 1 && PortRuleOf(nodes, Some(listens[0])).Ok?
    requires RulesAt(nodes, ServerObject(nodes, id), ServerName) == []
    ensures ServerConfigOf(nodes, id).Err?
    ensures ServerConfigOf(nodes, id).error.kind == Missing(Some(ServerObject(nodes, id)))
  {
  }

  /**
   * A server's port and name come from the one listen rule and the one
   * server_name rule of its own object; a second rule of either key there
   * refuses the server with a duplicate error.
   */
  lemma ServerIdentityRead(nodes: seq<Node>, id: NodeId)
    requires Valid(nodes) && IsRule(nodes, id) && Arity(nodes, id) == 1
    requires ArgumentsOf(nodes, id)[0].value.ObjectValue?
    ensures var obj := ServerObject(nodes, id);
      var listens, names := RulesAt(nodes, obj, Listen), RulesAt(nodes, obj, ServerName);
      ServerConfigOf(nodes, id).Ok? ==>
        && |listens| == 1 && |names| == 1
        && ServerConfigOf(nodes, id).value.port == PortRuleOf(nodes, Some(listens[0])).value
        && ServerConfigOf(nodes, id).value.serverName == ServerNameRuleOf(nodes, Some(names[0])).value
    ensures var obj := ServerObject(nodes, id);
      |RulesAt(nodes, obj, Listen)| > 1 ==> ServerConfigOf(nodes, id).Err? && ServerConfigOf(nodes, id).error.kind.Duplicate?
    ensures var obj := ServerObject(nodes, id);
      var listens, names := RulesAt(nodes, obj, Listen), RulesAt(nodes, obj, ServerName);
      |listens| == 1 && PortRuleOf(nodes, Some(listens[0])).Ok? && |names| > 1 ==>
        ServerConfigOf(nodes, id).Err? && ServerConfigOf(nodes, id).error.kind.Duplicate?
  {
  }

  /** A server's locations are its own location rules, one each, in order; its default location is its own object read as one. */
  lemma ServerLocations(nodes: seq<Node>, id: NodeId)
    requires Valid(nodes) && IsRule(nodes, id)
    requires ServerConfigOf(nodes, id).Ok?
    ensures var rules := RulesAt(nodes, ServerObject(nodes, id), Location);
      var locs := ServerConfigOf(nodes, id).value.locations;
      && |locs| == |rules|
      && forall i :: 0 <= i < |rules| ==> LocationFromRule(nodes, rules[i]) == Ok(locs[i])
    ensures LocationFromObject(nodes, ServerObject(nodes, id)) == Ok(ServerConfigOf(nodes, id).value.defaultLocation)
  {
  }

  /** A location can serve `url`: it is set, has a non-empty path, and the URL starts with that path. */
  predicate Serves(loc: LocationRule, url: string) {
    loc.isSet && |loc.path.text| > 0 && StartsWith(url, loc.path.text)
  }

  /**
   * `getLocation`: the location with the longest path that is a prefix of
   * the URL, the first such when several tie, and the default location when
   * none matches.
   */
  method GetLocation(s: ServerConfig, url: string) returns (loc: LocationRule)
    ensures (forall k :: 0 <= k < |s.locations| ==> !Serves(s.locations[k], url)) ==> loc == s.defaultLocation
    ensures (exists k :: 0 <= k < |s.locations| && Serves(s.locations[k], url)) ==>
      exists k :: 0 <= k < |s.locations| && loc == s.locations[k] && Serves(loc, url)
        && (forall j :: 0 <= j < |s.locations| && Serves(s.locations[j], url) ==> |s.locations[j].path.text| <= |loc.path.text|)
        && (forall j :: 0 <= j < k && Serves(s.locations[j], url) ==> |s.locations[j].path.text| < |loc.path.text|)
  {
    loc := s.defaultLocation;
    var longest := 0;
    var best := -1;
    for i := 0 to |s.locations|
      invariant -1 <= best < i
      invariant best == -1 <==> forall k :: 0 <= k < i ==> !Serves(s.locations[k], url)
      invariant best == -1 ==> loc == s.defaultLocation && longest == 0
      invariant best >= 0 ==> loc == s.locations[best] && Serves(loc, url) && longest == |loc.path.text|
      invariant best >= 0 ==> forall j :: 0 <= j < i && Serves(s.locations[j], url) ==> |s.locations[j].path.text| <= longest
      invariant best >= 0 ==> forall j :: 0 <= j < best && Serves(s.locations[j], url) ==> |s.locations[j].path.text| < longest
    {
      var location := s.locations[i];
      if !location.isSet {
        continue;
      }
      if |location.path.text| > longest && StartsWith(url, location.path.text) {
        longest := |location.path.text|;
        loc := location;
        best := i;
      }
    }
  }
  // ---------------------------------------------------------------- createFromUrl

  /** `url.substr(0, url.find('?'))`: the URL up to its first '?'. */
  function BeforeQuery(url: string): (page: string)
    ensures page <= url && NoneOf(page, '?')
    ensures |page| < |url| ==> url[|page|] == '?'
  {
    match FindFrom(url, '?', 0)
    case None => url
    case Some(q) => url[..q]
  }

  /** A page without '?' followed by nothing or by a query is cut back to the page. */
  lemma BeforeQueryOfPage(page: string, query: string)
    requires NoneOf(page, '?') && (query == [] || query[0] == '?')
    ensures BeforeQuery(page + query) == page
  {
    var url := page + query;
    FindFromSkip(url, '?', 0, |page|);
    if query == [] {
      assert url == page;
    } else {
      assert url[|page|] == query[0];
      assert url[..|page|] == page;
    }
  }

  /**
   * `Path::createFromUrl` as written: the guard asks the root rule's
   * `isSet`, which is the negation of `Path::isValid`.
   */
  function CreateFromUrlAsWritten(url: string, route: LocationRule): (p: Path)
    ensures p.isSet <==> url != [] && RootIsSetAsWritten(route.root)
    ensures !p.isSet ==> p == Dummy
    ensures IsValid(route.root.rootPath) ==> p == Dummy
  {
    if url == [] || !RootIsSetAsWritten(route.root) then Dummy
    else UpdateFromUrl(FromString(BeforeQuery(url)), route.path.text, route.root.rootPath.text)
  }

  /**
   * `Path::createFromUrl` with `isSet` as the comment at rootRule.cpp:17
   * describes it: no URL or no root gives the unset dummy path; otherwise
   * the URL without its query, with the location's path replaced by the
   * root.
   */
  function CreateFromUrl(url: string, route: LocationRule): (p: Path)
    ensures p.isSet <==> url != [] && RootIsSet(route.root)
    ensures !p.isSet ==> p == Dummy
  {
    if url == [] || !RootIsSet(route.root) then Dummy
    else UpdateFromUrl(FromString(BeforeQuery(url)), route.path.text, route.root.rootPath.text)
  }

  /**
   * A URL `page?query` under the location's path maps below the root: the
   * query is dropped, and the part of the page after the location's path
   * follows the root behind exactly one '/', less a trailing '/'.
   */
  lemma CreateFromUrlMapsBelowRoot(page: string, query: string, route: LocationRule)
    requires NoneOf(page, '?') && (query == [] || query[0] == '?')
    requires RootIsSet(route.root) && StartsWith(page, route.path.text)
    requires var rest := page[|route.path.text|..]; rest != [] && rest[0] != '\0'
    ensures var rest := page[|route.path.text|..];
      var root := route.root.rootPath.text;
      CreateFromUrl(page + query, route) ==
        Path(DropTrailingSlash(if rest[0] == '/' then root + rest else root + "/" + rest), true)
  {
    BeforeQueryOfPage(page, query);
    UpdateFromUrlUnderRoute(page, route.path.text, route.root.rootPath.text);
  }

  /**
   * As written, a location with a usable root (set, non-empty, no "..")
   * maps no URL at all: the inverted `isSet` sends every URL to the dummy
   * path, where the check the comment at rootRule.cpp:17 describes maps it.
   */
  lemma CreateFromUrlAsWrittenIgnoresRoot(url: string, route: LocationRule)
    requires url != [] && IsValid(route.root.rootPath) && route.root.rootPath.text != []
    ensures CreateFromUrlAsWritten(url, route) == Dummy
    ensures CreateFromUrl(url, route).isSet
  {
  }
}

=== FILE: size.dfy ===
/**
 * `Size` (config/types/size.cpp): a byte count written as a decimal number
 * with an optional `kb`, `mb` or `gb` multiplier. The count lives in a
 * `size_t`, so multiplying wraps modulo 2^64.
 */
module Sizes {
  import opened Wrappers
  import opened Strings
  import opened Numbers

  /** `Size(size_t)` stores the count as given; `get` returns it. */
  datatype Size = Size(bytes: nat)

  /**
   * `strncmp(s, lit, |lit| + 1) == 0` on the C string of `s`: `s` begins
   * with `lit` and ends there, or has a NUL right after it.
   */
  predicate CStringIs(s: string, lit: string) {
    StartsWith(s, lit) && (|s| == |lit| || s[|lit|] == '\0')
  }

  /** The C string `s` stands for: its characters up to the first NUL. */
  function CText(s: string): (t: string)
    ensures t <= s && '\0' !in t
    ensures |t| < |s| ==> s[|t|] == '\0'
    ensures '\0' !in s ==> t == s
  {
    if s == [] || s[0] == '\0' then [] else [s[0]] + CText(s[1..])
  }

  /** `CStringIs` compares C strings: for a literal without NUL, it holds exactly when `s` reads as that literal. */
  lemma CStringIsText(s: string, lit: string)
    requires '\0' !in lit
    ensures CStringIs(s, lit) <==> CText(s) == lit
  {
    var t := CText(s);
    if CStringIs(s, lit) {
      assert s[..|lit|] == lit;
      if |t| != |lit| {
        assert false;
      }
      assert t == s[..|t|];
    }
  }

  /**
   * The multiplier a suffix names, tried in the order kb/Kb, mb/Mb, gb/Gb;
   * any other suffix has none ("Invalid size multiplier").
   */
  function Multiplier(rest: string): (m: Option<nat>)
    ensures m.Some? ==> m.value in {1024, 1024 * 1024, 1024 * 1024 * 1024}
    ensures m.None? <==> CText(rest) !in {"kb", "Kb", "mb", "Mb", "gb", "Gb"}
    ensures CText(rest) in {"kb", "Kb"} ==> m == Some(1024)
    ensures CText(rest) in {"mb", "Mb"} ==> m == Some(1024 * 1024)
    ensures CText(rest) in {"gb", "Gb"} ==> m == Some(1024 * 1024 * 1024)
    ensures '\0' !in rest ==> (m.None? <==> rest !in {"kb", "Kb", "mb", "Mb", "gb", "Gb"})
  {
    CStringIsText(rest, "kb"); CStringIsText(rest, "Kb");
    CStringIsText(rest, "mb"); CStringIsText(rest, "Mb");
    CStringIsText(rest, "gb"); CStringIsText(rest, "Gb");
    if CStringIs(rest, "kb") || CStringIs(rest, "Kb") then Some(1024)
    else if CStringIs(rest, "mb") || CStringIs(rest, "Mb") then Some(1024 * 1024)
    else if CStringIs(rest, "gb") || CStringIs(rest, "Gb") then Some(1024 * 1024 * 1024)
    else None
  }

  /**
   * What `Size(const std::string&)` accepts, stated on the text itself: a
   * non-empty run of digits whose value is neither 0 nor beyond 2^64 - 1,
   * followed by nothing (plain bytes) or by a multiplier suffix.
   */
  function SizeOf(s: string): (r: Option<Size>)
    ensures r.Some? ==> 0 < DigitRun(s) && r.value.bytes < WordModulus
    ensures r.Some? && DigitRun(s) == |s| ==> r.value.bytes == DigitsValue(s)
  {
    var n := DigitRun(s);
    var value := DigitsValue(s[..n]);
    assert n == |s| ==> s[..n] == s;
    if n == 0 || value == 0 || value >= WordModulus then None
    else if n == |s| then Some(Size(value))
    else match Multiplier(s[n..])
      case None => None
      case Some(m) => Some(Size(value * m % WordModulus))
  }

  /** Whatever `std::stoul` accepts starts with a digit, a sign or white space. */
  lemma StoulStart(s: string)
    requires Stoul(s).Some? && s != []
    ensures IsDigit(s[0]) || IsSpace(s[0]) || s[0] == '+' || s[0] == '-'
  {
    if SpaceRun(s) == 0 {
      assert s[0..] == s;
      if !(s[0] == '+' || s[0] == '-') {
        assert s[..DigitRun(s)][0] == s[0];
      }
    }
  }

  /** A text whose first `i` characters are digits and whose next one is not. */
  lemma DigitPrefix(s: string, i: nat)
    requires 0 < i <= |s| && AllDigits(s[..i]) && (i == |s| || !IsDigit(s[i]))
    ensures DigitRun(s) == i
    ensures Stoul(s).Some? ==> Stoul(s).value == DigitsValue(s[..i])
    ensures Stoul(s).None? <==> DigitsValue(s[..i]) >= WordModulus
  {
    assert s == s[..i] + s[i..];
    DigitRunOfDigits(s[..i], s[i..]);
    LeadingDigits(s[..i], s[i..]);
  }

  /**
   * The constructor: `stoul` the whole text, reject 0, then look at the
   * first non-digit character only; it must start a known suffix that runs
   * to the end of the text.
   */
  method ParseSize(s: string) returns (r: Option<Size>)
    ensures r == SizeOf(s)
  {
    var base := Stoul(s);
    if base.None? {
      if s != [] && IsDigit(s[0]) {
        DigitPrefix(s, DigitRun(s));
      }
      return None;
    }
    var size := base.value;
    if size == 0 {
      if s != [] && IsDigit(s[0]) {
        DigitPrefix(s, DigitRun(s));
      }
      return None;
    }
    for i := 0 to |s|
      invariant AllDigits(s[..i])
    {
      if !IsDigit(s[i]) {
        r := ApplySuffix(s, i, size);
        return;
      }
      assert s[..i + 1] == s[..i] + [s[i]];
    }
    if s == [] {
      return None;
    }
    assert s[..|s|] == s;
    DigitPrefix(s, |s|);
    return Some(Size(size));
  }

  /** The constructor from the first non-digit character at `i` on: the suffix, if known, multiplies the count. */
  method ApplySuffix(s: string, i: nat, size: nat) returns (r: Option<Size>)
    requires i < |s| && !IsDigit(s[i]) && AllDigits(s[..i])
    requires Stoul(s) == Some(size) && size != 0
    ensures r == SizeOf(s)
  {
    if i == 0 {
      StoulStart(s);
      assert s[0..] == s;
    } else {
      DigitPrefix(s, i);
    }
    var m := Multiplier(s[i..]);
    if m.None? {
      return None;
    }
    return Some(Size(size * m.value % WordModulus));
  }

  /** Plain digits are a byte count. */
  lemma SizeOfPlain(n: nat)
    requires 0 < n < WordModulus
    ensures SizeOf(NatToString(n)) == Some(Size(n))
  {
    var s := NatToString(n);
    NatToStringRoundTrip(n);
    assert s[..|s|] == s;
    DigitRunOfDigits(s, []);
    assert s + [] == s;
  }

  /** A suffix multiplies the count, modulo 2^64. */
  lemma SizeOfSuffix(n: nat, suffix: string)
    requires 0 < n < WordModulus
    requires suffix in ["kb", "Kb", "mb", "Mb", "gb", "Gb"]
    ensures SizeOf(NatToString(n) + suffix) ==
      Some(Size(n * (if suffix[0] == 'k' || suffix[0] == 'K' then 1024
                     else if suffix[0] == 'm' || suffix[0] == 'M' then 1024 * 1024
                     else 1024 * 1024 * 1024) % WordModulus))
  {
    var d := NatToString(n);
    var s := d + suffix;
    NatToStringRoundTrip(n);
    DigitRunOfDigits(d, suffix);
    assert s[..|d|] == d && s[|d|..] == suffix;
  }

  /** A zero count is refused, whatever follows it. */
  lemma SizeOfZero(zeros: string, t: string)
    requires zeros != [] && forall i :: 0 <= i < |zeros| ==> zeros[i] == '0'
    requires t == [] || !IsDigit(t[0])
    ensures SizeOf(zeros + t) == None
  {
    var s := zeros + t;
    DigitRunOfDigits(zeros, t);
    assert s[..|zeros|] == zeros;
    ZerosValue(zeros);
  }

  lemma {:induction false} ZerosValue(zeros: string)
    requires forall i :: 0 <= i < |zeros| ==> zeros[i] == '0'
    ensures AllDigits(zeros) && DigitsValue(zeros) == 0
  {
    if zeros != [] {
      ZerosValue(zeros[..|zeros| - 1]);
    }
  }

  /**
   * The zero check comes before the multiplication, so a large count with
   * a suffix can still wrap around to 0 bytes: any multiple of 2^54
   * kilobytes is a multiple of 2^64 bytes.
   */
  lemma SizeWrapsToZero(n: nat)
    requires 0 < n < WordModulus && n % 0x40_0000_0000_0000 == 0
    ensures SizeOf(NatToString(n) + "kb") == Some(Size(0))
  {
    SizeOfSuffix(n, "kb");
    assert "kb"[0] == 'k';
    KiloWraps(n);
  }

  /** 1024 times a multiple of 2^54 is a multiple of 2^64. */
  lemma KiloWraps(n: nat)
    requires n % 0x40_0000_0000_0000 == 0
    ensures n * 1024 % WordModulus == 0
  {
    var k := n / 0x40_0000_0000_0000;
    assert n == k * 0x40_0000_0000_0000;
    assert n * 1024 == k * WordModulus;
  }
}

=== FILE: strings.dfy ===
/**
 * Character classes and decimal conversions of the C++ standard library as
 * the parser uses them: `isdigit`, `isspace`, `tolower`/`toupper` in the "C"
 * locale, and `std::to_string` for the counts quoted in messages.
 */
module Strings {

  predicate IsDigit(c: char) { '0' <= c <= '9' }

  /** `isspace` in the "C" locale: space, \t, \n, \v, \f, \r. */
  predicate IsSpace(c: char) {
    c == ' ' || c == '\t' || c == '\n' || c == '\U{B}' || c == '\U{C}' || c == '\r'
  }

  predicate AllDigits(s: string) { forall i :: 0 <= i < |s| ==> IsDigit(s[i]) }

  function DigitValue(c: char): (d: nat)
    requires IsDigit(c)
    ensures d < 10
  {
    (c as int - '0' as int) as nat
  }

  function DigitChar(d: nat): (c: char)
    requires d < 10
    ensures IsDigit(c) && DigitValue(c) == d
  {
    ('0' as int + d) as char
  }

  /** The value of a string of decimal digits, most significant first. */
  function DigitsValue(s: string): nat
    requires AllDigits(s)
  {
    if s == [] then 0 else DigitsValue(s[..|s| - 1]) * 10 + DigitValue(s[|s| - 1])
  }

  /** `std::to_string` of a non-negative number. */
  function NatToString(n: nat): (s: string)
    ensures |s| > 0 && AllDigits(s)
    ensures s[0] == '0' ==> n == 0
  {
    if n < 10 then [DigitChar(n)] else NatToString(n / 10) + [DigitChar(n % 10)]
  }

  /** Reading back what `NatToString` printed gives the number again. */
  lemma {:induction false} NatToStringRoundTrip(n: nat)
    ensures DigitsValue(NatToString(n)) == n
  {
    var s := NatToString(n);
    if n >= 10 {
      NatToStringRoundTrip(n / 10);
      assert s[..|s| - 1] == NatToString(n / 10);
    }
  }

  function IntToString(i: int): (s: string)
    ensures |s| > 0
  {
    if i < 0 then "-" + NatToString(-i) else NatToString(i)
  }

  function ToLowerChar(c: char): (r: char)
    ensures 'A' <= c <= 'Z' ==> 'a' <= r <= 'z'
    ensures !('A' <= c <= 'Z') ==> r == c
  {
    if 'A' <= c <= 'Z' then (c as int + 32) as char else c
  }

  function ToUpperChar(c: char): (r: char)
    ensures 'a' <= c <= 'z' ==> 'A' <= r <= 'Z'
    ensures !('a' <= c <= 'z') ==> r == c
  {
    if 'a' <= c <= 'z' then (c as int - 32) as char else c
  }

  function ToLower(s: string): (r: string)
    ensures |r| == |s| && forall i :: 0 <= i < |s| ==> r[i] == ToLowerChar(s[i])
  {
    if s == [] then [] else [ToLowerChar(s[0])] + ToLower(s[1..])
  }

  function ToUpper(s: string): (r: string)
    ensures |r| == |s| && forall i :: 0 <= i < |s| ==> r[i] == ToUpperChar(s[i])
  {
    if s == [] then [] else [ToUpperChar(s[0])] + ToUpper(s[1..])
  }

  /** `s.find(t) != npos`: `t` occurs in `s` at some position. */
  predicate Contains(s: string, t: string) {
    exists i :: 0 <= i <= |s| - |t| && OccursAt(s, t, i)
  }

  predicate OccursAt(s: string, t: string, i: nat) {
    i + |t| <= |s| && s[i..i + |t|] == t
  }

  predicate StartsWith(s: string, prefix: string) {
    |prefix| <= |s| && s[..|prefix|] == prefix
  }
}

=== FILE: wrappers.dfy ===
/** Optional values and results with a failure case, usable with `:-`. */
module Wrappers {

  datatype Option<+T> = None | Some(value: T)

  datatype Result<+T, +E> = Ok(value: T) | Err(error: E)
  {
    predicate IsFailure() { Err? }

    function PropagateFailure<U>(): Result<U, E>
      requires Err?
    {
      Err(error)
    }

    function Extract(): T
      requires Ok?
    {
      value
    }
  }

  /** A result that carries no value on success. */
  datatype Outcome<+E> = Pass | Fail(error: E)
  {
    predicate IsFailure() { Fail? }

    function PropagateFailure<U>(): Result<U, E>
      requires Fail?
    {
      Err(error)
    }
  }
}
